=== FILE: README.md ===
# Retail analytics backend, modelled in Dafny

This project models the core of a small retail-analytics backend. The
backend stores sales, expenses and customers. It computes KPIs over them:
revenue, top products, repeat customers, revenue trends, profit margin and
customer classification. It imports data from CSV files and Google Sheets,
and validates request bodies. A TTL cache and an in-process event bus sit
beside these. On the bus, service mutations publish events and an analytics
handler answers each one by recomputing the KPIs and announcing a
`kpi.calculated` event. Two self-contained scripts re-implement the
aggregates as plain loops: a logic walkthrough and a coffee-shop
simulation.

The model keeps the backend's own structure, one module per concern:

- `Cache`: the TTL cache, key derivation, the `cached` wrapper and
  `cache_invalidate`. The clock is `now`; MD5 is the parameter `digest`.
- `Events`: event types, `Event.to_dict`, and the bus's `subscribe`,
  `publish` and `get_events`. A handler's behaviour is the parameter `react`.
- `Recalc`: the analytics event handler. It routes mutation events to KPI
  groups and announces each recomputation.
- `Services`: `BaseService` with its event hooks, and the v2 customer and
  expense services.
- `Crud`: the plain sales, expenses and customers services, which publish
  no events.
- `Analytics`, `Kpi`, `Dashboard`: the aggregate queries, as pure functions
  over sequences of records with money in integer cents.
- `Walkthrough`: the walkthrough's in-memory loops, as methods, each shown
  to compute what the matching query defines.
- `Simulation`: the production simulation's parse loop and summary.
- `Sheets`: CSV escaping and conversion, spreadsheet-id extraction, and the
  fetch/extract error handling of the Sheets connector.
- `DataProcessor`: the bulk CSV importer with its batches of 1000.
- `CsvUpload`: the three all-or-nothing CSV uploads.
- `Schemas`: the request-body field bounds and validators.
- `Exceptions`: the exception-to-HTTP-status decorator.
- Shared helpers: `Wrappers`, `Text`, `Seqs`, `Sorting`, `Grouping`,
  `Tables`, `Records`, `Values`, `Frames`, `Calendar`.

Some parts of the backend are inputs to the model: SQL and the database,
pandas parsing, `strptime`, `float()`, the Google API, MD5 and the clock.
Each is an explicit parameter, so every property holds whatever the parser,
hash or clock returns.

## Model

| member | source | states |
|---|---|---|
| Cache.Get | backend/app/core/cache.py:28-38 | A live entry is a hit with its stored value. An absent or stale key misses. The stale key alone is removed; every other entry is untouched. |
| Cache.Set | backend/app/core/cache.py:40-46 | The key is added or overwritten with the value and an expiry of `now + ttl`. Every other key keeps its entry. |
| Cache.Clear | backend/app/core/cache.py:48-50 | The cache is empty afterwards. |
| Cache.Stats | backend/app/core/cache.py:52-58 | `total_keys` is the number of entries. `expired_keys` counts exactly the keys a `get` at the same instant would miss, so it is at most `total_keys`. |
| Cache.GetAfterSet | backend/app/core/cache.py:34-46 | After `set`, the key reads back the value up to and including `now + ttl`, because the expiry test is strict. After that instant it misses. |
| Cache.GetAfterSetOther | backend/app/core/cache.py:40-46 | `set` on one key does not change what a read of any other key returns. |
| Cache.GetAfterClear | backend/app/core/cache.py:48-58 | After `clear` every key misses and the stats are zero. |
| Cache.GetTwice | backend/app/core/cache.py:28-38 | Two reads at the same instant agree, and the second read changes nothing. |
| Cache.GenerateKey | backend/app/core/cache.py:20-26 | The key is the prefix, a colon, and the first eight characters of the digest of the canonical parameter text, or the whole digest when it is shorter. |
| Cache.GenerateKeyPermutation | backend/app/core/cache.py:22-24 | Keyword arguments passed in any order give the same key. |
| Cache.PrefixesSeparateKeys | backend/app/core/cache.py:26 | Two different prefixes without a colon never produce the same key. |
| Cache.CachedCall | backend/app/core/cache.py:73-87 | On a hit the stored value is returned and the function is not called. On a miss the function is called once and its result, even `None`, is stored for `ttl` seconds. Other keys are untouched. |
| Cache.CachedCallTwice | backend/app/core/cache.py:80-86 | A repeated call within the TTL is served from the cache when the first result was a value. It is recomputed when the first result was `None`. |
| Cache.Invalidate | backend/app/core/cache.py:92-95 | Exactly the key derived from the prefix and keyword arguments is removed, if present. Nothing else changes. |
| Cache.InvalidateTextDiffers | backend/app/core/cache.py:77-94 | For keyword names other than `args` and without quotes, the text `cache_invalidate` hashes never equals the text the wrapper hashed, because the wrapper packs `args=`/`kwargs=`. Invalidation can only reach a wrapper entry through a digest-prefix collision. |
| Events.TypeFromValue | backend/app/core/events.py:8-28 | Looking up an event type by its dotted value gives a type with that value, if any. |
| Events.TypeValueRoundTrip | backend/app/core/events.py:8-28 | Every type's value reads back as that type, so no two types share a value. |
| Events.ToDict | backend/app/core/events.py:39-47 | The type becomes its dotted value and the timestamp its ISO text. Every other field is copied. |
| Events.Subscribe | backend/app/core/events.py:54-58 | The handler is appended to its type's list, so registering twice lists it twice. Other types and the store are unchanged. |
| Events.Publish | backend/app/core/events.py:60-74 | The event is stored once, before any handler runs, even with no subscribers. Each handler for its type is called in registration order, once per registration. A raising handler stops neither the others nor the publish. |
| Events.Dispatch | backend/app/core/events.py:66-74 | The handlers are called in order, each whether or not an earlier one raised. The store only grows. |
| Events.PublishAll | backend/app/core/events.py:60-74 | Publishing several events only grows the store, by at least one entry per event. |
| Events.UnsubscribedNotCalled | backend/app/core/events.py:66-67 | A handler not registered for the event's type is never called for it. |
| Events.SubscribedTwiceCalledTwice | backend/app/core/events.py:54-67 | A handler registered twice is called twice per event. |
| Events.GetEvents | backend/app/core/events.py:76-86 | Every returned event is stored and matches the filters, and every stored event that matches is returned. The order is given by `GetEventsConjunctive`. |
| Events.GetEventsConjunctive | backend/app/core/events.py:80-84 | The two filters applied in turn are the filter on their conjunction, in store order. |
| Events.GetEventsUnfiltered | backend/app/core/events.py:78-86 | With no filter, or an empty entity id, the whole store is returned in publication order. |
| Events.GetEventsAfterPublish | backend/app/core/events.py:63-86 | When no handler is subscribed to the event's type, publishing keeps the earlier `get_events` answer as a prefix. The new event follows it exactly when it matches. |
| Events.PublishAllUnhandled | backend/app/core/events.py:63-66 | Events of types nobody handles are stored in order and nothing is called. |
| Events.DispatchUnhandled | backend/app/core/events.py:63-74 | When nothing the handlers publish has a handler, the store grows by exactly what they publish, in handler order. |
| Recalc.SubscribeRoutes | backend/app/services/analytics_event_handler.py:14-27 | Registering a routing table appends to each type exactly the handlers the table routes to it. |
| Recalc.RoutesMatchKindFor | backend/app/services/analytics_event_handler.py:14-27 | Sale types go to the sales handler, expense types to the expense handler, customer types to the customer handler. Nothing is routed for `kpi.calculated`. |
| Recalc.Setup | backend/app/services/analytics_event_handler.py:14-27 | Constructing one instance appends its routed handlers to each type and leaves the store alone. |
| Recalc.SetupMany | backend/app/services/analytics_event_handler.py:9-27 | Constructing `n` instances appends their handlers in construction order. |
| Recalc.KpiEvent | backend/app/services/analytics_event_handler.py:77-89 | The announcement has type `kpi.calculated`, entity type "kpi" and entity id `tag + "_" + timestamp`. Its data holds the tag and the triggering entity id. |
| Recalc.Handle | backend/app/services/analytics_event_handler.py:29-63 | A handler never raises. It publishes exactly one announcement with its group's tag when the recomputation succeeds, and nothing when it fails. |
| Recalc.SetupManyLeavesKpi | backend/app/services/analytics_event_handler.py:14-27 | No instance ever subscribes to `kpi.calculated`. |
| Recalc.MutationCascade | backend/app/services/analytics_event_handler.py:14-89 | With `n` instances, a mutation event is stored, then one announcement per instance whose recomputation succeeded, in construction order. The cascade stops there. |
| Recalc.MutationCalls | backend/app/services/analytics_event_handler.py:14-63 | Each instance's routed handler is called once per mutation event, in construction order, and none raises. |
| Recalc.AnnouncementsAll | backend/app/services/analytics_event_handler.py:29-63 | When every instance's recomputation succeeds, each of the `n` instances announces once. |
| Services.Dict | backend/app/core/base_service.py:78-80 | The dictionary holds the key as `id` and every stored column, whatever the payload that made the row supplied. |
| Services.DictColumns | backend/app/core/base_service.py:78-80 | A row of a table renders exactly that table's columns, including those never supplied, which are `None`. |
| Services.KeyOf | backend/app/core/base_service.py:18-20 | An integer key takes only an integer. A text key takes a text, or an integer as its decimal text. No other value gives a key. |
| Services.Get | backend/app/core/base_service.py:45-47 | A row is found exactly when one has the key, and it is that row. |
| Services.GetAll | backend/app/core/base_service.py:49-51 | Exactly as many rows as `OFFSET skip LIMIT limit` leaves (none past the end, otherwise `limit` or the rest), each the stored row at position `skip` onwards, in stored order. |
| Services.GetAllSplit | backend/app/core/base_service.py:49-51 | The first `skip` rows followed by the next `limit` rows are the first `skip + limit` rows. |
| Services.HookType | backend/app/services/customers_service_v2.py:57-84 | The base hooks publish nothing. The customer hooks publish `customer.created` on create and `customer.updated` otherwise, deletion included. |
| Services.Hook | backend/app/core/base_service.py:66-76 | A hook publishes at most one event, and does so exactly when events are on and the hooks are not the base ones. |
| Services.Create | backend/app/core/base_service.py:16-26 | A keyword that is not a column fails first, then a `NOT NULL` column left without a value, then a missing or ill-typed key, then a key already stored. Otherwise the row is appended with the supplied values, `created_at` defaulting to `now` and other omitted columns to NULL, and the created hook sees it stored. |
| Services.Inserted | backend/app/core/base_service.py:18-21 | A new row stores every column but the key: the supplied non-`None` value, else `now` for a timestamped column, else NULL. |
| Services.NewKey | backend/app/core/base_service.py:18-21 | The payload's `id` when given and of the key's type. Without one, the autoincrement key for an integer key, and a failure for a text key. |
| Services.Update | backend/app/core/base_service.py:28-43 | An absent key gives `None` with nothing changed or published. A refused assignment, or a new `id` already held by another row, fails with nothing published. Otherwise only the row found changes, and the updated hook runs after the commit. |
| Services.Assign | backend/app/core/base_service.py:34-37 | Supplied columns take their values and the others keep theirs. An `id` moves the row to that key, and a keyword that is not a column is not stored. `None` in a `NOT NULL` column or an ill-typed `id` fails. |
| Services.Delete | backend/app/core/base_service.py:53-64 | An absent key gives `False` with nothing published. Otherwise the deleted hook runs while the row is still stored, then the row alone is removed. |
| Services.CreateKeeps | backend/app/core/base_service.py:16-26 | A successful create keeps keys unique and every row holding exactly its table's columns. |
| Services.UpdateKeeps | backend/app/core/base_service.py:28-43 | A successful update keeps keys unique and every row holding exactly its table's columns, even when it moves the key. |
| Services.DeleteKeeps | backend/app/core/base_service.py:53-64 | Delete keeps keys unique, and the deleted key is no longer found. |
| Services.UpdateMovesKey | backend/app/core/base_service.py:34-38 | An update whose `id` names another key frees the old key and stores the row, with the same columns, under the new one. |
| Services.SilentWithoutEvents | backend/app/core/base_service.py:23-76 | With events off, or with the base hooks, no operation publishes anything. |
| Services.DeleteEmitsBeforeRemoval | backend/app/core/base_service.py:59-64 | Deletion's one event carries the row and is seen with the row still stored. Afterwards the row is gone. |
| Services.CreateCustomer | backend/app/services/customers_service_v2.py:13-19 | Fails exactly when the base create fails, as a 400 with the prefix "Error creating customer: " and the create's failure. Otherwise one `customer.created` event about the new id. |
| Services.CreateCustomerFresh | backend/app/services/customers_service_v2.py:13-19 | A payload of customer columns with a text id is created exactly when that id is not stored yet, and the customer gets that id. |
| Services.UpdateCustomer | backend/app/services/customers_service_v2.py:21-39 | An absent id gives `None` and no event. A failed update becomes a 400 "Error updating customer: ". Otherwise one `customer.updated` event about the row's current id, which changes only when the payload gives an `id`. |
| Services.DeleteCustomer | backend/app/services/customers_service_v2.py:41-54 | An absent id gives `False`. Otherwise one `customer.updated` event is published while the customer is stored, then it is removed. |
| Services.CentsOf | backend/app/services/expenses_service_v2.py:17-18 | An int amount gives `amount * 100` and a float its truncated cents. A text of digits is repeated a hundred times and read as one number. `None`, a datetime and any other text fail. |
| Services.TextAmountRepeats | backend/app/services/expenses_service_v2.py:17-18 | The text "5" gives at least `10^99` cents, not 500. |
| Services.RewriteAmount | backend/app/services/expenses_service_v2.py:17-18 | `amount` is replaced by `amount_cents` and every other key is untouched. A payload without `amount` passes unchanged. |
| Services.CreateExpense | backend/app/services/expenses_service_v2.py:13-23 | A bad amount fails with a 400 "Error creating expense: ". Otherwise it fails exactly when the base create of the rewritten payload does. A created expense stores the amount's cents and publishes one `expense.created` event. |
| Services.CreatedStores | backend/app/core/base_service.py:18-21 | A created row holds each supplied non-`None` column value. |
| Services.UpdateExpense | backend/app/services/expenses_service_v2.py:38-48 | The rewrite, then the base update with events on. Either failure becomes a 400 "Error updating expense: ", and an update of a stored id publishes one `expense.updated` event. |
| Services.DeleteExpense | backend/app/services/expenses_service_v2.py:50-87 | An absent id gives `False`. Otherwise one `expense.updated` event is published while the expense is still stored. |
| Services.GetExpenses | backend/app/services/expenses_service_v2.py:25-36 | Exactly as many expenses as `OFFSET skip LIMIT limit` leaves of the rows inside the given bounds, each the in-bounds row at position `skip` onwards, in stored order. |
| Services.GetExpensesComplete | backend/app/services/expenses_service_v2.py:25-36 | A first page as large as the table is every in-bounds row in stored order, so no row inside the bounds is missing. |
| Services.GetExpensesSplit | backend/app/services/expenses_service_v2.py:25-36 | The first `skip` expenses followed by the next `limit` are the first `skip + limit`. |
| Services.GetExpensesUnbounded | backend/app/services/expenses_service_v2.py:25-36 | With no bounds, `get_expenses` is `get_all`, in stored order and unsorted. |
| Crud.NextId | backend/app/services/sales_service.py:16-25 | The key a new row gets is at least 1 and above every stored key. |
| Crud.NextIdFresh | backend/app/services/sales_service.py:16-25 | No stored row has the new key. |
| Crud.Listing | backend/app/services/sales_service.py:35-46 | Exactly as many rows as `OFFSET skip LIMIT limit` leaves of the window, newest first, each from the table and inside the inclusive optional window. A first page leaves out no window row newer than one it lists. |
| Crud.ListingSplit | backend/app/services/sales_service.py:35-46 | Paging is consistent: the first `skip` rows followed by the next `limit` rows are the first `skip + limit` rows. |
| Crud.ListingComplete | backend/app/services/expenses_service.py:34-45 | A first page as large as the table returns every row of the window, each as often as it is stored. |
| Crud.UpdateBy | backend/app/services/sales_service.py:48-67 | An absent key leaves the table unchanged and gives `None`. Otherwise only the row found changes. |
| Crud.DeleteBy | backend/app/services/sales_service.py:69-80 | An absent key leaves the table unchanged and gives `False`. Otherwise exactly one row is removed, and with distinct keys the key is gone and keys stay distinct. |
| Crud.CreateSale | backend/app/services/sales_service.py:13-29 | The sale is appended under a fresh key, with its amount in cents, its other fields as given and the creation time `now`. |
| Crud.GetSale | backend/app/services/sales_service.py:31-33 | A sale is found exactly when one has the id. |
| Crud.GetSales | backend/app/services/sales_service.py:35-46 | Exactly as many sales as `OFFSET skip LIMIT limit` leaves of the window, newest first, each inside the inclusive optional window. A first page leaves out no window sale newer than one it lists. |
| Crud.GetSalesSplit | backend/app/services/sales_service.py:35-46 | Consecutive pages of sales are the page that spans both. |
| Crud.PatchSale | backend/app/services/sales_service.py:55-62 | Fails exactly when an explicit `null` reaches the amount, the date or the product name. The amount fails first at the multiplication, then the date and then the name at the commit. Otherwise supplied fields change, with `amount` in cents, and the id and creation time are kept. |
| Crud.PatchSaleIdempotent | backend/app/services/sales_service.py:55-60 | Applying an update twice is applying it once, and an empty update changes nothing. |
| Crud.UpdateSale | backend/app/services/sales_service.py:48-67 | `None` for an absent id. A patch that fails becomes a 400 "Error updating sale: " and the table is unchanged. Otherwise only the stored sale changes, to the patched one. |
| Crud.DeleteSale | backend/app/services/sales_service.py:69-80 | `False` and an unchanged table for an absent id. With distinct ids, the sale is no longer found afterwards. |
| Crud.CreateExpense | backend/app/services/expenses_service.py:13-28 | The expense is appended under a fresh key with its amount in cents. |
| Crud.GetExpense | backend/app/services/expenses_service.py:30-32 | An expense is found exactly when one has the id. |
| Crud.GetExpenses | backend/app/services/expenses_service.py:34-45 | Exactly as many expenses as `OFFSET skip LIMIT limit` leaves of the window, newest first, inside the inclusive optional window. A first page leaves out no window expense newer than one it lists. |
| Crud.GetExpensesSplit | backend/app/services/expenses_service.py:34-45 | Consecutive pages of expenses are the page that spans both. |
| Crud.PatchExpense | backend/app/services/expenses_service.py:54-61 | Fails exactly when an explicit `null` reaches the amount, the date or the description, in that order. Otherwise supplied fields change, with the amount in cents, and everything else is kept. |
| Crud.UpdateExpense | backend/app/services/expenses_service.py:47-66 | `None` for an absent id. A patch that fails becomes a 400 "Error updating expense: ". Otherwise only the stored expense changes, to the patched one. |
| Crud.PatchExpenseIdempotent | backend/app/services/expenses_service.py:54-61 | Applying an expense update twice is applying it once, and an empty update changes nothing. |
| Crud.DeleteExpense | backend/app/services/expenses_service.py:68-80 | `False` and an unchanged table for an absent id. With distinct ids, the expense is no longer found afterwards. |
| Crud.ByCategoryLosesUncategorized | backend/app/services/expenses_service.py:94-97 | As written: an expense with no category or the empty category and one in the category "Uncategorized" share a dictionary key. Only the second total survives, while the window holds both amounts. |
| Crud.ByCategoryKeepsUncategorized | backend/app/services/expenses_service.py:82-97 | Corrected: the shared label maps to the sum of both amounts. |
| Crud.ByCategory | backend/app/services/expenses_service.py:82-97 | Corrected: the labels are exactly those of the window's expenses, each mapped to the sum of the expenses shown under it. |
| Crud.CollidingLabels | backend/app/services/expenses_service.py:92-96 | As written: the two colliding expenses form two groups that both carry the label 'Uncategorized', whether the first has no category or the empty one. |
| Records.CategoryLabel | backend/app/services/expenses_service.py:95 | A missing category and the empty text, both falsy, are shown as 'Uncategorized'. Any other category is shown as itself, so 'Uncategorized' is also the label of that stored category. |
| Crud.GetCustomer | backend/app/services/customers_service.py:34-36 | A customer is found exactly when one has the id. |
| Crud.CreateCustomer | backend/app/services/customers_service.py:12-32 | A stored id is refused with 400 "Customer ID already exists" and the table is unchanged. Otherwise exactly `{id, name, email}` is inserted and ids stay distinct. |
| Crud.CreateCustomerTwice | backend/app/services/customers_service.py:15-17 | Creating the same customer a second time is refused. |
| Crud.GetCustomers | backend/app/services/customers_service.py:38-40 | Exactly as many customers as `OFFSET skip LIMIT limit` leaves of the table, newest first. A first page leaves out no customer newer than one it lists. |
| Crud.GetCustomersSplit | backend/app/services/customers_service.py:38-40 | Consecutive pages of customers are the page that spans both. |
| Crud.PatchCustomer | backend/app/services/customers_service.py:42-55 | Only the supplied name and email change. |
| Crud.UpdateCustomer | backend/app/services/customers_service.py:42-58 | `None` for an absent id. Otherwise the stored customer becomes the patched one. |
| Crud.DeleteCustomer | backend/app/services/customers_service.py:60-71 | `False` and an unchanged table for an absent id. With distinct ids, the customer is no longer found afterwards. |
| Analytics.SalesIn | backend/app/services/analytics.py:28-31 | The window holds exactly the sales with `start <= date <= end`. Its order is fixed by `SalesInAppend`. |
| Analytics.SalesInAppend | backend/app/services/analytics.py:28-31 | The window of a concatenation is the concatenation of the windows. |
| Analytics.RevenueMetricsOf | backend/app/services/analytics.py:18-41 | The count is the window's size, and the average times the count is the total. An empty window gives 0, 0 and 0. |
| Analytics.RevenueAfterSale | backend/app/services/analytics.py:24-35 | One more sale inside the window adds its amount and one to the count. Outside the window it changes nothing. |
| Analytics.ProductTableFacts | backend/app/services/analytics.py:48-59 | The grouped table has one row per product of the window, holding that product's exact revenue and sale count. |
| Analytics.ProductTableTotals | backend/app/services/analytics.py:48-59 | The table's revenues and counts add up to the window's revenue and sale count. |
| Analytics.TopProducts | backend/app/services/analytics.py:43-68 | Exactly `limit` rows, or the whole table when it has fewer, by non-increasing revenue, one per product, each from the table. No product left out earns more than a listed one. With a large enough limit the whole table is listed. |
| Analytics.ProductRowsDistinct | backend/app/services/analytics.py:48-59 | Rows built from a grouping by product name never list a product twice. |
| Analytics.ProductRowsOfWindow | backend/app/services/analytics.py:48-59 | Each row built from a grouping holds its product's exact revenue and sale count in the window. |
| Analytics.ProductRowsCover | backend/app/services/analytics.py:48-59 | Every product sold in the window has a row. |
| Analytics.ProductRowsTotals | backend/app/services/analytics.py:48-59 | The rows' revenues and counts add up to the grouped sales' revenue and number. |
| Analytics.TopProductsRows | backend/app/services/analytics.py:48-59 | Each listed row holds its product's exact revenue and sale count in the window. |
| Analytics.TopProductsTotal | backend/app/services/analytics.py:48-59 | When the limit admits every product, the listed revenues and counts add up to the window's totals. |
| Analytics.TopProductsBounded | backend/app/services/analytics.py:48-59 | With non-negative amounts, the listed revenue never exceeds the window's revenue, whatever the limit. |
| Analytics.RepeatCustomersCount | backend/app/services/analytics.py:70-89 | The count is the number of distinct non-null customers with more than one sale in the window. |
| Analytics.TrendRows | backend/app/services/analytics.py:117-123 | One trend row per period bucket, holding that bucket's revenue. |
| Analytics.RevenueTrendSpec | backend/app/services/analytics.py:91-123 | Each period of the window appears once, in strictly increasing order, with the revenue of exactly that period's sales. Every sale's period appears. |
| Analytics.TrendRowsFacts | backend/app/services/analytics.py:105-123 | Buckets in increasing period order give trend rows in strictly increasing order. Each row holds its period's exact revenue, and every sale's period is listed. |
| Analytics.TrendRowsTotal | backend/app/services/analytics.py:117-123 | The trend rows' revenues add up to the grouped sales' revenue. |
| Analytics.RevenueTrendTotal | backend/app/services/analytics.py:105-115 | The trend's revenues add up to the window's revenue. |
| Analytics.KpiSummaryOf | backend/app/services/analytics.py:125-143 | The window is `[now - days_back, now]`. The revenue metrics, the top five products and the repeat-customer count are each computed over that same window. |
| Analytics.KpiSummaryConsistent | backend/app/services/analytics.py:125-143 | The parts agree: the sales count is the window's size, the top products' revenue is at most the total, each top row is a row of the window, and the repeat count is the window's customers with more than one sale. |
| Kpi.RecentSales | backend/app/services/kpi_service.py:11-17 | Exactly the sales dated at or after the cutoff, with no upper bound. |
| Kpi.TotalRevenueAfterSale | backend/app/services/kpi_service.py:11-17 | A new sale adds its amount exactly when it is on or after the cutoff, even when dated after `now`. |
| Kpi.ProfitMargin | backend/app/services/kpi_service.py:19-31 | 0 when there is no revenue. Otherwise the margin times the revenue is `(revenue - expenses) * 100`. |
| Kpi.MarginOf | backend/app/services/kpi_service.py:28-31 | The margin times the revenue is the profit times 100. |
| Kpi.ProfitMarginBounds | backend/app/services/kpi_service.py:19-31 | The margin is 100 with revenue and no expenses. It is negative when expenses exceed positive revenue. |
| Kpi.QuantityRowsFacts | backend/app/services/kpi_service.py:33-50 | No product has two rows, and each row holds its product's total quantity and revenue over the sales. |
| Kpi.TopProductsByQuantity | backend/app/services/kpi_service.py:33-50 | Exactly `limit` rows, or every product when there are fewer, ranked by quantity rather than revenue, one per product, each with its exact quantity. No product left out sold more. |
| Kpi.RepeatCustomersSpec | backend/app/services/kpi_service.py:52-56 | The count is the number of stored customers with at least two joined sales, over all time. |
| Kpi.RepeatCustomersIgnoresUnknown | backend/app/services/kpi_service.py:52-56 | A sale without a stored customer never changes the count. |
| Dashboard.Classify | backend/app/api/dashboard.py:72-83 | New plus repeat customers make the total, VIPs are at most the total, and the repeat rate is a percentage that is 0 with no customers. |
| Dashboard.RateOf | backend/app/api/dashboard.py:82 | `part / whole * 100`, or 0 when `whole` is 0. |
| Dashboard.CustomerAnalyticsCounts | backend/app/api/dashboard.py:56-83 | The counts are of distinct identified customers: all of them, those with more than one sale, and those who spent more than 50000 cents. |
| Dashboard.ExpenseBreakdown | backend/app/api/dashboard.py:94-123 | Rows by non-increasing total, no category twice, and every category of a recent expense has its row. Each row holds its category's exact total over the recent expenses, a missing or empty category shown as 'Uncategorized'. |
| Dashboard.ExpenseBreakdownTotal | backend/app/api/dashboard.py:103-115 | The breakdown's totals add up to the recent expenses' total. |
| Dashboard.CategoryTableFacts | backend/app/api/dashboard.py:103-115 | The grouped table has no category twice, and each row holds that category's exact total over the recent expenses. |
| Dashboard.DailyRowsMatchTrendRows | backend/app/api/dashboard.py:35-53 | From the same grouping, a daily row has the trend row's date and revenue. Its transaction count is the number of that date's sales, which is positive. |
| Dashboard.DailyTrendMatchesAnalytics | backend/app/api/dashboard.py:21-53 | The daily trend is the analytics service's daily revenue trend over the same window. Its transaction count is the number of that date's sales, never 0. |
| Walkthrough.RevenueLoop | backend/logic_explanation.py:24-39 | The single pass totals the cents and counts the sales. The average is 0 for no sales, and otherwise times the count gives the total. |
| Walkthrough.RevenueLoopIsQuery | backend/logic_explanation.py:24-32 | Over a window holding every sale, the loop's total and count are the revenue query's. |
| Walkthrough.AccumulateRows | backend/logic_explanation.py:57-66 | One step of the dictionary accumulation turns the rows of a grouping into the rows of the grouping with the sale added. |
| Walkthrough.TallyStep | backend/logic_explanation.py:57-66 | One turn of the loop extends the rows of the sales seen so far to the rows of one sale more. |
| Walkthrough.TopProductsLoop | backend/logic_explanation.py:56-81 | The loop returns the per-product rows of the grouping, sorted by revenue from highest down. |
| Walkthrough.TopProductsLoopIsQuery | backend/logic_explanation.py:56-81 | Over a window holding every sale, the loop's list is the top-products query with a limit that admits every product. |
| Walkthrough.RepeatCustomersLoop | backend/logic_explanation.py:98-119 | The set the loop returns is exactly the customers counted more than once. |
| Walkthrough.CountStep | backend/logic_explanation.py:101-103 | One turn of the counting loop keeps the map's keys equal to the customers seen and its values equal to their sale counts. |
| Walkthrough.RepeatSet | backend/logic_explanation.py:110 | Selecting the customers counted more than once gives exactly those with more than one sale. |
| Walkthrough.RepeatCustomersLoopIsQuery | backend/logic_explanation.py:98-119 | With every sale in the window and identified, the loop's set has as many members as the query counts. |
| Walkthrough.ZipDictKeys | backend/logic_explanation.py:146-147 | `dict(zip(headers, values))` has exactly the headers that have a value. |
| Walkthrough.ZipDictLastWins | backend/logic_explanation.py:146-147 | A header that is not repeated later gets its own value, so a repeated header keeps its last value. |
| Walkthrough.CheckRecord | backend/logic_explanation.py:149-174 | A kept record has a name that is not blank and an amount of no negative cents. |
| Walkthrough.CheckAmount | backend/logic_explanation.py:154-171 | After the name checks, a kept record holds the line's own name and an amount of no negative cents. |
| Walkthrough.CheckRecordKeeps | backend/logic_explanation.py:149-171 | A line with all four columns, a non-blank name and an amount that parses to a positive finite number is kept. |
| Walkthrough.CheckRecordFields | backend/logic_explanation.py:149-171 | Conversely, a kept line has all four columns, a non-blank name and a positive finite amount. The record holds the columns as read and the truncated cents. |
| Walkthrough.CheckRecordBadAmount | backend/logic_explanation.py:154-174 | An amount `float()` rejects and a NaN amount both give "Invalid amount" with the text as read. A positive infinity gives a processing error instead. |
| Walkthrough.Kept | backend/logic_explanation.py:144-171 | No more records than lines. |
| Walkthrough.KeptFromLines | backend/logic_explanation.py:144-171 | Each kept record is the record some line checks to. |
| Walkthrough.Rejected | backend/logic_explanation.py:144-174 | Errors and records together number the lines. Each error is a rejected line's message, labelled with that line's row number counted from 2. |
| Walkthrough.CollectRows | backend/logic_explanation.py:141-174 | The loop collects exactly the kept records and the rejection messages, and the two add up to the number of lines. |
| Walkthrough.CsvLoop | backend/logic_explanation.py:136-174 | Records plus errors equal the number of data lines after the header. |
| Walkthrough.CleanFileKeepsAll | backend/logic_explanation.py:144-171 | A file whose every line checks out gives a record per line, each from its own line, and no errors. |
| Walkthrough.KeptRecordsAreValid | backend/logic_explanation.py:149-171 | Every kept record has a non-blank name and non-negative cents. |
| Simulation.ParseLine | backend/production_simulation.py:51-72 | A line parses exactly when it has five fields and a positive finite amount. The transaction holds the fields and the truncated cents. A wrong field count gives Python's unpacking error. |
| Simulation.ParseLines | backend/production_simulation.py:46-72 | Every line gives a transaction or an error. Each transaction comes from a line, and each error carries its line's message, numbered from row 2. |
| Simulation.OneLineHasNoData | backend/production_simulation.py:46 | Text without a line feed has no data lines once the header is skipped. |
| Simulation.RevenueRows | backend/production_simulation.py:91-94 | One row per product, in first-appearance order, with that product's total cents. |
| Simulation.RevenueRowsDistinct | backend/production_simulation.py:91-94 | Rows from a grouping by product never list a product twice. |
| Simulation.RevenueRowsTotal | backend/production_simulation.py:91-94 | The rows' revenues add up to the grouped transactions' cents. |
| Simulation.TopProductsRanked | backend/production_simulation.py:91-96 | Three products, or every product when there are fewer than three. Each is a product with its revenue, and none left out earned more. |
| Simulation.TopProductsDistinct | backend/production_simulation.py:91-96 | No product appears twice among the top three. |
| Simulation.ProductRevenueTotal | backend/production_simulation.py:81-94 | The per-product revenues add up to the total revenue. |
| Simulation.CustomerFigures | backend/production_simulation.py:103-118 | The repeat customers are the ids with more than one transaction. The distinct customers are all the ids. |
| Simulation.RepeatAtMostDistinct | backend/production_simulation.py:103-118 | Repeat customers are never more than distinct customers. |
| Simulation.AverageOrderTimesSales | backend/production_simulation.py:81-84 | With sales, the average order times the number of sales is the total revenue in dollars. |
| Simulation.CoffeeShareIsPercentage | backend/production_simulation.py:115-116 | With no negative amount, the coffee share is between 0 and 100. |
| Simulation.SharePercentage | backend/production_simulation.py:115-116 | A part between 0 and the total is a share between 0 and 100. |
| Simulation.RepeatRateAsWritten | backend/production_simulation.py:118 | As written: a `ZeroDivisionError` exactly when there are no customers, otherwise the ratio times 100. |
| Simulation.HeaderOnlyRaises | backend/production_simulation.py:118 | As written: an export with a header and no data makes the simulation raise "division by zero". The guarded one reports a repeat rate of 0. |
| Simulation.SimulateAsWrittenFails | backend/production_simulation.py:46-118 | As written: the simulation fails exactly when no line parsed, and otherwise agrees with the guarded one. |
| Simulation.DistinctCustomers | backend/production_simulation.py:118 | The divisor is the number of distinct customer ids, which is 0 exactly when there are no transactions. |
| Simulation.RepeatRate | backend/production_simulation.py:118 | Corrected: 0 with no customers, otherwise the ratio times 100. It agrees with the as-written rate wherever that succeeds. |
| Simulation.RepeatRateIsPercentage | backend/production_simulation.py:103-118 | The corrected repeat rate is between 0 and 100. |
| Simulation.SimulatePercentages | backend/production_simulation.py:115-118 | Both the coffee share and the corrected repeat rate of any simulation lie between 0 and 100. |
| Sheets.Escape | backend/app/services/sheets_connector.py:128-140 | The result is the trimmed cell, quoted exactly when that holds a comma, a quote or a line feed. An unquoted result holds none of the three. |
| Sheets.EscapeRead | backend/app/services/sheets_connector.py:128-140 | A CSV reader reads an escaped cell back as the trimmed cell. |
| Sheets.DoubleQuotes | backend/app/services/sheets_connector.py:137 | Doubling quotes adds or removes no comma or line feed. |
| Sheets.QuotedFieldRead | backend/app/services/sheets_connector.py:135-138 | A CSV reader reads a quoted cell with doubled quotes back as the cell, up to the next separator. |
| Sheets.PlainFieldRead | backend/app/services/sheets_connector.py:140 | A cell with no comma, quote or line feed is read back unchanged. |
| Sheets.EscapeAll | backend/app/services/sheets_connector.py:123 | Each cell of a row is escaped in place. |
| Sheets.RecordRead | backend/app/services/sheets_connector.py:123-124 | A CSV reader reads an escaped, comma-joined row back as its trimmed cells, and stops at the line end. |
| Sheets.RecordsRead | backend/app/services/sheets_connector.py:119-126 | A CSV reader reads the joined lines back as the rows padded to the width and trimmed. |
| Sheets.Pad | backend/app/services/sheets_connector.py:121 | A row is padded with empty cells up to the width, and a longer row is kept whole. |
| Sheets.ConvertToCsv | backend/app/services/sheets_connector.py:112-126 | No rows give the empty text, and one row gives its line with no trailing line feed. |
| Sheets.ConvertToCsvRoundTrip | backend/app/services/sheets_connector.py:112-140 | For a sheet whose first row is not empty, a CSV reader reads the conversion back as the sheet. Every row is padded to the first row's width and every cell trimmed. |
| Sheets.SearchSpec | backend/app/services/sheets_connector.py:194-198 | The pattern search finds nothing exactly when there is no match. Otherwise it gives the longest id run after the leftmost match. |
| Sheets.ExtractSpreadsheetId | backend/app/services/sheets_connector.py:183-204 | The id after the leftmost match. Failing that, the trimmed input when it is made of id characters alone. Otherwise nothing. A found id is non-empty and made of id characters. |
| Sheets.ExtractBareId | backend/app/services/sheets_connector.py:200-202 | A bare id is its own spreadsheet id. |
| Sheets.ExtractFromSheetUrl | backend/app/services/sheets_connector.py:187-198 | An address of the documented shape yields its id. |
| Sheets.ValidateUrlFormat | backend/app/services/sheets_connector.py:207-208 | An address is accepted exactly when it mentions the Sheets host path or an id can be extracted. |
| Sheets.ValidSheetUrls | backend/app/services/sheets_connector.py:187-208 | Every documented address and every bare id pass the format check. |
| Sheets.Classify | backend/app/services/sheets_connector.py:104-110 | By the lower-cased message: "not found" gives a ValueError, then "permission" a PermissionError, and anything else a ConnectionError. |
| Sheets.FetchSheetData | backend/app/services/sheets_connector.py:86-110 | The rows come back only when the reply has some. An empty reply's own error goes through the same classification. |
| Sheets.NoDataUnclassified | backend/app/services/sheets_connector.py:99-110 | The empty-range message mentions neither "not found" nor "permission". |
| Sheets.ExtractSheetData | backend/app/services/sheets_connector.py:52-84 | Extraction never raises. A failed initialisation or fetch gives no rows and one error line. Otherwise the converted sheet goes through the CSV processor. |
| Sheets.EmptySheetIsConnectionError | backend/app/services/sheets_connector.py:71-110 | An empty sheet is reported as a connection failure, never with the "No data found in the specified range" message. |
| DataProcessor.FirstParse | backend/app/services/data_processor.py:79-86 | The first format that parses wins, and there is no result only when none parses. |
| DataProcessor.ParseDate | backend/app/services/data_processor.py:74-88 | The formats are tried in order and the first that parses wins. If none parses, the error names the text. |
| DataProcessor.AmbiguousDateIsMonthFirst | backend/app/services/data_processor.py:79-86 | A date both month-first and day-first accept is read month-first. |
| DataProcessor.ParseAmount | backend/app/services/data_processor.py:90-97 | An amount passes exactly when it is a positive finite number, stored as truncated cents. Every other failure is "Invalid amount: ...", except positive infinity, which keeps its own message. |
| DataProcessor.SubCentAmountIsZero | backend/app/services/data_processor.py:92-95 | A positive amount under one cent passes and is stored as 0 cents. |
| DataProcessor.ValidateRow | backend/app/services/data_processor.py:69-117 | The date is checked first, then the amount, then the product name, and the first failure is the error. An accepted row has a stripped name that is neither empty nor "nan", and empty optional fields become `None`. |
| DataProcessor.Validations | backend/app/services/data_processor.py:43-46 | Each row of the frame is validated on its own, in order. |
| DataProcessor.ProcessCsvContent | backend/app/services/data_processor.py:17-67 | A parse failure or missing columns give 0 rows and exactly one error line. Otherwise at most the valid rows are stored. |
| DataProcessor.RowErrors | backend/app/services/data_processor.py:56-57 | Errors plus valid rows make up all the rows seen. |
| DataProcessor.RunInvariant | backend/app/services/data_processor.py:43-57 | After every row, the committed rows followed by the buffered ones are exactly the valid rows so far. While inserts commit, the buffer stays below 1000 and no batch exceeds 1000. |
| DataProcessor.ImportStoresValidRows | backend/app/services/data_processor.py:40-62 | What is stored is a prefix of the valid rows, in order, with none twice. |
| DataProcessor.ImportWhenInsertsCommit | backend/app/services/data_processor.py:40-62 | When inserts commit, every valid row is stored once and in order. No batch exceeds 1000, and each invalid row has one error line. |
| DataProcessor.ProcessWhenInsertsCommit | backend/app/services/data_processor.py:17-67 | When inserts commit, the count is the number of valid rows and the errors are the invalid rows' lines. |
| DataProcessor.RunBuffers | backend/app/services/data_processor.py:43-54 | Fewer than 1000 valid rows all wait in the buffer. |
| DataProcessor.FailedInsertGrowsBatch | backend/app/services/data_processor.py:50-57 | A failed insert is reported as an error of the row that filled the batch. The buffer is kept, so the next batch is larger than 1000. |
| CsvUpload.ValidateColumns | backend/app/services/csv_upload_service.py:151-155 | Fails exactly when a required column is absent, naming the missing ones in required order. |
| CsvUpload.Front | backend/app/services/csv_upload_service.py:22-65 | A read failure or a missing column is a 400. Otherwise the parsed file goes on unchanged. |
| CsvUpload.Prepare | backend/app/services/csv_upload_service.py:32-40 | Every row is tried, and each gives an item or an error. There are no errors exactly when every row converts, and then the items are the conversions in order. |
| CsvUpload.PrepareOneBadRow | backend/app/services/csv_upload_service.py:35-40 | A single bad row gives a single error, numbered `index + 1`. |
| CsvUpload.ProcessSaleRow | backend/app/services/csv_upload_service.py:157-165 | The date is converted before the amount, and the first failure is the error. The name and the optional columns are only trimmed. |
| CsvUpload.PrepareSales | backend/app/services/csv_upload_service.py:32-40 | A sales file whose rows all convert, with finite amounts, prepares one item per row, carrying each row's trimmed name and converted date. |
| CsvUpload.CustomerFields | backend/app/services/csv_upload_service.py:167-173 | The payload holds exactly the trimmed id and name, and an email that is null when blank. |
| CsvUpload.ProcessExpenseRow | backend/app/services/csv_upload_service.py:175-181 | The date is converted before the amount. The payload holds the converted date, the trimmed description, the amount and the optional category. |
| CsvUpload.ExpenseFields | backend/app/services/csv_upload_service.py:177-181 | The payload holds exactly the converted date, the description, the amount and the optional category. |
| CsvUpload.FloatValue | backend/app/services/csv_upload_service.py:180 | A finite float is passed as its value. NaN and the infinities are values the expense service cannot turn into cents. |
| CsvUpload.CreateAll | backend/app/services/csv_upload_service.py:93-98 | Rows are created in order and the first failure stops the loop. Every created row publishes one event. |
| CsvUpload.CreatedKeys | backend/app/services/csv_upload_service.py:94-97 | Each created customer is stored under the id its row names, or under the key handed to that row when it names none. |
| CsvUpload.CreateOne | backend/app/services/csv_upload_service.py:96 | A successful create appends one row and publishes one event. A customer create fails exactly when the id is taken. An expense create fails when the amount cannot become cents. |
| CsvUpload.CreateNext | backend/app/services/csv_upload_service.py:93-98 | One turn of the loop either appends one created row and its event, or records that row's failure and changes nothing. |
| CsvUpload.CreateFreshCustomers | backend/app/services/csv_upload_service.py:93-98 | Customers with new, distinct ids are all created. |
| CsvUpload.CreateAllStops | backend/app/services/csv_upload_service.py:94-107 | On a failure, the rows before it are stored and that row's creation is the failure reported. |
| CsvUpload.UploadRows | backend/app/services/csv_upload_service.py:67-149 | All or nothing: any conversion error gives `success` false, a count of 0 and nothing stored. Otherwise every row is created and the count is the row count. Failures are 400s. |
| CsvUpload.ExpenseUploadAllOrNothing | backend/app/services/csv_upload_service.py:109-149 | One expense row that does not convert means nothing is stored and nothing is published. |
| CsvUpload.CustomerUploadStoresAll | backend/app/services/csv_upload_service.py:67-107 | A customer file with new, distinct ids is stored whole, with one `customer.created` per row. |
| CsvUpload.UploadSalesAsWrittenFails | backend/app/services/csv_upload_service.py:51-65 | As written: every sales file with at least one row, all of which convert, is rejected with 400 and nothing is stored. |
| CsvUpload.UploadSalesAsWritten | backend/app/services/csv_upload_service.py:20-65 | As written: the sales upload never stores a sale and publishes nothing. |
| CsvUpload.UploadSales | backend/app/services/csv_upload_service.py:20-65 | Corrected: conversion errors store nothing. Otherwise the rows are created in file order, and when all are stored the count is the row count. |
| CsvUpload.StoreSales | backend/app/services/csv_upload_service.py:51-55 | Corrected loop: the table grows by exactly the sales created, at most one per row, and by one per row when nothing fails. |
| CsvUpload.StoredSales | backend/app/services/csv_upload_service.py:51-55 | The corrected loop fails exactly when some amount is not a finite number. Each stored sale carries its row's name, date and amount in cents. |
| CsvUpload.StoreSale | backend/app/services/sales_service.py:13-29 | Corrected step: a finite amount gives one appended sale with its fields and amount in cents. Anything else fails. |
| CsvUpload.UploadSalesStoresAll | backend/app/services/csv_upload_service.py:20-65 | Corrected: a file of convertible rows with finite amounts is stored whole, in order, with each row's date and trimmed name. |
| Schemas.Length | backend/app/models/schemas.py:8-12 | A text passes its length bounds exactly when its length is inside them, unchanged. |
| Schemas.StrippedText | backend/app/models/schemas.py:13-17 | Inside its bounds, a text passes exactly when it does not strip to nothing, and it is returned stripped. |
| Schemas.StrippedTextStable | backend/app/models/schemas.py:13-17 | Revalidating an accepted text gives the same text. |
| Schemas.OptionalLength | backend/app/models/schemas.py:10-11 | An optional text passes exactly when it is absent or within its maximum length. It is never changed. |
| Schemas.ErrorsOf | backend/app/models/schemas.py:6-25 | A field contributes no error exactly when it passes, and otherwise one error naming the field. |
| Schemas.SaleNameStable | backend/app/models/schemas.py:13-17 | Revalidating an accepted product name gives the same name. |
| Schemas.RoundHalfEven | backend/app/models/schemas.py:25 | `round` gives the nearest integer, and ties go to the even one. |
| Schemas.RoundCents | backend/app/models/schemas.py:25 | Rounding to two places stays within half a cent of the amount. |
| Schemas.SaleAmount | backend/app/models/schemas.py:19-25 | An amount passes exactly when `0 < v <= 999999.99`, rounded to cents. Zero or less and too large are each rejected with their own error. |
| Schemas.TinySaleAmountIsZero | backend/app/models/schemas.py:19-25 | A positive amount under half a cent passes and rounds to zero. |
| Schemas.ExpenseAmount | backend/app/models/schemas.py:90-94 | An expense amount passes exactly when it is positive, with no upper bound. |
| Schemas.ValidateSale | backend/app/models/schemas.py:6-25 | A sale passes exactly when every field does, and is returned with its name stripped and its amount rounded. Otherwise one to four errors are reported. |
| Schemas.CustomerId | backend/app/models/schemas.py:52-56 | An id of 1 to 50 characters passes when it does not strip to nothing, and comes back trimmed and upper-cased. |
| Schemas.CustomerIdIdempotent | backend/app/models/schemas.py:52-56 | Normalising an accepted id again changes nothing. |
| Schemas.Email | backend/app/models/schemas.py:58-62 | `None` and the empty text pass. Otherwise the address passes exactly when it is at most 255 characters and contains '@'. It is never changed. |
| Schemas.ValidateCustomer | backend/app/models/schemas.py:47-62 | A customer passes exactly when id, name and email do, with the id normalised. |
| Schemas.ValidateExpense | backend/app/models/schemas.py:78-94 | An expense passes exactly when every field does, with its description stripped and its amount rounded. |
| Schemas.ValidateBulk | backend/app/models/schemas.py:135-136 | A bulk request passes exactly when it has at most 1000 items and each is valid. |
| Schemas.Items | backend/app/models/schemas.py:135-136 | The list passes exactly when every item does, and it keeps each item in place. |
| Schemas.Response | backend/app/models/schemas.py:144-165 | The response amount times 100 is the stored cents. |
| Schemas.ResponseRoundTrip | backend/app/models/schemas.py:144-165 | Over exact reals, stored cents survive the trip to a response amount and back through `int(amount * 100)`. |
| Schemas.AcceptedAmountCents | backend/app/models/schemas.py:19-25 | Over exact reals, an accepted amount's stored cents are its rounded cents, and the response gives the accepted amount back. |
| Exceptions.StatusOf | backend/app/core/exceptions.py:32-39 | Each of the four subclasses has an `except` clause of its own. Only the base class has none. |
| Exceptions.Handle | backend/app/core/exceptions.py:27-42 | A result passes through unchanged. A mapped application error keeps its message as the detail. Anything else is a 500 with the "Internal server error: " prefix. |
| Exceptions.HandleClientErrors | backend/app/core/exceptions.py:32-41 | A 4xx status names the error's kind, and everything else becomes a 500. |
| Exceptions.KindOfStatus | backend/app/core/exceptions.py:32-37 | A status names a kind exactly when it is one of the three client-error statuses. |
| Exceptions.UnmappedIsInternal | backend/app/core/exceptions.py:27-41 | The base class is reported like a foreign exception, and the error code never reaches the response. |

## Left out

- HTTP routing, the FastAPI routers and request plumbing: they only connect requests to the services above.
- SQL and SQLAlchemy: tables are sequences of records. `GROUP BY` groups in first-appearance order, and ties in `ORDER BY ... DESC` keep table order, where SQL leaves that order unspecified.
- The database's failures: commit and rollback are modelled only where a failure has a visible effect: keywords that are not columns, `NULL` in a `NOT NULL` column, missing, ill-typed or duplicate keys, and failed bulk inserts.
- Create: in Services.Create, values are stored as given. SQLite's type affinity and SQLAlchemy's type checks on the other columns (a text in a `DateTime` column, say) are not modelled.
- Assign: setting the key to `None` is modelled as a failed commit, and a key that is a float or a datetime as an ill-typed key.
- CentsOf: `int()` also accepts a repeated text such as "5_5", with single underscores between digits, and texts of non-ASCII digits. The model treats those texts as failures.
- ToDict: instants are whole seconds. `isoformat()` of a `utcnow()` value also prints six microsecond digits when they are not zero, which the model never renders.
- KpiEvent: the three `utcnow()` reads of `_emit_kpi_calculated_event` are one instant `now`, so the entity id, `calculated_at` and the event's timestamp always agree here. In the source they can differ by microseconds.
- DailyTrendMatchesAnalytics: the trend assumes `func.date(Sale.date)` yields a date. On the default SQLite database it yields text, and `result.date.isoformat()` then raises `AttributeError` for any non-empty window. That failure is not modelled, and the same holds for Dashboard.DailyRowsMatchTrendRows.
- Kpi: the queries are modelled on the `sale_date`, `total_amount` and `quantity` columns and the sale-to-customer join they name. `kpi_service.py` imports its models from the package whose `Sale` and `Customer` have none of these columns and no foreign key for `.join(Sale)`, so as written each KPIService query raises. The model states what the queries compute, not that failure.
- CustomerId: `Upper` and `Lower` map only ASCII letters. Python's `str.upper()` maps every cased character ('é' becomes 'É', 'ß' becomes "SS"), so a non-ASCII id keeps those characters here. `Lower` in Sheets.Classify and DataProcessor.ValidateRow has the same limit.
- pandas `read_csv` and `to_datetime`, `strptime`, `float()` and the Google API call are parameters of the model, as is the way a sheet reply is obtained.
- `datetime.utcnow()` is the parameter `now`, and MD5 is the parameter `digest`.
- Floating point: money is integer cents and ratios are exact reals. `int(x * 100)` is truncation of an exact real, and `round` is exact half-even rounding. Binary rounding error is not modelled.
- AcceptedAmountCents: holds over exact reals only, and so does ResponseRoundTrip. With binary doubles `round(0.29, 2) * 100` is 28.999999999999996, so `int()` stores 28 cents for an accepted 0.29. That one-cent truncation is not modelled.
- Concurrency: `async`/`await` and the `iscoroutinefunction` dispatch are sequential calls. The module-level `cache` and `event_bus` singletons are explicit values.
- Printing: the walkthrough's and the simulation's `print` output, the simulation's recommendations, its "daily average" line and its `main`. That includes `main` indexing the first top product, which raises when there is none.
- The walkthrough's and the simulation's built-in sample data: the data, or the CSV text, is an input.
- Events.Publish: a handler that publishes further events nests a publish inside its call. A `fuel` bound limits that nesting, and events published once the fuel is spent are stored without calling their handlers. With the analytics handler the cascade is one level deep and no fuel limit is reached.
- The error text of a failed `float()` in the simulation, and of a short or long line there, follows Python 3's messages. Other interpreter versions word them differently.
- CsvUpload.FloatValue: NaN and the infinities in an expense payload are represented as `Null`, which the expense service rejects as `int()` would. The exact Python message is not kept.
- Schemas.ValidateBulk: when there are more than 1000 items, only the verdict is modelled. The per-item errors pydantic would also report are not.
- Exceptions.Handle: the `error_code` of an application exception is carried but never reaches the HTTP response, as in the source. Only `detail` and status are modelled.
- Sheets.ExtractSheetData: the branch that reports "No data found in the specified range" cannot be reached, because fetching never returns an empty list. The model proves this instead of modelling the branch.
- Kpi: `calculate_all_kpis` is not defined in the source. The recomputation it stands for is the parameter `recomputed`, which may fail.
- CsvUpload.UploadSales: the corrected upload also ignores the `await` of the synchronous `create_sale`, which would fail on its own.
- Walkthrough.CheckRecord: `float()` is the parameter `toFloat`. Python's acceptance of texts such as "1e3", " 5 " or "nan" is whatever that parameter says.
- The PDF report generator, the frontend, the database configuration and migrations, and the test scripts.

## Findings

| source | as written | input that shows it | evidently intended | confidence | as-written member | corrected member |
|---|---|---|---|---|---|---|
| backend/app/services/expenses_service.py:94-97 | A `None` or empty category and a stored "Uncategorized" category all map to the key 'Uncategorized'. The dictionary comprehension keeps only the later total. | Two expenses in the window: one with no category or the category "", then one with category "Uncategorized". | One entry 'Uncategorized' holding the sum of both. | not executed | Crud.ByCategoryLosesUncategorized | Crud.ByCategoryKeepsUncategorized |
| backend/app/services/csv_upload_service.py:51-55 | `create_sale` receives the converted row, a `dict`, and reads `sale_data.date`. The `AttributeError` becomes a 400, so no sales file with rows is ever stored. | Any sales CSV with one row whose date and amount convert. | Each converted row is stored as a sale, and the report counts them. | not executed | CsvUpload.UploadSalesAsWrittenFails | CsvUpload.UploadSalesStoresAll |
| backend/production_simulation.py:118 | The repeat rate divides by the number of distinct customers without a guard, unlike the two ratios before it. | An export that is a header alone, or whose every line fails to parse. The script's built-in sample has customers, so the failure shows only once the data is an input, as here. | A repeat rate of 0 when there are no customers. | not executed | Simulation.HeaderOnlyRaises | Simulation.RepeatRateIsPercentage |


=== FILE: analytics.dfy ===
/** The analytics queries over the `sales` table: revenue metrics, top
    products, repeat customers, revenue trend and the KPI summary that
    combines them. Every query reads the sales whose date lies in an
    inclusive window `[start, end]`. */
module Analytics {
  import opened Wrappers
  import opened Seqs
  import opened Sorting
  import opened Grouping
  import opened Records
  import opened Calendar

  /** The sales of the window `[start, end]`, in table order. */
  function SalesIn(sales: seq<Sale>, start: int, end: int): (r: seq<Sale>)
    ensures forall i :: 0 <= i < |r| ==> Within(r[i].date, start, end) && r[i] in sales
    ensures forall i :: 0 <= i < |sales| && Within(sales[i].date, start, end) ==> sales[i] in r
  {
    Filter(sales, (s: Sale) => Within(s.date, start, end))
  }

  lemma SalesInAppend(sales: seq<Sale>, more: seq<Sale>, start: int, end: int)
    ensures SalesIn(sales + more, start, end) == SalesIn(sales, start, end) + SalesIn(more, start, end)
  {
    FilterAppend(sales, more, (s: Sale) => Within(s.date, start, end));
  }

  // ---------------------------------------------------------------------
  // Revenue metrics

  datatype RevenueMetrics = RevenueMetrics(totalCents: int, salesCount: nat, averageCents: real)

  /** `SUM`, `COUNT` and `AVG` of the window's amounts; `NULL`s become 0. */
  function RevenueMetricsOf(sales: seq<Sale>, start: int, end: int): (m: RevenueMetrics)
    ensures m.salesCount == |SalesIn(sales, start, end)|
    ensures m.salesCount == 0 ==> m.totalCents == 0 && m.averageCents == 0.0
    ensures m.salesCount > 0 ==> m.averageCents * m.salesCount as real == m.totalCents as real
  {
    var w := SalesIn(sales, start, end);
    if w == [] then RevenueMetrics(0, 0, 0.0)
    else
      var total := Total(w, SaleCents);
      var count := |w|;
      var average := Mean(total, count);
      assert average * count as real == total as real;
      RevenueMetrics(total, count, average)
  }

  /** Recording one more sale: inside the window it adds its amount and one
      to the count; outside the window it changes nothing. */
  lemma RevenueAfterSale(sales: seq<Sale>, s: Sale, start: int, end: int)
    ensures var before := RevenueMetricsOf(sales, start, end);
            var after := RevenueMetricsOf(sales + [s], start, end);
            if Within(s.date, start, end)
            then after.totalCents == before.totalCents + s.amountCents
                 && after.salesCount == before.salesCount + 1
            else after == before
  {
    SalesInAppend(sales, [s], start, end);
    var w := SalesIn(sales, start, end);
    if Within(s.date, start, end) {
      assert SalesIn([s], start, end) == [s];
      TotalAppend(w, [s], SaleCents);
      assert Total([s], SaleCents) == s.amountCents;
    } else {
      assert SalesIn([s], start, end) == [];
      assert w + [] == w;
    }
  }

  // ---------------------------------------------------------------------
  // Top products

  datatype ProductRow = ProductRow(productName: string, revenueCents: int, salesCount: nat)

  function RowRevenue(r: ProductRow): int {
    r.revenueCents
  }

  function RowName(r: ProductRow): string {
    r.productName
  }

  function RowCount(r: ProductRow): int {
    r.salesCount
  }

  function ProductRowOf(b: Bucket<string, Sale>): ProductRow {
    ProductRow(b.key, Total(b.items, SaleCents), |b.items|)
  }

  /** One aggregate row per product bucket, in bucket order. */
  function ProductRows(gs: seq<Bucket<string, Sale>>): (r: seq<ProductRow>)
    ensures |r| == |gs|
    ensures forall i :: 0 <= i < |gs| ==> r[i] == ProductRowOf(gs[i])
  {
    if gs == [] then [] else [ProductRowOf(gs[0])] + ProductRows(gs[1..])
  }

  /** The per-product rows of the window before ordering and `LIMIT`. */
  function ProductTable(sales: seq<Sale>, start: int, end: int): seq<ProductRow> {
    ProductRows(GroupBy(SalesIn(sales, start, end), ProductOf))
  }

  /** `GROUP BY product_name ORDER BY total_revenue_cents DESC LIMIT limit`:
      `limit` rows of the product table, or all of them when fewer, by
      non-increasing revenue,
      one per product, and no product left out earns more than a listed one.
      Products with equal revenue keep their first-appearance order (SQL
      leaves that order unspecified). */
  function TopProducts(sales: seq<Sale>, start: int, end: int, limit: nat): (r: seq<ProductRow>)
    ensures |r| <= limit
    ensures |r| == if limit < |ProductTable(sales, start, end)| then limit else |ProductTable(sales, start, end)|
    ensures SortedDesc(r, RowRevenue)
    ensures DistinctBy(r, RowName)
    ensures forall i :: 0 <= i < |r| ==> r[i] in ProductTable(sales, start, end)
    ensures forall row, i :: row in ProductTable(sales, start, end) && row !in r && 0 <= i < |r| ==>
              RowRevenue(row) <= RowRevenue(r[i])
    ensures limit >= |ProductTable(sales, start, end)| ==> multiset(r) == multiset(ProductTable(sales, start, end))
  {
    var t := ProductTable(sales, start, end);
    ProductTableFacts(sales, start, end);
    TopOfSorted(t, RowRevenue, limit);
    TopSorted(t, RowRevenue, limit);
    TopOfSortedDistinct(t, RowRevenue, limit, RowName);
    Take(SortDesc(t, RowRevenue), limit)
  }

  /** `row` is the exact revenue and sale count of its product in `w`. */
  predicate RowOfWindow(w: seq<Sale>, row: ProductRow) {
    && row.revenueCents == Total(Select(w, ProductOf, row.productName), SaleCents)
    && row.salesCount == |Select(w, ProductOf, row.productName)| > 0
  }

  /** Some row of `t` is for product `name`. */
  predicate ListsProduct(t: seq<ProductRow>, name: string) {
    exists i :: 0 <= i < |t| && t[i].productName == name
  }

  lemma ProductRowsDistinct(w: seq<Sale>, gs: seq<Bucket<string, Sale>>)
    requires IsGrouping(w, ProductOf, gs)
    ensures DistinctBy(ProductRows(gs), RowName)
  {
    var t := ProductRows(gs);
    forall i, j | 0 <= i < j < |t| ensures RowName(t[i]) != RowName(t[j]) {
      assert t[i].productName == gs[i].key && t[j].productName == gs[j].key;
    }
  }

  lemma ProductRowsOfWindow(w: seq<Sale>, gs: seq<Bucket<string, Sale>>)
    requires IsGrouping(w, ProductOf, gs)
    ensures forall row :: row in ProductRows(gs) ==> RowOfWindow(w, row)
  {
    var t := ProductRows(gs);
    forall row | row in t ensures RowOfWindow(w, row) {
      var i :| 0 <= i < |t| && t[i] == row;
      assert row == ProductRowOf(gs[i]);
      assert gs[i].items == Select(w, ProductOf, gs[i].key);
    }
  }

  lemma ProductRowsCover(w: seq<Sale>, gs: seq<Bucket<string, Sale>>)
    requires IsGrouping(w, ProductOf, gs)
    ensures forall j :: 0 <= j < |w| ==> ListsProduct(ProductRows(gs), w[j].productName)
  {
    var t := ProductRows(gs);
    forall j | 0 <= j < |w| ensures ListsProduct(t, w[j].productName) {
      assert HasKey(gs, ProductOf(w[j]));
      var i :| 0 <= i < |gs| && gs[i].key == ProductOf(w[j]);
      assert t[i].productName == w[j].productName;
    }
  }

  /** The product table has one row per product of the window, holding that
      product's exact revenue and sale count. */
  lemma ProductTableFacts(sales: seq<Sale>, start: int, end: int)
    ensures var w := SalesIn(sales, start, end);
            var t := ProductTable(sales, start, end);
            && DistinctBy(t, RowName)
            && (forall row :: row in t ==> RowOfWindow(w, row))
            && (forall j :: 0 <= j < |w| ==> ListsProduct(t, w[j].productName))
  {
    var w := SalesIn(sales, start, end);
    var gs := GroupBy(w, ProductOf);
    ProductRowsDistinct(w, gs);
    ProductRowsOfWindow(w, gs);
    ProductRowsCover(w, gs);
  }

  /** Each listed row holds the exact revenue and sale count of its product
      in the window. */
  lemma TopProductsRows(sales: seq<Sale>, start: int, end: int, limit: nat)
    ensures var r := TopProducts(sales, start, end, limit);
            forall i :: 0 <= i < |r| ==> RowOfWindow(SalesIn(sales, start, end), r[i])
  {
    ProductTableFacts(sales, start, end);
  }

  lemma ProductRowsTotals(gs: seq<Bucket<string, Sale>>)
    ensures Total(ProductRows(gs), RowRevenue) == BucketsTotal(gs, SaleCents)
    ensures Total(ProductRows(gs), RowCount) == BucketsTotal(gs, One)
  {
    if gs != [] {
      ProductRowsTotals(gs[1..]);
      TotalOfOnes(gs[0].items);
      assert ProductRows(gs)[1..] == ProductRows(gs[1..]);
    }
  }

  /** The product table's revenues and counts add up to the window's
      revenue and number of sales: grouping loses and duplicates nothing. */
  lemma ProductTableTotals(sales: seq<Sale>, start: int, end: int)
    ensures var t := ProductTable(sales, start, end);
            var m := RevenueMetricsOf(sales, start, end);
            Total(t, RowRevenue) == m.totalCents && Total(t, RowCount) == m.salesCount
  {
    var w := SalesIn(sales, start, end);
    ProductRowsTotals(GroupBy(w, ProductOf));
    GroupTotal(w, ProductOf, SaleCents);
    GroupCount(w, ProductOf);
  }

  /** When the limit admits every product, the listed revenues and counts add
      up to the window's revenue and number of sales. */
  lemma TopProductsTotal(sales: seq<Sale>, start: int, end: int, limit: nat)
    requires limit >= |ProductTable(sales, start, end)|
    ensures var r := TopProducts(sales, start, end, limit);
            var m := RevenueMetricsOf(sales, start, end);
            Total(r, RowRevenue) == m.totalCents && Total(r, RowCount) == m.salesCount
  {
    var t := ProductTable(sales, start, end);
    ProductTableTotals(sales, start, end);
    assert TopProducts(sales, start, end, limit) == SortDesc(t, RowRevenue);
    SortTotal(t, RowRevenue, RowRevenue);
    SortTotal(t, RowRevenue, RowCount);
  }

  lemma RowsNonNegative(w: seq<Sale>, t: seq<ProductRow>)
    requires forall i :: 0 <= i < |w| ==> w[i].amountCents >= 0
    requires forall row :: row in t ==> RowOfWindow(w, row)
    ensures forall i :: 0 <= i < |t| ==> RowRevenue(t[i]) >= 0
  {
    forall i | 0 <= i < |t| ensures RowRevenue(t[i]) >= 0 {
      assert RowOfWindow(w, t[i]);
      SelectTotalNonNegative(w, ProductOf, t[i].productName, SaleCents);
    }
  }

  /** With non-negative amounts the listed revenue never exceeds the
      window's revenue, whatever the limit. */
  lemma TopProductsBounded(sales: seq<Sale>, start: int, end: int, limit: nat)
    requires forall s :: s in sales ==> s.amountCents >= 0
    ensures Total(TopProducts(sales, start, end, limit), RowRevenue)
            <= RevenueMetricsOf(sales, start, end).totalCents
  {
    var w := SalesIn(sales, start, end);
    var t := ProductTable(sales, start, end);
    ProductTableTotals(sales, start, end);
    ProductTableFacts(sales, start, end);
    RowsNonNegative(w, t);
    TopTotalBounded(t, RowRevenue, limit, RowRevenue);
    assert TopProducts(sales, start, end, limit) == Take(SortDesc(t, RowRevenue), limit);
  }

  // ---------------------------------------------------------------------
  // Repeat customers

  /** The window's sales that name a customer. */
  function IdentifiedSales(sales: seq<Sale>, start: int, end: int): seq<Sale> {
    Filter(SalesIn(sales, start, end), (s: Sale) => s.customerId.Some?)
  }

  /** `GROUP BY customer_id HAVING COUNT(id) > 1`, counted. */
  function CountRepeatCustomers(sales: seq<Sale>, start: int, end: int): nat {
    |Filter(GroupBy(IdentifiedSales(sales, start, end), CustomerOf), Repeated)|
  }

  /** The repeat-customer count is the number of distinct identified
      customers with at least two sales in the window; unidentified sales
      never count. */
  lemma RepeatCustomersCount(sales: seq<Sale>, start: int, end: int)
    ensures var w := IdentifiedSales(sales, start, end);
            && CountRepeatCustomers(sales, start, end) == |KeysWhere(w, CustomerOf, Many)|
            && (forall c :: c in KeysWhere(w, CustomerOf, Many) ==> c.Some?)
  {
    RepeatedKeys(IdentifiedSales(sales, start, end), CustomerOf);
  }

  // ---------------------------------------------------------------------
  // Revenue trend

  datatype Interval = Daily | Weekly | Monthly

  /** `'daily'` and `'weekly'` are recognised; any other text means monthly. */
  function IntervalOf(s: string): Interval {
    if s == "daily" then Daily else if s == "weekly" then Weekly else Monthly
  }

  /** The text the query groups and orders by. */
  function PeriodLabel(interval: Interval, t: int): string {
    match interval
    case Daily => DateLabel(t)
    case Weekly => WeekLabel(t)
    case Monthly => MonthLabel(t)
  }

  datatype TrendRow = TrendRow(period: string, revenueCents: int)

  function TrendPeriod(r: TrendRow): string {
    r.period
  }

  function TrendRevenue(r: TrendRow): int {
    r.revenueCents
  }

  function TrendRows(gs: seq<Bucket<string, Sale>>): (r: seq<TrendRow>)
    ensures |r| == |gs|
    ensures forall i :: 0 <= i < |gs| ==> r[i] == TrendRow(gs[i].key, Total(gs[i].items, SaleCents))
  {
    if gs == [] then [] else [TrendRow(gs[0].key, Total(gs[0].items, SaleCents))] + TrendRows(gs[1..])
  }

  function PeriodOf(interval: string): Sale -> string {
    (s: Sale) => PeriodLabel(IntervalOf(interval), s.date)
  }

  /** The window's sales grouped by period, in increasing period order. */
  function TrendBuckets(sales: seq<Sale>, start: int, end: int, interval: string): seq<Bucket<string, Sale>> {
    SortByText(GroupBy(SalesIn(sales, start, end), PeriodOf(interval)), BucketKey)
  }

  /** `GROUP BY period ORDER BY period` over the window. */
  function RevenueTrend(sales: seq<Sale>, start: int, end: int, interval: string): seq<TrendRow> {
    TrendRows(TrendBuckets(sales, start, end, interval))
  }

  lemma TrendRowsTotal(gs: seq<Bucket<string, Sale>>)
    ensures Total(TrendRows(gs), TrendRevenue) == BucketsTotal(gs, SaleCents)
  {
    if gs != [] {
      TrendRowsTotal(gs[1..]);
      assert TrendRows(gs)[1..] == TrendRows(gs[1..]);
    }
  }

  function BucketRevenue(b: Bucket<string, Sale>): int {
    Total(b.items, SaleCents)
  }

  lemma BucketRevenueTotal(gs: seq<Bucket<string, Sale>>)
    ensures Total(gs, BucketRevenue) == BucketsTotal(gs, SaleCents)
  {
    if gs != [] {
      BucketRevenueTotal(gs[1..]);
    }
  }

  /** `row` is the revenue of exactly the sales of `w` in its period, and
      there is at least one. */
  predicate PeriodRowOf(w: seq<Sale>, period: Sale -> string, row: TrendRow) {
    && row.revenueCents == Total(Select(w, period, row.period), SaleCents)
    && Select(w, period, row.period) != []
  }

  /** Some row of `r` is for period `p`. */
  predicate ListsPeriod(r: seq<TrendRow>, p: string) {
    exists i :: 0 <= i < |r| && r[i].period == p
  }

  lemma TrendRowsFacts(w: seq<Sale>, period: Sale -> string, hs: seq<Bucket<string, Sale>>)
    requires IsGrouping(w, period, hs)
    requires forall i, j :: 0 <= i < j < |hs| ==> Text.LexLess(hs[i].key, hs[j].key)
    ensures var r := TrendRows(hs);
            && (forall i, j :: 0 <= i < j < |r| ==> Text.LexLess(r[i].period, r[j].period))
            && (forall i :: 0 <= i < |r| ==> PeriodRowOf(w, period, r[i]))
            && (forall j :: 0 <= j < |w| ==> ListsPeriod(r, period(w[j])))
  {
    var r := TrendRows(hs);
    forall i | 0 <= i < |r| ensures PeriodRowOf(w, period, r[i]) {
      assert hs[i].items == Select(w, period, hs[i].key);
    }
    forall j | 0 <= j < |w| ensures ListsPeriod(r, period(w[j])) {
      var i :| 0 <= i < |hs| && hs[i].key == period(w[j]);
      assert r[i].period == hs[i].key;
    }
  }

  /** The trend lists each period of the window once, in strictly increasing
      text order, with the revenue of exactly that period's sales; every
      sale's period is listed. */
  lemma RevenueTrendSpec(sales: seq<Sale>, start: int, end: int, interval: string)
    ensures var w := SalesIn(sales, start, end);
            var r := RevenueTrend(sales, start, end, interval);
            && (forall i, j :: 0 <= i < j < |r| ==> Text.LexLess(r[i].period, r[j].period))
            && (forall i :: 0 <= i < |r| ==> PeriodRowOf(w, PeriodOf(interval), r[i]))
            && (forall j :: 0 <= j < |w| ==> ListsPeriod(r, PeriodOf(interval)(w[j])))
  {
    var w := SalesIn(sales, start, end);
    GroupByOrdered(w, PeriodOf(interval));
    TrendRowsFacts(w, PeriodOf(interval), SortByText(GroupBy(w, PeriodOf(interval)), BucketKey));
  }

  /** The trend's revenues add up to the window's revenue. */
  lemma RevenueTrendTotal(sales: seq<Sale>, start: int, end: int, interval: string)
    ensures Total(RevenueTrend(sales, start, end, interval), TrendRevenue)
            == RevenueMetricsOf(sales, start, end).totalCents
  {
    var w := SalesIn(sales, start, end);
    var gs := GroupBy(w, PeriodOf(interval));
    var hs := SortByText(gs, BucketKey);
    TrendRowsTotal(hs);
    BucketRevenueTotal(hs);
    BucketRevenueTotal(gs);
    SortTotalByText(gs, BucketKey, BucketRevenue);
    GroupTotal(w, PeriodOf(interval), SaleCents);
  }

  // ---------------------------------------------------------------------
  // KPI summary

  datatype KpiSummary = KpiSummary(
    revenue: RevenueMetrics,
    topProducts: seq<ProductRow>,
    repeatCustomers: nat,
    periodStart: int,
    periodEnd: int)

  /** The summary over the last `daysBack` days ending at `now`: revenue
      metrics, the top five products and the repeat-customer count, all over
      the same window. */
  function KpiSummaryOf(sales: seq<Sale>, now: int, daysBack: int): (k: KpiSummary)
    ensures k.periodEnd == now && k.periodStart == DaysBefore(now, daysBack)
    ensures k.revenue == RevenueMetricsOf(sales, k.periodStart, k.periodEnd)
    ensures k.topProducts == TopProducts(sales, k.periodStart, k.periodEnd, 5)
    ensures k.repeatCustomers == CountRepeatCustomers(sales, k.periodStart, k.periodEnd)
    ensures |k.topProducts| <= 5
  {
    var start := DaysBefore(now, daysBack);
    KpiSummary(
      RevenueMetricsOf(sales, start, now),
      TopProducts(sales, start, now, 5),
      CountRepeatCustomers(sales, start, now),
      start, now)
  }

  /** The summary's parts describe one window: its sales are those the
      revenue metrics count; each listed product is among them, with its
      exact per-product figures; with non-negative amounts the listed
      products earn at most the window's revenue; and a repeat customer
      is a distinct customer identified in the window with several sales. */
  lemma KpiSummaryConsistent(sales: seq<Sale>, now: int, daysBack: int)
    requires forall s :: s in sales ==> s.amountCents >= 0
    ensures var k := KpiSummaryOf(sales, now, daysBack);
            var w := SalesIn(sales, k.periodStart, k.periodEnd);
            && k.revenue.salesCount == |w|
            && Total(k.topProducts, RowRevenue) <= k.revenue.totalCents
            && (forall i :: 0 <= i < |k.topProducts| ==> RowOfWindow(w, k.topProducts[i]))
            && k.repeatCustomers == |KeysWhere(IdentifiedSales(sales, k.periodStart, k.periodEnd), CustomerOf, Many)|
  {
    var start := DaysBefore(now, daysBack);
    TopProductsBounded(sales, start, now, 5);
    TopProductsRows(sales, start, now, 5);
    RepeatCustomersCount(sales, start, now);
  }
}

=== FILE: cache.dfy ===
/** The in-memory TTL cache: a map from keys to a value and an expiry
    instant, evicted lazily when a stale key is read. The clock is the
    explicit `now` (seconds) and MD5 is the parameter `digest`, the hex text
    of the hash of a string. */
module Cache {
  import opened Wrappers
  import opened Text
  import opened Seqs
  import opened Sorting

  /** `ttl_seconds` when the caller gives none. */
  const DefaultTtlSeconds: int := 300

  /** How many hex digits of the digest a key keeps. */
  const KeyDigestLength: nat := 8

  datatype Entry<V> = Entry(value: V, expiresAt: int)

  type Store<V> = map<string, Entry<V>>

  /** An entry is stale once `now` is strictly past its expiry, so the
      expiry instant itself still reads as a hit. */
  predicate Expired<V>(e: Entry<V>, now: int) {
    now > e.expiresAt
  }

  /** What `get` returns, with the store as it is afterwards. */
  datatype Lookup<V> = Lookup(value: Option<V>, store: Store<V>)

  // ---------------------------------------------------------------------
  // get / set / clear / stats

  /** `MemoryCache.get`: a live entry's value; nothing for an absent key;
      nothing for a stale key, which is removed. */
  function Get<V>(c: Store<V>, key: string, now: int): (r: Lookup<V>)
    ensures r.value.Some? <==> key in c && !Expired(c[key], now)
    ensures r.value.Some? ==> r.value.value == c[key].value
    ensures forall k :: k in r.store <==> k in c && (k != key || !Expired(c[k], now))
    ensures forall k :: k in r.store ==> r.store[k] == c[k]
  {
    if key !in c then Lookup(None, c)
    else if Expired(c[key], now) then Lookup(None, c - {key})
    else Lookup(Some(c[key].value), c)
  }

  /** `MemoryCache.set`: stores `value` under `key` until `now + ttl`,
      replacing any earlier entry for the key. */
  function Set<V>(c: Store<V>, key: string, value: V, ttl: int, now: int): (r: Store<V>)
    ensures r.Keys == c.Keys + {key}
    ensures r[key].value == value && r[key].expiresAt - now == ttl
    ensures forall k :: k in c && k != key ==> r[k] == c[k]
  {
    c[key := Entry(value, now + ttl)]
  }

  /** `MemoryCache.clear`. */
  function Clear<V>(c: Store<V>): (r: Store<V>)
    ensures |r| == 0
  {
    map[]
  }

  datatype CacheStats = CacheStats(totalKeys: nat, expiredKeys: nat)

  /** The keys whose entries are stale at `now`. */
  function StaleKeys<V>(c: Store<V>, now: int): set<string> {
    set k | k in c && Expired(c[k], now)
  }

  /** `MemoryCache.stats`: counts entries and stale entries without
      removing any; the stale ones are exactly the keys a `get` at the same
      instant would miss and evict. */
  function Stats<V>(c: Store<V>, now: int): (s: CacheStats)
    ensures s.totalKeys == |c|
    ensures s.expiredKeys <= s.totalKeys
    ensures s.expiredKeys == |set k | k in c && Get(c, k, now).value.None?|
  {
    var stale := StaleKeys(c, now);
    assert stale <= c.Keys;
    SubsetCard(stale, c.Keys);
    assert stale == set k | k in c && Get(c, k, now).value.None?;
    CacheStats(|c|, |stale|)
  }

  lemma {:induction false} SubsetCard<T>(a: set<T>, b: set<T>)
    requires a <= b
    ensures |a| <= |b|
    decreases |b|
  {
    if a != {} {
      var x :| x in a;
      SubsetCard(a - {x}, b - {x});
    }
  }

  /** After `set`, the key reads back the value up to and including its
      expiry instant, and misses after it. */
  lemma GetAfterSet<V>(c: Store<V>, key: string, value: V, ttl: int, now: int, later: int)
    ensures later <= now + ttl ==> Get(Set(c, key, value, ttl, now), key, later).value == Some(value)
    ensures later > now + ttl ==> Get(Set(c, key, value, ttl, now), key, later).value == None
  {
  }

  /** `set` on one key leaves every other key's reads as they were. */
  lemma GetAfterSetOther<V>(c: Store<V>, key: string, value: V, ttl: int, now: int, other: string, later: int)
    requires other != key
    ensures Get(Set(c, key, value, ttl, now), other, later).value == Get(c, other, later).value
  {
  }

  /** After `clear`, every key misses. */
  lemma GetAfterClear<V>(c: Store<V>, key: string, now: int)
    ensures Get(Clear(c), key, now).value == None
    ensures Stats(Clear(c), now) == CacheStats(0, 0)
  {
  }

  /** Reading a key twice at the same instant gives the same answer: a
      miss that evicts does not turn into a hit, and the second read
      changes nothing. */
  lemma GetTwice<V>(c: Store<V>, key: string, now: int)
    ensures var first := Get(c, key, now);
            var second := Get(first.store, key, now);
            second.value == first.value && second.store == first.store
  {
  }

  // ---------------------------------------------------------------------
  // Key derivation

  /** One keyword argument: its name and the JSON text of its value. The
      names are Python identifiers, so JSON writes them without escapes. */
  datatype Param = Param(name: string, json: string)

  function ParamName(p: Param): string {
    p.name
  }

  function PairTexts(ps: seq<Param>): (r: seq<string>)
    ensures |r| == |ps|
    ensures forall i :: 0 <= i < |ps| ==> r[i] == "[\"" + ps[i].name + "\", " + ps[i].json + "]"
  {
    if ps == [] then [] else ["[\"" + ps[0].name + "\", " + ps[0].json + "]"] + PairTexts(ps[1..])
  }

  function MemberTexts(ps: seq<Param>): (r: seq<string>)
    ensures |r| == |ps|
    ensures forall i :: 0 <= i < |ps| ==> r[i] == "\"" + ps[i].name + "\": " + ps[i].json
  {
    if ps == [] then [] else ["\"" + ps[0].name + "\": " + ps[0].json] + MemberTexts(ps[1..])
  }

  /** `json.dumps` of a list of `(name, value)` pairs: `[["a", 1], ["b", 2]]`. */
  function PairsJson(ps: seq<Param>): string {
    "[" + Join(PairTexts(ps), ", ") + "]"
  }

  /** `json.dumps(d, sort_keys=True)` of a dict. */
  function ObjectJson(ps: seq<Param>): string {
    "{" + Join(MemberTexts(SortByText(ps, ParamName)), ", ") + "}"
  }

  /** `json.dumps` of a tuple of values given as their JSON texts. */
  function ArrayJson(items: seq<string>): string {
    "[" + Join(items, ", ") + "]"
  }

  /** The text that is hashed: the parameters sorted by name and dumped. */
  function Canonical(params: seq<Param>): string {
    PairsJson(SortByText(params, ParamName))
  }

  /** `_generate_key`: the prefix, a colon, and the first eight hex digits
      of the digest of the canonical text. */
  function GenerateKey(prefix: string, params: seq<Param>, digest: string -> string): (key: string)
    ensures |prefix| < |key| <= |prefix| + 1 + KeyDigestLength
    ensures key[..|prefix| + 1] == prefix + ":"
    ensures |digest(Canonical(params))| >= KeyDigestLength ==> |key| == |prefix| + 1 + KeyDigestLength
    ensures var d := digest(Canonical(params));
            |key| - |prefix| - 1 <= |d| && key[|prefix| + 1..] == d[..|key| - |prefix| - 1]
  {
    prefix + ":" + Take(digest(Canonical(params)), KeyDigestLength)
  }

  /** The key does not depend on the order the keyword arguments were
      passed in (keyword names are distinct). */
  lemma GenerateKeyPermutation(prefix: string, p: seq<Param>, q: seq<Param>, digest: string -> string)
    requires DistinctBy(p, ParamName)
    requires multiset(p) == multiset(q)
    ensures GenerateKey(prefix, p, digest) == GenerateKey(prefix, q, digest)
  {
    var sp := SortByText(p, ParamName);
    var sq := SortByText(q, ParamName);
    PermutationDistinctBy(sp, p, ParamName);
    PermutationDistinctBy(q, p, ParamName);
    PermutationDistinctBy(sq, q, ParamName);
    SortedByTextUnique(sp, sq, ParamName);
  }

  /** Two prefixes without a colon give disjoint key spaces, whatever the
      parameters and the digest. */
  lemma PrefixesSeparateKeys(p1: string, p2: string, a: seq<Param>, b: seq<Param>, digest: string -> string)
    requires ':' !in p1 && ':' !in p2 && p1 != p2
    ensures GenerateKey(p1, a, digest) != GenerateKey(p2, b, digest)
  {
    var k1 := GenerateKey(p1, a, digest);
    var k2 := GenerateKey(p2, b, digest);
    if |p1| < |p2| {
      assert k1[|p1|] == ':' && k2[|p1|] == p2[|p1|];
    } else if |p2| < |p1| {
      assert k2[|p2|] == ':' && k1[|p2|] == p1[|p2|];
    } else {
      assert k1[..|p1|] == p1 && k2[..|p2|] == p2;
    }
  }

  // ---------------------------------------------------------------------
  // The cache-aside wrapper and invalidation

  /** The wrapper packs the call as two parameters, `args` and `kwargs`. */
  function WrapperParams(args: seq<string>, kwargs: seq<Param>): seq<Param> {
    [Param("args", ArrayJson(args)), Param("kwargs", ObjectJson(kwargs))]
  }

  function WrapperKey(prefix: string, args: seq<string>, kwargs: seq<Param>, digest: string -> string): string {
    GenerateKey(prefix, WrapperParams(args, kwargs), digest)
  }

  /** A wrapped call: what it returns, the store afterwards, and whether the
      wrapped function ran. Python's `None` is `None` here, so a cached
      `None` is stored as `Some(None)`. */
  datatype CallOutcome<W> = CallOutcome(result: Option<W>, store: Store<Option<W>>, calledF: bool)

  /** A live entry holding a value other than `None`. */
  predicate Hit<W>(c: Store<Option<W>>, key: string, now: int) {
    key in c && !Expired(c[key], now) && c[key].value.Some?
  }

  /** `cached(prefix, ttl)` applied to a function whose result for these
      arguments is `computed`: a hit returns the stored value without
      running the function; otherwise the function runs once and its
      result, even `None`, is stored for `ttl` seconds. */
  function CachedCall<W>(c: Store<Option<W>>, prefix: string, ttl: int, args: seq<string>, kwargs: seq<Param>,
                         digest: string -> string, now: int, computed: Option<W>): (o: CallOutcome<W>)
    ensures var key := WrapperKey(prefix, args, kwargs, digest);
            && (o.calledF <==> !Hit(c, key, now))
            && (!o.calledF ==> o.result == c[key].value && o.store == c)
            && (o.calledF ==> o.result == computed && key in o.store && o.store[key] == Entry(computed, now + ttl))
            && (forall k :: k != key ==> (k in o.store <==> k in c))
            && (forall k :: k in o.store && k != key ==> o.store[k] == c[k])
  {
    var key := WrapperKey(prefix, args, kwargs, digest);
    var got := Get(c, key, now);
    if got.value.Some? && got.value.value.Some? then CallOutcome(got.value.value, got.store, false)
    else CallOutcome(computed, Set(got.store, key, computed, ttl, now), true)
  }

  /** A second identical call within the time to live is served from the
      cache when the first result was a value, and recomputed when it was
      `None`. */
  lemma CachedCallTwice<W>(c: Store<Option<W>>, prefix: string, ttl: int, args: seq<string>, kwargs: seq<Param>,
                           digest: string -> string, now: int, later: int, computed: Option<W>, again: Option<W>)
    requires now <= later <= now + ttl
    ensures var first := CachedCall(c, prefix, ttl, args, kwargs, digest, now, computed);
            var second := CachedCall(first.store, prefix, ttl, args, kwargs, digest, later, again);
            && (first.calledF && computed.Some? ==> !second.calledF && second.result == computed)
            && (first.calledF && computed.None? ==> second.calledF && second.result == again)
  {
  }

  /** `cache_invalidate(prefix, **kwargs)`: removes the entry under the
      key derived from the keyword arguments themselves, if there is one. */
  function Invalidate<V>(c: Store<V>, prefix: string, kwargs: seq<Param>, digest: string -> string): (r: Store<V>)
    ensures r.Keys == c.Keys - {GenerateKey(prefix, kwargs, digest)}
    ensures forall k :: k in r ==> r[k] == c[k]
  {
    var key := GenerateKey(prefix, kwargs, digest);
    if key in c then c - {key} else c
  }

  /** A name followed by a closing quote determines the name. */
  lemma QuotedNameUnique(n: string, m: string, r1: string, r2: string)
    requires '"' !in n && '"' !in m
    requires n + "\"" + r1 == m + "\"" + r2
    ensures n == m
  {
    var x := n + "\"" + r1;
    assert x[..|n|] == n && x[|n|] == '"';
    assert x[..|m|] == m && x[|m|] == '"';
  }

  lemma JoinStartsWithFirst(parts: seq<string>, sep: string)
    requires |parts| >= 1
    ensures |Join(parts, sep)| >= |parts[0]| && Join(parts, sep)[..|parts[0]|] == parts[0]
  {
  }

  /** A prefix of a prefix. */
  lemma PrefixOfPrefix(a: string, b: string, k: nat)
    requires |b| <= |a| && a[..|b|] == b && k <= |b|
    ensures a[..k] == b[..k]
  {
  }

  /** The dump of a non-empty list of pairs opens with the first name,
      quoted. */
  lemma PairsJsonHead(sp: seq<Param>)
    requires sp != []
    ensures var n := sp[0].name;
            |PairsJson(sp)| >= 4 + |n| && PairsJson(sp)[..4 + |n|] == "[[\"" + n + "\""
  {
    var t := PairTexts(sp);
    var j := Join(t, ", ");
    JoinStartsWithFirst(t, ", ");
    var head := "[\"" + sp[0].name + "\"";
    assert t[0] == head + ", " + sp[0].json + "]";
    assert t[0][..|head|] == head;
    PrefixOfPrefix(j, t[0], |head|);
    BracketedPrefix(j, head);
  }

  lemma BracketedPrefix(j: string, head: string)
    requires |head| <= |j| && j[..|head|] == head
    ensures ("[" + j + "]")[..1 + |head|] == "[" + head
  {
  }

  /** The canonical text of non-empty parameters opens with the first
      name in order, quoted. */
  lemma CanonicalHead(ps: seq<Param>)
    requires ps != []
    ensures var sp := SortByText(ps, ParamName);
            var n := sp[0].name;
            |Canonical(ps)| >= 4 + |n| && Canonical(ps)[..4 + |n|] == "[[\"" + n + "\""
  {
    PairsJsonHead(SortByText(ps, ParamName));
  }

  /** The wrapper's canonical text always opens with `[["args"`. */
  lemma WrapperCanonicalHead(args: seq<string>, kw: seq<Param>)
    ensures var c := Canonical(WrapperParams(args, kw));
            |c| >= 8 && c[..8] == "[[\"args\""
  {
    var w := WrapperParams(args, kw);
    assert LexLess("args", "kwargs");
    SortByTextKeepsSorted(w, ParamName);
    CanonicalHead(w);
  }

  /** Texts opening with different quoted names differ. */
  lemma QuotedHeadsDiffer(c1: string, c2: string, n: string)
    requires |c1| >= 8 && c1[..8] == "[[\"args\""
    requires |c2| >= 4 + |n| && c2[..4 + |n|] == "[[\"" + n + "\""
    requires '"' !in n && n != "args"
    ensures c1 != c2
  {
    if c1 == c2 {
      assert "args" + "\"" + c1[8..] == c1[3..];
      assert n + "\"" + c2[4 + |n|..] == c2[3..];
      QuotedNameUnique("args", n, c1[8..], c2[4 + |n|..]);
    }
  }

  /** The text `cache_invalidate` hashes for keyword arguments none of
      which is named `args` is never the text the wrapper hashed for any
      call, so invalidation by the same keyword arguments cannot reach an
      entry the wrapper stored unless the digest prefixes collide. */
  lemma InvalidateTextDiffers(kwargs: seq<Param>, args: seq<string>, kw: seq<Param>)
    requires forall i :: 0 <= i < |kwargs| ==> kwargs[i].name != "args" && '"' !in kwargs[i].name
    ensures Canonical(kwargs) != Canonical(WrapperParams(args, kw))
  {
    WrapperCanonicalHead(args, kw);
    if kwargs == [] {
      assert Canonical(kwargs) == "[]";
    } else {
      var sk := SortByText(kwargs, ParamName);
      assert sk[0] in multiset(kwargs);
      CanonicalHead(kwargs);
      QuotedHeadsDiffer(Canonical(WrapperParams(args, kw)), Canonical(kwargs), sk[0].name);
    }
  }
}

=== FILE: calendar.dfy ===
/** Proleptic Gregorian calendar arithmetic on instants counted in seconds
    since 1970-01-01T00:00:00 UTC. It gives the texts the backend derives
    from a `datetime`: `isoformat()`, SQLite's `date()` and the `strftime`
    patterns `%Y-%W` and `%Y-%m` used to bucket revenue trends. */
module Calendar {
  import opened Text

  const SecondsPerDay: int := 86400

  datatype Civil = Civil(year: int, month: int, day: int)

  /** The instant `days` whole days before `now` (`now - timedelta(days=days)`). */
  function DaysBefore(now: int, days: int): int {
    now - days * SecondsPerDay
  }

  /** Days since 1970-01-01 of the UTC date containing instant `t`
      (floor division: Dafny's `/` rounds down for a positive divisor). */
  function DayNumber(t: int): int {
    t / SecondsPerDay
  }

  /** Year, month and day of day number `z` (civil-from-days). */
  function CivilFromDays(z: int): Civil {
    var z := z + 719468;
    var era := z / 146097;
    var doe := z - era * 146097;
    var yoe := (doe - doe / 1460 + doe / 36524 - doe / 146096) / 365;
    var doy := doe - (365 * yoe + yoe / 4 - yoe / 100);
    var mp := (5 * doy + 2) / 153;
    var d := doy - (153 * mp + 2) / 5 + 1;
    var m := if mp < 10 then mp + 3 else mp - 9;
    var y := yoe + era * 400;
    Civil(if m <= 2 then y + 1 else y, m, d)
  }

  /** Day number of a civil date (days-from-civil). */
  function DaysFromCivil(year: int, month: int, day: int): int {
    var y := if month <= 2 then year - 1 else year;
    var era := y / 400;
    var yoe := y - era * 400;
    var mp := if month > 2 then month - 3 else month + 9;
    var doy := (153 * mp + 2) / 5 + day - 1;
    var doe := yoe * 365 + yoe / 4 - yoe / 100 + doy;
    era * 146097 + doe - 719468
  }

  /** Day of the week, Monday = 0 (1970-01-01 was a Thursday). */
  function MondayWeekday(z: int): (r: int)
    ensures 0 <= r < 7
  {
    (z + 3) % 7
  }

  /** `%W`: the week of the year with weeks starting on Monday; the days
      before the year's first Monday are week 0. Not the ISO 8601 week. */
  function MondayWeekOfYear(z: int): int {
    var c := CivilFromDays(z);
    var yday := z - DaysFromCivil(c.year, 1, 1);
    (yday + 7 - MondayWeekday(z)) / 7
  }

  function Pad(n: int, width: nat): string {
    if n < 0 then "-" + PadNat(-n, width) else PadNat(n, width)
  }

  /** `datetime.isoformat()` of a whole-second instant: YYYY-MM-DDTHH:MM:SS. */
  function IsoFormat(t: int): string {
    var c := CivilFromDays(DayNumber(t));
    var s := t % SecondsPerDay;
    Pad(c.year, 4) + "-" + Pad(c.month, 2) + "-" + Pad(c.day, 2) + "T"
    + Pad(s / 3600, 2) + ":" + Pad(s % 3600 / 60, 2) + ":" + Pad(s % 60, 2)
  }

  /** SQLite `date(t)`: YYYY-MM-DD. */
  function DateLabel(t: int): string {
    var c := CivilFromDays(DayNumber(t));
    Pad(c.year, 4) + "-" + Pad(c.month, 2) + "-" + Pad(c.day, 2)
  }

  /** `strftime('%Y-%W', t)`. */
  function WeekLabel(t: int): string {
    var z := DayNumber(t);
    Pad(CivilFromDays(z).year, 4) + "-" + Pad(MondayWeekOfYear(z), 2)
  }

  /** `strftime('%Y-%m', t)`. */
  function MonthLabel(t: int): string {
    var c := CivilFromDays(DayNumber(t));
    Pad(c.year, 4) + "-" + Pad(c.month, 2)
  }
}

=== FILE: crud.dfy ===
/** The plain CRUD services over the `sales`, `expenses` and `customers`
    tables (`SalesService`, `ExpensesService`, `CustomersService`). None of
    them publishes events. Inputs are the schema-validated request bodies;
    the clock is `now`. */
module Crud {
  import opened Wrappers
  import opened Seqs
  import opened Sorting
  import opened Grouping
  import opened Records
  import opened Values
  import opened Tables

  /** A table after a write, and what the write returned. */
  datatype Written<T, R> = Written(table: seq<T>, result: R)

  /** A request rejected with `HTTPException(status, detail)`. */
  datatype HttpError = HttpError(status: nat, detail: string)

  function SaleId(s: Sale): int {
    s.id
  }

  function ExpenseId(e: Expense): int {
    e.id
  }

  function CustomerId(c: Customer): string {
    c.id
  }

  /** The key the database assigns to a new row: one more than any stored,
      and at least 1. */
  function NextId<T>(t: seq<T>, id: T -> int): (n: int)
    ensures n >= 1
    ensures forall i :: 0 <= i < |t| ==> id(t[i]) < n
  {
    if t == [] then 1
    else
      var rest := NextId(t[1..], id);
      assert forall i :: 1 <= i < |t| ==> t[i] == t[1..][i - 1];
      if id(t[0]) + 1 > rest then id(t[0]) + 1 else rest
  }

  lemma NextIdFresh<T>(t: seq<T>, id: T -> int)
    ensures Find(t, id, NextId(t, id)).None?
  {
  }

  // ---------------------------------------------------------------------
  // Shared query shapes

  /** The rows of `t` inside the optional inclusive window on `date`, in
      stored order: what the `WHERE` clause of a listing keeps. */
  function Window<T>(t: seq<T>, date: T -> int, start: Option<int>, end: Option<int>): (w: seq<T>)
    ensures forall x :: x in w ==> x in t && WithinOpt(date(x), start, end)
    ensures forall x :: x in t && WithinOpt(date(x), start, end) ==> x in w
    ensures start.None? && end.None? ==> w == t
  {
    var p := (x: T) => WithinOpt(date(x), start, end);
    if start.None? && end.None? then
      FilterKeepsAll(t, p);
      Filter(t, p)
    else Filter(t, p)
  }

  /** The optional window on `date`, `ORDER BY date DESC`, then
      `OFFSET skip LIMIT limit`. Rows on the same date keep stored order.
      The page is as long as the window allows, and a first page leaves
      out no row newer than one it lists. */
  function Listing<T>(t: seq<T>, date: T -> int, skip: nat, limit: nat, start: Option<int>, end: Option<int>): (r: seq<T>)
    ensures |r| <= limit
    ensures |r| == PageSize(|Window(t, date, start, end)|, skip, limit)
    ensures SortedDesc(r, date)
    ensures forall i :: 0 <= i < |r| ==> r[i] in t && WithinOpt(date(r[i]), start, end)
    ensures skip == 0 ==>
              forall x, i :: x in Window(t, date, start, end) && x !in r && 0 <= i < |r| ==> date(x) <= date(r[i])
  {
    var w := Window(t, date, start, end);
    var sorted := SortDesc(w, date);
    var r := Page(sorted, skip, limit);
    forall i | 0 <= i < |r| ensures r[i] in t && WithinOpt(date(r[i]), start, end) {
      assert r[i] == sorted[skip + i];
      assert r[i] in multiset(w);
    }
    if skip > 0 then r
    else
      TopOfSorted(w, date, limit);
      assert r == Take(sorted, limit);
      r
  }

  /** A first page as large as the window holds every row of the window,
      each as often as it is stored. */
  lemma ListingComplete<T>(t: seq<T>, date: T -> int, limit: nat, start: Option<int>, end: Option<int>)
    requires limit >= |t|
    ensures multiset(Listing(t, date, 0, limit, start, end))
            == multiset(Filter(t, (x: T) => WithinOpt(date(x), start, end)))
  {
    var w := Filter(t, (x: T) => WithinOpt(date(x), start, end));
    var sorted := SortDesc(w, date);
    assert Page(sorted, 0, limit) == sorted;
  }

  /** Paging is consistent: the first `skip` rows followed by the next
      `limit` rows are the first `skip + limit` rows. */
  lemma ListingSplit<T>(t: seq<T>, date: T -> int, skip: nat, limit: nat, start: Option<int>, end: Option<int>)
    ensures Listing(t, date, 0, skip, start, end) + Listing(t, date, skip, limit, start, end)
            == Listing(t, date, 0, skip + limit, start, end)
  {
    PageSplit(SortDesc(Window(t, date, start, end), date), skip, limit);
  }

  /** `update_*`: `None` for an absent key, the table unchanged; otherwise
      the row found becomes `change(row)`. */
  function UpdateBy<T(!new), K(==)>(t: seq<T>, key: T -> K, k: K, change: T -> T): (r: Written<T, Option<T>>)
    requires forall x :: key(change(x)) == key(x)
    ensures Find(t, key, k).None? ==> r == Written(t, None)
    ensures Find(t, key, k).Some? ==>
              && r.result == Some(change(Find(t, key, k).value))
              && Find(r.table, key, k) == r.result
              && |r.table| == |t|
              && (forall j :: 0 <= j < |t| && j != Position(t, key, k) ==> r.table[j] == t[j])
  {
    match Find(t, key, k)
    case None => Written(t, None)
    case Some(row) =>
      FindReplaced(t, key, k, change(row));
      Written(Replace(t, key, k, change(row)), Some(change(row)))
  }

  /** `delete_*`: `False` for an absent key, the table unchanged; otherwise
      the row found is removed. */
  function DeleteBy<T, K(==)>(t: seq<T>, key: T -> K, k: K): (r: Written<T, bool>)
    ensures r.result <==> Find(t, key, k).Some?
    ensures !r.result ==> r.table == t
    ensures r.result ==> |r.table| == |t| - 1
    ensures DistinctBy(t, key) ==> Find(r.table, key, k).None? && DistinctBy(r.table, key)
  {
    FindRemoved(t, key, k);
    Written(Remove(t, key, k), Find(t, key, k).Some?)
  }

  // ---------------------------------------------------------------------
  // SalesService

  datatype SaleInput = SaleInput(
    date: int,
    productName: string,
    amount: real,
    customerId: Option<string>,
    category: Option<string>)

  /** The fields a `SaleUpdate` body sets. A field left out of the body is
      `None`; a field sent as `null` is `Some(None)`, because
      `dict(exclude_unset=True)` keeps it. */
  datatype SalePatch = SalePatch(
    date: Option<Option<int>>,
    productName: Option<Option<string>>,
    amount: Option<Option<real>>,
    customerId: Option<Option<string>>,
    category: Option<Option<string>>)

  /** Why an update is refused: `None * 100` raises a `TypeError` before
      any field is set, or the commit writes `NULL` into a `NOT NULL`
      column (named as SQLite names it). */
  datatype UpdateCause = NoneTimesHundred | NotNull(column: string)

  /** An update rejected with `HTTPException(status, context + str(cause))`,
      after the session is rolled back. */
  datatype UpdateError = UpdateError(status: nat, context: string, cause: UpdateCause)

  /** A patch field other than an explicit `null`. */
  predicate NotNullField<T>(f: Option<Option<T>>) {
    f != Some(None)
  }

  /** The value a column holds after a patch field that is not `null`: the
      supplied value, or the old one when the field was left out. */
  function Given<T>(f: Option<Option<T>>, prior: T): T
    requires NotNullField(f)
  {
    if f.Some? then f.value.value else prior
  }

  /** `int(amount * 100)`: dollars to cents, truncated. */
  function Cents(amount: real): int {
    Trunc(amount * 100.0)
  }

  /** `create_sale`: a new row under the next key, amount in cents, created
      now. */
  function CreateSale(t: seq<Sale>, input: SaleInput, now: int): (r: Written<Sale, Sale>)
    ensures r.table == t + [r.result]
    ensures Find(t, SaleId, r.result.id).None?
    ensures Find(r.table, SaleId, r.result.id) == Some(r.result)
    ensures r.result.amountCents == Cents(input.amount) && r.result.createdAt == now
    ensures r.result.date == input.date && r.result.productName == input.productName
    ensures r.result.customerId == input.customerId && r.result.category == input.category
  {
    var s := Sale(NextId(t, SaleId), input.date, input.productName, Cents(input.amount),
                  input.customerId, input.category, now);
    FindAppended(t, SaleId, s);
    Written(t + [s], s)
  }

  /** `get_sale`. */
  function GetSale(t: seq<Sale>, id: int): (r: Option<Sale>)
    ensures r.Some? <==> exists i :: 0 <= i < |t| && t[i].id == id
    ensures r.Some? ==> r.value in t && r.value.id == id
  {
    Find(t, SaleId, id)
  }

  /** `get_sales`: the optional inclusive window, newest first, paged. */
  function GetSales(t: seq<Sale>, skip: nat, limit: nat, start: Option<int>, end: Option<int>): (r: seq<Sale>)
    ensures |r| <= limit
    ensures |r| == PageSize(|Window(t, SaleDate, start, end)|, skip, limit)
    ensures SortedDesc(r, SaleDate)
    ensures forall i :: 0 <= i < |r| ==> r[i] in t && WithinOpt(r[i].date, start, end)
    ensures skip == 0 ==>
              forall x, i :: x in t && WithinOpt(x.date, start, end) && x !in r && 0 <= i < |r| ==> x.date <= r[i].date
  {
    Listing(t, SaleDate, skip, limit, start, end)
  }

  /** Consecutive pages of `get_sales` are the page that spans both. */
  lemma GetSalesSplit(t: seq<Sale>, skip: nat, limit: nat, start: Option<int>, end: Option<int>)
    ensures GetSales(t, 0, skip, start, end) + GetSales(t, skip, limit, start, end) == GetSales(t, 0, skip + limit, start, end)
  {
    ListingSplit(t, SaleDate, skip, limit, start, end);
  }

  /** The supplied fields of `p` over `s`, `amount` as cents. A `null`
      amount fails first, at the multiplication; then a `null` date or
      product name fails the commit, the date column coming first. The
      nullable customer id and category take a `null` as is. */
  function PatchSale(s: Sale, p: SalePatch): (r: Result<Sale, UpdateCause>)
    ensures r.Success? <==> NotNullField(p.amount) && NotNullField(p.date) && NotNullField(p.productName)
    ensures !NotNullField(p.amount) ==> r == Failure(NoneTimesHundred)
    ensures NotNullField(p.amount) && !NotNullField(p.date) ==> r == Failure(NotNull("sales.date"))
    ensures NotNullField(p.amount) && NotNullField(p.date) && !NotNullField(p.productName)
            ==> r == Failure(NotNull("sales.product_name"))
    ensures r.Success? ==>
              && r.value.id == s.id && r.value.createdAt == s.createdAt
              && r.value.date == Given(p.date, s.date)
              && r.value.productName == Given(p.productName, s.productName)
              && r.value.amountCents == (if p.amount.Some? then Cents(p.amount.value.value) else s.amountCents)
              && r.value.customerId == p.customerId.GetOr(s.customerId)
              && r.value.category == p.category.GetOr(s.category)
  {
    if p.amount == Some(None) then Failure(NoneTimesHundred)
    else if p.date == Some(None) then Failure(NotNull("sales.date"))
    else if p.productName == Some(None) then Failure(NotNull("sales.product_name"))
    else
      Success(Sale(s.id, Given(p.date, s.date), Given(p.productName, s.productName),
                   if p.amount.Some? then Cents(p.amount.value.value) else s.amountCents,
                   p.customerId.GetOr(s.customerId), p.category.GetOr(s.category), s.createdAt))
  }

  /** Applying an update twice is applying it once; an empty update changes
      nothing. */
  lemma PatchSaleIdempotent(s: Sale, p: SalePatch)
    ensures PatchSale(s, p).Success? ==> PatchSale(PatchSale(s, p).value, p) == PatchSale(s, p)
    ensures PatchSale(s, SalePatch(None, None, None, None, None)) == Success(s)
  {
  }

  /** `update_sale`: `None` for an absent id, the table unchanged; a patch
      the row cannot take is a 400 and the rollback leaves the table as it
      was; otherwise the row found becomes the patched row and no other row
      changes. */
  function UpdateSale(t: seq<Sale>, id: int, p: SalePatch): (r: Result<Written<Sale, Option<Sale>>, UpdateError>)
    ensures GetSale(t, id).None? ==> r == Success(Written(t, None))
    ensures GetSale(t, id).Some? ==> (r.Failure? <==> PatchSale(GetSale(t, id).value, p).Failure?)
    ensures r.Failure? ==>
              GetSale(t, id).Some? && r.error == UpdateError(400, "Error updating sale: ", PatchSale(GetSale(t, id).value, p).error)
    ensures r.Success? && GetSale(t, id).Some? ==>
              && r.value.result == Some(PatchSale(GetSale(t, id).value, p).value)
              && GetSale(r.value.table, id) == r.value.result
              && |r.value.table| == |t|
              && (forall j :: 0 <= j < |t| && j != Position(t, SaleId, id) ==> r.value.table[j] == t[j])
  {
    match GetSale(t, id)
    case None => Success(Written(t, None))
    case Some(row) =>
      match PatchSale(row, p)
      case Failure(c) => Failure(UpdateError(400, "Error updating sale: ", c))
      case Success(n) =>
        FindReplaced(t, SaleId, id, n);
        Success(Written(Replace(t, SaleId, id, n), Some(n)))
  }

  /** `delete_sale`. */
  function DeleteSale(t: seq<Sale>, id: int): (r: Written<Sale, bool>)
    ensures r.result <==> GetSale(t, id).Some?
    ensures !r.result ==> r.table == t
    ensures DistinctBy(t, SaleId) ==> GetSale(r.table, id).None?
  {
    DeleteBy(t, SaleId, id)
  }

  // ---------------------------------------------------------------------
  // ExpensesService

  datatype ExpenseInput = ExpenseInput(date: int, description: string, amount: real, category: Option<string>)

  /** The fields an `ExpenseUpdate` body sets, with `null` kept as for
      sales. */
  datatype ExpensePatch = ExpensePatch(
    date: Option<Option<int>>,
    description: Option<Option<string>>,
    amount: Option<Option<real>>,
    category: Option<Option<string>>)

  /** `create_expense`. */
  function CreateExpense(t: seq<Expense>, input: ExpenseInput, now: int): (r: Written<Expense, Expense>)
    ensures r.table == t + [r.result]
    ensures Find(t, ExpenseId, r.result.id).None?
    ensures r.result.amountCents == Cents(input.amount) && r.result.createdAt == now
    ensures r.result.date == input.date && r.result.description == input.description
    ensures r.result.category == input.category
  {
    var e := Expense(NextId(t, ExpenseId), input.date, input.description, Cents(input.amount), input.category, now);
    Written(t + [e], e)
  }

  /** `get_expense`. */
  function GetExpense(t: seq<Expense>, id: int): (r: Option<Expense>)
    ensures r.Some? <==> exists i :: 0 <= i < |t| && t[i].id == id
    ensures r.Some? ==> r.value in t && r.value.id == id
  {
    Find(t, ExpenseId, id)
  }

  /** `get_expenses`: the optional inclusive window, newest first, paged. */
  function GetExpenses(t: seq<Expense>, skip: nat, limit: nat, start: Option<int>, end: Option<int>): (r: seq<Expense>)
    ensures |r| <= limit
    ensures |r| == PageSize(|Window(t, ExpenseDate, start, end)|, skip, limit)
    ensures SortedDesc(r, ExpenseDate)
    ensures forall i :: 0 <= i < |r| ==> r[i] in t && WithinOpt(r[i].date, start, end)
    ensures skip == 0 ==>
              forall x, i :: x in t && WithinOpt(x.date, start, end) && x !in r && 0 <= i < |r| ==> x.date <= r[i].date
  {
    Listing(t, ExpenseDate, skip, limit, start, end)
  }

  /** Consecutive pages of `get_expenses` are the page that spans both. */
  lemma GetExpensesSplit(t: seq<Expense>, skip: nat, limit: nat, start: Option<int>, end: Option<int>)
    ensures GetExpenses(t, 0, skip, start, end) + GetExpenses(t, skip, limit, start, end) == GetExpenses(t, 0, skip + limit, start, end)
  {
    ListingSplit(t, ExpenseDate, skip, limit, start, end);
  }

  /** The supplied fields of `p` over `e`: a `null` amount fails at the
      multiplication, then a `null` date or description fails the commit. */
  function PatchExpense(e: Expense, p: ExpensePatch): (r: Result<Expense, UpdateCause>)
    ensures r.Success? <==> NotNullField(p.amount) && NotNullField(p.date) && NotNullField(p.description)
    ensures !NotNullField(p.amount) ==> r == Failure(NoneTimesHundred)
    ensures NotNullField(p.amount) && !NotNullField(p.date) ==> r == Failure(NotNull("expenses.date"))
    ensures NotNullField(p.amount) && NotNullField(p.date) && !NotNullField(p.description)
            ==> r == Failure(NotNull("expenses.description"))
    ensures r.Success? ==>
              && r.value.id == e.id && r.value.createdAt == e.createdAt
              && r.value.date == Given(p.date, e.date)
              && r.value.description == Given(p.description, e.description)
              && r.value.amountCents == (if p.amount.Some? then Cents(p.amount.value.value) else e.amountCents)
              && r.value.category == p.category.GetOr(e.category)
  {
    if p.amount == Some(None) then Failure(NoneTimesHundred)
    else if p.date == Some(None) then Failure(NotNull("expenses.date"))
    else if p.description == Some(None) then Failure(NotNull("expenses.description"))
    else
      Success(Expense(e.id, Given(p.date, e.date), Given(p.description, e.description),
                      if p.amount.Some? then Cents(p.amount.value.value) else e.amountCents,
                      p.category.GetOr(e.category), e.createdAt))
  }

  /** `update_expense`, shaped as `update_sale`. */
  function UpdateExpense(t: seq<Expense>, id: int, p: ExpensePatch): (r: Result<Written<Expense, Option<Expense>>, UpdateError>)
    ensures GetExpense(t, id).None? ==> r == Success(Written(t, None))
    ensures GetExpense(t, id).Some? ==> (r.Failure? <==> PatchExpense(GetExpense(t, id).value, p).Failure?)
    ensures r.Failure? ==>
              GetExpense(t, id).Some? && r.error == UpdateError(400, "Error updating expense: ", PatchExpense(GetExpense(t, id).value, p).error)
    ensures r.Success? && GetExpense(t, id).Some? ==>
              && r.value.result == Some(PatchExpense(GetExpense(t, id).value, p).value)
              && GetExpense(r.value.table, id) == r.value.result
              && |r.value.table| == |t|
              && (forall j :: 0 <= j < |t| && j != Position(t, ExpenseId, id) ==> r.value.table[j] == t[j])
  {
    match GetExpense(t, id)
    case None => Success(Written(t, None))
    case Some(row) =>
      match PatchExpense(row, p)
      case Failure(c) => Failure(UpdateError(400, "Error updating expense: ", c))
      case Success(n) =>
        FindReplaced(t, ExpenseId, id, n);
        Success(Written(Replace(t, ExpenseId, id, n), Some(n)))
  }

  /** Applying an expense update twice is applying it once. */
  lemma PatchExpenseIdempotent(e: Expense, p: ExpensePatch)
    ensures PatchExpense(e, p).Success? ==> PatchExpense(PatchExpense(e, p).value, p) == PatchExpense(e, p)
    ensures PatchExpense(e, ExpensePatch(None, None, None, None)) == Success(e)
  {
  }

  /** `delete_expense`. */
  function DeleteExpense(t: seq<Expense>, id: int): (r: Written<Expense, bool>)
    ensures r.result <==> GetExpense(t, id).Some?
    ensures !r.result ==> r.table == t
    ensures DistinctBy(t, ExpenseId) ==> GetExpense(r.table, id).None?
  {
    DeleteBy(t, ExpenseId, id)
  }

  // ---------------------------------------------------------------------
  // Expenses by category

  /** The expenses dated within `[start, end]`. */
  function ExpensesIn(t: seq<Expense>, start: int, end: int): seq<Expense> {
    Filter(t, (e: Expense) => Within(e.date, start, end))
  }

  /** The buckets re-keyed by the label their category is shown under. */
  function Labelled(gs: seq<Bucket<Option<string>, Expense>>): (r: seq<Bucket<string, Expense>>)
    ensures |r| == |gs|
    ensures forall i :: 0 <= i < |gs| ==> r[i] == Bucket(CategoryLabel(gs[i].key), gs[i].items)
  {
    if gs == [] then [] else [Bucket(CategoryLabel(gs[0].key), gs[0].items)] + Labelled(gs[1..])
  }

  /** `get_expenses_by_category` as written: per-category sums (in cents)
      over the inclusive window, built into a dictionary keyed by label. A
      real category named "Uncategorized", the empty category and the
      expenses without a category share a label, and one sum overwrites
      the other. */
  function ByCategoryAsWritten(t: seq<Expense>, start: int, end: int): map<string, int> {
    BucketTotals(Labelled(GroupBy(ExpensesIn(t, start, end), CategoryOf)), ExpenseCents)
  }

  /** An expense without a category, or with the empty one, and one in a
      category named "Uncategorized", both in the window. */
  predicate Colliding(a: Expense, b: Expense, start: int, end: int) {
    && (a.category.None? || a.category == Some("")) && b.category == Some("Uncategorized")
    && Within(a.date, start, end) && Within(b.date, start, end)
  }

  lemma CollidingGroups(a: Expense, b: Expense)
    requires a.category != b.category
    ensures GroupBy([a, b], CategoryOf) == [Bucket(a.category, [a]), Bucket(b.category, [b])]
  {
    assert [a, b][..1] == [a];
    assert [a][..0] == [];
  }

  lemma ExpensesInKeepsAll(t: seq<Expense>, start: int, end: int)
    requires forall i :: 0 <= i < |t| ==> Within(t[i].date, start, end)
    ensures ExpensesIn(t, start, end) == t
  {
    FilterKeepsAll(t, (e: Expense) => Within(e.date, start, end));
  }

  lemma CollidingLabels(a: Expense, b: Expense, start: int, end: int)
    requires Colliding(a, b, start, end)
    ensures Labelled(GroupBy(ExpensesIn([a, b], start, end), CategoryOf))
            == [Bucket("Uncategorized", [a]), Bucket("Uncategorized", [b])]
  {
    ExpensesInKeepsAll([a, b], start, end);
    CollidingGroups(a, b);
  }

  lemma BucketTotalsPair<T>(x: Bucket<string, T>, y: Bucket<string, T>, w: T -> int)
    ensures BucketTotals([x, y], w) == map[x.key := Total(x.items, w)][y.key := Total(y.items, w)]
  {
    assert [x, y][..1] == [x];
    assert [x][..0] == [];
  }

  /** The discrepancy: with an expense without a category (or with the
      empty one) and one under "Uncategorized", the dictionary shows only
      the second amount while the window holds both. */
  lemma ByCategoryLosesUncategorized(a: Expense, b: Expense, start: int, end: int)
    requires Colliding(a, b, start, end)
    ensures ByCategoryAsWritten([a, b], start, end) == map["Uncategorized" := b.amountCents]
    ensures Total(ExpensesIn([a, b], start, end), ExpenseCents) == a.amountCents + b.amountCents
  {
    var u := "Uncategorized";
    CollidingLabels(a, b, start, end);
    BucketTotalsPair(Bucket(u, [a]), Bucket(u, [b]), ExpenseCents);
    assert Total([b], ExpenseCents) == b.amountCents;
    MapOverwrite(u, Total([a], ExpenseCents), b.amountCents);
    CollidingWindow(a, b, start, end);
    TotalOfPair(a, b, ExpenseCents);
  }

  lemma MapOverwrite<K, V>(k: K, x: V, y: V)
    ensures map[k := x][k := y] == map[k := y]
  {
  }

  lemma CollidingWindow(a: Expense, b: Expense, start: int, end: int)
    requires Colliding(a, b, start, end)
    ensures ExpensesIn([a, b], start, end) == [a, b]
  {
    var t := [a, b];
    assert t[0] == a && t[1] == b;
    ExpensesInKeepsAll(t, start, end);
  }

  lemma TotalOfPair<T>(a: T, b: T, w: T -> int)
    ensures Total([a, b], w) == w(a) + w(b)
  {
    assert [a, b][1..] == [b];
    assert [b][1..] == [];
    assert Total([b], w) == w(b) + Total([], w);
  }

  /** The corrected dictionary keeps both amounts under the shared label. */
  lemma ByCategoryKeepsUncategorized(a: Expense, b: Expense, start: int, end: int)
    requires Colliding(a, b, start, end)
    ensures ByCategory([a, b], start, end) == map["Uncategorized" := a.amountCents + b.amountCents]
  {
    var t := [a, b];
    CollidingWindow(a, b, start, end);
    CollidingLabelled(a, b, start, end);
    assert t[0] == a && t[1] == b;
    TotalOfPair(a, b, ExpenseCents);
    assert Total(t, ExpenseCents) == a.amountCents + b.amountCents;
    ByCategorySingleLabel(t, start, end, "Uncategorized");
  }

  /** A window whose expenses all carry one label gives one entry, holding
      the window's total. */
  lemma ByCategorySingleLabel(t: seq<Expense>, start: int, end: int, u: string)
    requires ExpensesIn(t, start, end) == t && t != []
    requires forall i :: 0 <= i < |t| ==> LabelOf(t[i]) == u
    ensures ByCategory(t, start, end) == map[u := Total(t, ExpenseCents)]
  {
    var m := ByCategory(t, start, end);
    assert LabelOf(t[0]) == u;
    forall l | l in m ensures l == u {
      var i :| 0 <= i < |t| && LabelOf(t[i]) == l;
    }
    SelectAll(t, LabelOf, u);
    SingletonMap(m, u, Total(t, ExpenseCents));
  }

  lemma CollidingLabelled(a: Expense, b: Expense, start: int, end: int)
    requires Colliding(a, b, start, end)
    ensures LabelOf(a) == "Uncategorized" && LabelOf(b) == "Uncategorized"
  {
  }

  lemma SingletonMap<K, V>(m: map<K, V>, k: K, v: V)
    requires k in m && m[k] == v
    requires forall l :: l in m ==> l == k
    ensures m == map[k := v]
  {
  }

  function LabelOf(e: Expense): string {
    CategoryLabel(e.category)
  }

  /** The corrected dictionary: each label maps to the sum of all window
      expenses shown under it. */
  function ByCategory(t: seq<Expense>, start: int, end: int): (m: map<string, int>)
    ensures forall l :: l in m <==> exists i :: 0 <= i < |ExpensesIn(t, start, end)| && LabelOf(ExpensesIn(t, start, end)[i]) == l
    ensures forall l :: l in m ==> m[l] == Total(Select(ExpensesIn(t, start, end), LabelOf, l), ExpenseCents)
  {
    var w := ExpensesIn(t, start, end);
    var gs := GroupBy(w, LabelOf);
    BucketTotalsDistinct(gs, ExpenseCents);
    var m := BucketTotals(gs, ExpenseCents);
    forall l | l in m ensures m[l] == Total(Select(w, LabelOf, l), ExpenseCents) {
      var i :| 0 <= i < |gs| && gs[i].key == l;
    }
    forall l | (exists i :: 0 <= i < |w| && LabelOf(w[i]) == l) ensures l in m {
      var i :| 0 <= i < |w| && LabelOf(w[i]) == l;
      assert HasKey(gs, LabelOf(w[i]));
    }
    forall l | l in m ensures exists i :: 0 <= i < |w| && LabelOf(w[i]) == l {
      var i :| 0 <= i < |gs| && gs[i].key == l;
      assert Select(w, LabelOf, l) != [];
    }
    m
  }

  // ---------------------------------------------------------------------
  // CustomersService

  datatype CustomerInput = CustomerInput(id: string, name: Option<string>, email: Option<string>)

  datatype CustomerPatch = CustomerPatch(name: Option<Option<string>>, email: Option<Option<string>>)

  /** `get_customer`. */
  function GetCustomer(t: seq<Customer>, id: string): (r: Option<Customer>)
    ensures r.Some? <==> exists i :: 0 <= i < |t| && t[i].id == id
    ensures r.Some? ==> r.value in t && r.value.id == id
  {
    Find(t, CustomerId, id)
  }

  /** `create_customer`: a stored id is refused with a 400 and the table is
      left alone; otherwise exactly `{id, name, email}` is inserted. */
  function CreateCustomer(t: seq<Customer>, input: CustomerInput, now: int): (r: Result<Written<Customer, Customer>, HttpError>)
    ensures r.Failure? <==> GetCustomer(t, input.id).Some?
    ensures r.Failure? ==> r.error == HttpError(400, "Customer ID already exists")
    ensures r.Success? ==>
              && r.value.result == Customer(input.id, input.name, input.email, now)
              && r.value.table == t + [r.value.result]
              && GetCustomer(r.value.table, input.id) == Some(r.value.result)
    ensures r.Success? && DistinctBy(t, CustomerId) ==> DistinctBy(r.value.table, CustomerId)
  {
    if GetCustomer(t, input.id).Some? then Failure(HttpError(400, "Customer ID already exists"))
    else
      var c := Customer(input.id, input.name, input.email, now);
      FindAppended(t, CustomerId, c);
      Success(Written(t + [c], c))
  }

  /** `get_customers`: newest first, paged. */
  function GetCustomers(t: seq<Customer>, skip: nat, limit: nat): (r: seq<Customer>)
    ensures |r| <= limit
    ensures |r| == PageSize(|t|, skip, limit)
    ensures SortedDesc(r, CustomerCreatedAt)
    ensures forall i :: 0 <= i < |r| ==> r[i] in t
    ensures skip == 0 ==> forall x, i :: x in t && x !in r && 0 <= i < |r| ==> x.createdAt <= r[i].createdAt
  {
    Listing(t, CustomerCreatedAt, skip, limit, None, None)
  }

  /** Consecutive pages of `get_customers` are the page that spans both. */
  lemma GetCustomersSplit(t: seq<Customer>, skip: nat, limit: nat)
    ensures GetCustomers(t, 0, skip) + GetCustomers(t, skip, limit) == GetCustomers(t, 0, skip + limit)
  {
    ListingSplit(t, CustomerCreatedAt, skip, limit, None, None);
  }

  function PatchCustomer(c: Customer, p: CustomerPatch): (r: Customer)
    ensures r.id == c.id && r.createdAt == c.createdAt
    ensures r.name == p.name.GetOr(c.name) && r.email == p.email.GetOr(c.email)
  {
    Customer(c.id, p.name.GetOr(c.name), p.email.GetOr(c.email), c.createdAt)
  }

  /** `update_customer`. */
  function UpdateCustomer(t: seq<Customer>, id: string, p: CustomerPatch): (r: Written<Customer, Option<Customer>>)
    ensures GetCustomer(t, id).None? ==> r == Written(t, None)
    ensures GetCustomer(t, id).Some? ==>
              r.result == Some(PatchCustomer(GetCustomer(t, id).value, p)) && GetCustomer(r.table, id) == r.result
  {
    UpdateBy(t, CustomerId, id, (c: Customer) => PatchCustomer(c, p))
  }

  /** `delete_customer`. */
  function DeleteCustomer(t: seq<Customer>, id: string): (r: Written<Customer, bool>)
    ensures r.result <==> GetCustomer(t, id).Some?
    ensures !r.result ==> r.table == t
    ensures DistinctBy(t, CustomerId) ==> GetCustomer(r.table, id).None?
  {
    DeleteBy(t, CustomerId, id)
  }

  /** A created customer is refused a second time. */
  lemma CreateCustomerTwice(t: seq<Customer>, input: CustomerInput, now: int, later: int)
    requires CreateCustomer(t, input, now).Success?
    ensures CreateCustomer(CreateCustomer(t, input, now).value.table, input, later).Failure?
  {
  }
}

=== FILE: csv_upload.dfy ===
/** `CSVUploadService`: the three uploads (sales, customers, expenses). Each
    checks the required columns, converts every row, and stores nothing when
    any row fails to convert; otherwise it creates the rows one by one
    through the entity's service. The parse of the file and pandas'
    conversions (`to_datetime`, `float`) are inputs. */
module CsvUpload {
  import opened Wrappers
  import opened Text
  import opened Values
  import opened Frames
  import opened Records
  import Crud
  import Services

  const SaleColumns: seq<string> := ["date", "product_name", "amount"]
  const CustomerColumns: seq<string> := ["id", "name"]
  const ExpenseColumns: seq<string> := ["date", "description", "amount"]

  /** `pd.to_datetime` and `float` on a cell's text; each returns the
      message of the exception it raises. */
  datatype Converters = Converters(
    toDatetime: string -> Result<int, string>,
    toFloat: string -> Result<PyFloat, string>)

  // ---------------------------------------------------------------------
  // Columns

  /** Python's `repr` of a list of column names. */
  function ListRepr(names: seq<string>): string {
    "[" + Join(Quoted(names), ", ") + "]"
  }

  function Quoted(names: seq<string>): (r: seq<string>)
    ensures |r| == |names|
    ensures forall i :: 0 <= i < |names| ==> r[i] == "'" + names[i] + "'"
  {
    if names == [] then [] else ["'" + names[0] + "'"] + Quoted(names[1..])
  }

  /** `_validate_columns`: a `ValueError` naming every missing column, in
      the order of the required list. */
  function ValidateColumns(columns: seq<string>, required: seq<string>): (r: Result<(), string>)
    ensures r.Success? <==> forall c :: c in required ==> c in columns
    ensures r.Failure? ==> r.error == "Missing required columns: " + ListRepr(Missing(columns, required))
  {
    var m := Missing(columns, required);
    if m == [] then Success(())
    else
      assert m[0] in required && m[0] !in columns;
      Failure("Missing required columns: " + ListRepr(m))
  }

  // ---------------------------------------------------------------------
  // Row conversion

  /** The rows that converted and the `Row {index + 1}: ...` messages of
      those that did not. */
  datatype Prepared<D> = Prepared(items: seq<D>, errors: seq<string>)

  /** The message for a row; pandas numbers rows from 0. */
  function RowError(index: nat, message: string): string {
    "Row " + NatToString(index + 1) + ": " + message
  }

  /** The conversion loop: every row is tried, the first failure does not
      stop it. */
  function Prepare<D>(rows: seq<FrameRow>, convert: FrameRow -> Result<D, string>): (r: Prepared<D>)
    ensures |r.items| + |r.errors| == |rows|
    ensures r.errors == [] <==> forall i :: 0 <= i < |rows| ==> convert(rows[i]).Success?
    ensures r.errors == [] ==> forall i :: 0 <= i < |rows| ==> r.items[i] == convert(rows[i]).value
    decreases |rows|
  {
    if rows == [] then Prepared([], [])
    else
      var n := |rows| - 1;
      var pre := Prepare(rows[..n], convert);
      assert forall i :: 0 <= i < n ==> rows[..n][i] == rows[i];
      match convert(rows[n])
      case Success(d) => Prepared(pre.items + [d], pre.errors)
      case Failure(m) => Prepared(pre.items, pre.errors + [RowError(n, m)])
  }

  /** When exactly one row fails to convert, its message is the only one,
      numbered after its position. */
  lemma {:induction false} PrepareOneBadRow<D>(rows: seq<FrameRow>, convert: FrameRow -> Result<D, string>, k: nat)
    requires k < |rows| && convert(rows[k]).Failure?
    requires forall i :: 0 <= i < |rows| && i != k ==> convert(rows[i]).Success?
    ensures Prepare(rows, convert).errors == [RowError(k, convert(rows[k]).error)]
    ensures |Prepare(rows, convert).items| == |rows| - 1
    decreases |rows|
  {
    var n := |rows| - 1;
    assert forall i :: 0 <= i < n ==> rows[..n][i] == rows[i];
    if k < n {
      PrepareOneBadRow(rows[..n], convert, k);
    } else {
      assert Prepare(rows[..n], convert).errors == [];
    }
  }

  /** `_process_sale_row` as a record. */
  datatype SaleRow = SaleRow(
    date: int,
    productName: string,
    amount: PyFloat,
    customerId: Option<string>,
    category: Option<string>)

  /** `_process_sale_row`: the date is converted before the amount; the name
      and the optional columns are only trimmed. There is no check that the
      name is present or that the amount is positive. */
  function ProcessSaleRow(row: FrameRow, cv: Converters): (r: Result<SaleRow, string>)
    ensures r.Failure? <==> cv.toDatetime(Cell(row, "date")).Failure? || cv.toFloat(Cell(row, "amount")).Failure?
    ensures cv.toDatetime(Cell(row, "date")).Failure? ==> r == Failure(cv.toDatetime(Cell(row, "date")).error)
    ensures r.Success? ==>
              && r.value.date == cv.toDatetime(Cell(row, "date")).value
              && r.value.amount == cv.toFloat(Cell(row, "amount")).value
              && r.value.productName == Strip(Cell(row, "product_name"))
              && r.value.customerId == OptionalText(row, "customer_id")
              && r.value.category == OptionalText(row, "category")
  {
    var date :- cv.toDatetime(Cell(row, "date"));
    var amount :- cv.toFloat(Cell(row, "amount"));
    Success(SaleRow(date, Strip(Cell(row, "product_name")), amount,
                    OptionalText(row, "customer_id"), OptionalText(row, "category")))
  }

  /** The row conversion the sales upload applies to every row. */
  function SaleConverter(cv: Converters): FrameRow -> Result<SaleRow, string> {
    (row: FrameRow) => ProcessSaleRow(row, cv)
  }

  function OptionalValue(t: Option<string>): Value {
    match t
    case Some(s) => Text(s)
    case None => Null
  }

  /** `_process_customer_row`: never fails once the columns are there. */
  function CustomerFields(row: FrameRow): (d: Fields)
    ensures "id" in d && d["id"] == Text(Strip(Cell(row, "id")))
    ensures "name" in d && d["name"] == Text(Strip(Cell(row, "name")))
    ensures "email" in d && (d["email"] == Null <==> OptionalText(row, "email").None?)
    ensures d.Keys == {"id", "name", "email"}
  {
    var id, name, email := Text(Strip(Cell(row, "id"))), Text(Strip(Cell(row, "name"))),
                           OptionalValue(OptionalText(row, "email"));
    ThreeKeys("id", "name", "email", id, name, email);
    map["id" := id, "name" := name, "email" := email]
  }

  lemma ThreeKeys<K, V>(a: K, b: K, c: K, x: V, y: V, z: V)
    ensures map[a := x, b := y, c := z].Keys == {a, b, c}
  {
  }

  function ProcessCustomerRow(row: FrameRow): Result<Fields, string> {
    Success(CustomerFields(row))
  }

  /** A Python float as a payload value. Not-a-number and the infinities
      have no `Value`; they become `Null`, which the expense service's
      conversion to cents rejects, as `int()` rejects them. */
  function FloatValue(f: PyFloat): (v: Value)
    ensures f.Finite? ==> v == Real(f.x)
    ensures !f.Finite? ==> Services.CentsOf(v).None?
  {
    match f
    case Finite(x) => Real(x)
    case _ => Null
  }

  /** The payload `_process_expense_row` builds. */
  function ExpenseFields(date: int, description: string, amount: PyFloat, category: Option<string>): (d: Fields)
    ensures "date" in d && d["date"] == Moment(date)
    ensures "description" in d && d["description"] == Text(description)
    ensures "amount" in d && d["amount"] == FloatValue(amount)
    ensures "category" in d && d["category"] == OptionalValue(category)
  {
    map["date" := Moment(date),
        "description" := Text(description),
        "amount" := FloatValue(amount),
        "category" := OptionalValue(category)]
  }

  /** `_process_expense_row`: the date before the amount, as for sales. */
  function ProcessExpenseRow(row: FrameRow, cv: Converters): (r: Result<Fields, string>)
    ensures r.Failure? <==> cv.toDatetime(Cell(row, "date")).Failure? || cv.toFloat(Cell(row, "amount")).Failure?
    ensures cv.toDatetime(Cell(row, "date")).Failure? ==> r == Failure(cv.toDatetime(Cell(row, "date")).error)
    ensures r.Success? ==>
              r.value == ExpenseFields(cv.toDatetime(Cell(row, "date")).value, Strip(Cell(row, "description")),
                                       cv.toFloat(Cell(row, "amount")).value, OptionalText(row, "category"))
  {
    var date :- cv.toDatetime(Cell(row, "date"));
    var amount :- cv.toFloat(Cell(row, "amount"));
    Success(ExpenseFields(date, Strip(Cell(row, "description")), amount, OptionalText(row, "category")))
  }

  // ---------------------------------------------------------------------
  // Responses

  /** The dictionary an upload returns. */
  datatype Report = Report(success: bool, errors: seq<string>, processedCount: nat, totalRows: nat)

  /** What the `HTTPException(400, "Error processing CSV: ...")` wraps: a
      message raised before any row was stored, or the exception of the
      service call that failed. */
  datatype Cause =
    | Message(text: string)
    | ServiceFailed(fault: Services.HttpFault)
    | SaleFailed(detail: string)

  datatype Rejection = Rejection(status: nat, cause: Cause)

  const DetailPrefix := "Error processing CSV: "

  /** The read and the column check, common to the three uploads. */
  function Front(read: Result<Frame, string>, required: seq<string>): (r: Result<Frame, Rejection>)
    ensures r.Success? <==> read.Success? && forall c :: c in required ==> c in read.value.columns
    ensures r.Success? ==> r.value == read.value
    ensures r.Failure? ==> r.error.status == 400 && r.error.cause.Message?
    ensures read.Failure? ==> r == Failure(Rejection(400, Message(read.error)))
  {
    match read
    case Failure(m) => Failure(Rejection(400, Message(m)))
    case Success(f) =>
      match ValidateColumns(f.columns, required)
      case Failure(m) => Failure(Rejection(400, Message(m)))
      case Success(_) => Success(f)
  }

  // ---------------------------------------------------------------------
  // Customers and expenses

  datatype Service = CustomerService | ExpenseService

  /** One `create_customer` or `create_expense` of the v2 services. */
  function CreateOne(s: Service, t: Services.Table, data: Fields, next: int, now: int): (r: Result<Services.Change<Services.Row>, Services.HttpFault>)
    ensures r.Success? ==> r.value.table == t + [r.value.result] && |r.value.emitted| == 1
    ensures s == CustomerService && data.Keys <= Services.CustomerSchema.columns && "id" in data && data["id"].Text? ==>
              (r.Failure? <==> Services.Get(t, Services.TextKey(data["id"].s)).Some?)
    ensures s == CustomerService && r.Success? ==> Services.NewKey(Services.CustomerSchema, data, next) == Success(r.value.result.id)
    ensures s == ExpenseService && Services.RewriteAmount(data).Failure? ==> r.Failure?
  {
    match s
    case CustomerService =>
      if data.Keys <= Services.CustomerSchema.columns && "id" in data && data["id"].Text? then
        Services.CreateCustomerFresh(t, data, next, now);
        Services.CreateCustomer(t, data, next, now)
      else Services.CreateCustomer(t, data, next, now)
    case ExpenseService => Services.CreateExpense(t, data, next, now)
  }

  /** The creation loop: the rows are created in order; the first failure
      ends the loop, and the rows committed before it stay. */
  datatype Creation = Creation(
    table: Services.Table,
    emitted: seq<Services.Emission>,
    created: seq<Services.Row>,
    failure: Option<Services.HttpFault>)

  /** One turn of the creation loop after the rows before `index` were
      created. */
  function CreateNext(s: Service, pre: Creation, item: Fields, index: nat, keys: nat -> int, now: int): (c: Creation)
    requires pre.failure.None?
    ensures c.failure.None? ==> |c.created| == |pre.created| + 1
    ensures c.failure.None? ==> c.created == pre.created + [c.created[|pre.created|]] && c.table == pre.table + [c.created[|pre.created|]]
    ensures c.failure.None? ==> |c.emitted| == |pre.emitted| + 1
    ensures c.failure.Some? ==> c.table == pre.table && c.created == pre.created && c.emitted == pre.emitted
    ensures c.failure.Some? ==> CreateOne(s, pre.table, item, keys(index), now) == Failure(c.failure.value)
    ensures c.failure.None? && s == CustomerService ==> Services.NewKey(Services.CustomerSchema, item, keys(index)) == Success(c.created[|pre.created|].id)
  {
    match CreateOne(s, pre.table, item, keys(index), now)
    case Failure(f) => pre.(failure := Some(f))
    case Success(c) => Creation(c.table, pre.emitted + c.emitted, pre.created + [c.result], None)
  }

  function CreateAll(s: Service, t: Services.Table, items: seq<Fields>, keys: nat -> int, now: int): (c: Creation)
    ensures c.table == t + c.created
    ensures |c.created| <= |items| && |c.emitted| == |c.created|
    ensures c.failure.None? ==> |c.created| == |items|
    ensures c.failure.Some? ==> |c.created| < |items|
    decreases |items|
  {
    if items == [] then Creation(t, [], [], None)
    else
      var n := |items| - 1;
      var pre := CreateAll(s, t, items[..n], keys, now);
      if pre.failure.Some? then pre
      else CreateNext(s, pre, items[n], n, keys, now)
  }

  /** Each customer created is stored under the key its row names, or
      under the key the loop hands that row when it names none. */
  lemma {:induction false} CreatedKeys(t: Services.Table, items: seq<Fields>, keys: nat -> int, now: int)
    ensures var c := CreateAll(CustomerService, t, items, keys, now);
            forall i :: 0 <= i < |c.created| ==> Services.NewKey(Services.CustomerSchema, items[i], keys(i)) == Success(c.created[i].id)
    decreases |items|
  {
    if items != [] {
      var n := |items| - 1;
      var init := items[..n];
      CreatedKeys(t, init, keys, now);
      var pre := CreateAll(CustomerService, t, init, keys, now);
      var c := CreateAll(CustomerService, t, items, keys, now);
      forall i | 0 <= i < |c.created| ensures Services.NewKey(Services.CustomerSchema, items[i], keys(i)) == Success(c.created[i].id) {
        if i < |pre.created| {
          assert c.created[i] == pre.created[i];
          assert init[i] == items[i];
        }
      }
    }
  }

  /** The loop stops at the row whose creation failed: the rows before it
      are committed and that row's creation, on the table they left, is the
      failure reported. */
  lemma {:induction false} CreateAllStops(s: Service, t: Services.Table, items: seq<Fields>, keys: nat -> int, now: int)
    ensures var c := CreateAll(s, t, items, keys, now);
            c.failure.Some? ==>
              CreateOne(s, c.table, items[|c.created|], keys(|c.created|), now) == Failure(c.failure.value)
    decreases |items|
  {
    if items != [] {
      var n := |items| - 1;
      var pre := CreateAll(s, t, items[..n], keys, now);
      CreateAllStops(s, t, items[..n], keys, now);
      if pre.failure.Some? {
        assert items[..n][|pre.created|] == items[|pre.created|];
      } else {
        var c := CreateNext(s, pre, items[n], n, keys, now);
        assert CreateAll(s, t, items, keys, now) == c;
      }
    }
  }

  /** What an upload leaves: the table, the events its creations published,
      and the response or the rejection. */
  datatype Outcome<T> = Outcome(table: seq<T>, emitted: seq<Services.Emission>, response: Result<Report, Rejection>)

  /** `upload_customers_csv` and `upload_expenses_csv`. */
  function UploadRows(s: Service, read: Result<Frame, string>, required: seq<string>,
                      convert: FrameRow -> Result<Fields, string>,
                      t: Services.Table, keys: nat -> int, now: int): (o: Outcome<Services.Row>)
    ensures Front(read, required).Failure? ==> o == Outcome(t, [], Failure(Front(read, required).error))
    ensures |o.table| >= |t| && o.table[..|t|] == t
    ensures o.response.Success? ==> read.Success? && o.response.value.totalRows == |read.value.rows|
    ensures o.response.Success? && !o.response.value.success ==>
              && o.table == t && o.emitted == [] && o.response.value.processedCount == 0
              && o.response.value.errors == Prepare(read.value.rows, convert).errors != []
    ensures o.response.Success? && o.response.value.success ==>
              && o.response.value.errors == []
              && o.response.value.processedCount == o.response.value.totalRows
              && |o.table| == |t| + o.response.value.totalRows
              && |o.emitted| == o.response.value.totalRows
    ensures o.response.Failure? && Front(read, required).Success? ==> o.response.error.cause.ServiceFailed?
  {
    match Front(read, required)
    case Failure(e) => Outcome(t, [], Failure(e))
    case Success(f) =>
      var pr := Prepare(f.rows, convert);
      if pr.errors != [] then Outcome(t, [], Success(Report(false, pr.errors, 0, |f.rows|)))
      else
        var c := CreateAll(s, t, pr.items, keys, now);
        assert c.table[..|t|] == t;
        match c.failure
        case Some(fault) => Outcome(c.table, c.emitted, Failure(Rejection(400, ServiceFailed(fault))))
        case None => Outcome(c.table, c.emitted, Success(Report(true, [], |c.created|, |f.rows|)))
  }

  function UploadCustomers(read: Result<Frame, string>, t: Services.Table, keys: nat -> int, now: int): Outcome<Services.Row> {
    UploadRows(CustomerService, read, CustomerColumns, ProcessCustomerRow, t, keys, now)
  }

  function UploadExpenses(read: Result<Frame, string>, cv: Converters, t: Services.Table, keys: nat -> int, now: int): Outcome<Services.Row> {
    UploadRows(ExpenseService, read, ExpenseColumns, (row: FrameRow) => ProcessExpenseRow(row, cv), t, keys, now)
  }

  /** A row whose conversion fails stops the whole upload: the report names
      the failures and nothing is stored. */
  lemma ExpenseUploadAllOrNothing(read: Result<Frame, string>, cv: Converters, t: Services.Table,
                                  keys: nat -> int, now: int, k: nat)
    requires Front(read, ExpenseColumns).Success?
    requires k < |read.value.rows| && ProcessExpenseRow(read.value.rows[k], cv).Failure?
    ensures var o := UploadExpenses(read, cv, t, keys, now);
            && o.table == t && o.emitted == []
            && o.response.Success? && !o.response.value.success
            && o.response.value.processedCount == 0
            && |o.response.value.errors| >= 1
  {
    var convert := (row: FrameRow) => ProcessExpenseRow(row, cv);
    assert convert(read.value.rows[k]).Failure?;
  }

  /** The customer ids a converted customer CSV carries, trimmed. */
  function CustomerIds(items: seq<Fields>): (ids: seq<string>)
    requires forall i :: 0 <= i < |items| ==> "id" in items[i] && items[i]["id"].Text?
    ensures |ids| == |items|
    ensures forall i :: 0 <= i < |items| ==> ids[i] == items[i]["id"].s
  {
    seq(|items|, i requires 0 <= i < |items| => items[i]["id"].s)
  }

  /** Customers under ids that are new to the table and distinct within the
      file are all created; the loop never fails. */
  lemma {:induction false} CreateFreshCustomers(t: Services.Table, items: seq<Fields>, keys: nat -> int, now: int)
    requires forall i :: 0 <= i < |items| ==> "id" in items[i] && items[i]["id"].Text?
    requires forall i :: 0 <= i < |items| ==> items[i].Keys <= Services.CustomerSchema.columns
    requires forall i :: 0 <= i < |items| ==> Services.Get(t, Services.TextKey(items[i]["id"].s)).None?
    requires forall i, j :: 0 <= i < j < |items| ==> items[i]["id"] != items[j]["id"]
    ensures CreateAll(CustomerService, t, items, keys, now).failure.None?
    decreases |items|
  {
    if items != [] {
      var n := |items| - 1;
      var init := items[..n];
      assert forall i :: 0 <= i < n ==> init[i] == items[i];
      CreateFreshCustomers(t, init, keys, now);
      FreshLastKey(t, items, keys, now);
      CreateAllLast(CustomerService, t, items, keys, now);
    }
  }

  /** The last row's id is free once the rows before it are created. */
  lemma FreshLastKey(t: Services.Table, items: seq<Fields>, keys: nat -> int, now: int)
    requires items != []
    requires forall i :: 0 <= i < |items| ==> "id" in items[i] && items[i]["id"].Text?
    requires Services.Get(t, Services.TextKey(items[|items| - 1]["id"].s)).None?
    requires forall i :: 0 <= i < |items| - 1 ==> items[i]["id"] != items[|items| - 1]["id"]
    ensures var n := |items| - 1;
            Services.Get(CreateAll(CustomerService, t, items[..n], keys, now).table,
                         Services.TextKey(items[n]["id"].s)).None?
  {
    var n := |items| - 1;
    var init := items[..n];
    CreatedKeys(t, init, keys, now);
    var pre := CreateAll(CustomerService, t, init, keys, now);
    var k := Services.TextKey(items[n]["id"].s);
    forall i | 0 <= i < |pre.created| ensures pre.created[i].id != k {
      assert Services.NewKey(Services.CustomerSchema, init[i], keys(i)) == Success(pre.created[i].id);
      assert init[i] == items[i];
    }
    FreshAfterCreated(t, pre.created, k);
  }

  /** The loop's last turn, when the turns before it all succeeded. */
  lemma CreateAllLast(s: Service, t: Services.Table, items: seq<Fields>, keys: nat -> int, now: int)
    requires items != []
    requires CreateAll(s, t, items[..|items| - 1], keys, now).failure.None?
    ensures var n := |items| - 1;
            CreateAll(s, t, items, keys, now)
            == CreateNext(s, CreateAll(s, t, items[..n], keys, now), items[n], n, keys, now)
  {
  }

  /** A key neither stored nor among the rows created since is still free. */
  lemma FreshAfterCreated(t: Services.Table, created: seq<Services.Row>, k: Services.Key)
    requires Services.Get(t, k).None?
    requires forall i :: 0 <= i < |created| ==> created[i].id != k
    ensures Services.Get(t + created, k).None?
  {
    var u := t + created;
    forall i | 0 <= i < |u| ensures u[i].id != k {
      if i < |t| {
        assert u[i] == t[i];
      } else {
        assert u[i] == created[i - |t|];
      }
    }
  }

  /** A customer file whose ids are new and distinct is stored whole: one
      row and one `customer.created` event per CSV row. */
  lemma CustomerUploadStoresAll(read: Result<Frame, string>, t: Services.Table, keys: nat -> int, now: int)
    requires Front(read, CustomerColumns).Success?
    requires forall i :: 0 <= i < |read.value.rows| ==>
               Services.Get(t, Services.TextKey(Strip(Cell(read.value.rows[i], "id")))).None?
    requires forall i, j :: 0 <= i < j < |read.value.rows| ==>
               Strip(Cell(read.value.rows[i], "id")) != Strip(Cell(read.value.rows[j], "id"))
    ensures var o := UploadCustomers(read, t, keys, now);
            && o.response == Success(Report(true, [], |read.value.rows|, |read.value.rows|))
            && |o.table| == |t| + |read.value.rows| && |o.emitted| == |read.value.rows|
  {
    var rows := read.value.rows;
    var pr := Prepare(rows, ProcessCustomerRow);
    assert pr.errors == [] by {
      assert forall i :: 0 <= i < |rows| ==> ProcessCustomerRow(rows[i]).Success?;
    }
    forall i | 0 <= i < |rows|
      ensures "id" in pr.items[i] && pr.items[i]["id"] == Text(Strip(Cell(rows[i], "id")))
      ensures pr.items[i].Keys <= Services.CustomerSchema.columns
    {
      assert pr.items[i] == CustomerFields(rows[i]);
    }
    CreateFreshCustomers(t, pr.items, keys, now);
  }

  // ---------------------------------------------------------------------
  // Sales

  /** The detail `create_sale` raises with when it is handed the converted
      row, a `dict`, where it reads `sale_data.date`. */
  const DictHasNoDate := "Error creating sale: 'dict' object has no attribute 'date'"

  /** `upload_sales_csv` as written: the first stored row already fails,
      so only a file without rows, or with a row that does not convert,
      gets a report. */
  function UploadSalesAsWritten(read: Result<Frame, string>, cv: Converters, t: seq<Sale>): (o: Outcome<Sale>)
    ensures o.table == t && o.emitted == []
  {
    match Front(read, SaleColumns)
    case Failure(e) => Outcome(t, [], Failure(e))
    case Success(f) =>
      var pr := Prepare(f.rows, SaleConverter(cv));
      if pr.errors != [] then Outcome(t, [], Success(Report(false, pr.errors, 0, |f.rows|)))
      else if pr.items == [] then Outcome(t, [], Success(Report(true, [], 0, |f.rows|)))
      else Outcome(t, [], Failure(Rejection(400, SaleFailed(DictHasNoDate))))
  }

  /** Every sales file with at least one row, all of which convert, is
      rejected and nothing is stored. */
  lemma UploadSalesAsWrittenFails(read: Result<Frame, string>, cv: Converters, t: seq<Sale>)
    requires Front(read, SaleColumns).Success? && |read.value.rows| >= 1
    requires forall i :: 0 <= i < |read.value.rows| ==> ProcessSaleRow(read.value.rows[i], cv).Success?
    ensures UploadSalesAsWritten(read, cv, t) ==
            Outcome(t, [], Failure(Rejection(400, SaleFailed(DictHasNoDate))))
  {
    var convert := SaleConverter(cv);
    assert forall i :: 0 <= i < |read.value.rows| ==> convert(read.value.rows[i]).Success?;
    assert |Prepare(read.value.rows, convert).items| == |read.value.rows|;
  }

  /** `create_sale` on a converted row: `int(amount * 100)` raises on
      not-a-number and the infinities. */
  function StoreSale(t: seq<Sale>, row: SaleRow, now: int): (r: Result<Crud.Written<Sale, Sale>, string>)
    ensures r.Success? <==> row.amount.Finite?
    ensures r.Success? ==>
              && r.value.table == t + [r.value.result]
              && r.value.result.amountCents == Crud.Cents(row.amount.x)
              && r.value.result.date == row.date && r.value.result.productName == row.productName
              && r.value.result.customerId == row.customerId && r.value.result.category == row.category
  {
    match row.amount
    case Finite(x) => Success(Crud.CreateSale(t, Crud.SaleInput(row.date, row.productName, x, row.customerId, row.category), now))
    case NaN => Failure("Error creating sale: cannot convert float NaN to integer")
    case Infinity(_) => Failure("Error creating sale: cannot convert float infinity to integer")
  }

  datatype SaleCreation = SaleCreation(table: seq<Sale>, created: seq<Sale>, failure: Option<string>)

  /** The sale creation loop: in order, stopping at the first failure. */
  function StoreSales(t: seq<Sale>, items: seq<SaleRow>, now: int): (c: SaleCreation)
    ensures c.table == t + c.created
    ensures |c.created| <= |items|
    ensures c.failure.None? ==> |c.created| == |items|
    decreases |items|
  {
    if items == [] then SaleCreation(t, [], None)
    else
      var n := |items| - 1;
      var pre := StoreSales(t, items[..n], now);
      if pre.failure.Some? then pre
      else
        match StoreSale(pre.table, items[n], now)
        case Failure(m) => pre.(failure := Some(m))
        case Success(w) => SaleCreation(w.table, pre.created + [w.result], None)
  }

  /** The loop fails exactly when some amount is not a finite number, and
      each stored sale carries its row's name, date and amount in cents. */
  lemma {:induction false} StoredSales(t: seq<Sale>, items: seq<SaleRow>, now: int)
    ensures var c := StoreSales(t, items, now);
            && (c.failure.None? <==> forall i :: 0 <= i < |items| ==> items[i].amount.Finite?)
            && forall i :: 0 <= i < |c.created| ==>
                 && c.created[i].productName == items[i].productName
                 && c.created[i].date == items[i].date
                 && items[i].amount.Finite? && c.created[i].amountCents == Crud.Cents(items[i].amount.x)
    decreases |items|
  {
    if items != [] {
      var n := |items| - 1;
      var init := items[..n];
      StoredSales(t, init, now);
      assert forall i :: 0 <= i < n ==> init[i] == items[i];
      var pre := StoreSales(t, init, now);
      var c := StoreSales(t, items, now);
      forall i | 0 <= i < |c.created|
        ensures && c.created[i].productName == items[i].productName
                && c.created[i].date == items[i].date
                && items[i].amount.Finite? && c.created[i].amountCents == Crud.Cents(items[i].amount.x)
      {
        if i < |pre.created| {
          assert c.created[i] == pre.created[i];
        }
      }
    }
  }

  /** `upload_sales_csv` with each converted row stored through
      `create_sale`. */
  function UploadSales(read: Result<Frame, string>, cv: Converters, t: seq<Sale>, now: int): (o: Outcome<Sale>)
    ensures Front(read, SaleColumns).Failure? ==> o == Outcome(t, [], Failure(Front(read, SaleColumns).error))
    ensures o.emitted == [] && |o.table| >= |t| && o.table[..|t|] == t
    ensures o.response.Success? && !o.response.value.success ==> o.table == t && o.response.value.processedCount == 0
    ensures o.response.Success? && o.response.value.success ==>
              && o.response.value.processedCount == o.response.value.totalRows
              && |o.table| == |t| + o.response.value.totalRows
    ensures o.response.Failure? && Front(read, SaleColumns).Success? ==> o.response.error.cause.SaleFailed?
  {
    match Front(read, SaleColumns)
    case Failure(e) => Outcome(t, [], Failure(e))
    case Success(f) =>
      var pr := Prepare(f.rows, SaleConverter(cv));
      if pr.errors != [] then Outcome(t, [], Success(Report(false, pr.errors, 0, |f.rows|)))
      else
        var c := StoreSales(t, pr.items, now);
        assert c.table[..|t|] == t;
        match c.failure
        case Some(m) => Outcome(c.table, [], Failure(Rejection(400, SaleFailed(m))))
        case None => Outcome(c.table, [], Success(Report(true, [], |c.created|, |f.rows|)))
  }

  /** Where the written upload rejects every file with rows, the corrected
      one stores each row whose amount is a finite number, in file order,
      with the row's date, name and amount in cents. */
  lemma UploadSalesStoresAll(read: Result<Frame, string>, cv: Converters, t: seq<Sale>, now: int)
    requires Front(read, SaleColumns).Success?
    requires forall i :: 0 <= i < |read.value.rows| ==>
               && ProcessSaleRow(read.value.rows[i], cv).Success?
               && ProcessSaleRow(read.value.rows[i], cv).value.amount.Finite?
    ensures var o := UploadSales(read, cv, t, now);
            && o.response == Success(Report(true, [], |read.value.rows|, |read.value.rows|))
            && |o.table| == |t| + |read.value.rows|
            && forall i :: 0 <= i < |read.value.rows| ==>
                 && o.table[|t| + i].productName == Strip(Cell(read.value.rows[i], "product_name"))
                 && cv.toDatetime(Cell(read.value.rows[i], "date")).Success?
                 && o.table[|t| + i].date == cv.toDatetime(Cell(read.value.rows[i], "date")).value
  {
    var rows := read.value.rows;
    var pr := PrepareSales(rows, cv);
    var c := StoreSales(t, pr.items, now);
    StoredSales(t, pr.items, now);
    forall i | 0 <= i < |rows|
      ensures c.table[|t| + i].productName == Strip(Cell(rows[i], "product_name"))
      ensures cv.toDatetime(Cell(rows[i], "date")).Success?
      ensures c.table[|t| + i].date == cv.toDatetime(Cell(rows[i], "date")).value
    {
      assert c.table[|t| + i] == c.created[i];
    }
  }

  /** The conversion of a sales file whose rows all convert. */
  lemma PrepareSales(rows: seq<FrameRow>, cv: Converters) returns (pr: Prepared<SaleRow>)
    requires forall i :: 0 <= i < |rows| ==>
               && ProcessSaleRow(rows[i], cv).Success?
               && ProcessSaleRow(rows[i], cv).value.amount.Finite?
    ensures pr == Prepare(rows, SaleConverter(cv))
    ensures pr.errors == [] && |pr.items| == |rows|
    ensures forall i :: 0 <= i < |rows| ==>
              && pr.items[i].amount.Finite?
              && pr.items[i].productName == Strip(Cell(rows[i], "product_name"))
              && cv.toDatetime(Cell(rows[i], "date")).Success?
              && pr.items[i].date == cv.toDatetime(Cell(rows[i], "date")).value
  {
    var convert := SaleConverter(cv);
    forall i | 0 <= i < |rows| ensures convert(rows[i]).Success? {
      SaleConverted(rows[i], cv);
    }
    pr := Prepare(rows, convert);
    forall i | 0 <= i < |rows|
      ensures && pr.items[i].amount.Finite?
              && pr.items[i].productName == Strip(Cell(rows[i], "product_name"))
              && cv.toDatetime(Cell(rows[i], "date")).Success?
              && pr.items[i].date == cv.toDatetime(Cell(rows[i], "date")).value
    {
      SaleConverted(rows[i], cv);
      assert pr.items[i] == convert(rows[i]).value;
    }
  }

  /** One row through the sales converter. */
  lemma SaleConverted(row: FrameRow, cv: Converters)
    requires ProcessSaleRow(row, cv).Success?
    ensures SaleConverter(cv)(row) == ProcessSaleRow(row, cv)
    ensures SaleConverter(cv)(row).value.productName == Strip(Cell(row, "product_name"))
    ensures cv.toDatetime(Cell(row, "date")).Success?
    ensures SaleConverter(cv)(row).value.date == cv.toDatetime(Cell(row, "date")).value
  {
  }

}

=== FILE: dashboard.dfy ===
/** The post-processing the dashboard endpoints apply to their queries:
    customer classification, the expense breakdown by category and the
    daily revenue trend with transaction counts. */
module Dashboard {
  import opened Wrappers
  import opened Seqs
  import opened Sorting
  import opened Grouping
  import opened Records
  import opened Calendar
  import Analytics

  // ---------------------------------------------------------------------
  // Customer analytics

  /** Total spend, in cents, above which a customer counts as VIP. */
  const VipThresholdCents: int := 50000

  datatype CustomerAnalytics = CustomerAnalytics(
    totalCustomers: nat,
    newCustomers: nat,
    repeatCustomers: nat,
    vipCustomers: nat,
    repeatRate: real)

  /** All sales that name a customer, over all time. */
  function IdentifiedSales(sales: seq<Sale>): seq<Sale> {
    Filter(sales, (s: Sale) => s.customerId.Some?)
  }

  predicate Vip(b: Bucket<Option<string>, Sale>) {
    Total(b.items, SaleCents) > VipThresholdCents
  }

  predicate BigSpend(items: seq<Sale>) {
    Total(items, SaleCents) > VipThresholdCents
  }

  /** Classifies the customers of the non-empty buckets `gs`: new (one
      purchase), repeat (more than one), VIP (spent more than 50000 cents);
      the repeat rate is a percentage, 0 with no customers. */
  function Classify(gs: seq<Bucket<Option<string>, Sale>>): (a: CustomerAnalytics)
    requires forall i :: 0 <= i < |gs| ==> |gs[i].items| > 0
    ensures a.totalCustomers == |gs|
    ensures a.newCustomers + a.repeatCustomers == a.totalCustomers
    ensures a.vipCustomers <= a.totalCustomers
    ensures IsRate(a.repeatRate, a.repeatCustomers, a.totalCustomers)
  {
    var newCount := |Filter(gs, Once)|;
    var repeat := |Filter(gs, Repeated)|;
    forall i | 0 <= i < |gs| ensures Once(gs[i]) != Repeated(gs[i]) {
    }
    FilterSplitCount(gs, Once, Repeated);
    CustomerAnalytics(|gs|, newCount, repeat, |Filter(gs, Vip)|, RateOf(repeat, |gs|))
  }

  /** Groups the identified sales by customer and classifies the customers. */
  function CustomerAnalyticsOf(sales: seq<Sale>): CustomerAnalytics {
    Classify(GroupBy(IdentifiedSales(sales), CustomerOf))
  }

  /** `r` is `part` as a percentage of `whole`, and 0 when `whole` is 0. */
  predicate IsRate(r: real, part: nat, whole: nat) {
    && (whole == 0 ==> r == 0.0)
    && (whole > 0 ==> r * whole as real == part as real * 100.0)
    && 0.0 <= r <= 100.0
  }

  /** `part / whole * 100`, or 0 when `whole` is 0. */
  function RateOf(part: nat, whole: nat): (r: real)
    requires part <= whole
    ensures IsRate(r, part, whole)
  {
    if whole == 0 then 0.0 else part as real / whole as real * 100.0
  }

  /** The counts are counts of distinct customers: all identified
      customers, those with more than one sale, and those whose sales add up
      to more than the VIP threshold. */
  lemma CustomerAnalyticsCounts(sales: seq<Sale>)
    ensures var w := IdentifiedSales(sales);
            var a := CustomerAnalyticsOf(sales);
            && a.totalCustomers == |KeySet(w, CustomerOf)|
            && a.repeatCustomers == |KeysWhere(w, CustomerOf, Many)|
            && a.vipCustomers == |KeysWhere(w, CustomerOf, BigSpend)|
  {
    var w := IdentifiedSales(sales);
    var gs := GroupBy(w, CustomerOf);
    RepeatedKeys(w, CustomerOf);
    CountBucketsWhere(w, CustomerOf, Vip, BigSpend);
    GroupKeys(w, CustomerOf);
  }

  // ---------------------------------------------------------------------
  // Expense breakdown

  datatype CategoryRow = CategoryRow(category: Option<string>, shownAs: string, totalCents: int, expenseCount: nat)

  function CategoryTotal(r: CategoryRow): int {
    r.totalCents
  }

  function CategoryKey(r: CategoryRow): Option<string> {
    r.category
  }

  function CategoryRowOf(b: Bucket<Option<string>, Expense>): CategoryRow {
    CategoryRow(b.key, CategoryLabel(b.key), Total(b.items, ExpenseCents), |b.items|)
  }

  function CategoryRows(gs: seq<Bucket<Option<string>, Expense>>): (r: seq<CategoryRow>)
    ensures |r| == |gs|
    ensures forall i :: 0 <= i < |gs| ==> r[i] == CategoryRowOf(gs[i])
  {
    if gs == [] then [] else [CategoryRowOf(gs[0])] + CategoryRows(gs[1..])
  }

  /** The expenses dated at or after the cutoff (no upper bound). */
  function RecentExpenses(expenses: seq<Expense>, now: int, days: int): seq<Expense> {
    Filter(expenses, (e: Expense) => e.date >= DaysBefore(now, days))
  }

  /** The per-category rows of the recent expenses, before ordering. */
  function CategoryTable(expenses: seq<Expense>, now: int, days: int): seq<CategoryRow> {
    var w := RecentExpenses(expenses, now, days);
    CategoryRows(GroupBy(w, CategoryOf))
  }

  /** `GROUP BY category ORDER BY SUM(amount_cents) DESC` over the recent
      expenses, one row per stored category value. */
  function ExpenseBreakdown(expenses: seq<Expense>, now: int, days: int): (r: seq<CategoryRow>)
    ensures SortedDesc(r, CategoryTotal)
    ensures DistinctBy(r, CategoryKey)
    ensures forall i :: 0 <= i < |r| ==> CategoryRowOfExpenses(RecentExpenses(expenses, now, days), r[i])
    ensures forall j :: 0 <= j < |RecentExpenses(expenses, now, days)| ==>
              ListsCategory(r, RecentExpenses(expenses, now, days)[j].category)
  {
    var t := CategoryTable(expenses, now, days);
    CategoryTableFacts(expenses, now, days);
    SortedTableFacts(t, RecentExpenses(expenses, now, days));
    Take(SortDesc(t, CategoryTotal), |t|)
  }

  /** Ordering the grouped rows by total keeps what holds of each row,
      the distinct categories and the categories listed. */
  lemma SortedTableFacts(t: seq<CategoryRow>, w: seq<Expense>)
    requires DistinctBy(t, CategoryKey)
    requires forall row :: row in t ==> CategoryRowOfExpenses(w, row)
    requires forall j :: 0 <= j < |w| ==> ListsCategory(t, w[j].category)
    ensures var r := Take(SortDesc(t, CategoryTotal), |t|);
            && SortedDesc(r, CategoryTotal)
            && DistinctBy(r, CategoryKey)
            && (forall i :: 0 <= i < |r| ==> CategoryRowOfExpenses(w, r[i]))
            && (forall j :: 0 <= j < |w| ==> ListsCategory(r, w[j].category))
  {
    var r := Take(SortDesc(t, CategoryTotal), |t|);
    TopOfSorted(t, CategoryTotal, |t|);
    TopOfSortedDistinct(t, CategoryTotal, |t|, CategoryKey);
    ListsCategoryPermutation(t, r);
  }

  /** Some row of `r` is the group of category `c`. */
  predicate ListsCategory(r: seq<CategoryRow>, c: Option<string>) {
    exists i :: 0 <= i < |r| && r[i].category == c
  }

  /** Every category of the grouped expenses has its row. */
  lemma CategoryRowsCover(w: seq<Expense>, gs: seq<Bucket<Option<string>, Expense>>)
    requires IsGrouping(w, CategoryOf, gs)
    ensures forall j :: 0 <= j < |w| ==> ListsCategory(CategoryRows(gs), w[j].category)
  {
    var t := CategoryRows(gs);
    forall j | 0 <= j < |w| ensures ListsCategory(t, w[j].category) {
      assert HasKey(gs, CategoryOf(w[j]));
      var i :| 0 <= i < |gs| && gs[i].key == CategoryOf(w[j]);
      assert t[i].category == w[j].category;
    }
  }

  /** Reordering the rows keeps every category listed. */
  lemma ListsCategoryPermutation(t: seq<CategoryRow>, r: seq<CategoryRow>)
    requires multiset(r) == multiset(t)
    ensures forall c :: ListsCategory(t, c) ==> ListsCategory(r, c)
  {
    forall c | ListsCategory(t, c) ensures ListsCategory(r, c) {
      var i :| 0 <= i < |t| && t[i].category == c;
      assert t[i] in multiset(r);
      var k :| 0 <= k < |r| && r[k] == t[i];
    }
  }

  /** `row` sums exactly the expenses of its category, of which there is at
      least one, and is labelled by it. */
  predicate CategoryRowOfExpenses(w: seq<Expense>, row: CategoryRow) {
    && row.shownAs == CategoryLabel(row.category)
    && row.totalCents == Total(Select(w, CategoryOf, row.category), ExpenseCents)
    && row.expenseCount == |Select(w, CategoryOf, row.category)| > 0
  }

  lemma CategoryRowsFacts(w: seq<Expense>, gs: seq<Bucket<Option<string>, Expense>>)
    requires IsGrouping(w, CategoryOf, gs)
    ensures DistinctBy(CategoryRows(gs), CategoryKey)
    ensures forall row :: row in CategoryRows(gs) ==> CategoryRowOfExpenses(w, row)
  {
    var t := CategoryRows(gs);
    forall i, j | 0 <= i < j < |t| ensures CategoryKey(t[i]) != CategoryKey(t[j]) {
      assert t[i].category == gs[i].key && t[j].category == gs[j].key;
    }
    forall row | row in t ensures CategoryRowOfExpenses(w, row) {
      var i :| 0 <= i < |t| && t[i] == row;
      assert gs[i].items == Select(w, CategoryOf, gs[i].key);
    }
  }

  lemma CategoryTableFacts(expenses: seq<Expense>, now: int, days: int)
    ensures DistinctBy(CategoryTable(expenses, now, days), CategoryKey)
    ensures forall row :: row in CategoryTable(expenses, now, days) ==>
              CategoryRowOfExpenses(RecentExpenses(expenses, now, days), row)
    ensures forall j :: 0 <= j < |RecentExpenses(expenses, now, days)| ==>
              ListsCategory(CategoryTable(expenses, now, days), RecentExpenses(expenses, now, days)[j].category)
  {
    var w := RecentExpenses(expenses, now, days);
    CategoryRowsFacts(w, GroupBy(w, CategoryOf));
    CategoryRowsCover(w, GroupBy(w, CategoryOf));
  }

  lemma CategoryRowsTotal(gs: seq<Bucket<Option<string>, Expense>>)
    ensures Total(CategoryRows(gs), CategoryTotal) == BucketsTotal(gs, ExpenseCents)
  {
    if gs != [] {
      CategoryRowsTotal(gs[1..]);
      assert CategoryRows(gs)[1..] == CategoryRows(gs[1..]);
    }
  }

  /** The breakdown's totals add up to the recent expenses' total. */
  lemma ExpenseBreakdownTotal(expenses: seq<Expense>, now: int, days: int)
    ensures Total(ExpenseBreakdown(expenses, now, days), CategoryTotal)
            == Total(RecentExpenses(expenses, now, days), ExpenseCents)
  {
    var w := RecentExpenses(expenses, now, days);
    var gs := GroupBy(w, CategoryOf);
    var t := CategoryTable(expenses, now, days);
    CategoryRowsTotal(gs);
    GroupTotal(w, CategoryOf, ExpenseCents);
    SortTotal(t, CategoryTotal, CategoryTotal);
    assert ExpenseBreakdown(expenses, now, days) == SortDesc(t, CategoryTotal);
  }

  // ---------------------------------------------------------------------
  // Daily revenue trend

  datatype DailyRow = DailyRow(date: string, revenueCents: int, transactions: nat)

  function DailyRows(hs: seq<Bucket<string, Sale>>): (r: seq<DailyRow>)
    ensures |r| == |hs|
    ensures forall i :: 0 <= i < |hs| ==>
              r[i] == DailyRow(hs[i].key, Total(hs[i].items, SaleCents), |hs[i].items|)
  {
    if hs == [] then []
    else [DailyRow(hs[0].key, Total(hs[0].items, SaleCents), |hs[0].items|)] + DailyRows(hs[1..])
  }

  /** One row per calendar date of `[now - days, now]`, ascending, with the
      date's revenue and number of sales. */
  function DailyTrend(sales: seq<Sale>, now: int, days: int): seq<DailyRow> {
    DailyRows(Analytics.TrendBuckets(sales, DaysBefore(now, days), now, "daily"))
  }

  lemma DailyRowsMatchTrendRows(w: seq<Sale>, period: Sale -> string, hs: seq<Bucket<string, Sale>>)
    requires IsGrouping(w, period, hs)
    ensures var d := DailyRows(hs);
            var a := Analytics.TrendRows(hs);
            && |d| == |a|
            && (forall i :: 0 <= i < |d| ==>
                  && d[i].date == a[i].period
                  && d[i].revenueCents == a[i].revenueCents
                  && d[i].transactions == |Select(w, period, d[i].date)| > 0)
  {
    var d := DailyRows(hs);
    forall i | 0 <= i < |d| ensures d[i].transactions == |Select(w, period, d[i].date)| > 0 {
      assert hs[i].items == Select(w, period, hs[i].key);
    }
  }

  /** The dashboard's daily trend is the daily revenue trend of the
      analytics service over the same window, with a transaction count that
      is the number of that date's sales. */
  lemma DailyTrendMatchesAnalytics(sales: seq<Sale>, now: int, days: int)
    ensures var start := DaysBefore(now, days);
            var w := Analytics.SalesIn(sales, start, now);
            var d := DailyTrend(sales, now, days);
            var a := Analytics.RevenueTrend(sales, start, now, "daily");
            && |d| == |a|
            && (forall i :: 0 <= i < |d| ==>
                  && d[i].date == a[i].period
                  && d[i].revenueCents == a[i].revenueCents
                  && d[i].transactions == |Select(w, Analytics.PeriodOf("daily"), d[i].date)| > 0)
  {
    var start := DaysBefore(now, days);
    var w := Analytics.SalesIn(sales, start, now);
    GroupByOrdered(w, Analytics.PeriodOf("daily"));
    DailyRowsMatchTrendRows(w, Analytics.PeriodOf("daily"), Analytics.TrendBuckets(sales, start, now, "daily"));
  }
}

=== FILE: data_processor.dfy ===
/** The bulk sales importer: every row of a parsed CSV file is validated,
    valid rows are inserted in batches of 1000, and invalid rows are
    reported by their line number in the file. The date and number parsers
    and the database insert are inputs: `strptime` and `float` as partial
    functions, and the outcome of each bulk insert in order. */
module DataProcessor {
  import opened Wrappers
  import opened Text
  import opened Values
  import opened Frames

  const BatchSize: nat := 1000

  const Required: seq<string> := ["date", "product_name", "amount"]

  /** `%Y-%m-%d`, `%m/%d/%Y` and `%d/%m/%Y`. */
  datatype DateFormat = IsoDate | MonthFirst | DayFirst

  const Formats: seq<DateFormat> := [IsoDate, MonthFirst, DayFirst]

  /** `datetime.strptime` with a format (nothing when it raises), and
      `float()` of a cell's text (nothing when it raises). */
  datatype Parsers = Parsers(strptime: (string, DateFormat) -> Option<int>, toFloat: string -> Option<PyFloat>)

  datatype SaleData = SaleData(date: int, productName: string, amountCents: int,
                               customerId: Option<string>, category: Option<string>)

  // ---------------------------------------------------------------------
  // Validation of one row

  /** The first of `formats` that parses `text`. */
  function FirstParse(text: string, strptime: (string, DateFormat) -> Option<int>, formats: seq<DateFormat>): (r: Option<int>)
    ensures r.None? <==> forall i :: 0 <= i < |formats| ==> strptime(text, formats[i]).None?
    ensures r.Some? ==> exists i :: 0 <= i < |formats| && strptime(text, formats[i]) == r
                                    && forall j :: 0 <= j < i ==> strptime(text, formats[j]).None?
  {
    if formats == [] then None
    else if strptime(text, formats[0]).Some? then strptime(text, formats[0])
    else
      var r := FirstParse(text, strptime, formats[1..]);
      assert forall i :: 1 <= i < |formats| ==> formats[i] == formats[1..][i - 1];
      r
  }

  /** The date column: the formats in order, the first that parses wins. */
  function ParseDate(text: string, strptime: (string, DateFormat) -> Option<int>): (r: Result<int, string>)
    ensures r.Failure? <==> forall i :: 0 <= i < |Formats| ==> strptime(text, Formats[i]).None?
    ensures r.Success? ==> exists i :: 0 <= i < |Formats| && strptime(text, Formats[i]) == Some(r.value)
                                       && forall j :: 0 <= j < i ==> strptime(text, Formats[j]).None?
    ensures r.Failure? ==> r.error == "Date parsing error: Invalid date format: " + text
  {
    match FirstParse(text, strptime, Formats)
    case Some(d) => Success(d)
    case None => Failure("Date parsing error: Invalid date format: " + text)
  }

  /** A date both month-first and day-first formats accept is read
      month-first. */
  lemma AmbiguousDateIsMonthFirst(text: string, strptime: (string, DateFormat) -> Option<int>)
    requires strptime(text, IsoDate).None? && strptime(text, MonthFirst).Some?
    ensures ParseDate(text, strptime) == Success(strptime(text, MonthFirst).value)
  {
    var r := ParseDate(text, strptime);
    if r.Success? {
      var i :| 0 <= i < |Formats| && strptime(text, Formats[i]) == Some(r.value)
                && forall j :: 0 <= j < i ==> strptime(text, Formats[j]).None?;
      assert Formats[0] == IsoDate && Formats[1] == MonthFirst;
    } else {
      assert Formats[1] == MonthFirst;
    }
  }

  const InfinityMessage: string := "cannot convert float infinity to integer"

  /** The amount column in cents. Every failure of `float()`, a value not
      above zero and not-a-number (which `int()` rejects) are all reported
      as an invalid amount; positive infinity escapes that handler and is
      reported with the conversion's own message. */
  function ParseAmount(text: string, toFloat: string -> Option<PyFloat>): (r: Result<int, string>)
    ensures r.Success? <==> toFloat(text).Some? && toFloat(text).value.Finite? && toFloat(text).value.x > 0.0
    ensures r.Success? ==> r.value >= 0 && r.value as real <= toFloat(text).value.x * 100.0 < r.value as real + 1.0
    ensures r.Failure? && toFloat(text) != Some(Infinity(true)) ==> r.error == "Invalid amount: " + text
    ensures toFloat(text) == Some(Infinity(true)) ==> r == Failure(InfinityMessage)
  {
    match toFloat(text)
    case None => Failure("Invalid amount: " + text)
    case Some(NaN) => Failure("Invalid amount: " + text)
    case Some(Infinity(positive)) =>
      if positive then Failure(InfinityMessage) else Failure("Invalid amount: " + text)
    case Some(Finite(x)) =>
      if x <= 0.0 then Failure("Invalid amount: " + text) else Success(Trunc(x * 100.0))
  }

  /** A positive amount below one cent passes and is stored as 0 cents. */
  lemma SubCentAmountIsZero(text: string, toFloat: string -> Option<PyFloat>)
    requires toFloat(text).Some? && toFloat(text).value.Finite?
    requires 0.0 < toFloat(text).value.x < 0.01
    ensures ParseAmount(text, toFloat) == Success(0)
  {
  }

  /** `_validate_row`: the date, then the amount, then the product name;
      the first failure is the row's error. */
  function ValidateRow(row: FrameRow, p: Parsers): (r: Result<SaleData, string>)
    ensures ParseDate(Strip(Cell(row, "date")), p.strptime).Failure? ==>
              r == Failure(ParseDate(Strip(Cell(row, "date")), p.strptime).error)
    ensures ParseDate(Strip(Cell(row, "date")), p.strptime).Success? && ParseAmount(Cell(row, "amount"), p.toFloat).Failure? ==>
              r == Failure(ParseAmount(Cell(row, "amount"), p.toFloat).error)
    ensures r.Success? ==> && r.value.productName == Strip(Cell(row, "product_name"))
                           && r.value.productName != "" && Lower(r.value.productName) != "nan"
                           && r.value.amountCents >= 0
                           && r.value.customerId == OptionalText(row, "customer_id")
                           && r.value.category == OptionalText(row, "category")
    ensures r.Failure? && ParseDate(Strip(Cell(row, "date")), p.strptime).Success? && ParseAmount(Cell(row, "amount"), p.toFloat).Success? ==>
              r.error == "Product name is required"
  {
    match ParseDate(Strip(Cell(row, "date")), p.strptime)
    case Failure(e) => Failure(e)
    case Success(date) =>
      match ParseAmount(Cell(row, "amount"), p.toFloat)
      case Failure(e) => Failure(e)
      case Success(cents) =>
        var name := Strip(Cell(row, "product_name"));
        if name == "" || Lower(name) == "nan" then Failure("Product name is required")
        else Success(SaleData(date, name, cents, OptionalText(row, "customer_id"), OptionalText(row, "category")))
  }

  // ---------------------------------------------------------------------
  // Batching

  /** The importer's state while it walks the rows: the rows waiting for
      the next insert, the rows committed so far, the size of every
      committed batch, the error lines, and how many inserts were tried. */
  datatype Batcher = Batcher(buffer: seq<SaleData>, inserted: seq<SaleData>, batches: seq<nat>,
                             errors: seq<string>, attempts: nat)

  const Start: Batcher := Batcher([], [], [], [], 0)

  /** The error line for the row at 0-based `index`: the header is line 1,
      so data rows are numbered from 2. */
  function RowError(index: nat, message: string): string {
    "Row " + NatToString(index + 2) + ": " + message
  }

  /** The outcome of validating every row, in order. */
  function Validations(rows: seq<FrameRow>, p: Parsers): (vs: seq<Result<SaleData, string>>)
    ensures |vs| == |rows|
    ensures forall i :: 0 <= i < |rows| ==> vs[i] == ValidateRow(rows[i], p)
  {
    seq(|rows|, i requires 0 <= i < |rows| => ValidateRow(rows[i], p))
  }

  /** One row of the loop, given the outcome of its validation. A full
      buffer is inserted inside the row's own `try`, so a failing insert is
      reported against that row and the buffer is kept for the next
      attempt. */
  function Step(st: Batcher, index: nat, v: Result<SaleData, string>, insert: nat -> Option<string>): Batcher {
    match v
    case Failure(m) => st.(errors := st.errors + [RowError(index, m)])
    case Success(s) =>
      var buf := st.buffer + [s];
      if |buf| < BatchSize then st.(buffer := buf)
      else
        match insert(st.attempts)
        case None => Batcher([], st.inserted + buf, st.batches + [|buf|], st.errors, st.attempts + 1)
        case Some(m) => Batcher(buf, st.inserted, st.batches, st.errors + [RowError(index, m)], st.attempts + 1)
  }

  /** The state after the first `k` rows. */
  function Run(vs: seq<Result<SaleData, string>>, k: nat, insert: nat -> Option<string>): Batcher
    requires k <= |vs|
  {
    if k == 0 then Start else Step(Run(vs, k - 1, insert), k - 1, vs[k - 1], insert)
  }

  /** The insert of the remainder after the loop; its failure is caught by
      the outer handler. */
  function Finish(st: Batcher, insert: nat -> Option<string>): Batcher {
    if st.buffer == [] then st
    else
      match insert(st.attempts)
      case None => Batcher([], st.inserted + st.buffer, st.batches + [|st.buffer|], st.errors, st.attempts + 1)
      case Some(m) => st.(errors := st.errors + ["CSV parsing error: " + m], attempts := st.attempts + 1)
  }

  function Import(vs: seq<Result<SaleData, string>>, insert: nat -> Option<string>): Batcher {
    Finish(Run(vs, |vs|, insert), insert)
  }

  /** `process_csv_content`: the number of rows stored and the error lines. */
  function ProcessCsvContent(csv: string, read: string -> Result<Frame, string>, p: Parsers,
                             insert: nat -> Option<string>): (r: (nat, seq<string>))
    ensures read(csv).Failure? ==> r == (0, ["CSV parsing error: " + read(csv).error])
    ensures read(csv).Success? && Missing(read(csv).value.columns, Required) != [] ==>
              r == (0, ["Missing required columns: " + Join(Missing(read(csv).value.columns, Required), ", ")])
    ensures read(csv).Success? && Missing(read(csv).value.columns, Required) == [] ==>
              r.0 <= |Valid(Validations(read(csv).value.rows, p), |read(csv).value.rows|)|
  {
    match read(csv)
    case Failure(m) => (0, ["CSV parsing error: " + m])
    case Success(frame) =>
      var missing := Missing(frame.columns, Required);
      if missing != [] then (0, ["Missing required columns: " + Join(missing, ", ")])
      else
        var vs := Validations(frame.rows, p);
        ImportStoresValidRows(vs, insert);
        var b := Import(vs, insert);
        (|b.inserted|, b.errors)
  }

  // ---------------------------------------------------------------------
  // Reference definitions, without batching

  /** The valid rows among the first `k`, in order. */
  function Valid(vs: seq<Result<SaleData, string>>, k: nat): (v: seq<SaleData>)
    requires k <= |vs|
    ensures |v| <= k
  {
    if k == 0 then []
    else Valid(vs, k - 1) + (if vs[k - 1].Success? then [vs[k - 1].value] else [])
  }

  /** The error lines of the invalid rows among the first `k`, in order. */
  function RowErrors(vs: seq<Result<SaleData, string>>, k: nat): (e: seq<string>)
    requires k <= |vs|
    ensures |e| + |Valid(vs, k)| == k
  {
    if k == 0 then []
    else RowErrors(vs, k - 1) + (if vs[k - 1].Failure? then [RowError(k - 1, vs[k - 1].error)] else [])
  }

  /** The first `n` inserts all commit. */
  predicate Committing(insert: nat -> Option<string>, n: nat) {
    forall a :: 0 <= a < n ==> insert(a).None?
  }

  predicate BatchesWithin(batches: seq<nat>, limit: nat) {
    forall i :: 0 <= i < |batches| ==> batches[i] <= limit
  }

  function Sum(xs: seq<nat>): nat {
    if xs == [] then 0 else xs[0] + Sum(xs[1..])
  }

  lemma {:induction false} SumSnoc(xs: seq<nat>, x: nat)
    ensures Sum(xs + [x]) == Sum(xs) + x
  {
    if xs == [] {
      assert xs + [x] == [x];
    } else {
      assert (xs + [x])[1..] == xs[1..] + [x];
      SumSnoc(xs[1..], x);
    }
  }

  /** What holds after every row: no valid row is lost or duplicated (the
      committed rows followed by the waiting ones are exactly the valid
      rows so far), the batch sizes add up to the committed rows, and while
      every insert commits the buffer stays below the batch size, every
      batch is within the batch size, and the errors are exactly the
      invalid rows' lines. */
  lemma {:induction false} RunInvariant(vs: seq<Result<SaleData, string>>, k: nat, insert: nat -> Option<string>)
    requires k <= |vs|
    ensures Run(vs, k, insert).inserted + Run(vs, k, insert).buffer == Valid(vs, k)
    ensures Sum(Run(vs, k, insert).batches) == |Run(vs, k, insert).inserted|
    ensures Committing(insert, Run(vs, k, insert).attempts) ==>
              && |Run(vs, k, insert).buffer| < BatchSize
              && Run(vs, k, insert).errors == RowErrors(vs, k)
              && BatchesWithin(Run(vs, k, insert).batches, BatchSize)
  {
    if k > 0 {
      RunInvariant(vs, k - 1, insert);
      StepKeeps(Run(vs, k - 1, insert), k - 1, vs[k - 1], insert, Valid(vs, k - 1), RowErrors(vs, k - 1));
    }
  }

  /** One row of the loop keeps the invariant of `RunInvariant`, with the
      row's value or error line added to the reference definitions. */
  lemma StepKeeps(st: Batcher, index: nat, v: Result<SaleData, string>, insert: nat -> Option<string>,
                  valid: seq<SaleData>, errs: seq<string>)
    requires st.inserted + st.buffer == valid
    requires Sum(st.batches) == |st.inserted|
    requires Committing(insert, st.attempts) ==>
               && |st.buffer| < BatchSize && st.errors == errs && BatchesWithin(st.batches, BatchSize)
    ensures var r := Step(st, index, v, insert);
            && r.inserted + r.buffer == valid + (if v.Success? then [v.value] else [])
            && Sum(r.batches) == |r.inserted|
            && (Committing(insert, r.attempts) ==>
                  && |r.buffer| < BatchSize
                  && r.errors == errs + (if v.Failure? then [RowError(index, v.error)] else [])
                  && BatchesWithin(r.batches, BatchSize))
  {
    if v.Success? {
      var buf := st.buffer + [v.value];
      assert st.inserted + buf == valid + [v.value];
      if |buf| >= BatchSize {
        if insert(st.attempts).None? {
          SumSnoc(st.batches, |buf|);
        } else {
          assert !Committing(insert, st.attempts + 1);
        }
      }
    }
  }

  /** The import as a whole never stores a row twice: what it stores is a
      prefix of the valid rows. */
  lemma ImportStoresValidRows(vs: seq<Result<SaleData, string>>, insert: nat -> Option<string>)
    ensures |Import(vs, insert).inserted| <= |Valid(vs, |vs|)|
    ensures Import(vs, insert).inserted == Valid(vs, |vs|)[..|Import(vs, insert).inserted|]
  {
    RunInvariant(vs, |vs|, insert);
    var st := Run(vs, |vs|, insert);
    var v := Valid(vs, |vs|);
    assert st.inserted == v[..|st.inserted|];
  }

  /** When every insert commits, every valid row is stored exactly once and
      in order, no batch exceeds 1000 rows, and every invalid row has
      exactly one error line, numbered from 2. */
  lemma ImportWhenInsertsCommit(vs: seq<Result<SaleData, string>>, insert: nat -> Option<string>)
    requires forall a :: insert(a).None?
    ensures Import(vs, insert).inserted == Valid(vs, |vs|)
    ensures Import(vs, insert).errors == RowErrors(vs, |vs|)
    ensures BatchesWithin(Import(vs, insert).batches, BatchSize)
    ensures Sum(Import(vs, insert).batches) == |Valid(vs, |vs|)|
    ensures |Import(vs, insert).inserted| + |Import(vs, insert).errors| == |vs|
  {
    RunInvariant(vs, |vs|, insert);
    var st := Run(vs, |vs|, insert);
    if st.buffer != [] {
      SumSnoc(st.batches, |st.buffer|);
    }
  }

  /** The same for the whole entry point: the count is the number of valid
      rows and the errors are the invalid rows' lines. */
  lemma ProcessWhenInsertsCommit(csv: string, read: string -> Result<Frame, string>, p: Parsers,
                                 insert: nat -> Option<string>)
    requires read(csv).Success? && Missing(read(csv).value.columns, Required) == []
    requires forall a :: insert(a).None?
    ensures ProcessCsvContent(csv, read, p, insert)
            == (|Valid(Validations(read(csv).value.rows, p), |read(csv).value.rows|)|,
                RowErrors(Validations(read(csv).value.rows, p), |read(csv).value.rows|))
  {
    ImportWhenInsertsCommit(Validations(read(csv).value.rows, p), insert);
  }

  // ---------------------------------------------------------------------
  // A failed insert inside the loop

  /** While fewer than 1000 valid rows have been seen, they all wait in the
      buffer. */
  lemma {:induction false} RunBuffers(vs: seq<Result<SaleData, string>>, k: nat, insert: nat -> Option<string>)
    requires k <= |vs| && k < BatchSize
    requires forall i :: 0 <= i < |vs| ==> vs[i].Success?
    ensures Run(vs, k, insert) == Batcher(Valid(vs, k), [], [], [], 0)
    ensures |Valid(vs, k)| == k
  {
    if k > 0 {
      RunBuffers(vs, k - 1, insert);
    }
  }

  /** When the first insert fails and the second commits, 1001 valid rows
      are committed as one batch of 1001, and the failure is reported as
      an error of row 1001. */
  lemma FailedInsertGrowsBatch(vs: seq<Result<SaleData, string>>, insert: nat -> Option<string>, m: string)
    requires |vs| == BatchSize + 1
    requires forall i :: 0 <= i < |vs| ==> vs[i].Success?
    requires insert(0) == Some(m) && insert(1).None?
    ensures Import(vs, insert).batches == [BatchSize + 1]
    ensures Import(vs, insert).errors == [RowError(BatchSize - 1, m)]
    ensures |Import(vs, insert).inserted| == BatchSize + 1
  {
    RunBuffers(vs, BatchSize - 1, insert);
    var st := Run(vs, BatchSize, insert);
    assert |st.buffer| == BatchSize;
    assert st.errors == [RowError(BatchSize - 1, m)] && st.attempts == 1 && st.batches == [];
  }
}

=== FILE: events.dfy ===
/** The in-process event bus: a subscriber table from event type to the
    handlers registered for it, in registration order, and an append-only
    store of every published event. Handlers are opaque identifiers; what a
    handler does with an event is the parameter `react`, which says which
    events it publishes in turn and whether it then raises. */
module Events {
  import opened Wrappers
  import opened Seqs
  import opened Calendar
  import opened Values

  datatype EventType =
    | SaleCreated | SaleUpdated | SaleDeleted
    | CustomerCreated | CustomerUpdated
    | ExpenseCreated | ExpenseUpdated
    | KpiCalculated | ReportGenerated
    | DataSyncRequested | DataSyncCompleted

  /** The dotted text an event type is written as. */
  function TypeValue(t: EventType): string {
    match t
    case SaleCreated => "sale.created"
    case SaleUpdated => "sale.updated"
    case SaleDeleted => "sale.deleted"
    case CustomerCreated => "customer.created"
    case CustomerUpdated => "customer.updated"
    case ExpenseCreated => "expense.created"
    case ExpenseUpdated => "expense.updated"
    case KpiCalculated => "kpi.calculated"
    case ReportGenerated => "report.generated"
    case DataSyncRequested => "data.sync.requested"
    case DataSyncCompleted => "data.sync.completed"
  }

  /** `EventType(value)`: the type written as `v`, if any. */
  function TypeFromValue(v: string): (r: Option<EventType>)
    ensures r.Some? ==> TypeValue(r.value) == v
  {
    if v == "sale.created" then Some(SaleCreated)
    else if v == "sale.updated" then Some(SaleUpdated)
    else if v == "sale.deleted" then Some(SaleDeleted)
    else if v == "customer.created" then Some(CustomerCreated)
    else if v == "customer.updated" then Some(CustomerUpdated)
    else if v == "expense.created" then Some(ExpenseCreated)
    else if v == "expense.updated" then Some(ExpenseUpdated)
    else if v == "kpi.calculated" then Some(KpiCalculated)
    else if v == "report.generated" then Some(ReportGenerated)
    else if v == "data.sync.requested" then Some(DataSyncRequested)
    else if v == "data.sync.completed" then Some(DataSyncCompleted)
    else None
  }

  /** Every type's text reads back as that type, so no two types share a
      text. */
  lemma TypeValueRoundTrip(t: EventType, u: EventType)
    ensures TypeFromValue(TypeValue(t)) == Some(t)
    ensures TypeValue(t) == TypeValue(u) ==> t == u
  {
    match t
    case SaleCreated =>
    case SaleUpdated =>
    case SaleDeleted =>
    case CustomerCreated =>
    case CustomerUpdated =>
    case ExpenseCreated =>
    case ExpenseUpdated =>
    case KpiCalculated =>
    case ReportGenerated =>
    case DataSyncRequested =>
    case DataSyncCompleted =>
  }

  /** The source every event carries unless it names another. */
  const DefaultSource: string := "analytics"

  /** An event with its payload `data`. */
  datatype Event = Event(
    eventType: EventType,
    entityId: string,
    entityType: string,
    data: Fields,
    timestamp: int,
    source: string)

  /** An event built without naming a source. */
  function NewEvent(t: EventType, entityId: string, entityType: string, data: Fields, timestamp: int): Event {
    Event(t, entityId, entityType, data, timestamp, DefaultSource)
  }

  datatype EventDict = EventDict(
    eventType: string,
    entityId: string,
    entityType: string,
    data: Fields,
    timestamp: string,
    source: string)

  /** `Event.to_dict`: the type as its dotted text and the timestamp in ISO
      form; everything else as is. */
  function ToDict(e: Event): (d: EventDict)
    ensures TypeFromValue(d.eventType) == Some(e.eventType)
    ensures d.timestamp == IsoFormat(e.timestamp)
    ensures d.entityId == e.entityId && d.entityType == e.entityType
    ensures d.data == e.data && d.source == e.source
  {
    TypeValueRoundTrip(e.eventType, e.eventType);
    EventDict(TypeValue(e.eventType), e.entityId, e.entityType, e.data, IsoFormat(e.timestamp), e.source)
  }

  // ---------------------------------------------------------------------
  // The bus

  datatype Bus<H> = Bus(handlers: map<EventType, seq<H>>, store: seq<Event>)

  function EmptyBus<H>(): Bus<H> {
    Bus(map[], [])
  }

  /** The handlers registered for `t`, in registration order. */
  function Subscribers<H>(b: Bus<H>, t: EventType): seq<H> {
    if t in b.handlers then b.handlers[t] else []
  }

  /** `EventBus.subscribe`: appends `h` to the handlers of `t`; registering
      a handler twice lists it twice. */
  function Subscribe<H>(b: Bus<H>, t: EventType, h: H): (r: Bus<H>)
    ensures r.store == b.store
    ensures Subscribers(r, t) == Subscribers(b, t) + [h]
    ensures forall u :: u != t ==> Subscribers(r, u) == Subscribers(b, u)
  {
    b.(handlers := b.handlers[t := Subscribers(b, t) + [h]])
  }

  /** What a handler does with an event: publishes these events, in order,
      and then raises or returns. */
  datatype Reaction = Reaction(publishes: seq<Event>, raised: bool)

  /** One handler invocation, at nesting depth `depth` (0 for the handlers
      of the event passed to the outermost `publish`). */
  datatype Call<H> = Call(handler: H, event: Event, raised: bool, depth: nat)

  datatype Outcome<H> = Outcome(bus: Bus<H>, calls: seq<Call<H>>)

  /** `r` is `b` with events appended to the store and the subscriber
      table unchanged. */
  ghost predicate Grows<H>(b: Bus<H>, r: Bus<H>) {
    r.handlers == b.handlers && |b.store| <= |r.store| && r.store[..|b.store|] == b.store
  }

  /** The invocations at depth `depth`, in order. */
  function TopCalls<H>(calls: seq<Call<H>>, depth: nat): (r: seq<Call<H>>)
    ensures |r| <= |calls|
  {
    if calls == [] then []
    else (if calls[0].depth == depth then [calls[0]] else []) + TopCalls(calls[1..], depth)
  }

  lemma {:induction false} TopCallsAppend<H>(a: seq<Call<H>>, b: seq<Call<H>>, depth: nat)
    ensures TopCalls(a + b, depth) == TopCalls(a, depth) + TopCalls(b, depth)
  {
    if a != [] {
      assert (a + b)[1..] == a[1..] + b;
      TopCallsAppend(a[1..], b, depth);
    } else {
      assert a + b == b;
    }
  }

  lemma {:induction false} TopCallsDeeper<H>(calls: seq<Call<H>>, depth: nat)
    requires forall i :: 0 <= i < |calls| ==> calls[i].depth > depth
    ensures TopCalls(calls, depth) == []
  {
    if calls != [] {
      TopCallsDeeper(calls[1..], depth);
    }
  }

  /** The invocations one call of each of `hs` on `e` makes, in order. */
  ghost predicate CallsEach<H>(top: seq<Call<H>>, hs: seq<H>, e: Event, react: (H, Event) -> Reaction, depth: nat) {
    && |top| == |hs|
    && forall i :: 0 <= i < |hs| ==> top[i] == Call(hs[i], e, react(hs[i], e).raised, depth)
  }

  /** `EventBus.publish`: stores `e` first, then calls every handler
      registered for its type, in order, once per registration. A handler
      that raises does not stop the ones after it and does not make the
      publication fail. Events a handler publishes are published in turn,
      nested inside its call; `fuel` bounds that nesting. */
  function Publish<H>(b: Bus<H>, e: Event, react: (H, Event) -> Reaction, fuel: nat, depth: nat): (o: Outcome<H>)
    ensures Grows(b, o.bus) && |o.bus.store| > |b.store| && o.bus.store[|b.store|] == e
    ensures forall i :: 0 <= i < |o.calls| ==> o.calls[i].depth >= depth
    ensures CallsEach(TopCalls(o.calls, depth), Subscribers(b, e.eventType), e, react, depth)
    ensures Subscribers(b, e.eventType) == [] ==> o.bus.store == b.store + [e] && o.calls == []
    decreases fuel, 2, 0
  {
    var stored := b.(store := b.store + [e]);
    var o := Dispatch(stored, e, Subscribers(b, e.eventType), react, fuel, depth);
    assert o.bus.store[..|stored.store|] == stored.store;
    assert o.bus.store[..|b.store|] == stored.store[..|b.store|];
    o
  }

  /** Calls `hs` on `e` in order, each followed by the events it publishes. */
  function Dispatch<H>(b: Bus<H>, e: Event, hs: seq<H>, react: (H, Event) -> Reaction, fuel: nat, depth: nat): (o: Outcome<H>)
    ensures Grows(b, o.bus)
    ensures forall i :: 0 <= i < |o.calls| ==> o.calls[i].depth >= depth
    ensures CallsEach(TopCalls(o.calls, depth), hs, e, react, depth)
    ensures hs == [] ==> o == Outcome(b, [])
    decreases fuel, 1, |hs|
  {
    if hs == [] then Outcome(b, [])
    else
      var reaction := react(hs[0], e);
      var nested := PublishAll(b, reaction.publishes, react, fuel, depth + 1);
      var rest := Dispatch(nested.bus, e, hs[1..], react, fuel, depth);
      var first := Call(hs[0], e, reaction.raised, depth);
      DispatchStep(b, e, hs, react, depth, nested, rest);
      Outcome(rest.bus, [first] + nested.calls + rest.calls)
  }

  /** One turn of `Dispatch`: the first handler's call, then what its
      publications did, then the calls of the handlers after it. */
  lemma DispatchStep<H>(b: Bus<H>, e: Event, hs: seq<H>, react: (H, Event) -> Reaction, depth: nat,
                        nested: Outcome<H>, rest: Outcome<H>)
    requires hs != []
    requires Grows(b, nested.bus) && Grows(nested.bus, rest.bus)
    requires forall i :: 0 <= i < |nested.calls| ==> nested.calls[i].depth >= depth + 1
    requires forall i :: 0 <= i < |rest.calls| ==> rest.calls[i].depth >= depth
    requires CallsEach(TopCalls(rest.calls, depth), hs[1..], e, react, depth)
    ensures var calls := [Call(hs[0], e, react(hs[0], e).raised, depth)] + nested.calls + rest.calls;
            && Grows(b, rest.bus)
            && (forall i :: 0 <= i < |calls| ==> calls[i].depth >= depth)
            && CallsEach(TopCalls(calls, depth), hs, e, react, depth)
  {
    var first := Call(hs[0], e, react(hs[0], e).raised, depth);
    TopCallsAppend([first] + nested.calls, rest.calls, depth);
    TopCallsAppend([first], nested.calls, depth);
    TopCallsDeeper(nested.calls, depth);
    DepthsJoin(first, nested.calls, rest.calls, depth);
    assert rest.bus.store[..|b.store|] == nested.bus.store[..|b.store|];
    var top := TopCalls([first] + nested.calls + rest.calls, depth);
    assert TopCalls([first], depth) == [first];
    assert top == [first] + TopCalls(rest.calls, depth);
    forall i | 0 <= i < |hs| ensures top[i] == Call(hs[i], e, react(hs[i], e).raised, depth) {
      if i > 0 {
        assert top[i] == TopCalls(rest.calls, depth)[i - 1];
        assert hs[1..][i - 1] == hs[i];
      }
    }
  }

  lemma DepthsJoin<H>(first: Call<H>, a: seq<Call<H>>, b: seq<Call<H>>, depth: nat)
    requires first.depth >= depth
    requires forall i :: 0 <= i < |a| ==> a[i].depth >= depth
    requires forall i :: 0 <= i < |b| ==> b[i].depth >= depth
    ensures var calls := [first] + a + b;
            forall i :: 0 <= i < |calls| ==> calls[i].depth >= depth
  {
    var calls := [first] + a + b;
    forall i | 0 <= i < |calls| ensures calls[i].depth >= depth {
      if i == 0 {
      } else if i <= |a| {
        assert calls[i] == a[i - 1];
      } else {
        assert calls[i] == b[i - 1 - |a|];
      }
    }
  }

  /** Publishes `es` in order, one nesting level deeper. Once the fuel is
      spent the events are stored without calling their handlers. */
  function PublishAll<H>(b: Bus<H>, es: seq<Event>, react: (H, Event) -> Reaction, fuel: nat, depth: nat): (o: Outcome<H>)
    ensures Grows(b, o.bus)
    ensures |o.bus.store| >= |b.store| + |es|
    ensures forall i :: 0 <= i < |o.calls| ==> o.calls[i].depth >= depth
    decreases fuel, 0, |es|
  {
    if es == [] then Outcome(b, [])
    else if fuel == 0 then Outcome(b.(store := b.store + es), [])
    else
      var first := Publish(b, es[0], react, fuel - 1, depth);
      var rest := PublishAll(first.bus, es[1..], react, fuel, depth);
      assert rest.bus.store[..|b.store|] == first.bus.store[..|b.store|];
      Outcome(rest.bus, first.calls + rest.calls)
  }

  /** A handler not registered for the event's type is not called for it. */
  lemma UnsubscribedNotCalled<H>(b: Bus<H>, e: Event, react: (H, Event) -> Reaction, fuel: nat, h: H)
    requires h !in Subscribers(b, e.eventType)
    ensures var top := TopCalls(Publish(b, e, react, fuel, 0).calls, 0);
            forall i :: 0 <= i < |top| ==> top[i].handler != h
  {
    var top := TopCalls(Publish(b, e, react, fuel, 0).calls, 0);
    var hs := Subscribers(b, e.eventType);
    forall i | 0 <= i < |top| ensures top[i].handler != h {
      assert top[i].handler == hs[i];
    }
  }

  /** A handler registered twice for a type, and nothing else registered
      for it, is called twice for each event of that type. */
  lemma SubscribedTwiceCalledTwice<H>(b: Bus<H>, h: H, e: Event, react: (H, Event) -> Reaction, fuel: nat)
    requires Subscribers(b, e.eventType) == []
    ensures var b2 := Subscribe(Subscribe(b, e.eventType, h), e.eventType, h);
            var top := TopCalls(Publish(b2, e, react, fuel, 0).calls, 0);
            |top| == 2 && top[0].handler == h && top[1].handler == h
  {
    var b2 := Subscribe(Subscribe(b, e.eventType, h), e.eventType, h);
    assert Subscribers(b2, e.eventType) == [h, h];
  }

  // ---------------------------------------------------------------------
  // Reading the store

  /** The conjunction of `get_events`' filters: an absent or empty entity
      id and an absent type do not filter. */
  predicate Selects(e: Event, entityId: Option<string>, eventType: Option<EventType>) {
    && (entityId.None? || entityId.value == "" || e.entityId == entityId.value)
    && (eventType.None? || e.eventType == eventType.value)
  }

  /** `EventBus.get_events`: filters by entity id, then by type. */
  function GetEvents<H>(b: Bus<H>, entityId: Option<string>, eventType: Option<EventType>): (r: seq<Event>)
    ensures forall i :: 0 <= i < |r| ==> r[i] in b.store && Selects(r[i], entityId, eventType)
    ensures forall i :: 0 <= i < |b.store| && Selects(b.store[i], entityId, eventType) ==> b.store[i] in r
  {
    var byId := if entityId.Some? && entityId.value != "" then Filter(b.store, (e: Event) => e.entityId == entityId.value)
                else b.store;
    if eventType.Some? then Filter(byId, (e: Event) => e.eventType == eventType.value) else byId
  }

  /** The two filters applied one after the other select, in store order,
      exactly the events their conjunction selects. */
  lemma GetEventsConjunctive<H>(b: Bus<H>, entityId: Option<string>, eventType: Option<EventType>)
    ensures GetEvents(b, entityId, eventType) == Filter(b.store, (e: Event) => Selects(e, entityId, eventType))
  {
    var sel := (e: Event) => Selects(e, entityId, eventType);
    var byType := (e: Event) => eventType.None? || e.eventType == eventType.value;
    if entityId.Some? && entityId.value != "" {
      var byId := (e: Event) => e.entityId == entityId.value;
      if eventType.Some? {
        FilterFilter(b.store, byId, (e: Event) => e.eventType == eventType.value, sel);
      } else {
        FilterFilter(b.store, byId, byType, sel);
        FilterKeepsAll(Filter(b.store, byId), byType);
      }
    } else {
      if eventType.Some? {
        FilterFilter(b.store, (e: Event) => true, (e: Event) => e.eventType == eventType.value, sel);
        FilterKeepsAll(b.store, (e: Event) => true);
      } else {
        FilterKeepsAll(b.store, sel);
      }
    }
  }

  /** With no filter (or an empty entity id) the whole store comes back, in
      publication order. */
  lemma GetEventsUnfiltered<H>(b: Bus<H>)
    ensures GetEvents(b, None, None) == b.store
    ensures GetEvents(b, Some(""), None) == b.store
  {
  }

  /** Publishing keeps what `get_events` returned before as its prefix and
      adds the published event after it when it matches. */
  lemma GetEventsAfterPublish<H>(b: Bus<H>, e: Event, react: (H, Event) -> Reaction, fuel: nat,
                                 entityId: Option<string>, eventType: Option<EventType>)
    requires Subscribers(b, e.eventType) == []
    ensures GetEvents(Publish(b, e, react, fuel, 0).bus, entityId, eventType)
            == GetEvents(b, entityId, eventType) + (if Selects(e, entityId, eventType) then [e] else [])
  {
    var sel := (x: Event) => Selects(x, entityId, eventType);
    var r := Publish(b, e, react, fuel, 0).bus;
    assert r.store == b.store + [e];
    GetEventsConjunctive(b, entityId, eventType);
    GetEventsConjunctive(r, entityId, eventType);
    FilterSnoc(b.store, e, sel);
  }

  // ---------------------------------------------------------------------
  // Cascades that end after one level

  /** Everything the handlers `hs` publish when called on `e`, in order. */
  function Emitted<H>(hs: seq<H>, e: Event, react: (H, Event) -> Reaction): seq<Event> {
    if hs == [] then [] else react(hs[0], e).publishes + Emitted(hs[1..], e, react)
  }

  lemma {:induction false} EmittedSnoc<H>(hs: seq<H>, h: H, e: Event, react: (H, Event) -> Reaction)
    ensures Emitted(hs + [h], e, react) == Emitted(hs, e, react) + react(h, e).publishes
  {
    if hs != [] {
      assert (hs + [h])[1..] == hs[1..] + [h];
      EmittedSnoc(hs[1..], h, e, react);
    } else {
      assert hs + [h] == [h];
    }
  }

  /** No event of `es` has a handler in `b`. */
  predicate Unhandled<H>(b: Bus<H>, es: seq<Event>) {
    forall i :: 0 <= i < |es| ==> Subscribers(b, es[i].eventType) == []
  }

  /** Events of types nobody handles are just stored, in order. */
  lemma {:induction false} PublishAllUnhandled<H>(b: Bus<H>, es: seq<Event>, react: (H, Event) -> Reaction, fuel: nat, depth: nat)
    requires Unhandled(b, es)
    ensures PublishAll(b, es, react, fuel, depth) == Outcome(b.(store := b.store + es), [])
    decreases |es|
  {
    if es != [] && fuel > 0 {
      var first := Publish(b, es[0], react, fuel - 1, depth);
      assert first == Outcome(b.(store := b.store + [es[0]]), []);
      assert Unhandled(first.bus, es[1..]) by {
        forall i | 0 <= i < |es[1..]| ensures Subscribers(first.bus, es[1..][i].eventType) == [] {
          assert es[1..][i] == es[i + 1];
        }
      }
      PublishAllUnhandled(first.bus, es[1..], react, fuel, depth);
      AppendHeadTail(b.store, es);
    } else if es == [] {
      assert b.store + es == b.store;
    }
  }

  lemma UnhandledRest<H>(b: Bus<H>, nested: Bus<H>, e: Event, hs: seq<H>, react: (H, Event) -> Reaction)
    requires hs != [] && nested.handlers == b.handlers
    requires forall i :: 0 <= i < |hs| ==> Unhandled(b, react(hs[i], e).publishes)
    ensures forall i :: 0 <= i < |hs[1..]| ==> Unhandled(nested, react(hs[1..][i], e).publishes)
  {
    forall i | 0 <= i < |hs[1..]| ensures Unhandled(nested, react(hs[1..][i], e).publishes) {
      assert hs[1..][i] == hs[i + 1];
      assert Unhandled(b, react(hs[i + 1], e).publishes);
    }
  }

  lemma EmittedCons<H>(store: seq<Event>, hs: seq<H>, e: Event, react: (H, Event) -> Reaction)
    requires hs != []
    ensures store + react(hs[0], e).publishes + Emitted(hs[1..], e, react) == store + Emitted(hs, e, react)
  {
  }

  /** When nothing the handlers publish has a handler of its own, dispatch
      stores exactly what they publish, in handler order. */
  lemma {:induction false} DispatchUnhandled<H>(b: Bus<H>, e: Event, hs: seq<H>, react: (H, Event) -> Reaction, fuel: nat, depth: nat)
    requires forall i :: 0 <= i < |hs| ==> Unhandled(b, react(hs[i], e).publishes)
    ensures Dispatch(b, e, hs, react, fuel, depth).bus == b.(store := b.store + Emitted(hs, e, react))
    decreases |hs|
  {
    if hs == [] {
      assert b.store + [] == b.store;
    } else {
      var reaction := react(hs[0], e);
      PublishAllUnhandled(b, reaction.publishes, react, fuel, depth + 1);
      var nested := b.(store := b.store + reaction.publishes);
      UnhandledRest(b, nested, e, hs, react);
      DispatchUnhandled(nested, e, hs[1..], react, fuel, depth);
      EmittedCons(b.store, hs, e, react);
    }
  }
}

=== FILE: exceptions.dfy ===
/** The application's exception classes and `handle_service_exceptions`,
    the decorator that turns them into HTTP errors. */
module Exceptions {
  import opened Wrappers

  /** `AnalyticsException` itself and its four subclasses. */
  datatype Kind = Analytics | Validation | NotFound | Duplicate | Database

  /** An exception a service call raises: one of the application's, with
      its message and optional error code, or any other, by its `str()`. */
  datatype Raised =
    | AppError(kind: Kind, message: string, errorCode: Option<string>)
    | OtherError(text: string)

  datatype HttpException = HttpException(status: nat, detail: string)

  const InternalPrefix := "Internal server error: "

  /** `str(e)` of an exception: the message an application exception was
      constructed with. */
  function Text(e: Raised): string {
    match e
    case AppError(_, m, _) => m
    case OtherError(t) => t
  }

  /** The status the decorator's `except` clause for a kind chooses, if it
      has one. The base class has no clause of its own. */
  function StatusOf(k: Kind): (s: Option<nat>)
    ensures s.None? <==> k == Analytics
  {
    match k
    case Validation => Some(422)
    case NotFound => Some(404)
    case Duplicate => Some(409)
    case Database => Some(500)
    case Analytics => None
  }

  /** `handle_service_exceptions(func)` applied to a call's outcome. */
  function Handle<T>(outcome: Result<T, Raised>): (r: Result<T, HttpException>)
    ensures r.Success? <==> outcome.Success?
    ensures outcome.Success? ==> r.value == outcome.value
    ensures outcome.Failure? ==> r.error.status in {404, 409, 422, 500}
    ensures outcome.Failure? && outcome.error.AppError? && outcome.error.kind != Analytics ==>
              r.error.detail == outcome.error.message
    ensures outcome.Failure? && !(outcome.error.AppError? && outcome.error.kind != Analytics) ==>
              r.error == HttpException(500, InternalPrefix + Text(outcome.error))
  {
    match outcome
    case Success(v) => Success(v)
    case Failure(e) =>
      match e
      case AppError(k, m, _) =>
        (match StatusOf(k)
         case Some(s) => Failure(HttpException(s, m))
         case None => Failure(HttpException(500, InternalPrefix + m)))
      case OtherError(t) => Failure(HttpException(500, InternalPrefix + t))
  }

  /** The kind a client-error status stands for: the inverse of the
      decorator's mapping on the 4xx statuses. */
  function KindOfStatus(status: nat): (k: Option<Kind>)
    ensures k.Some? <==> status in {404, 409, 422}
  {
    if status == 422 then Some(Validation)
    else if status == 404 then Some(NotFound)
    else if status == 409 then Some(Duplicate)
    else None
  }

  /** A client error keeps its kind through the decorator: the status names
      the kind, and the detail is the message. Everything else is a 500. */
  lemma HandleClientErrors<T>(e: Raised)
    ensures var r := Handle<T>(Failure(e));
            && (KindOfStatus(r.error.status) ==
                  if e.AppError? && e.kind in {Validation, NotFound, Duplicate} then Some(e.kind) else None)
            && (r.error.status == 500 <==> !(e.AppError? && e.kind in {Validation, NotFound, Duplicate}))
  {
  }

  /** The base class and foreign exceptions are reported alike: the detail
      is the prefix and the exception's text; the error code is dropped in
      every case. */
  lemma UnmappedIsInternal<T>(m: string, code: Option<string>)
    ensures Handle<T>(Failure(AppError(Analytics, m, code))) == Handle<T>(Failure(OtherError(m)))
    ensures Handle<T>(Failure(AppError(Validation, m, code))) == Handle<T>(Failure(AppError(Validation, m, None)))
  {
  }
}

=== FILE: frames.dfy ===
/** What the CSV importers see of a parsed file: the column names and, per
    row, the text of each cell. Parsing itself (`pandas.read_csv`) is not
    modelled; its result, or its error message, is an input. */
module Frames {
  import opened Wrappers
  import opened Text

  /** One row: column name to the text of the cell (what `str()` of the
      pandas value gives; an empty cell arrives as pandas' missing value,
      whose text is "nan"). */
  type FrameRow = map<string, string>

  datatype Frame = Frame(columns: seq<string>, rows: seq<FrameRow>)

  /** `str(row.get(column, ''))`. */
  function Cell(row: FrameRow, column: string): string {
    if column in row then row[column] else ""
  }

  /** `str(row.get(column, '')).strip() or None`: an optional column whose
      trimmed text is empty, or that is absent, gives nothing. */
  function OptionalText(row: FrameRow, column: string): (r: Option<string>)
    ensures r.None? <==> Strip(Cell(row, column)) == ""
    ensures r.Some? ==> r.value == Strip(Cell(row, column)) && |r.value| > 0
    ensures column !in row ==> r.None?
  {
    var t := Strip(Cell(row, column));
    if t == "" then None else Some(t)
  }

  /** `[c for c in required if c not in columns]`. */
  function Missing(columns: seq<string>, required: seq<string>): (m: seq<string>)
    ensures forall c :: c in m <==> c in required && c !in columns
    ensures |m| <= |required|
  {
    if required == [] then []
    else (if required[0] in columns then [] else [required[0]]) + Missing(columns, required[1..])
  }

  /** The missing columns keep the order of the required list: a further
      required column is reported after the others. */
  lemma {:induction false} MissingSnoc(columns: seq<string>, required: seq<string>, c: string)
    ensures Missing(columns, required + [c]) == Missing(columns, required) + (if c in columns then [] else [c])
  {
    if required == [] {
      assert required + [c] == [c];
    } else {
      assert (required + [c])[1..] == required[1..] + [c];
      MissingSnoc(columns, required[1..], c);
    }
  }

  /** Python's `float` values: finite ones, not-a-number and the two
      infinities. */
  datatype PyFloat = Finite(x: real) | NaN | Infinity(positive: bool)
}

=== FILE: grouping.dfy ===
/** SQL `GROUP BY`, and the dictionary-accumulation loops that imitate it:
    the rows are partitioned by a key, one bucket per distinct key, in the
    order the keys first appear. */
module Grouping {
  import opened Seqs
  import opened Sorting

  datatype Bucket<K, T> = Bucket(key: K, items: seq<T>)

  function BucketKey<K, T>(b: Bucket<K, T>): K {
    b.key
  }

  /** The elements of `xs` whose key is `k`, in order. */
  function Select<K(==), T>(xs: seq<T>, key: T -> K, k: K): (r: seq<T>)
    ensures forall i :: 0 <= i < |r| ==> key(r[i]) == k
    ensures r == [] <==> forall j :: 0 <= j < |xs| ==> key(xs[j]) != k
  {
    if xs == [] then []
    else
      var rest := Select(xs[1..], key, k);
      assert forall j :: 1 <= j < |xs| ==> xs[j] == xs[1..][j - 1];
      (if key(xs[0]) == k then [xs[0]] else []) + rest
  }

  lemma {:induction false} SelectSnoc<K, T>(xs: seq<T>, x: T, key: T -> K, k: K)
    ensures Select(xs + [x], key, k) == Select(xs, key, k) + (if key(x) == k then [x] else [])
  {
    if xs == [] {
      assert xs + [x] == [x];
    } else {
      assert (xs + [x])[1..] == xs[1..] + [x];
      SelectSnoc(xs[1..], x, key, k);
    }
  }

  /** Selecting a key every item has keeps every item. */
  lemma {:induction false} SelectAll<K, T>(xs: seq<T>, key: T -> K, k: K)
    requires forall i :: 0 <= i < |xs| ==> key(xs[i]) == k
    ensures Select(xs, key, k) == xs
  {
    if xs != [] {
      assert forall j :: 0 <= j < |xs[1..]| ==> xs[1..][j] == xs[j + 1];
      SelectAll(xs[1..], key, k);
      assert [xs[0]] + xs[1..] == xs;
    }
  }

  lemma {:induction false} SelectMember<K, T>(xs: seq<T>, key: T -> K, k: K, j: nat)
    requires j < |Select(xs, key, k)|
    ensures Select(xs, key, k)[j] in xs
  {
    if xs != [] {
      var rest := Select(xs[1..], key, k);
      if key(xs[0]) == k && j == 0 {
      } else {
        var j' := if key(xs[0]) == k then j - 1 else j;
        SelectMember(xs[1..], key, k, j');
      }
    }
  }

  predicate DistinctKeys<K(==), T>(gs: seq<Bucket<K, T>>) {
    forall i, j :: 0 <= i < j < |gs| ==> gs[i].key != gs[j].key
  }

  predicate HasKey<K(==), T>(gs: seq<Bucket<K, T>>, k: K) {
    exists i :: 0 <= i < |gs| && gs[i].key == k
  }

  /** Accumulates one more row: into its key's bucket when there is one,
      otherwise into a new bucket at the end. */
  function AddItem<K(==), T>(gs: seq<Bucket<K, T>>, x: T, key: T -> K): (r: seq<Bucket<K, T>>)
    requires DistinctKeys(gs)
    ensures DistinctKeys(r)
    ensures |r| == if HasKey(gs, key(x)) then |gs| else |gs| + 1
    ensures forall i :: 0 <= i < |gs| ==> r[i].key == gs[i].key
    ensures forall i :: 0 <= i < |gs| ==>
      r[i].items == gs[i].items + (if gs[i].key == key(x) then [x] else [])
    ensures !HasKey(gs, key(x)) ==> r[|gs|] == Bucket(key(x), [x])
  {
    if gs == [] then [Bucket(key(x), [x])]
    else if gs[0].key == key(x) then
      [gs[0].(items := gs[0].items + [x])] + gs[1..]
    else
      var rest := AddItem(gs[1..], x, key);
      HasKeyBehind(gs, key(x));
      AddItemBehind(gs, x, key, rest);
      DistinctCons(gs[0], rest);
      [gs[0]] + rest
  }

  /** A key other than the first bucket's is held by the list exactly when
      it is held by the rest. */
  lemma HasKeyBehind<K, T>(gs: seq<Bucket<K, T>>, k: K)
    requires gs != [] && gs[0].key != k
    ensures HasKey(gs, k) <==> HasKey(gs[1..], k)
  {
    if HasKey(gs, k) {
      var i :| 0 <= i < |gs| && gs[i].key == k;
      assert gs[1..][i - 1].key == k;
    }
    if HasKey(gs[1..], k) {
      var i :| 0 <= i < |gs[1..]| && gs[1..][i].key == k;
      assert gs[i + 1].key == k;
    }
  }

  /** A bucket whose key the others lack can lead them. */
  lemma DistinctCons<K, T>(b: Bucket<K, T>, rest: seq<Bucket<K, T>>)
    requires DistinctKeys(rest)
    requires forall i :: 0 <= i < |rest| ==> rest[i].key != b.key
    ensures DistinctKeys([b] + rest)
  {
    var r := [b] + rest;
    forall i, j | 0 <= i < j < |r| ensures r[i].key != r[j].key {
      assert r[j] == rest[j - 1];
      if i > 0 {
        assert r[i] == rest[i - 1];
      }
    }
  }

  /** The step of `AddItem` past a first bucket of another key: the row
      facts of the rest carry over to the whole list, and the first key
      stays unique. */
  lemma AddItemBehind<K, T>(gs: seq<Bucket<K, T>>, x: T, key: T -> K, rest: seq<Bucket<K, T>>)
    requires DistinctKeys(gs) && gs != [] && gs[0].key != key(x)
    requires |rest| == if HasKey(gs[1..], key(x)) then |gs| - 1 else |gs|
    requires forall i :: 0 <= i < |gs[1..]| ==> rest[i].key == gs[1..][i].key
    requires forall i :: 0 <= i < |gs[1..]| ==>
      rest[i].items == gs[1..][i].items + (if gs[1..][i].key == key(x) then [x] else [])
    requires !HasKey(gs[1..], key(x)) ==> rest[|gs[1..]|] == Bucket(key(x), [x])
    ensures forall i :: 0 <= i < |rest| ==> rest[i].key != gs[0].key
    ensures forall i :: 0 <= i < |gs| ==> ([gs[0]] + rest)[i].key == gs[i].key
    ensures forall i :: 0 <= i < |gs| ==>
      ([gs[0]] + rest)[i].items == gs[i].items + (if gs[i].key == key(x) then [x] else [])
    ensures !HasKey(gs[1..], key(x)) ==> ([gs[0]] + rest)[|gs|] == Bucket(key(x), [x])
  {
    var r := [gs[0]] + rest;
    var tail := gs[1..];
    assert forall i :: 0 <= i < |tail| ==> tail[i] == gs[i + 1];
    assert forall i :: 1 <= i < |r| ==> r[i] == rest[i - 1];
    forall i | 0 <= i < |rest| ensures rest[i].key != gs[0].key {
      if i < |tail| {
        assert rest[i].key == gs[i + 1].key;
      }
    }
  }

  /** The buckets `gs` are a grouping of `xs` by `key`. */
  ghost predicate IsGrouping<K, T>(xs: seq<T>, key: T -> K, gs: seq<Bucket<K, T>>) {
    && DistinctKeys(gs)
    && (forall i :: 0 <= i < |gs| ==> gs[i].items == Select(xs, key, gs[i].key))
    && (forall i :: 0 <= i < |gs| ==> |gs[i].items| > 0)
    && (forall j :: 0 <= j < |xs| ==> HasKey(gs, key(xs[j])))
  }

  /** Accumulating one more row into a grouping of `init` gives a grouping
      of `init + [last]`. */
  lemma AddItemGroups<K, T>(init: seq<T>, last: T, key: T -> K, g: seq<Bucket<K, T>>)
    requires IsGrouping(init, key, g)
    ensures IsGrouping(init + [last], key, AddItem(g, last, key))
  {
    var xs := init + [last];
    var r := AddItem(g, last, key);
    forall i | 0 <= i < |r|
      ensures r[i].items == Select(xs, key, r[i].key) && |r[i].items| > 0
    {
      SelectSnoc(init, last, key, r[i].key);
      if i == |g| {
        forall j | 0 <= j < |init| ensures key(init[j]) != key(last) {
          assert HasKey(g, key(init[j]));
        }
        assert Select(init, key, key(last)) == [];
      }
    }
    forall j | 0 <= j < |xs| ensures HasKey(r, key(xs[j])) {
      if j < |xs| - 1 {
        assert xs[j] == init[j];
        var i :| 0 <= i < |g| && g[i].key == key(init[j]);
        assert r[i].key == key(xs[j]);
      } else if HasKey(g, key(last)) {
        var i :| 0 <= i < |g| && g[i].key == key(last);
        assert r[i].key == key(xs[j]);
      } else {
        assert r[|g|].key == key(xs[j]);
      }
    }
  }

  /** `GROUP BY key`: one non-empty bucket per distinct key, holding exactly
      the rows with that key in their original order. */
  function GroupBy<K(==), T>(xs: seq<T>, key: T -> K): (gs: seq<Bucket<K, T>>)
    ensures IsGrouping(xs, key, gs)
    decreases |xs|
  {
    if xs == [] then []
    else
      var init := xs[..|xs| - 1];
      var last := xs[|xs| - 1];
      assert xs == init + [last];
      var g := GroupBy(init, key);
      AddItemGroups(init, last, key, g);
      AddItem(g, last, key)
  }

  /** Sum of `w` over every row of every bucket. */
  function BucketsTotal<K, T>(gs: seq<Bucket<K, T>>, w: T -> int): int {
    if gs == [] then 0 else Total(gs[0].items, w) + BucketsTotal(gs[1..], w)
  }

  lemma {:induction false} AddItemTotal<K, T>(gs: seq<Bucket<K, T>>, x: T, key: T -> K, w: T -> int)
    requires DistinctKeys(gs)
    ensures BucketsTotal(AddItem(gs, x, key), w) == BucketsTotal(gs, w) + w(x)
  {
    if gs == [] {
      assert Total([x], w) == w(x);
    } else if gs[0].key == key(x) {
      TotalAppend(gs[0].items, [x], w);
      assert AddItem(gs, x, key)[1..] == gs[1..];
    } else {
      AddItemTotal(gs[1..], x, key, w);
      assert AddItem(gs, x, key)[1..] == AddItem(gs[1..], x, key);
    }
  }

  /** Grouping neither loses nor duplicates a row: the bucket sums add up to
      the sum over all rows. */
  lemma {:induction false} GroupTotal<K, T>(xs: seq<T>, key: T -> K, w: T -> int)
    ensures BucketsTotal(GroupBy(xs, key), w) == Total(xs, w)
    decreases |xs|
  {
    if xs != [] {
      var init := xs[..|xs| - 1];
      var last := xs[|xs| - 1];
      assert xs == init + [last];
      GroupTotal(init, key, w);
      AddItemTotal(GroupBy(init, key), last, key, w);
      TotalAppend(init, [last], w);
      assert Total([last], w) == w(last);
    }
  }

  /** The weight that counts rows. */
  function One<T>(x: T): int {
    1
  }

  lemma {:induction false} TotalOfOnes<T>(xs: seq<T>)
    ensures Total(xs, One) == |xs|
  {
    if xs != [] {
      TotalOfOnes(xs[1..]);
    }
  }

  /** The bucket sizes add up to the number of rows. */
  lemma GroupCount<K, T>(xs: seq<T>, key: T -> K)
    ensures BucketsTotal(GroupBy(xs, key), One) == |xs|
  {
    GroupTotal(xs, key, One);
    TotalOfOnes(xs);
  }

  /** Any reordering of a grouping is a grouping. */
  lemma GroupingPermutation<K, T>(xs: seq<T>, key: T -> K, gs: seq<Bucket<K, T>>, hs: seq<Bucket<K, T>>)
    requires IsGrouping(xs, key, gs)
    requires multiset(hs) == multiset(gs)
    ensures IsGrouping(xs, key, hs)
  {
    assert DistinctBy(gs, BucketKey);
    PermutationDistinctBy(hs, gs, BucketKey);
    forall i, j | 0 <= i < j < |hs| ensures hs[i].key != hs[j].key {
      assert BucketKey(hs[i]) != BucketKey(hs[j]);
    }
    forall i | 0 <= i < |hs| ensures hs[i].items == Select(xs, key, hs[i].key) && |hs[i].items| > 0 {
      assert hs[i] in multiset(gs);
    }
    forall j | 0 <= j < |xs| ensures HasKey(hs, key(xs[j])) {
      var i :| 0 <= i < |gs| && gs[i].key == key(xs[j]);
      assert gs[i] in multiset(hs);
    }
  }

  /** `GROUP BY key ORDER BY key` for a text key: a grouping whose keys
      strictly increase. */
  lemma GroupByOrdered<T>(xs: seq<T>, key: T -> string)
    ensures var hs := SortByText(GroupBy(xs, key), BucketKey);
            && IsGrouping(xs, key, hs)
            && (forall i, j :: 0 <= i < j < |hs| ==> Text.LexLess(hs[i].key, hs[j].key))
  {
    var hs := SortByText(GroupBy(xs, key), BucketKey);
    GroupingPermutation(xs, key, GroupBy(xs, key), hs);
    assert DistinctBy(hs, BucketKey);
    forall i, j | 0 <= i < j < |hs| ensures Text.LexLess(hs[i].key, hs[j].key) {
      SortedByTextStrict(hs, BucketKey, i, j);
    }
  }

  /** The keys of `xs` whose rows, taken together, satisfy `ip`. */
  ghost function KeysWhere<K, T>(xs: seq<T>, key: T -> K, ip: seq<T> -> bool): set<K> {
    set j | 0 <= j < |xs| && ip(Select(xs, key, key(xs[j]))) :: key(xs[j])
  }

  lemma BucketKeysWhereSub<K, T>(xs: seq<T>, key: T -> K, gs: seq<Bucket<K, T>>,
                                 bp: Bucket<K, T> -> bool, ip: seq<T> -> bool, c: K)
    requires IsGrouping(xs, key, gs)
    requires forall i :: 0 <= i < |gs| ==> bp(gs[i]) == ip(gs[i].items)
    requires c in KeySet(Filter(gs, bp), BucketKey)
    ensures c in KeysWhere(xs, key, ip)
  {
    var f := Filter(gs, bp);
    var i :| 0 <= i < |f| && BucketKey(f[i]) == c;
    var k :| 0 <= k < |gs| && gs[k] == f[i];
    assert ip(Select(xs, key, c));
    var j :| 0 <= j < |xs| && key(xs[j]) == c;
  }

  /** A bucket that passes the filter contributes its key. */
  lemma FilteredKey<K, T>(gs: seq<Bucket<K, T>>, bp: Bucket<K, T> -> bool, k: nat)
    requires k < |gs| && bp(gs[k])
    ensures gs[k].key in KeySet(Filter(gs, bp), BucketKey)
  {
    var f := Filter(gs, bp);
    assert gs[k] in f;
    var i :| 0 <= i < |f| && f[i] == gs[k];
    assert BucketKey(f[i]) == gs[k].key;
  }

  lemma BucketKeysWhereSup<K, T>(xs: seq<T>, key: T -> K, gs: seq<Bucket<K, T>>,
                                 bp: Bucket<K, T> -> bool, ip: seq<T> -> bool, c: K)
    requires IsGrouping(xs, key, gs)
    requires forall i :: 0 <= i < |gs| ==> bp(gs[i]) == ip(gs[i].items)
    requires c in KeysWhere(xs, key, ip)
    ensures c in KeySet(Filter(gs, bp), BucketKey)
  {
    var j :| 0 <= j < |xs| && ip(Select(xs, key, key(xs[j]))) && key(xs[j]) == c;
    assert HasKey(gs, c);
    var k :| 0 <= k < |gs| && gs[k].key == c;
    assert gs[k].items == Select(xs, key, c);
    FilteredKey(gs, bp, k);
  }

  lemma BucketKeysWhere<K, T>(xs: seq<T>, key: T -> K, gs: seq<Bucket<K, T>>,
                              bp: Bucket<K, T> -> bool, ip: seq<T> -> bool)
    requires IsGrouping(xs, key, gs)
    requires forall i :: 0 <= i < |gs| ==> bp(gs[i]) == ip(gs[i].items)
    ensures KeySet(Filter(gs, bp), BucketKey) == KeysWhere(xs, key, ip)
  {
    forall c | c in KeySet(Filter(gs, bp), BucketKey) ensures c in KeysWhere(xs, key, ip) {
      BucketKeysWhereSub(xs, key, gs, bp, ip, c);
    }
    forall c | c in KeysWhere(xs, key, ip) ensures c in KeySet(Filter(gs, bp), BucketKey) {
      BucketKeysWhereSup(xs, key, gs, bp, ip, c);
    }
  }

  /** Counting the buckets that satisfy a condition on their rows is
      counting the distinct keys whose rows satisfy it. */
  lemma CountBucketsWhere<K, T>(xs: seq<T>, key: T -> K, bp: Bucket<K, T> -> bool, ip: seq<T> -> bool)
    requires forall b: Bucket<K, T> :: bp(b) == ip(b.items)
    ensures |Filter(GroupBy(xs, key), bp)| == |KeysWhere(xs, key, ip)|
  {
    var gs := GroupBy(xs, key);
    assert DistinctBy(gs, BucketKey);
    FilterDistinctBy(gs, bp, BucketKey);
    DistinctByCard(Filter(gs, bp), BucketKey);
    BucketKeysWhere(xs, key, gs, bp, ip);
  }

  /** A bucket of at least two rows: a key that occurs more than once. */
  predicate Repeated<K, T>(b: Bucket<K, T>) {
    |b.items| > 1
  }

  /** A bucket of exactly one row. */
  predicate Once<K, T>(b: Bucket<K, T>) {
    |b.items| == 1
  }

  /** Every key occurs either once or more than once. */
  lemma OnceOrRepeated<K, T>(xs: seq<T>, key: T -> K)
    ensures |Filter(GroupBy(xs, key), Once)| + |Filter(GroupBy(xs, key), Repeated)| == |GroupBy(xs, key)|
  {
    var gs := GroupBy(xs, key);
    forall i | 0 <= i < |gs| ensures Once(gs[i]) != Repeated(gs[i]) {
      assert |gs[i].items| > 0;
    }
    FilterSplitCount(gs, Once, Repeated);
  }

  predicate Many<T>(items: seq<T>) {
    |items| > 1
  }

  /** `GROUP BY key HAVING COUNT(*) > 1`, counted, is the number of distinct
      keys that occur more than once. */
  lemma RepeatedKeys<K, T>(xs: seq<T>, key: T -> K)
    ensures |Filter(GroupBy(xs, key), Repeated)| == |KeysWhere(xs, key, Many)|
  {
    CountBucketsWhere(xs, key, Repeated, Many);
  }

  /** Under non-negative weights every key's rows have a non-negative sum. */
  lemma SelectTotalNonNegative<K, T>(xs: seq<T>, key: T -> K, k: K, w: T -> int)
    requires forall i :: 0 <= i < |xs| ==> w(xs[i]) >= 0
    ensures Total(Select(xs, key, k), w) >= 0
  {
    var sel := Select(xs, key, k);
    forall j | 0 <= j < |sel| ensures w(sel[j]) >= 0 {
      SelectMember(xs, key, k, j);
    }
    TotalNonNegative(sel, w);
  }

  lemma GroupKeySet<K, T>(xs: seq<T>, key: T -> K, gs: seq<Bucket<K, T>>)
    requires IsGrouping(xs, key, gs)
    ensures KeySet(gs, BucketKey) == KeySet(xs, key)
  {
    forall c | c in KeySet(gs, BucketKey) ensures c in KeySet(xs, key) {
      var i :| 0 <= i < |gs| && BucketKey(gs[i]) == c;
      assert Select(xs, key, c) != [];
      var j :| 0 <= j < |xs| && key(xs[j]) == c;
    }
    forall c | c in KeySet(xs, key) ensures c in KeySet(gs, BucketKey) {
      var j :| 0 <= j < |xs| && key(xs[j]) == c;
      assert HasKey(gs, key(xs[j]));
      var i :| 0 <= i < |gs| && gs[i].key == c;
      assert BucketKey(gs[i]) == c;
    }
  }

  /** There is one bucket per distinct key. */
  lemma GroupKeys<K, T>(xs: seq<T>, key: T -> K)
    ensures |GroupBy(xs, key)| == |KeySet(xs, key)|
    ensures KeySet(GroupBy(xs, key), BucketKey) == KeySet(xs, key)
  {
    var gs := GroupBy(xs, key);
    assert DistinctBy(gs, BucketKey);
    DistinctByCard(gs, BucketKey);
    GroupKeySet(xs, key, gs);
  }

  /** The dictionary `{key: SUM(w)}` built from the buckets in order. */
  function BucketTotals<K(==), T>(gs: seq<Bucket<K, T>>, w: T -> int): (m: map<K, int>)
    ensures forall i :: 0 <= i < |gs| ==> gs[i].key in m
    ensures forall k :: k in m ==> HasKey(gs, k)
  {
    if gs == [] then map[]
    else
      var m := BucketTotals(gs[..|gs| - 1], w);
      assert forall i :: 0 <= i < |gs| - 1 ==> gs[i] == gs[..|gs| - 1][i];
      m[gs[|gs| - 1].key := Total(gs[|gs| - 1].items, w)]
  }

  /** With distinct keys nothing is overwritten: each key maps to its own
      bucket's sum. */
  lemma {:induction false} BucketTotalsDistinct<K, T>(gs: seq<Bucket<K, T>>, w: T -> int)
    requires DistinctKeys(gs)
    ensures forall i :: 0 <= i < |gs| ==> BucketTotals(gs, w)[gs[i].key] == Total(gs[i].items, w)
  {
    if gs != [] {
      var init := gs[..|gs| - 1];
      assert forall i :: 0 <= i < |init| ==> init[i] == gs[i];
      BucketTotalsDistinct(init, w);
    }
  }
}

=== FILE: kpi.dfy ===
/** The KPI service, which reads the legacy `sales`/`expenses` shape (a
    quantity, a total amount and a sale date per sale). Amounts are in
    integer cents here; the source stores them as floats. */
module Kpi {
  import opened Wrappers
  import opened Seqs
  import opened Sorting
  import opened Grouping
  import opened Calendar

  datatype LegacySale = LegacySale(
    id: int,
    productName: string,
    quantity: int,
    totalCents: int,
    customerId: Option<int>,
    saleDate: int)

  datatype LegacyExpense = LegacyExpense(id: int, amountCents: int, expenseDate: int)

  function LegacyCents(s: LegacySale): int {
    s.totalCents
  }

  function LegacyQuantity(s: LegacySale): int {
    s.quantity
  }

  function LegacyProduct(s: LegacySale): string {
    s.productName
  }

  function LegacyCustomer(s: LegacySale): Option<int> {
    s.customerId
  }

  function LegacyExpenseCents(e: LegacyExpense): int {
    e.amountCents
  }

  // ---------------------------------------------------------------------
  // Total revenue and profit margin

  /** The sales dated at or after the cutoff; there is no upper bound. */
  function RecentSales(sales: seq<LegacySale>, now: int, days: int): (r: seq<LegacySale>)
    ensures forall i :: 0 <= i < |r| ==> r[i].saleDate >= DaysBefore(now, days) && r[i] in sales
    ensures forall i :: 0 <= i < |sales| && sales[i].saleDate >= DaysBefore(now, days) ==> sales[i] in r
  {
    Filter(sales, (s: LegacySale) => s.saleDate >= DaysBefore(now, days))
  }

  /** `SUM(total_amount) WHERE sale_date >= cutoff`, 0 when there are none. */
  function TotalRevenue(sales: seq<LegacySale>, now: int, days: int): int {
    Total(RecentSales(sales, now, days), LegacyCents)
  }

  /** Recording a sale adds its amount exactly when it is dated at or after
      the cutoff, including a sale dated after `now`. */
  lemma TotalRevenueAfterSale(sales: seq<LegacySale>, s: LegacySale, now: int, days: int)
    ensures TotalRevenue(sales + [s], now, days)
            == TotalRevenue(sales, now, days) + (if s.saleDate >= DaysBefore(now, days) then s.totalCents else 0)
  {
    var p := (x: LegacySale) => x.saleDate >= DaysBefore(now, days);
    FilterAppend(sales, [s], p);
    TotalAppend(RecentSales(sales, now, days), Filter([s], p), LegacyCents);
    assert Filter([s], p) == if p(s) then [s] else [];
  }

  function ExpensesSince(expenses: seq<LegacyExpense>, now: int, days: int): int {
    Total(Filter(expenses, (e: LegacyExpense) => e.expenseDate >= DaysBefore(now, days)), LegacyExpenseCents)
  }

  /** `(revenue - expenses) / revenue * 100`, or 0 when there is no revenue. */
  function ProfitMargin(sales: seq<LegacySale>, expenses: seq<LegacyExpense>, now: int, days: int): (m: real)
    ensures TotalRevenue(sales, now, days) == 0 ==> m == 0.0
    ensures TotalRevenue(sales, now, days) != 0 ==>
              m * TotalRevenue(sales, now, days) as real
              == (TotalRevenue(sales, now, days) - ExpensesSince(expenses, now, days)) as real * 100.0
  {
    var revenue := TotalRevenue(sales, now, days);
    if revenue == 0 then 0.0
    else
      var profit := revenue - ExpensesSince(expenses, now, days);
      MarginOf(profit, revenue)
  }

  function MarginOf(profit: int, revenue: int): (m: real)
    requires revenue != 0
    ensures m * revenue as real == profit as real * 100.0
  {
    profit as real / revenue as real * 100.0
  }

  /** With revenue and no expenses in the period the margin is 100; with
      positive revenue and expenses above it, the margin is negative. */
  lemma ProfitMarginBounds(sales: seq<LegacySale>, expenses: seq<LegacyExpense>, now: int, days: int)
    ensures TotalRevenue(sales, now, days) != 0 && ExpensesSince(expenses, now, days) == 0 ==>
              ProfitMargin(sales, expenses, now, days) == 100.0
    ensures 0 < TotalRevenue(sales, now, days) < ExpensesSince(expenses, now, days) ==>
              ProfitMargin(sales, expenses, now, days) < 0.0
  {
    var revenue := TotalRevenue(sales, now, days);
    if revenue != 0 {
      MarginSigns(revenue, ExpensesSince(expenses, now, days), ProfitMargin(sales, expenses, now, days));
    }
  }

  /** The margin's value with no expenses, and its sign with expenses above
      a positive revenue. */
  lemma MarginSigns(revenue: int, spent: int, m: real)
    requires revenue != 0 && m * revenue as real == (revenue - spent) as real * 100.0
    ensures spent == 0 ==> m == 100.0
    ensures 0 < revenue < spent ==> m < 0.0
  {
    if spent == 0 {
      SameFactor(m, revenue as real, 100.0);
    }
    if 0 < revenue < spent {
      NegativeFactor(m, revenue as real);
    }
  }

  /** Equal products with a non-zero factor have equal other factors. */
  lemma SameFactor(a: real, r: real, b: real)
    requires r != 0.0 && a * r == b * r
    ensures a == b
  {
    assert (a - b) * r == a * r - b * r;
  }

  /** A product that is negative with a positive factor has a negative
      other factor. */
  lemma NegativeFactor(m: real, r: real)
    requires r > 0.0 && m * r < 0.0
    ensures m < 0.0
  {
  }

  // ---------------------------------------------------------------------
  // Top products by quantity

  datatype QuantityRow = QuantityRow(productName: string, totalQuantity: int, revenueCents: int)

  function QuantityOf(r: QuantityRow): int {
    r.totalQuantity
  }

  function QuantityName(r: QuantityRow): string {
    r.productName
  }

  function QuantityRowOf(b: Bucket<string, LegacySale>): QuantityRow {
    QuantityRow(b.key, Total(b.items, LegacyQuantity), Total(b.items, LegacyCents))
  }

  function QuantityRows(gs: seq<Bucket<string, LegacySale>>): (r: seq<QuantityRow>)
    ensures |r| == |gs|
    ensures forall i :: 0 <= i < |gs| ==> r[i] == QuantityRowOf(gs[i])
  {
    if gs == [] then [] else [QuantityRowOf(gs[0])] + QuantityRows(gs[1..])
  }

  /** One row per product over all sales, before ordering. */
  function QuantityTable(sales: seq<LegacySale>): seq<QuantityRow> {
    QuantityRows(GroupBy(sales, LegacyProduct))
  }

  /** `row` holds the summed quantity and amount of its product's sales. */
  predicate QuantityRowOfSales(sales: seq<LegacySale>, row: QuantityRow) {
    && row.totalQuantity == Total(Select(sales, LegacyProduct, row.productName), LegacyQuantity)
    && row.revenueCents == Total(Select(sales, LegacyProduct, row.productName), LegacyCents)
    && Select(sales, LegacyProduct, row.productName) != []
  }

  lemma QuantityRowsFacts(sales: seq<LegacySale>, gs: seq<Bucket<string, LegacySale>>)
    requires IsGrouping(sales, LegacyProduct, gs)
    ensures DistinctBy(QuantityRows(gs), QuantityName)
    ensures forall row :: row in QuantityRows(gs) ==> QuantityRowOfSales(sales, row)
  {
    var t := QuantityRows(gs);
    forall i, j | 0 <= i < j < |t| ensures QuantityName(t[i]) != QuantityName(t[j]) {
      assert t[i].productName == gs[i].key && t[j].productName == gs[j].key;
    }
    forall row | row in t ensures QuantityRowOfSales(sales, row) {
      var i :| 0 <= i < |t| && t[i] == row;
      assert gs[i].items == Select(sales, LegacyProduct, gs[i].key);
    }
  }

  /** `GROUP BY product_name ORDER BY total_quantity DESC LIMIT limit` over
      all sales: ranked by quantity, not revenue. */
  function TopProductsByQuantity(sales: seq<LegacySale>, limit: nat): (r: seq<QuantityRow>)
    ensures |r| <= limit
    ensures |r| == if limit < |QuantityTable(sales)| then limit else |QuantityTable(sales)|
    ensures SortedDesc(r, QuantityOf)
    ensures DistinctBy(r, QuantityName)
    ensures forall i :: 0 <= i < |r| ==> QuantityRowOfSales(sales, r[i])
    ensures forall row, i :: row in QuantityTable(sales) && row !in r && 0 <= i < |r| ==>
              QuantityOf(row) <= QuantityOf(r[i])
  {
    TopQuantityFacts(sales, limit);
    Take(SortDesc(QuantityTable(sales), QuantityOf), limit)
  }

  lemma TopQuantityFacts(sales: seq<LegacySale>, limit: nat)
    ensures var r := Take(SortDesc(QuantityTable(sales), QuantityOf), limit);
            && |r| <= limit && SortedDesc(r, QuantityOf)
            && DistinctBy(r, QuantityName)
            && (forall i :: 0 <= i < |r| ==> QuantityRowOfSales(sales, r[i]))
            && (forall row, i :: row in QuantityTable(sales) && row !in r && 0 <= i < |r| ==>
                  QuantityOf(row) <= QuantityOf(r[i]))
  {
    var t := QuantityTable(sales);
    var r := Take(SortDesc(t, QuantityOf), limit);
    QuantityRowsFacts(sales, GroupBy(sales, LegacyProduct));
    TopOfSorted(t, QuantityOf, limit);
    TopSorted(t, QuantityOf, limit);
    TopOfSortedDistinct(t, QuantityOf, limit, QuantityName);
    forall i | 0 <= i < |r| ensures QuantityRowOfSales(sales, r[i]) {
      assert r[i] in t;
    }
  }

  // ---------------------------------------------------------------------
  // Repeat customers

  /** The inner join of sales with the customers table: sales whose
      customer id names a stored customer. */
  function JoinedSales(customerIds: set<int>, sales: seq<LegacySale>): seq<LegacySale> {
    Filter(sales, (s: LegacySale) => s.customerId.Some? && s.customerId.value in customerIds)
  }

  /** `customers JOIN sales GROUP BY customer.id HAVING COUNT(sale.id) > 1`,
      counted, with no date window. */
  function RepeatCustomers(customerIds: set<int>, sales: seq<LegacySale>): nat {
    |Filter(GroupBy(JoinedSales(customerIds, sales), LegacyCustomer), Repeated)|
  }

  /** The count is the number of stored customers with at least two sales. */
  lemma RepeatCustomersSpec(customerIds: set<int>, sales: seq<LegacySale>)
    ensures var joined := JoinedSales(customerIds, sales);
            && RepeatCustomers(customerIds, sales) == |KeysWhere(joined, LegacyCustomer, Many)|
            && (forall c :: c in KeysWhere(joined, LegacyCustomer, Many) ==> c.Some? && c.value in customerIds)
  {
    RepeatedKeys(JoinedSales(customerIds, sales), LegacyCustomer);
  }

  /** A sale without a stored customer never changes the count. */
  lemma RepeatCustomersIgnoresUnknown(customerIds: set<int>, sales: seq<LegacySale>, s: LegacySale)
    requires s.customerId.None? || s.customerId.value !in customerIds
    ensures RepeatCustomers(customerIds, sales + [s]) == RepeatCustomers(customerIds, sales)
  {
    var p := (x: LegacySale) => x.customerId.Some? && x.customerId.value in customerIds;
    FilterAppend(sales, [s], p);
    assert Filter([s], p) == [];
    assert JoinedSales(customerIds, sales + [s]) == JoinedSales(customerIds, sales);
  }
}

=== FILE: recalc.dfy ===
/** The analytics event handler: it subscribes to the mutation events,
    recomputes the KPIs when one arrives and announces the recomputation
    with a `kpi.calculated` event. The recomputation itself is the
    parameter `recomputed`, which says whether it succeeded; the clock is
    `now`. */
module Recalc {
  import opened Wrappers
  import opened Seqs
  import opened Calendar
  import opened Events
  import opened Values

  /** The three handler methods of one handler instance. */
  datatype Kind = SalesChange | ExpenseChange | CustomerChange

  datatype Handler = Handler(instance: nat, kind: Kind)

  /** Which handler method, if any, a type of event is routed to. */
  function KindFor(t: EventType): Option<Kind> {
    match t
    case SaleCreated => Some(SalesChange)
    case SaleUpdated => Some(SalesChange)
    case SaleDeleted => Some(SalesChange)
    case ExpenseCreated => Some(ExpenseChange)
    case ExpenseUpdated => Some(ExpenseChange)
    case CustomerCreated => Some(CustomerChange)
    case CustomerUpdated => Some(CustomerChange)
    case _ => None
  }

  /** The KPI group a handler method announces. */
  function Tag(k: Kind): string {
    match k
    case SalesChange => "sales_kpis"
    case ExpenseChange => "profit_margins"
    case CustomerChange => "customer_analytics"
  }

  /** The registrations `_setup_event_handlers` makes, in order. */
  const Routes: seq<(EventType, Kind)> := [
    (SaleCreated, SalesChange), (SaleUpdated, SalesChange), (SaleDeleted, SalesChange),
    (ExpenseCreated, ExpenseChange), (ExpenseUpdated, ExpenseChange),
    (CustomerCreated, CustomerChange), (CustomerUpdated, CustomerChange)]

  /** The handlers of instance `i` that `routes` registers for `t`. */
  function RoutedTo(routes: seq<(EventType, Kind)>, t: EventType, i: nat): seq<Handler> {
    if routes == [] then []
    else (if routes[0].0 == t then [Handler(i, routes[0].1)] else []) + RoutedTo(routes[1..], t, i)
  }

  /** Registers instance `i`'s methods as `routes` says, in order. */
  function SubscribeRoutes(b: Bus<Handler>, routes: seq<(EventType, Kind)>, i: nat): (r: Bus<Handler>)
    ensures r.store == b.store
    ensures forall t :: Subscribers(r, t) == Subscribers(b, t) + RoutedTo(routes, t, i)
    decreases |routes|
  {
    if routes == [] then b
    else
      var b1 := Subscribe(b, routes[0].0, Handler(i, routes[0].1));
      var r := SubscribeRoutes(b1, routes[1..], i);
      assert forall t :: Subscribers(r, t) == Subscribers(b, t) + RoutedTo(routes, t, i) by {
        forall t ensures Subscribers(r, t) == Subscribers(b, t) + RoutedTo(routes, t, i) {
          var head := if routes[0].0 == t then [Handler(i, routes[0].1)] else [];
          var tail := RoutedTo(routes[1..], t, i);
          assert Subscribers(b1, t) == Subscribers(b, t) + head;
          assert RoutedTo(routes, t, i) == head + tail;
          assert Subscribers(r, t) == (Subscribers(b, t) + head) + tail;
          assert (Subscribers(b, t) + head) + tail == Subscribers(b, t) + (head + tail);
        }
      }
      r
  }

  lemma {:induction false} RoutedToSingle(routes: seq<(EventType, Kind)>, t: EventType, i: nat, j: nat)
    requires j < |routes| && routes[j].0 == t
    requires forall m :: 0 <= m < |routes| && m != j ==> routes[m].0 != t
    ensures RoutedTo(routes, t, i) == [Handler(i, routes[j].1)]
  {
    if j == 0 {
      RoutedToNone(routes[1..], t, i);
    } else {
      RoutedToSingle(routes[1..], t, i, j - 1);
    }
  }

  lemma {:induction false} RoutedToNone(routes: seq<(EventType, Kind)>, t: EventType, i: nat)
    requires forall m :: 0 <= m < |routes| ==> routes[m].0 != t
    ensures RoutedTo(routes, t, i) == []
  {
    if routes != [] {
      RoutedToNone(routes[1..], t, i);
    }
  }

  /** The routing table sends each mutation type to one method and
      nothing else anywhere; in particular not `kpi.calculated`. */
  lemma RoutesMatchKindFor(t: EventType, i: nat)
    ensures RoutedTo(Routes, t, i) == if KindFor(t).Some? then [Handler(i, KindFor(t).value)] else []
  {
    match t
    case SaleCreated => RoutedToSingle(Routes, t, i, 0);
    case SaleUpdated => RoutedToSingle(Routes, t, i, 1);
    case SaleDeleted => RoutedToSingle(Routes, t, i, 2);
    case ExpenseCreated => RoutedToSingle(Routes, t, i, 3);
    case ExpenseUpdated => RoutedToSingle(Routes, t, i, 4);
    case CustomerCreated => RoutedToSingle(Routes, t, i, 5);
    case CustomerUpdated => RoutedToSingle(Routes, t, i, 6);
    case _ => RoutedToNone(Routes, t, i);
  }

  /** The method of instance `i` that `t` is routed to, if any. */
  function Routed(i: nat, t: EventType): seq<Handler> {
    if KindFor(t).Some? then [Handler(i, KindFor(t).value)] else []
  }

  /** `_setup_event_handlers` of instance `i`. */
  function Setup(b: Bus<Handler>, i: nat): (r: Bus<Handler>)
    ensures r.store == b.store
    ensures forall t :: Subscribers(r, t) == Subscribers(b, t) + Routed(i, t)
  {
    var r := SubscribeRoutes(b, Routes, i);
    assert forall t :: RoutedTo(Routes, t, i) == Routed(i, t) by {
      forall t ensures RoutedTo(Routes, t, i) == Routed(i, t) {
        RoutesMatchKindFor(t, i);
      }
    }
    r
  }

  /** What `n` instances register for `t`: the routed method of each, in
      construction order. */
  function Registered(n: nat, t: EventType): seq<Handler> {
    if KindFor(t).Some? then Instances(n, KindFor(t).value) else []
  }

  lemma RegisteredSnoc(n: nat, t: EventType)
    requires n > 0
    ensures Registered(n, t) == Registered(n - 1, t) + Routed(n - 1, t)
  {
  }

  lemma SetupStep(b: Bus<Handler>, prev: Bus<Handler>, r: Bus<Handler>, n: nat, t: EventType)
    requires n > 0
    requires Subscribers(prev, t) == Subscribers(b, t) + Registered(n - 1, t)
    requires Subscribers(r, t) == Subscribers(prev, t) + Routed(n - 1, t)
    ensures Subscribers(r, t) == Subscribers(b, t) + Registered(n, t)
  {
    RegisteredSnoc(n, t);
  }

  /** `n` handler instances constructed one after the other on `b`. */
  function SetupMany(b: Bus<Handler>, n: nat): (r: Bus<Handler>)
    ensures r.store == b.store
    ensures forall t :: Subscribers(r, t) == Subscribers(b, t) + Registered(n, t)
  {
    if n == 0 then b
    else
      var prev := SetupMany(b, n - 1);
      var r := Setup(prev, n - 1);
      forall t ensures Subscribers(r, t) == Subscribers(b, t) + Registered(n, t) {
        SetupStep(b, prev, r, n, t);
      }
      r
  }

  /** The `k` method of instances `0 .. n-1`, in construction order. */
  function Instances(n: nat, k: Kind): (r: seq<Handler>)
    ensures |r| == n
    ensures forall i :: 0 <= i < n ==> r[i] == Handler(i, k)
  {
    if n == 0 then [] else Instances(n - 1, k) + [Handler(n - 1, k)]
  }

  /** `_emit_kpi_calculated_event`: the event announcing that group `tag`
      was recomputed because of the entity `trigger`. */
  function KpiEvent(tag: string, trigger: string, now: int): (e: Event)
    ensures e.eventType == KpiCalculated && e.entityType == "kpi" && e.source == DefaultSource
    ensures e.entityId == tag + "_" + IsoFormat(now)
    ensures "trigger_entity_id" in e.data && e.data["trigger_entity_id"] == Text(trigger)
    ensures "kpi_type" in e.data && e.data["kpi_type"] == Text(tag)
  {
    NewEvent(KpiCalculated, tag + "_" + IsoFormat(now), "kpi",
             map["kpi_type" := Text(tag), "trigger_entity_id" := Text(trigger), "calculated_at" := Text(IsoFormat(now))], now)
  }

  /** `handle_*_change`: recompute, then announce; a failed recomputation
      is swallowed and announces nothing. The handler never raises. */
  function Handle(h: Handler, e: Event, recomputed: (Handler, Event) -> bool, now: int): (r: Reaction)
    ensures !r.raised
    ensures recomputed(h, e) ==> r.publishes == [KpiEvent(Tag(h.kind), e.entityId, now)]
    ensures !recomputed(h, e) ==> r.publishes == []
  {
    if recomputed(h, e) then Reaction([KpiEvent(Tag(h.kind), e.entityId, now)], false)
    else Reaction([], false)
  }

  function Reacts(recomputed: (Handler, Event) -> bool, now: int): (Handler, Event) -> Reaction {
    (h: Handler, e: Event) => Handle(h, e, recomputed, now)
  }

  /** The announcements of instances `0 .. n-1` whose recomputation
      succeeded, in construction order. */
  function Announcements(n: nat, k: Kind, e: Event, recomputed: (Handler, Event) -> bool, now: int): seq<Event> {
    if n == 0 then []
    else Announcements(n - 1, k, e, recomputed, now)
         + (if recomputed(Handler(n - 1, k), e) then [KpiEvent(Tag(k), e.entityId, now)] else [])
  }

  lemma {:induction false} EmittedAnnouncements(n: nat, k: Kind, e: Event, recomputed: (Handler, Event) -> bool, now: int)
    ensures Emitted(Instances(n, k), e, Reacts(recomputed, now)) == Announcements(n, k, e, recomputed, now)
  {
    if n > 0 {
      EmittedAnnouncements(n - 1, k, e, recomputed, now);
      EmittedSnoc(Instances(n - 1, k), Handler(n - 1, k), e, Reacts(recomputed, now));
    }
  }

  lemma {:induction false} AnnouncementsAll(n: nat, k: Kind, e: Event, recomputed: (Handler, Event) -> bool, now: int)
    requires forall i :: 0 <= i < n ==> recomputed(Handler(i, k), e)
    ensures |Announcements(n, k, e, recomputed, now)| == n
  {
    if n > 0 {
      AnnouncementsAll(n - 1, k, e, recomputed, now);
    }
  }

  /** A handler's announcement has no handler on a bus where nobody
      handles `kpi.calculated`. */
  lemma HandleUnhandled(b: Bus<Handler>, h: Handler, e: Event, recomputed: (Handler, Event) -> bool, now: int)
    requires Subscribers(b, KpiCalculated) == []
    ensures Unhandled(b, Reacts(recomputed, now)(h, e).publishes)
  {
  }

  /** Constructing handler instances never subscribes to `kpi.calculated`. */
  lemma SetupManyLeavesKpi(store: seq<Event>, n: nat)
    ensures Subscribers(SetupMany(Bus(map[], store), n), KpiCalculated) == []
  {
    var empty: Bus<Handler> := Bus(map[], store);
    assert Registered(n, KpiCalculated) == [];
    assert Subscribers(empty, KpiCalculated) == [];
  }

  /** No announcement of the handlers on `b` is handled there. */
  lemma AnnouncementsUnhandled(b: Bus<Handler>, hs: seq<Handler>, e: Event, recomputed: (Handler, Event) -> bool, now: int)
    requires Subscribers(b, KpiCalculated) == []
    ensures forall i :: 0 <= i < |hs| ==> Unhandled(b, Reacts(recomputed, now)(hs[i], e).publishes)
  {
    forall i | 0 <= i < |hs| ensures Unhandled(b, Reacts(recomputed, now)(hs[i], e).publishes) {
      HandleUnhandled(b, hs[i], e, recomputed, now);
    }
  }

  /** Publishing a mutation event on a bus where `n` handler instances were
      constructed stores the event, then one `kpi.calculated` per instance
      whose recomputation succeeded, in construction order, and nothing
      else: nobody handles `kpi.calculated`, so the cascade stops there. */
  lemma MutationCascade(store: seq<Event>, n: nat, e: Event, recomputed: (Handler, Event) -> bool, now: int, fuel: nat)
    requires KindFor(e.eventType).Some?
    ensures var b := SetupMany(Bus(map[], store), n);
            Publish(b, e, Reacts(recomputed, now), fuel, 0).bus.store
            == store + [e] + Announcements(n, KindFor(e.eventType).value, e, recomputed, now)
  {
    var k := KindFor(e.eventType).value;
    var b := SetupMany(Bus(map[], store), n);
    var hs := Subscribers(b, e.eventType);
    assert hs == Instances(n, k);
    var stored := b.(store := b.store + [e]);
    SetupManyLeavesKpi(store, n);
    AnnouncementsUnhandled(stored, hs, e, recomputed, now);
    DispatchUnhandled(stored, e, hs, Reacts(recomputed, now), fuel, 0);
    EmittedAnnouncements(n, k, e, recomputed, now);
  }

  /** Every instance's routed method is called once for a mutation event,
      in construction order, and none raises. */
  lemma MutationCalls(store: seq<Event>, n: nat, e: Event, recomputed: (Handler, Event) -> bool, now: int, fuel: nat)
    requires KindFor(e.eventType).Some?
    ensures var b := SetupMany(Bus(map[], store), n);
            var top := TopCalls(Publish(b, e, Reacts(recomputed, now), fuel, 0).calls, 0);
            && |top| == n
            && forall i :: 0 <= i < n ==> top[i].handler == Handler(i, KindFor(e.eventType).value) && !top[i].raised
  {
    var b := SetupMany(Bus(map[], store), n);
    assert Subscribers(b, e.eventType) == Instances(n, KindFor(e.eventType).value);
  }
}

=== FILE: records.dfy ===
/** The business records the analytics queries read: the `sales`,
    `expenses` and `customers` tables. Money is in integer cents; instants
    are seconds since the Unix epoch. */
module Records {
  import opened Wrappers

  datatype Sale = Sale(
    id: int,
    date: int,
    productName: string,
    amountCents: int,
    customerId: Option<string>,
    category: Option<string>,
    createdAt: int)

  datatype Expense = Expense(
    id: int,
    date: int,
    description: string,
    amountCents: int,
    category: Option<string>,
    createdAt: int)

  datatype Customer = Customer(
    id: string,
    name: Option<string>,
    email: Option<string>,
    createdAt: int)

  function SaleCents(s: Sale): int {
    s.amountCents
  }

  function ExpenseCents(e: Expense): int {
    e.amountCents
  }

  function ProductOf(s: Sale): string {
    s.productName
  }

  function CustomerOf(s: Sale): Option<string> {
    s.customerId
  }

  function CategoryOf(e: Expense): Option<string> {
    e.category
  }

  function SaleDate(s: Sale): int {
    s.date
  }

  function ExpenseDate(e: Expense): int {
    e.date
  }

  function CustomerCreatedAt(c: Customer): int {
    c.createdAt
  }

  /** A `date >= start AND date <= end` filter: inclusive at both ends. */
  predicate Within(t: int, start: int, end: int) {
    start <= t <= end
  }

  /** The optional window of the listing queries: `date >= start` when a
      start is given and `date <= end` when an end is given. */
  predicate WithinOpt(t: int, start: Option<int>, end: Option<int>) {
    && (start.Some? ==> start.value <= t)
    && (end.Some? ==> t <= end.value)
  }

  /** The label a category is shown under, `category or 'Uncategorized'`:
      a missing category and the empty text are both falsy and are shown as
      "Uncategorized". */
  function CategoryLabel(c: Option<string>): (l: string)
    ensures l == "Uncategorized" <==> c.None? || c.value == "" || c.value == "Uncategorized"
    ensures c.Some? && c.value != "" ==> l == c.value
  {
    if c.None? || c.value == "" then "Uncategorized" else c.value
  }
}

=== FILE: schemas.dfy ===
/** The request bodies the API accepts (`SaleCreate`, `CustomerCreate`,
    `ExpenseCreate`, `BulkSaleCreate`): each field's `Field` bounds, checked
    first, then its validator. A body is accepted when every field is; the
    errors of the rejected fields are reported together, in field order.
    Floats are exact reals here. */
module Schemas {
  import opened Wrappers
  import opened Text
  import Crud

  /** Why a field was rejected: a `Field` bound, or a validator's
      `ValueError` message. */
  datatype Problem =
    | TooShort(min: nat)
    | TooLong(max: nat)
    | NotGreater(bound: real)
    | TooManyItems(max: nat)
    | Rejected(message: string)

  datatype FieldError = FieldError(field: string, problem: Problem)

  /** The error list one field contributes. */
  function ErrorsOf<T>(field: string, r: Result<T, Problem>): (e: seq<FieldError>)
    ensures e == [] <==> r.Success?
    ensures r.Failure? ==> e == [FieldError(field, r.error)]
  {
    if r.Success? then [] else [FieldError(field, r.error)]
  }

  // ---------------------------------------------------------------------
  // Shared field checks

  /** `Field(min_length=min, max_length=max)` on a text. */
  function Length(v: string, min: nat, max: nat): (r: Result<string, Problem>)
    ensures r.Success? <==> min <= |v| <= max
    ensures r.Success? ==> r.value == v
  {
    if |v| < min then Failure(TooShort(min))
    else if |v| > max then Failure(TooLong(max))
    else Success(v)
  }

  /** `Optional[str] = Field(None, max_length=max)`: `None` passes. */
  function OptionalLength(v: Option<string>, max: nat): (r: Result<Option<string>, Problem>)
    ensures r.Success? <==> v.None? || |v.value| <= max
    ensures r.Success? ==> r.value == v
  {
    match v
    case None => Success(None)
    case Some(s) => if |s| > max then Failure(TooLong(max)) else Success(v)
  }

  /** A required text of `min..max` characters whose validator rejects it
      when it strips to nothing, and returns it stripped. */
  function StrippedText(v: string, min: nat, max: nat, emptyMessage: string): (r: Result<string, Problem>)
    ensures r.Success? <==> min <= |v| <= max && Strip(v) != ""
    ensures r.Success? ==> r.value == Strip(v)
    ensures min <= |v| <= max && Strip(v) == "" ==> r == Failure(Rejected(emptyMessage))
  {
    var _ :- Length(v, min, max);
    if Strip(v) == "" then Failure(Rejected(emptyMessage)) else Success(Strip(v))
  }

  /** A stripped text is at most as long as the text. */
  lemma StripShorter(s: string)
    ensures |Strip(s)| <= |s|
  {
    var i: nat :| SliceAt(s, Strip(s), i);
  }

  /** Revalidating an accepted text gives the same text. */
  lemma StrippedTextStable(v: string, min: nat, max: nat, emptyMessage: string)
    requires min <= 1
    requires StrippedText(v, min, max, emptyMessage).Success?
    ensures StrippedText(StrippedText(v, min, max, emptyMessage).value, min, max, emptyMessage)
            == StrippedText(v, min, max, emptyMessage)
  {
    StripShorter(v);
    StripIdempotent(v);
  }

  // ---------------------------------------------------------------------
  // Amounts

  /** `round(v * 100)` on an exact real: to the nearest integer, ties to the
      even one. */
  function RoundHalfEven(x: real): (n: int)
    ensures x - 0.5 <= n as real <= x + 0.5
    ensures n as real - x == 0.5 || x - n as real == 0.5 ==> n % 2 == 0
  {
    var f := x.Floor;
    var frac := x - f as real;
    if frac > 0.5 then f + 1
    else if frac < 0.5 then f
    else if f % 2 == 0 then f else f + 1
  }

  /** `round(v, 2)`, in whole cents. */
  function RoundCents(v: real): (n: int)
    ensures v * 100.0 - 0.5 <= n as real <= v * 100.0 + 0.5
  {
    RoundHalfEven(v * 100.0)
  }

  function Round2(v: real): real {
    RoundCents(v) as real / 100.0
  }

  /** The largest sale amount, 999999.99 dollars, in cents. */
  const MaxSaleCents := 99999999

  /** `SaleCreate.amount`: `gt=0`, then the validator's upper bound and
      rounding. The validator's own `v <= 0` test can never fire after
      `gt=0` and is not modelled. */
  function SaleAmount(v: real): (r: Result<real, Problem>)
    ensures r.Success? <==> 0.0 < v <= 999999.99
    ensures v <= 0.0 ==> r == Failure(NotGreater(0.0))
    ensures v > 999999.99 ==> r == Failure(Rejected("Amount too large"))
    ensures r.Success? ==> r.value == Round2(v) && 0 <= RoundCents(v) <= MaxSaleCents
  {
    if v <= 0.0 then Failure(NotGreater(0.0))
    else if v > 999999.99 then Failure(Rejected("Amount too large"))
    else Success(Round2(v))
  }

  /** `ExpenseCreate.amount`: `gt=0` and rounding, with no upper bound. */
  function ExpenseAmount(v: real): (r: Result<real, Problem>)
    ensures r.Success? <==> v > 0.0
    ensures r.Success? ==> r.value == Round2(v) && RoundCents(v) >= 0
  {
    if v <= 0.0 then Failure(NotGreater(0.0)) else Success(Round2(v))
  }

  /** The services store `int(amount * 100)`: over exact reals, for an
      accepted amount that is exactly its rounded cents, and the response's
      `amount_cents / 100` gives the accepted amount back. Binary floats can
      lose a cent on the way, which this model does not represent. */
  lemma AcceptedAmountCents(v: real)
    ensures Crud.Cents(Round2(v)) == RoundCents(v)
    ensures Response(Crud.Cents(Round2(v))) == Round2(v)
  {
    var n := RoundCents(v);
    assert Round2(v) * 100.0 == n as real;
  }

  /** `amount_cents / 100` in `convert_sale_to_response` and
      `convert_expense_to_response`. */
  function Response(cents: int): (a: real)
    ensures a * 100.0 == cents as real
  {
    cents as real / 100.0
  }

  /** Over exact reals, stored cents survive the trip to a response amount
      and back. */
  lemma ResponseRoundTrip(cents: int)
    ensures Crud.Cents(Response(cents)) == cents
  {
  }

  /** A positive sale amount under half a cent passes every check and is
      rounded to zero. */
  lemma TinySaleAmountIsZero(v: real)
    requires 0.0 < v < 0.005
    ensures SaleAmount(v) == Success(0.0)
  {
    assert (v * 100.0).Floor == 0;
  }

  // ---------------------------------------------------------------------
  // Sales

  datatype SaleCreate = SaleCreate(
    date: int,
    productName: string,
    amount: real,
    customerId: Option<string>,
    category: Option<string>)

  function ProductName(v: string): Result<string, Problem> {
    StrippedText(v, 1, 200, "Product name cannot be empty")
  }

  /** `SaleCreate(...)`: every field is checked and all errors reported. */
  function ValidateSale(date: int, productName: string, amount: real,
                        customerId: Option<string>, category: Option<string>): (r: Result<SaleCreate, seq<FieldError>>)
    ensures r.Success? <==>
              && 1 <= |productName| <= 200 && Strip(productName) != ""
              && 0.0 < amount <= 999999.99
              && (customerId.None? || |customerId.value| <= 50)
              && (category.None? || |category.value| <= 100)
    ensures r.Success? ==>
              r.value == SaleCreate(date, Strip(productName), Round2(amount), customerId, category)
    ensures r.Failure? ==> 1 <= |r.error| <= 4
  {
    var n := ProductName(productName);
    var a := SaleAmount(amount);
    var c := OptionalLength(customerId, 50);
    var k := OptionalLength(category, 100);
    var errors := ErrorsOf("product_name", n) + ErrorsOf("amount", a)
                  + ErrorsOf("customer_id", c) + ErrorsOf("category", k);
    if errors == [] then Success(SaleCreate(date, n.value, a.value, c.value, k.value))
    else Failure(errors)
  }

  /** An accepted sale revalidates to itself, apart from its amount, which
      was already rounded. */
  lemma SaleNameStable(v: string)
    requires ProductName(v).Success?
    ensures ProductName(ProductName(v).value) == ProductName(v)
  {
    StrippedTextStable(v, 1, 200, "Product name cannot be empty");
  }

  /** `BulkSaleCreate`: at most 1000 sales, each a valid `SaleCreate`. Only
      the verdict is modelled: when the list is too long, its item errors
      are not reported. */
  function ValidateBulk(sales: seq<Result<SaleCreate, seq<FieldError>>>): (r: Result<seq<SaleCreate>, seq<FieldError>>)
    ensures r.Success? <==> |sales| <= 1000 && forall i :: 0 <= i < |sales| ==> sales[i].Success?
    ensures r.Success? ==> |r.value| == |sales| && forall i :: 0 <= i < |sales| ==> r.value[i] == sales[i].value
    ensures |sales| > 1000 ==> r == Failure([FieldError("sales", TooManyItems(1000))])
  {
    if |sales| > 1000 then Failure([FieldError("sales", TooManyItems(1000))])
    else Items(sales)
  }

  function Items(sales: seq<Result<SaleCreate, seq<FieldError>>>): (r: Result<seq<SaleCreate>, seq<FieldError>>)
    ensures r.Success? <==> forall i :: 0 <= i < |sales| ==> sales[i].Success?
    ensures r.Success? ==> |r.value| == |sales| && forall i :: 0 <= i < |sales| ==> r.value[i] == sales[i].value
  {
    if sales == [] then Success([])
    else
      var rest := Items(sales[1..]);
      assert forall i :: 1 <= i < |sales| ==> sales[i] == sales[1..][i - 1];
      match sales[0]
      case Failure(e) => Failure(e + (if rest.Failure? then rest.error else []))
      case Success(s) =>
        match rest
        case Failure(e) => Failure(e)
        case Success(ss) => Success([s] + ss)
  }

  // ---------------------------------------------------------------------
  // Customers

  datatype CustomerCreate = CustomerCreate(id: string, name: Option<string>, email: Option<string>)

  /** `CustomerCreate.id`: 1 to 50 characters, then trimmed and upper-cased. */
  function CustomerId(v: string): (r: Result<string, Problem>)
    ensures r.Success? <==> 1 <= |v| <= 50 && Strip(v) != ""
    ensures r.Success? ==> r.value == Upper(Strip(v))
  {
    var _ :- Length(v, 1, 50);
    if Strip(v) == "" then Failure(Rejected("Customer ID cannot be empty")) else Success(Upper(Strip(v)))
  }

  lemma UpperCharSpace(c: char)
    ensures IsSpace(UpperChar(c)) <==> IsSpace(c)
    ensures UpperChar(UpperChar(c)) == UpperChar(c)
  {
  }

  /** An upper-cased stripped text is stripped and upper-case. */
  lemma UpperStripped(s: string)
    requires |s| > 0 ==> !IsSpace(s[0]) && !IsSpace(s[|s| - 1])
    ensures Strip(Upper(s)) == Upper(s)
    ensures Upper(Upper(s)) == Upper(s)
  {
    var u := Upper(s);
    if |s| > 0 {
      UpperCharSpace(s[0]);
      UpperCharSpace(s[|s| - 1]);
    }
    StripOfStripped(u);
    UpperUpper(s);
  }

  lemma UpperUpper(s: string)
    ensures Upper(Upper(s)) == Upper(s)
  {
    var u := Upper(s);
    forall i | 0 <= i < |s| ensures Upper(u)[i] == u[i] {
      UpperCharSpace(s[i]);
    }
  }

  /** The id normalisation is idempotent: an accepted id is accepted again
      unchanged. */
  lemma CustomerIdIdempotent(v: string)
    requires CustomerId(v).Success?
    ensures CustomerId(CustomerId(v).value) == CustomerId(v)
  {
    var s := Strip(v);
    StripShorter(v);
    UpperStripped(s);
  }

  /** `CustomerCreate.email`: at most 255 characters; a non-empty address
      needs an '@'. It is not otherwise changed. */
  function Email(v: Option<string>): (r: Result<Option<string>, Problem>)
    ensures r.Success? <==> v.None? || (|v.value| <= 255 && (v.value == "" || '@' in v.value))
    ensures r.Success? ==> r.value == v
  {
    var _ :- OptionalLength(v, 255);
    if v.Some? && v.value != "" && '@' !in v.value then Failure(Rejected("Invalid email format"))
    else Success(v)
  }

  function ValidateCustomer(id: string, name: Option<string>, email: Option<string>): (r: Result<CustomerCreate, seq<FieldError>>)
    ensures r.Success? <==>
              && 1 <= |id| <= 50 && Strip(id) != ""
              && (name.None? || |name.value| <= 200)
              && Email(email).Success?
    ensures r.Success? ==> r.value == CustomerCreate(Upper(Strip(id)), name, email)
    ensures r.Failure? ==> 1 <= |r.error| <= 3
  {
    var i := CustomerId(id);
    var n := OptionalLength(name, 200);
    var e := Email(email);
    var errors := ErrorsOf("id", i) + ErrorsOf("name", n) + ErrorsOf("email", e);
    if errors == [] then Success(CustomerCreate(i.value, n.value, e.value)) else Failure(errors)
  }

  // ---------------------------------------------------------------------
  // Expenses

  datatype ExpenseCreate = ExpenseCreate(date: int, description: string, amount: real, category: Option<string>)

  function Description(v: string): Result<string, Problem> {
    StrippedText(v, 1, 500, "Description cannot be empty")
  }

  function ValidateExpense(date: int, description: string, amount: real, category: Option<string>): (r: Result<ExpenseCreate, seq<FieldError>>)
    ensures r.Success? <==>
              && 1 <= |description| <= 500 && Strip(description) != ""
              && amount > 0.0
              && (category.None? || |category.value| <= 100)
    ensures r.Success? ==> r.value == ExpenseCreate(date, Strip(description), Round2(amount), category)
    ensures r.Failure? ==> 1 <= |r.error| <= 3
  {
    var d := Description(description);
    var a := ExpenseAmount(amount);
    var k := OptionalLength(category, 100);
    var errors := ErrorsOf("description", d) + ErrorsOf("amount", a) + ErrorsOf("category", k);
    if errors == [] then Success(ExpenseCreate(date, d.value, a.value, k.value)) else Failure(errors)
  }
}

=== FILE: seqs.dfy ===
/** Generic sequence operations the queries of the backend are built from:
    filtering (SQL `WHERE`, list comprehensions), weighted sums (SQL `SUM`),
    and `OFFSET`/`LIMIT` paging. */
module Seqs {

  /** The elements of `xs` satisfying `p`, in their original order. */
  function Filter<T>(xs: seq<T>, p: T -> bool): (r: seq<T>)
    ensures |r| <= |xs|
    ensures forall i :: 0 <= i < |r| ==> p(r[i])
    ensures forall i :: 0 <= i < |r| ==> r[i] in xs
    ensures forall i :: 0 <= i < |xs| && p(xs[i]) ==> xs[i] in r
  {
    if xs == [] then [] else (if p(xs[0]) then [xs[0]] else []) + Filter(xs[1..], p)
  }

  lemma {:induction false} FilterAppend<T>(xs: seq<T>, ys: seq<T>, p: T -> bool)
    ensures Filter(xs + ys, p) == Filter(xs, p) + Filter(ys, p)
  {
    if xs != [] {
      assert (xs + ys)[1..] == xs[1..] + ys;
      FilterAppend(xs[1..], ys, p);
    } else {
      assert xs + ys == ys;
    }
  }

  /** Filtering one more element at the end appends it when it passes. */
  lemma FilterSnoc<T>(xs: seq<T>, x: T, p: T -> bool)
    ensures Filter(xs + [x], p) == Filter(xs, p) + (if p(x) then [x] else [])
  {
    FilterAppend(xs, [x], p);
    assert [x][1..] == [];
  }

  /** Appending the head and then the tail appends the whole. */
  lemma AppendHeadTail<T>(xs: seq<T>, ys: seq<T>)
    requires ys != []
    ensures xs + [ys[0]] + ys[1..] == xs + ys
  {
    assert [ys[0]] + ys[1..] == ys;
  }

  /** A filter that keeps everything is the identity. */
  lemma {:induction false} FilterKeepsAll<T>(xs: seq<T>, p: T -> bool)
    requires forall i :: 0 <= i < |xs| ==> p(xs[i])
    ensures Filter(xs, p) == xs
  {
    if xs != [] {
      FilterKeepsAll(xs[1..], p);
    }
  }

  /** Filtering twice is filtering once by the conjunction. */
  lemma {:induction false} FilterFilter<T>(xs: seq<T>, p: T -> bool, q: T -> bool, pq: T -> bool)
    requires forall x :: pq(x) == (p(x) && q(x))
    ensures Filter(Filter(xs, p), q) == Filter(xs, pq)
  {
    if xs != [] {
      FilterFilter(xs[1..], p, q, pq);
      var h := if p(xs[0]) then [xs[0]] else [];
      FilterAppend(h, Filter(xs[1..], p), q);
    }
  }

  /** Sum of `w` over the elements of `xs` (SQL `SUM`, with 0 for no rows). */
  function Total<T>(xs: seq<T>, w: T -> int): int {
    if xs == [] then 0 else w(xs[0]) + Total(xs[1..], w)
  }

  /** The mean of `count` values summing to `total`; 0 when there are none. */
  function Mean(total: int, count: nat): (a: real)
    ensures count == 0 ==> a == 0.0
    ensures count > 0 ==> a * count as real == total as real
  {
    if count == 0 then 0.0 else total as real / count as real
  }

  lemma {:induction false} TotalAppend<T>(xs: seq<T>, ys: seq<T>, w: T -> int)
    ensures Total(xs + ys, w) == Total(xs, w) + Total(ys, w)
  {
    if xs != [] {
      assert (xs + ys)[1..] == xs[1..] + ys;
      TotalAppend(xs[1..], ys, w);
    } else {
      assert xs + ys == ys;
    }
  }

  lemma {:induction false} TotalNonNegative<T>(xs: seq<T>, w: T -> int)
    requires forall i :: 0 <= i < |xs| ==> w(xs[i]) >= 0
    ensures Total(xs, w) >= 0
  {
    if xs != [] {
      TotalNonNegative(xs[1..], w);
    }
  }

  /** The first `n` elements, or all of them when there are fewer (`LIMIT n`). */
  function Take<T>(xs: seq<T>, n: nat): (r: seq<T>)
    ensures |r| == if n < |xs| then n else |xs|
    ensures r == xs[..|r|]
  {
    if n < |xs| then xs[..n] else xs
  }

  /** How many of `n` rows `OFFSET skip LIMIT limit` returns. */
  function PageSize(n: nat, skip: nat, limit: nat): nat {
    if skip >= n then 0 else if skip + limit < n then limit else n - skip
  }

  /** SQL `OFFSET skip LIMIT limit`: skip `skip` rows, return at most `limit`. */
  function Page<T>(xs: seq<T>, skip: nat, limit: nat): (r: seq<T>)
    ensures |r| <= limit
    ensures skip >= |xs| ==> r == []
    ensures skip < |xs| ==> |r| == if skip + limit < |xs| then limit else |xs| - skip
    ensures skip < |xs| ==> r == xs[skip..skip + |r|]
    ensures |r| == PageSize(|xs|, skip, limit)
    ensures forall i :: 0 <= i < |r| ==> skip + i < |xs| && r[i] == xs[skip + i]
  {
    if skip >= |xs| then [] else Take(xs[skip..], limit)
  }

  /** Two consecutive pages are the page that spans both. */
  lemma PageSplit<T>(xs: seq<T>, a: nat, b: nat)
    ensures Page(xs, 0, a) + Page(xs, a, b) == Page(xs, 0, a + b)
  {
    var p, q, r := Page(xs, 0, a), Page(xs, a, b), Page(xs, 0, a + b);
    assert |p| + |q| == |r|;
    forall i | 0 <= i < |r| ensures (p + q)[i] == r[i] {
      if i >= |p| {
        assert q[i - |p|] == xs[a + (i - |p|)];
      }
    }
  }

  /** A prefix's total never exceeds the whole when weights are non-negative:
      what `LIMIT` drops can only lower a sum. */
  lemma TakeTotalBounded<T>(xs: seq<T>, n: nat, w: T -> int)
    requires forall i :: 0 <= i < |xs| ==> w(xs[i]) >= 0
    ensures Total(Take(xs, n), w) <= Total(xs, w)
  {
    var t := Take(xs, n);
    assert xs == t + xs[|t|..];
    TotalAppend(t, xs[|t|..], w);
    TotalNonNegative(xs[|t|..], w);
  }

  /** No two elements of `xs` share a key. */
  ghost predicate DistinctBy<T, K>(xs: seq<T>, key: T -> K) {
    forall i, j :: 0 <= i < j < |xs| ==> key(xs[i]) != key(xs[j])
  }

  /** The set of keys occurring in `xs`. */
  ghost function KeySet<T, K>(xs: seq<T>, key: T -> K): set<K> {
    set i | 0 <= i < |xs| :: key(xs[i])
  }

  /** Filtering keeps keys distinct. */
  lemma {:induction false} FilterDistinctBy<T, K>(xs: seq<T>, p: T -> bool, key: T -> K)
    requires DistinctBy(xs, key)
    ensures DistinctBy(Filter(xs, p), key)
  {
    if xs != [] {
      var rest := xs[1..];
      assert DistinctBy(rest, key) by {
        forall i, j | 0 <= i < j < |rest| ensures key(rest[i]) != key(rest[j]) {
          assert rest[i] == xs[i + 1] && rest[j] == xs[j + 1];
        }
      }
      FilterDistinctBy(rest, p, key);
      var fr := Filter(rest, p);
      forall i | 0 <= i < |fr| ensures key(fr[i]) != key(xs[0]) {
        var k :| 0 <= k < |rest| && rest[k] == fr[i];
        assert rest[k] == xs[k + 1];
      }
    }
  }

  /** With distinct keys there are as many keys as elements. */
  lemma {:induction false} DistinctByCard<T, K>(xs: seq<T>, key: T -> K)
    requires DistinctBy(xs, key)
    ensures |KeySet(xs, key)| == |xs|
  {
    if xs != [] {
      var rest := xs[1..];
      assert DistinctBy(rest, key) by {
        forall i, j | 0 <= i < j < |rest| ensures key(rest[i]) != key(rest[j]) {
          assert rest[i] == xs[i + 1] && rest[j] == xs[j + 1];
        }
      }
      DistinctByCard(rest, key);
      assert KeySet(xs, key) == {key(xs[0])} + KeySet(rest, key) by {
        forall k | k in KeySet(xs, key) ensures k in {key(xs[0])} + KeySet(rest, key) {
          var i :| 0 <= i < |xs| && key(xs[i]) == k;
          if i > 0 {
            assert rest[i - 1] == xs[i];
          }
        }
        forall k | k in KeySet(rest, key) ensures k in KeySet(xs, key) {
          var i :| 0 <= i < |rest| && key(rest[i]) == k;
          assert rest[i] == xs[i + 1];
        }
      }
      assert key(xs[0]) !in KeySet(rest, key) by {
        forall i | 0 <= i < |rest| ensures key(rest[i]) != key(xs[0]) {
          assert rest[i] == xs[i + 1];
        }
      }
    }
  }

  /** When exactly one of `p` and `q` holds of every element, the two
      filters split the sequence. */
  lemma {:induction false} FilterSplitCount<T>(xs: seq<T>, p: T -> bool, q: T -> bool)
    requires forall i :: 0 <= i < |xs| ==> p(xs[i]) != q(xs[i])
    ensures |Filter(xs, p)| + |Filter(xs, q)| == |xs|
  {
    if xs != [] {
      assert forall i :: 0 <= i < |xs[1..]| ==> xs[1..][i] == xs[i + 1];
      FilterSplitCount(xs[1..], p, q);
    }
  }
}

=== FILE: services.dfy ===
/** `BaseService` and the event-emitting customer and expense services built
    on it. A table is a sequence of rows, each under a primary key; an
    operation returns the new table, its result and the events its hooks
    published, each paired with the table as the event's handlers see it.
    The clock is `now`; the key the database assigns to a new row is `next`. */
module Services {
  import opened Wrappers
  import opened Seqs
  import opened Text
  import opened Values
  import opened Events
  import opened Tables
  import opened Records

  /** A primary key: an autoincrement integer, or a customer's text id. */
  datatype Key = IntKey(n: int) | TextKey(s: string)

  /** `str(obj.id)`, the entity id of the events. */
  function KeyText(k: Key): string {
    match k
    case IntKey(n) => IntToString(n)
    case TextKey(s) => s
  }

  function KeyValue(k: Key): Value {
    match k
    case IntKey(n) => Int(n)
    case TextKey(s) => Text(s)
  }

  /** A mapped class's table: its column names, the key `id` among them;
      the columns declared `nullable=False`; the columns whose
      `default=datetime.utcnow` fills them on insert; and whether the key
      is an autoincrement integer or a text the caller supplies. */
  datatype Schema = Schema(columns: set<string>, notNull: set<string>, stamped: set<string>, intKey: bool)

  /** The `customers` table of the analytics models. */
  const CustomerSchema := Schema({"id", "name", "email", "created_at"}, {}, {"created_at"}, false)

  /** The `expenses` table of the analytics models. */
  const ExpenseSchema := Schema({"id", "date", "description", "amount_cents", "category", "created_at"},
                                {"date", "description", "amount_cents"}, {"created_at"}, true)

  /** The key a payload's `id` value gives a row: an integer for an integer
      key; a text, or an integer stored as its decimal text, for a text
      key. Any other value names no key. */
  function KeyOf(s: Schema, v: Value): (r: Option<Key>)
    ensures r.Some? ==> (r.value.IntKey? <==> s.intKey)
    ensures s.intKey ==> (r.Some? <==> v.Int?)
    ensures !s.intKey ==> (r.Some? <==> v.Text? || v.Int?)
  {
    match v
    case Int(n) => Some(if s.intKey then IntKey(n) else TextKey(IntToString(n)))
    case Text(t) => if s.intKey then None else Some(TextKey(t))
    case _ => None
  }

  /** A stored row: its key and its other columns. */
  datatype Row = Row(id: Key, fields: Fields)

  function RowKey(r: Row): Key {
    r.id
  }

  type Table = seq<Row>

  /** A row of table `s`: it holds every column but the key, and nothing
      else. */
  predicate Fits(s: Schema, r: Row) {
    r.fields.Keys == s.columns - {"id"}
  }

  /** The primary key is unique, and every row fits the table. */
  ghost predicate Keyed(s: Schema, t: Table) {
    && DistinctBy(t, RowKey)
    && forall i :: 0 <= i < |t| ==> Fits(s, t[i])
  }

  /** `_obj_to_dict`: every column, the key included. */
  function Dict(r: Row): (d: Fields)
    ensures d.Keys == r.fields.Keys + {"id"}
    ensures d["id"] == KeyValue(r.id)
    ensures forall c :: c in r.fields && c != "id" ==> d[c] == r.fields[c]
  {
    r.fields["id" := KeyValue(r.id)]
  }

  /** A row that fits its table is rendered with exactly the table's
      columns, however few of them the payload that made it supplied. */
  lemma DictColumns(s: Schema, r: Row)
    requires "id" in s.columns && Fits(s, r)
    ensures Dict(r).Keys == s.columns
  {
  }

  // ---------------------------------------------------------------------
  // Lookup

  /** `get`: `query(model).filter(model.id == id).first()`. */
  function Get(t: Table, id: Key): (r: Option<Row>)
    ensures r.Some? <==> exists i :: 0 <= i < |t| && t[i].id == id
    ensures r.Some? ==> r.value in t && r.value.id == id
  {
    Find(t, RowKey, id)
  }

  /** `get_all`: `OFFSET skip LIMIT limit` over the table in stored order. */
  function GetAll(t: Table, skip: nat, limit: nat): (r: seq<Row>)
    ensures |r| <= limit
    ensures forall i :: 0 <= i < |r| ==> skip + i < |t| && r[i] == t[skip + i]
    ensures skip < |t| && limit > 0 ==> r != []
    ensures |r| == PageSize(|t|, skip, limit)
  {
    Page(t, skip, limit)
  }

  /** Consecutive pages of `get_all` are the page that spans both. */
  lemma GetAllSplit(t: Table, skip: nat, limit: nat)
    ensures GetAll(t, 0, skip) + GetAll(t, skip, limit) == GetAll(t, 0, skip + limit)
  {
    PageSplit(t, skip, limit);
  }

  // ---------------------------------------------------------------------
  // Hooks

  datatype Op = Created | Updated | Deleted

  /** Whose `_emit_*_event` hooks a service has: the base class's, which do
      nothing, or a v2 subclass's. */
  datatype Hooks = BaseHooks | CustomerHooks | ExpenseHooks

  /** The type of event a hook publishes. Neither subclass has a deletion
      type: deleting publishes the `*.updated` type. */
  function HookType(h: Hooks, op: Op): (r: Option<EventType>)
    ensures h == BaseHooks <==> r.None?
    ensures h == CustomerHooks ==> r == Some(if op == Created then CustomerCreated else CustomerUpdated)
    ensures h == ExpenseHooks ==> r == Some(if op == Created then ExpenseCreated else ExpenseUpdated)
  {
    match h
    case BaseHooks => None
    case CustomerHooks => if op == Created then Some(CustomerCreated) else Some(CustomerUpdated)
    case ExpenseHooks => if op == Created then Some(ExpenseCreated) else Some(ExpenseUpdated)
  }

  function EntityType(h: Hooks): string {
    match h
    case CustomerHooks => "customer"
    case ExpenseHooks => "expense"
    case BaseHooks => ""
  }

  /** An event published by a hook, and the table its handlers see. */
  datatype Emission = Emission(event: Event, tableThen: Table)

  /** The events a hook call publishes when `emit` holds: at most one, about
      `row`, seeing `current`. */
  function Hook(h: Hooks, op: Op, row: Row, emit: bool, now: int, current: Table): (r: seq<Emission>)
    ensures |r| <= 1
    ensures r != [] <==> emit && h != BaseHooks
    ensures r != [] ==> EmitsAbout(r[0], h, op, row, now, current)
  {
    if emit && HookType(h, op).Some? then
      [Emission(NewEvent(HookType(h, op).value, KeyText(row.id), EntityType(h), Dict(row), now), current)]
    else []
  }

  /** `em` is the `op` event of service `h` about `row`, published at `now`
      while the table is `current`. */
  predicate EmitsAbout(em: Emission, h: Hooks, op: Op, row: Row, now: int, current: Table) {
    && HookType(h, op) == Some(em.event.eventType)
    && em.event.entityId == KeyText(row.id)
    && em.event.entityType == EntityType(h)
    && em.event.data == Dict(row)
    && em.event.timestamp == now
    && em.event.source == DefaultSource
    && em.tableThen == current
  }

  datatype Change<R> = Change(table: Table, result: R, emitted: seq<Emission>)

  /** Why a write raises: the constructor's `TypeError` for keywords that
      are not columns; a `NOT NULL` column left `NULL`; a key that is
      missing or of the wrong type; a key already stored; an amount the
      conversion to cents rejects. */
  datatype Fault =
    | UnknownColumns(names: set<string>)
    | NullColumns(names: set<string>)
    | NullKey
    | BadKey(given: Value)
    | DuplicateKey(key: Key)
    | BadAmount(amount: Value)

  // ---------------------------------------------------------------------
  // BaseService

  /** The payload's keywords that are not columns of the table. */
  function Unknown(s: Schema, data: Fields): set<string> {
    data.Keys - s.columns
  }

  /** A payload field the insert leaves out: absent, or `None`, which the
      ORM drops from the `INSERT` so the column default applies. */
  predicate Omitted(data: Fields, c: string) {
    c !in data || data[c] == Null
  }

  /** The `NOT NULL` columns without a default that the payload omits. */
  function MissingRequired(s: Schema, data: Fields): set<string> {
    set c | c in s.notNull && c !in s.stamped && Omitted(data, c)
  }

  /** The columns a new row stores: the payload's value where it gives one,
      otherwise `now` for a timestamped column and `NULL` for the rest. */
  function Inserted(s: Schema, data: Fields, now: int): (f: Fields)
    ensures f.Keys == s.columns - {"id"}
    ensures forall c :: c in f && !Omitted(data, c) ==> f[c] == data[c]
    ensures forall c :: c in f && Omitted(data, c) ==> f[c] == (if c in s.stamped then Moment(now) else Null)
  {
    map c | c in s.columns - {"id"} :: if !Omitted(data, c) then data[c] else if c in s.stamped then Moment(now) else Null
  }

  /** The key of a new row: the payload's own `id` when it gives one;
      otherwise the autoincrement key `next`, which a text key does not
      have. */
  function NewKey(s: Schema, data: Fields, next: int): (r: Result<Key, Fault>)
    ensures Omitted(data, "id") ==> r == (if s.intKey then Success(IntKey(next)) else Failure(NullKey))
    ensures !Omitted(data, "id") ==> r == (if KeyOf(s, data["id"]).Some? then Success(KeyOf(s, data["id"]).value) else Failure(BadKey(data["id"])))
  {
    if Omitted(data, "id") then
      if s.intKey then Success(IntKey(next)) else Failure(NullKey)
    else if KeyOf(s, data["id"]).Some? then Success(KeyOf(s, data["id"]).value)
    else Failure(BadKey(data["id"]))
  }

  /** `BaseService.create`. `self.model(**obj_data)` refuses keywords that
      are not columns; the commit refuses a `NOT NULL` column left out, a
      missing or ill-typed key and a key already stored. Otherwise the row
      is stored and then the created hook runs, its handlers seeing the row
      stored. */
  function Create(t: Table, s: Schema, h: Hooks, data: Fields, next: int, emit: bool, now: int): (r: Result<Change<Row>, Fault>)
    ensures Unknown(s, data) != {} ==> r == Failure(UnknownColumns(Unknown(s, data)))
    ensures Unknown(s, data) == {} && MissingRequired(s, data) != {} ==> r == Failure(NullColumns(MissingRequired(s, data)))
    ensures Unknown(s, data) == {} && MissingRequired(s, data) == {} && NewKey(s, data, next).Failure? ==> r == Failure(NewKey(s, data, next).error)
    ensures Unknown(s, data) == {} && MissingRequired(s, data) == {} && NewKey(s, data, next).Success? ==>
              (r.Failure? <==> Get(t, NewKey(s, data, next).value).Some?)
              && (r.Failure? ==> r.error == DuplicateKey(NewKey(s, data, next).value))
    ensures r.Success? ==>
              var c := r.value;
              && NewKey(s, data, next) == Success(c.result.id)
              && Fits(s, c.result)
              && (forall f :: f in c.result.fields && !Omitted(data, f) ==> c.result.fields[f] == data[f])
              && (forall f :: f in c.result.fields && Omitted(data, f) ==> c.result.fields[f] == (if f in s.stamped then Moment(now) else Null))
              && (forall f :: f in c.result.fields && f in s.notNull ==> c.result.fields[f] != Null)
              && c.table == t + [c.result]
              && Get(c.table, c.result.id) == Some(c.result)
              && (c.emitted != [] <==> emit && h != BaseHooks)
              && (forall i :: 0 <= i < |c.emitted| ==> EmitsAbout(c.emitted[i], h, Created, c.result, now, c.table))
  {
    if Unknown(s, data) != {} then Failure(UnknownColumns(Unknown(s, data)))
    else if MissingRequired(s, data) != {} then Failure(NullColumns(MissingRequired(s, data)))
    else
      match NewKey(s, data, next)
      case Failure(f) => Failure(f)
      case Success(id) =>
        if Get(t, id).Some? then Failure(DuplicateKey(id))
        else
          var row := Row(id, Inserted(s, data, now));
          assert forall f :: f in s.notNull ==> f !in MissingRequired(s, data);
          FindAppended(t, RowKey, row);
          Success(Change(t + [row], row, Hook(h, Created, row, emit, now, t + [row])))
  }

  /** The `NOT NULL` columns a payload sets to `None`. */
  function Cleared(s: Schema, data: Fields): set<string> {
    set c | c in s.notNull && c in data && data[c] == Null
  }

  /** The `setattr` loop over a stored row: each column in the payload
      takes its value, the key included, which moves the row to another
      key; a keyword that is not a column only lands on the Python object
      and is not stored. The commit refuses `NULL` in a `NOT NULL` column
      and a key of the wrong type. */
  function Assign(s: Schema, row: Row, data: Fields): (r: Result<Row, Fault>)
    ensures Cleared(s, data) != {} ==> r == Failure(NullColumns(Cleared(s, data)))
    ensures Cleared(s, data) == {} && "id" in data && KeyOf(s, data["id"]).None? ==>
              r == Failure(if data["id"] == Null then NullKey else BadKey(data["id"]))
    ensures r.Success? <==> Cleared(s, data) == {} && ("id" in data ==> KeyOf(s, data["id"]).Some?)
    ensures r.Success? ==>
              && r.value.id == (if "id" in data then KeyOf(s, data["id"]).value else row.id)
              && r.value.fields.Keys == row.fields.Keys + (data.Keys * s.columns - {"id"})
              && (forall f :: f in data && f in s.columns && f != "id" ==> r.value.fields[f] == data[f])
              && (forall f :: f in row.fields && f !in data ==> r.value.fields[f] == row.fields[f])
  {
    if Cleared(s, data) != {} then Failure(NullColumns(Cleared(s, data)))
    else if "id" in data && KeyOf(s, data["id"]).None? then
      Failure(if data["id"] == Null then NullKey else BadKey(data["id"]))
    else
      var id := if "id" in data then KeyOf(s, data["id"]).value else row.id;
      Success(Row(id, row.fields + map f | f in data.Keys * s.columns - {"id"} :: data[f]))
  }

  /** `BaseService.update`: `None` for an absent key, with nothing changed
      and nothing published. Otherwise the payload is assigned and
      committed, and then the updated hook runs; an assignment the commit
      refuses, or a new key another row already holds, raises instead and
      nothing is published. */
  function Update(t: Table, s: Schema, h: Hooks, id: Key, data: Fields, emit: bool, now: int): (r: Result<Change<Option<Row>>, Fault>)
    ensures Get(t, id).None? ==> r == Success(Change(t, None, []))
    ensures Get(t, id).Some? && Assign(s, Get(t, id).value, data).Failure? ==>
              r == Failure(Assign(s, Get(t, id).value, data).error)
    ensures Get(t, id).Some? && Assign(s, Get(t, id).value, data).Success? ==>
              var m := Assign(s, Get(t, id).value, data).value;
              && (r.Failure? <==> m.id != id && Get(t, m.id).Some?)
              && (r.Failure? ==> r.error == DuplicateKey(m.id))
    ensures r.Success? && Get(t, id).Some? ==>
              var m := Assign(s, Get(t, id).value, data).value;
              && r.value.result == Some(m)
              && |r.value.table| == |t|
              && (forall j :: 0 <= j < |t| && j != Position(t, RowKey, id) ==> r.value.table[j] == t[j])
              && Get(r.value.table, m.id) == r.value.result
              && (r.value.emitted != [] <==> emit && h != BaseHooks)
              && (forall i :: 0 <= i < |r.value.emitted| ==> EmitsAbout(r.value.emitted[i], h, Updated, m, now, r.value.table))
  {
    match Get(t, id)
    case None => Success(Change(t, None, []))
    case Some(row) =>
      match Assign(s, row, data)
      case Failure(f) => Failure(f)
      case Success(m) =>
        if m.id != id && Get(t, m.id).Some? then Failure(DuplicateKey(m.id))
        else
          FindMoved(t, RowKey, id, m);
          var t' := Replace(t, RowKey, id, m);
          Success(Change(t', Some(m), Hook(h, Updated, m, emit, now, t')))
  }

  /** `BaseService.delete`: `False` for an absent key with nothing
      published; otherwise the deleted hook runs while the row is still
      stored, and only then is the row removed. */
  function Delete(t: Table, h: Hooks, id: Key, emit: bool, now: int): (r: Change<bool>)
    ensures r.result <==> Get(t, id).Some?
    ensures !r.result ==> r.table == t && r.emitted == []
    ensures r.result ==>
              && |r.table| == |t| - 1
              && (forall j :: 0 <= j < |r.table| ==> r.table[j] == t[if j < Position(t, RowKey, id) then j else j + 1])
              && (r.emitted != [] <==> emit && h != BaseHooks)
              && (forall i :: 0 <= i < |r.emitted| ==> EmitsAbout(r.emitted[i], h, Deleted, Get(t, id).value, now, t))
  {
    match Get(t, id)
    case None => Change(t, false, [])
    case Some(row) => Change(Remove(t, RowKey, id), true, Hook(h, Deleted, row, emit, now, t))
  }

  // ---------------------------------------------------------------------
  // What the operations keep

  /** Creating, updating and deleting keep keys unique and every row
      fitting its table; a deleted key is no longer found. */
  lemma CreateKeeps(t: Table, s: Schema, h: Hooks, data: Fields, next: int, emit: bool, now: int)
    requires Keyed(s, t)
    requires Create(t, s, h, data, next, emit, now).Success?
    ensures Keyed(s, Create(t, s, h, data, next, emit, now).value.table)
  {
    var c := Create(t, s, h, data, next, emit, now).value;
    FindAppended(t, RowKey, c.result);
  }

  lemma UpdateKeeps(t: Table, s: Schema, h: Hooks, id: Key, data: Fields, emit: bool, now: int)
    requires Keyed(s, t)
    requires Update(t, s, h, id, data, emit, now).Success?
    ensures Keyed(s, Update(t, s, h, id, data, emit, now).value.table)
  {
    if Get(t, id).Some? {
      var m := Assign(s, Get(t, id).value, data).value;
      FindMoved(t, RowKey, id, m);
      var p := Position(t, RowKey, id);
      assert Get(t, id).value == t[p];
    }
  }

  lemma DeleteKeeps(t: Table, s: Schema, h: Hooks, id: Key, emit: bool, now: int)
    requires Keyed(s, t)
    ensures Keyed(s, Delete(t, h, id, emit, now).table)
    ensures Get(Delete(t, h, id, emit, now).table, id).None?
  {
    FindRemoved(t, RowKey, id);
  }

  /** An update that moves a row to a new key leaves the old key free, and
      the row, with its other columns, is found under the new one. */
  lemma UpdateMovesKey(t: Table, s: Schema, h: Hooks, id: Key, data: Fields, emit: bool, now: int)
    requires Keyed(s, t)
    requires Update(t, s, h, id, data, emit, now).Success? && Get(t, id).Some?
    requires "id" in data && KeyOf(s, data["id"]) != Some(id)
    ensures var c := Update(t, s, h, id, data, emit, now).value;
            && Get(c.table, id).None?
            && Get(c.table, KeyOf(s, data["id"]).value) == c.result
            && c.result.value.fields.Keys == Get(t, id).value.fields.Keys
  {
    var c := Update(t, s, h, id, data, emit, now).value;
    var m := Assign(s, Get(t, id).value, data).value;
    var p := Position(t, RowKey, id);
    assert Get(t, id).value == t[p];
    UpdateKeeps(t, s, h, id, data, emit, now);
    FindDistinct(c.table, RowKey, p);
    assert c.table[p] == m;
  }

  /** Turning events off silences every operation, and the base hooks never
      publish anything. */
  lemma SilentWithoutEvents(t: Table, s: Schema, h: Hooks, id: Key, data: Fields, next: int, emit: bool, now: int)
    requires !emit || h == BaseHooks
    ensures Create(t, s, h, data, next, emit, now).Success? ==> Create(t, s, h, data, next, emit, now).value.emitted == []
    ensures Update(t, s, h, id, data, emit, now).Success? ==> Update(t, s, h, id, data, emit, now).value.emitted == []
    ensures Delete(t, h, id, emit, now).emitted == []
  {
  }

  /** Deletion publishes while the row is still stored, so its handlers can
      read it; afterwards it is gone. The event's payload is the row. */
  lemma DeleteEmitsBeforeRemoval(t: Table, s: Schema, h: Hooks, id: Key, now: int)
    requires Keyed(s, t) && Get(t, id).Some? && h != BaseHooks
    ensures var c := Delete(t, h, id, true, now);
            && |c.emitted| == 1
            && Get(c.emitted[0].tableThen, id) == Get(t, id)
            && c.emitted[0].event.data == Dict(Get(t, id).value)
            && Get(c.table, id).None?
  {
    DeleteKeeps(t, s, h, id, true, now);
  }

  // ---------------------------------------------------------------------
  // The v2 services

  /** A failure reported as `HTTPException(status, context + str(cause))`. */
  datatype HttpFault = HttpFault(status: nat, context: string, cause: Fault)

  /** `CustomersService.create_customer` (v2): the base create with the
      customer hooks; a failed create is rolled back and becomes a 400. */
  function CreateCustomer(t: Table, data: Fields, next: int, now: int): (r: Result<Change<Row>, HttpFault>)
    ensures r.Failure? <==> Create(t, CustomerSchema, CustomerHooks, data, next, true, now).Failure?
    ensures r.Failure? ==> r.error == HttpFault(400, "Error creating customer: ", Create(t, CustomerSchema, CustomerHooks, data, next, true, now).error)
    ensures r.Success? ==> |r.value.emitted| == 1 && r.value.emitted[0].event.eventType == CustomerCreated
    ensures r.Success? ==> r.value.emitted[0].event.entityType == "customer"
    ensures r.Success? ==> r.value.emitted[0].event.entityId == KeyText(r.value.result.id)
  {
    match Create(t, CustomerSchema, CustomerHooks, data, next, true, now)
    case Failure(f) => Failure(HttpFault(400, "Error creating customer: ", f))
    case Success(c) => Success(c)
  }

  /** A customer payload of columns with a text id is created exactly when
      the id is not stored yet. */
  lemma CreateCustomerFresh(t: Table, data: Fields, next: int, now: int)
    requires data.Keys <= CustomerSchema.columns && "id" in data && data["id"].Text?
    ensures CreateCustomer(t, data, next, now).Success? <==> Get(t, TextKey(data["id"].s)).None?
    ensures CreateCustomer(t, data, next, now).Success? ==> CreateCustomer(t, data, next, now).value.result.id == TextKey(data["id"].s)
  {
    assert Unknown(CustomerSchema, data) == {};
    assert MissingRequired(CustomerSchema, data) == {};
  }

  /** `CustomersService.update_customer` (v2): its own lookup and field
      assignment, which behave as the base update with events on; a
      failure is rolled back and becomes a 400. */
  function UpdateCustomer(t: Table, id: string, data: Fields, now: int): (r: Result<Change<Option<Row>>, HttpFault>)
    ensures r.Failure? <==> Update(t, CustomerSchema, CustomerHooks, TextKey(id), data, true, now).Failure?
    ensures r.Failure? ==> r.error == HttpFault(400, "Error updating customer: ", Update(t, CustomerSchema, CustomerHooks, TextKey(id), data, true, now).error)
    ensures Get(t, TextKey(id)).None? ==> r == Success(Change(t, None, []))
    ensures r.Success? && Get(t, TextKey(id)).Some? ==>
              && r.value.result.Some?
              && |r.value.emitted| == 1
              && r.value.emitted[0].event.eventType == CustomerUpdated
              && r.value.emitted[0].event.entityId == KeyText(r.value.result.value.id)
              && r.value.emitted[0].tableThen == r.value.table
              && Get(r.value.table, r.value.result.value.id) == r.value.result
    ensures r.Success? && Get(t, TextKey(id)).Some? && "id" !in data ==> r.value.result.value.id == TextKey(id)
  {
    match Update(t, CustomerSchema, CustomerHooks, TextKey(id), data, true, now)
    case Failure(f) => Failure(HttpFault(400, "Error updating customer: ", f))
    case Success(c) => Success(c)
  }

  /** `CustomersService.delete_customer` (v2): publishes `customer.updated`
      (there is no deletion type) while the customer is still stored, then
      removes it. */
  function DeleteCustomer(t: Table, id: string, now: int): (r: Change<bool>)
    ensures r.result <==> Get(t, TextKey(id)).Some?
    ensures !r.result ==> r.table == t && r.emitted == []
    ensures r.result ==>
              && |r.emitted| == 1
              && r.emitted[0].event.eventType == CustomerUpdated
              && r.emitted[0].event.entityId == id
              && r.emitted[0].tableThen == t
              && |r.table| == |t| - 1
  {
    Delete(t, CustomerHooks, TextKey(id), true, now)
  }

  /** Every character of `s` is an ASCII digit. */
  predicate Digits(s: string) {
    forall i :: 0 <= i < |s| ==> '0' <= s[i] <= '9'
  }

  /** The number a text of ASCII digits spells. */
  function DecimalOf(s: string): (n: nat)
    requires Digits(s)
  {
    if s == [] then 0 else DecimalOf(s[..|s| - 1]) * 10 + (s[|s| - 1] as int - '0' as int)
  }

  /** Python's `s * n` on a text: `s` repeated `n` times. */
  function Repeat(s: string, n: nat): (r: string)
    ensures |r| == |s| * n
    ensures Digits(s) ==> Digits(r)
  {
    if n == 0 then "" else Repeat(s, n - 1) + s
  }

  /** Dollars as cents: `int(amount * 100)`. A number is scaled and
      truncated. A text is repeated a hundred times, and `int()` reads the
      repetition when the text is a run of digits. A `None`, a datetime and
      any other text make the multiplication or the conversion raise. */
  function CentsOf(v: Value): (r: Option<int>)
    ensures v.Int? ==> r == Some(v.i * 100)
    ensures v.Real? ==> r.Some? && (r.value as real) <= v.r * 100.0 + 1.0 && (r.value as real) >= v.r * 100.0 - 1.0
    ensures v.Text? ==> (r.Some? <==> v.s != "" && Digits(v.s))
    ensures v.Text? && r.Some? ==> r.value == DecimalOf(Repeat(v.s, 100))
    ensures v.Null? || v.Moment? ==> r.None?
  {
    match v
    case Int(n) => Some(n * 100)
    case Real(x) => Some(Trunc(x * 100.0))
    case Text(s) => if s != "" && Digits(s) then Some(DecimalOf(Repeat(s, 100))) else None
    case _ => None
  }

  /** A text of digits not led by a zero spells at least `10^(|s|-1)`. */
  lemma {:induction false} DecimalOfAtLeast(s: string)
    requires Digits(s) && |s| >= 1 && s[0] != '0'
    ensures DecimalOf(s) >= Pow10(|s| - 1)
    decreases |s|
  {
    if |s| > 1 {
      var init := s[..|s| - 1];
      assert init[0] == s[0];
      DecimalOfAtLeast(init);
    }
  }

  function Pow10(n: nat): (p: nat)
    ensures p >= 1
  {
    if n == 0 then 1 else 10 * Pow10(n - 1)
  }

  lemma RepeatHead(s: string, n: nat)
    requires |s| >= 1 && n >= 1
    ensures Repeat(s, n)[0] == s[0]
  {
    if n > 1 {
      RepeatHead(s, n - 1);
    }
  }

  /** The text "5" is not five dollars: it is repeated into a hundred
      fives, a number far above 500 cents. */
  lemma TextAmountRepeats()
    ensures CentsOf(Text("5")).Some? && CentsOf(Text("5")).value >= Pow10(99)
  {
    RepeatHead("5", 100);
    DecimalOfAtLeast(Repeat("5", 100));
  }

  /** The expense services' rewrite of an `amount` in dollars into
      `amount_cents`; a payload without `amount` passes unchanged. */
  function RewriteAmount(data: Fields): (r: Result<Fields, Fault>)
    ensures "amount" !in data ==> r == Success(data)
    ensures "amount" in data ==> (r.Failure? <==> CentsOf(data["amount"]).None?)
    ensures r.Failure? ==> r.error == BadAmount(data["amount"])
    ensures "amount" in data && r.Success? ==>
              && "amount" !in r.value
              && "amount_cents" in r.value && r.value["amount_cents"] == Int(CentsOf(data["amount"]).value)
              && (forall f :: f in data && f != "amount" && f != "amount_cents" ==> f in r.value && r.value[f] == data[f])
              && (forall f :: f in r.value ==> f == "amount_cents" || f in data)
  {
    if "amount" !in data then Success(data)
    else
      match CentsOf(data["amount"])
      case None => Failure(BadAmount(data["amount"]))
      case Some(c) => Success((data - {"amount"})["amount_cents" := Int(c)])
  }

  /** `ExpensesService.create_expense` (v2): the rewrite, then the base
      create with the expense hooks; either failure becomes a 400. */
  function CreateExpense(t: Table, data: Fields, next: int, now: int): (r: Result<Change<Row>, HttpFault>)
    ensures RewriteAmount(data).Failure? ==> r == Failure(HttpFault(400, "Error creating expense: ", RewriteAmount(data).error))
    ensures RewriteAmount(data).Success? ==>
              && (r.Failure? <==> Create(t, ExpenseSchema, ExpenseHooks, RewriteAmount(data).value, next, true, now).Failure?)
              && (r.Failure? ==> r.error == HttpFault(400, "Error creating expense: ", Create(t, ExpenseSchema, ExpenseHooks, RewriteAmount(data).value, next, true, now).error))
    ensures r.Success? ==> |r.value.emitted| == 1 && r.value.emitted[0].event.eventType == ExpenseCreated
    ensures r.Success? ==> r.value.emitted[0].event.entityType == "expense"
    ensures r.Success? && "amount" in data ==>
              && "amount_cents" in r.value.result.fields
              && r.value.result.fields["amount_cents"] == Int(CentsOf(data["amount"]).value)
  {
    match RewriteAmount(data)
    case Failure(f) => Failure(HttpFault(400, "Error creating expense: ", f))
    case Success(d) =>
      match Create(t, ExpenseSchema, ExpenseHooks, d, next, true, now)
      case Failure(f) => Failure(HttpFault(400, "Error creating expense: ", f))
      case Success(c) =>
        if "amount" in data then
          assert d["amount_cents"] == Int(CentsOf(data["amount"]).value);
          CreatedStores(t, ExpenseSchema, ExpenseHooks, d, next, true, now, "amount_cents");
          Success(c)
        else Success(c)
  }

  /** A created row stores each column the payload gives a value. */
  lemma CreatedStores(t: Table, s: Schema, h: Hooks, data: Fields, next: int, emit: bool, now: int, f: string)
    requires Create(t, s, h, data, next, emit, now).Success?
    requires f in s.columns && f != "id" && !Omitted(data, f)
    ensures f in Create(t, s, h, data, next, emit, now).value.result.fields
    ensures Create(t, s, h, data, next, emit, now).value.result.fields[f] == data[f]
  {
  }

  /** `ExpensesService.update_expense` (v2): the rewrite, then the base
      update with events on; either failure becomes a 400. */
  function UpdateExpense(t: Table, id: int, data: Fields, now: int): (r: Result<Change<Option<Row>>, HttpFault>)
    ensures RewriteAmount(data).Failure? ==> r == Failure(HttpFault(400, "Error updating expense: ", RewriteAmount(data).error))
    ensures RewriteAmount(data).Success? ==>
              var u := Update(t, ExpenseSchema, ExpenseHooks, IntKey(id), RewriteAmount(data).value, true, now);
              && (u.Success? ==> r == Success(u.value))
              && (u.Failure? ==> r == Failure(HttpFault(400, "Error updating expense: ", u.error)))
    ensures r.Success? && Get(t, IntKey(id)).Some? ==>
              |r.value.emitted| == 1 && r.value.emitted[0].event.eventType == ExpenseUpdated
  {
    match RewriteAmount(data)
    case Failure(f) => Failure(HttpFault(400, "Error updating expense: ", f))
    case Success(d) =>
      match Update(t, ExpenseSchema, ExpenseHooks, IntKey(id), d, true, now)
      case Failure(f) => Failure(HttpFault(400, "Error updating expense: ", f))
      case Success(c) => Success(c)
  }

  /** `ExpensesService.delete_expense` (v2): publishes `expense.updated`
      while the expense is still stored. */
  function DeleteExpense(t: Table, id: int, now: int): (r: Change<bool>)
    ensures r.result <==> Get(t, IntKey(id)).Some?
    ensures !r.result ==> r.table == t && r.emitted == []
    ensures r.result ==>
              && |r.emitted| == 1
              && r.emitted[0].event.eventType == ExpenseUpdated
              && r.emitted[0].tableThen == t
  {
    Delete(t, ExpenseHooks, IntKey(id), true, now)
  }

  /** The row's `date` column, when it holds a datetime. */
  function DateOf(r: Row): Option<int> {
    if "date" in r.fields && r.fields["date"].Moment? then Some(r.fields["date"].t) else None
  }

  /** `date >= start` and `date <= end`, each only when given; a row with
      no date fails any bound. */
  predicate InWindow(r: Row, start: Option<int>, end: Option<int>) {
    if DateOf(r).Some? then WithinOpt(DateOf(r).value, start, end) else start.None? && end.None?
  }

  /** `ExpensesService.get_expenses` (v2): the optional window, then
      `OFFSET`/`LIMIT`, in stored order. */
  function GetExpenses(t: Table, skip: nat, limit: nat, start: Option<int>, end: Option<int>): (r: seq<Row>)
    ensures |r| <= limit
    ensures forall i :: 0 <= i < |r| ==> r[i] in t && InWindow(r[i], start, end)
    ensures |r| == PageSize(|WindowRows(t, start, end)|, skip, limit)
    ensures forall i :: 0 <= i < |r| ==>
              skip + i < |WindowRows(t, start, end)| && r[i] == WindowRows(t, start, end)[skip + i]
  {
    Page(WindowRows(t, start, end), skip, limit)
  }

  /** The rows the `WHERE` clause of `get_expenses` keeps, in stored order. */
  function WindowRows(t: Table, start: Option<int>, end: Option<int>): (w: seq<Row>)
    ensures |w| <= |t|
    ensures forall x :: x in w ==> x in t && InWindow(x, start, end)
    ensures forall x :: x in t && InWindow(x, start, end) ==> x in w
  {
    Filter(t, (x: Row) => InWindow(x, start, end))
  }

  /** A first page as large as the table is the whole window, so it holds
      every row inside the window. */
  lemma GetExpensesComplete(t: Table, limit: nat, start: Option<int>, end: Option<int>)
    requires limit >= |t|
    ensures GetExpenses(t, 0, limit, start, end) == WindowRows(t, start, end)
    ensures forall x :: x in t && InWindow(x, start, end) ==> x in GetExpenses(t, 0, limit, start, end)
  {
    var w := WindowRows(t, start, end);
    assert Page(w, 0, limit) == w;
  }

  /** Consecutive pages of `get_expenses` are the page that spans both. */
  lemma GetExpensesSplit(t: Table, skip: nat, limit: nat, start: Option<int>, end: Option<int>)
    ensures GetExpenses(t, 0, skip, start, end) + GetExpenses(t, skip, limit, start, end)
            == GetExpenses(t, 0, skip + limit, start, end)
  {
    PageSplit(WindowRows(t, start, end), skip, limit);
  }

  /** Without bounds, `get_expenses` is `get_all`. */
  lemma GetExpensesUnbounded(t: Table, skip: nat, limit: nat)
    ensures GetExpenses(t, skip, limit, None, None) == GetAll(t, skip, limit)
  {
    FilterKeepsAll(t, (x: Row) => InWindow(x, None, None));
  }
}

=== FILE: sheets.dfy ===
/** The pure parts of the Google Sheets connector: turning the cells a sheet
    returns into CSV text, reading a spreadsheet id out of a URL, and how
    fetch and extraction failures are classified and reported. The Google
    API call itself is an input: the reply it gave. */
module Sheets {
  import opened Wrappers
  import opened Text

  // ---------------------------------------------------------------------
  // Cell escaping

  /** A cell that must be quoted: it holds a comma, a quote or a line feed.
      A carriage return does not count, unlike rule 6 of section 2 of
      RFC 4180. */
  predicate NeedsQuotes(v: string) {
    ',' in v || '"' in v || '\n' in v
  }

  /** `str.replace('"', '""')`. */
  function DoubleQuotes(s: string): (r: string)
    ensures |r| >= |s|
    ensures ',' in r <==> ',' in s
    ensures '\n' in r <==> '\n' in s
  {
    if s == [] then []
    else (if s[0] == '"' then "\"\"" else [s[0]]) + DoubleQuotes(s[1..])
  }

  /** `_escape_csv_value`: the trimmed cell, quoted with its quotes doubled
      when it needs quoting. */
  function Escape(value: string): (r: string)
    ensures r == Strip(value) <==> !NeedsQuotes(Strip(value))
    ensures r != Strip(value) ==> |r| >= 2 && r[0] == '"' && r[|r| - 1] == '"'
    ensures r == Strip(value) ==> ',' !in r && '"' !in r && '\n' !in r
  {
    var v := Strip(value);
    if NeedsQuotes(v) then ['"'] + DoubleQuotes(v) + ['"'] else v
  }

  // ---------------------------------------------------------------------
  // A CSV reader: quoted fields with `""` for a quote, fields separated by
  // commas and records by line feeds. It is the inverse the conversion
  // below is checked against.

  /** The rest of a quoted field after its opening quote, and the text after
      its closing quote. An unterminated field runs to the end. */
  function Quoted(s: string): (r: (string, string))
    ensures |r.1| <= |s|
    decreases |s|
  {
    if s == [] then ([], [])
    else if s[0] == '"' then
      if |s| > 1 && s[1] == '"' then
        var q := Quoted(s[2..]);
        (['"'] + q.0, q.1)
      else ([], s[1..])
    else
      var q := Quoted(s[1..]);
      ([s[0]] + q.0, q.1)
  }

  /** An unquoted field: everything up to the next comma or line feed. */
  function Plain(s: string): (r: (string, string))
    ensures |r.1| <= |s|
  {
    if s == [] || s[0] == ',' || s[0] == '\n' then ([], s)
    else
      var p := Plain(s[1..]);
      ([s[0]] + p.0, p.1)
  }

  function Field(s: string): (r: (string, string))
    ensures |r.1| <= |s|
  {
    if |s| > 0 && s[0] == '"' then Quoted(s[1..]) else Plain(s)
  }

  /** One record and, when a line feed ends it, the text after that line
      feed. A character after a closing quote other than a separator ends
      the field as a comma would. */
  function Record(s: string): (r: (seq<string>, Option<string>))
    ensures |r.0| >= 1
    ensures r.1.Some? ==> |r.1.value| < |s|
    decreases |s|
  {
    var f := Field(s);
    if f.1 == [] then ([f.0], None)
    else if f.1[0] == '\n' then ([f.0], Some(f.1[1..]))
    else
      var r := Record(f.1[1..]);
      ([f.0] + r.0, r.1)
  }

  function Records(s: string): (rs: seq<seq<string>>)
    ensures |rs| >= 1
    decreases |s|
  {
    var r := Record(s);
    [r.0] + (if r.1.Some? then Records(r.1.value) else [])
  }

  /** A doubled-quote body followed by its closing quote reads back as the
      body. */
  lemma {:induction false} QuotedRead(v: string, rest: string)
    requires rest == [] || rest[0] != '"'
    ensures Quoted(DoubleQuotes(v) + ['"'] + rest) == (v, rest)
  {
    if v != [] {
      QuotedRead(v[1..], rest);
      var tail := DoubleQuotes(v[1..]) + "\"" + rest;
      assert [v[0]] + v[1..] == v;
      if v[0] == '"' {
        var w := "\"\"" + tail;
        assert DoubleQuotes(v) + "\"" + rest == w;
        assert w[2..] == tail;
        assert Quoted(w) == (['"'] + Quoted(tail).0, Quoted(tail).1);
      } else {
        var w := [v[0]] + tail;
        assert DoubleQuotes(v) + "\"" + rest == w;
        assert w[1..] == tail;
        assert Quoted(w) == ([v[0]] + Quoted(tail).0, Quoted(tail).1);
      }
    } else {
      assert DoubleQuotes(v) + "\"" + rest == "\"" + rest;
    }
  }

  lemma {:induction false} PlainRead(v: string, rest: string)
    requires ',' !in v && '\n' !in v
    requires rest == [] || rest[0] == ',' || rest[0] == '\n'
    ensures Plain(v + rest) == (v, rest)
  {
    if v != [] {
      PlainRead(v[1..], rest);
      assert (v + rest)[1..] == v[1..] + rest;
      assert [v[0]] + v[1..] == v;
    } else {
      assert v + rest == rest;
    }
  }

  /** An escaped cell followed by a separator, or by nothing, reads back as
      the trimmed cell. */
  lemma EscapeRead(value: string, rest: string)
    requires rest == [] || rest[0] == ',' || rest[0] == '\n'
    ensures Field(Escape(value) + rest) == (Strip(value), rest)
  {
    var v := Strip(value);
    if NeedsQuotes(v) {
      QuotedFieldRead(v, rest);
    } else {
      PlainFieldRead(v, rest);
    }
  }

  lemma QuotedFieldRead(v: string, rest: string)
    requires rest == [] || rest[0] == ',' || rest[0] == '\n'
    ensures Field(['"'] + DoubleQuotes(v) + ['"'] + rest) == (v, rest)
  {
    var body := DoubleQuotes(v) + ['"'] + rest;
    QuotedRead(v, rest);
    assert ['"'] + DoubleQuotes(v) + ['"'] + rest == ['"'] + body;
    assert (['"'] + body)[1..] == body;
  }

  lemma PlainFieldRead(v: string, rest: string)
    requires ',' !in v && '"' !in v && '\n' !in v
    requires rest == [] || rest[0] == ',' || rest[0] == '\n'
    ensures Field(v + rest) == (v, rest)
  {
    PlainRead(v, rest);
    if v == [] {
      assert v + rest == rest;
    } else {
      assert (v + rest)[0] == v[0];
    }
  }

  // ---------------------------------------------------------------------
  // Sheet to CSV

  /** A row padded with empty cells up to `width`; a longer row is kept
      whole. */
  function Pad(row: seq<string>, width: int): (r: seq<string>)
    ensures |r| == if |row| >= width then |row| else width
    ensures r[..|row|] == row
    ensures forall j :: |row| <= j < |r| ==> r[j] == ""
  {
    if |row| >= width then row else row + seq(width - |row|, _ => "")
  }

  function EscapeAll(cells: seq<string>): (r: seq<string>)
    ensures |r| == |cells|
    ensures forall j :: 0 <= j < |cells| ==> r[j] == Escape(cells[j])
  {
    if cells == [] then [] else [Escape(cells[0])] + EscapeAll(cells[1..])
  }

  function StripAll(cells: seq<string>): (r: seq<string>)
    ensures |r| == |cells|
    ensures forall j :: 0 <= j < |cells| ==> r[j] == Strip(cells[j])
  {
    if cells == [] then [] else [Strip(cells[0])] + StripAll(cells[1..])
  }

  function CsvLine(row: seq<string>, width: int): string {
    Join(EscapeAll(Pad(row, width)), ",")
  }

  function CsvLines(rows: seq<seq<string>>, width: int): (r: seq<string>)
    ensures |r| == |rows|
  {
    if rows == [] then [] else [CsvLine(rows[0], width)] + CsvLines(rows[1..], width)
  }

  /** `_convert_to_csv`: every row padded to the width of the first, its
      cells escaped and joined by commas, the lines joined by line feeds
      with none at the end. */
  function ConvertToCsv(data: seq<seq<string>>): (csv: string)
    ensures data == [] ==> csv == ""
    ensures |data| == 1 ==> csv == CsvLine(data[0], |data[0]|)
  {
    if data == [] then "" else Join(CsvLines(data, |data[0]|), "\n")
  }

  /** What the reader is expected to see: every row padded to `width` and
      its cells trimmed. */
  function TrimmedTable(rows: seq<seq<string>>, width: int): (t: seq<seq<string>>)
    ensures |t| == |rows|
    ensures forall i :: 0 <= i < |rows| ==> t[i] == StripAll(Pad(rows[i], width))
  {
    if rows == [] then [] else [StripAll(Pad(rows[0], width))] + TrimmedTable(rows[1..], width)
  }

  /** The text a record is followed by: nothing, or a line feed and more. */
  function After(next: Option<string>): string {
    if next.Some? then "\n" + next.value else ""
  }

  /** The last cell of a record. */
  lemma RecordLast(c: string, next: Option<string>)
    ensures Record(Escape(c) + After(next)) == ([Strip(c)], next)
  {
    var tail := After(next);
    EscapeRead(c, tail);
    if next.Some? {
      assert tail[1..] == next.value;
    }
  }

  /** A cell followed by a comma and more of the record. */
  lemma RecordCons(c: string, more: string)
    ensures Record(Escape(c) + ("," + more)) == ([Strip(c)] + Record(more).0, Record(more).1)
  {
    EscapeRead(c, "," + more);
    assert ("," + more)[1..] == more;
  }

  lemma JoinCons(parts: seq<string>, sep: string)
    requires |parts| >= 2
    ensures Join(parts, sep) == parts[0] + sep + Join(parts[1..], sep)
  {
  }

  lemma Regroup(a: string, b: string, c: string, d: string)
    ensures a + b + c + d == a + (b + (c + d))
  {
  }

  lemma {:induction false} RecordRead(cells: seq<string>, next: Option<string>)
    requires |cells| >= 1
    ensures Record(Join(EscapeAll(cells), ",") + After(next)) == (StripAll(cells), next)
  {
    var es := EscapeAll(cells);
    var tail := After(next);
    if |cells| == 1 {
      assert Join(es, ",") == Escape(cells[0]);
      RecordLast(cells[0], next);
      assert StripAll(cells) == [Strip(cells[0])];
    } else {
      var rest := Join(EscapeAll(cells[1..]), ",");
      assert es[1..] == EscapeAll(cells[1..]);
      JoinCons(es, ",");
      Regroup(es[0], ",", rest, tail);
      RecordCons(cells[0], rest + tail);
      RecordRead(cells[1..], next);
      assert StripAll(cells) == [Strip(cells[0])] + StripAll(cells[1..]);
    }
  }

  /** The first record of several. */
  lemma RecordsCons(line: string, rest: string, fields: seq<string>)
    requires Record(line + After(Some(rest))) == (fields, Some(rest))
    ensures Records(line + "\n" + rest) == [fields] + Records(rest)
  {
    assert line + "\n" + rest == line + After(Some(rest));
  }

  lemma {:induction false} RecordsRead(rows: seq<seq<string>>, width: int)
    requires |rows| >= 1
    requires forall i :: 0 <= i < |rows| ==> |rows[i]| >= 1 || width >= 1
    ensures Records(Join(CsvLines(rows, width), "\n")) == TrimmedTable(rows, width)
  {
    var lines := CsvLines(rows, width);
    var cells := Pad(rows[0], width);
    assert lines[0] == Join(EscapeAll(cells), ",");
    if |rows| == 1 {
      RecordRead(cells, None);
      assert Join(lines, "\n") == lines[0] + After(None);
      assert TrimmedTable(rows, width) == [StripAll(cells)];
    } else {
      var rest := Join(CsvLines(rows[1..], width), "\n");
      assert lines[1..] == CsvLines(rows[1..], width);
      JoinCons(lines, "\n");
      RecordRead(cells, Some(rest));
      RecordsCons(lines[0], rest, StripAll(cells));
      RecordsRead(rows[1..], width);
      assert TrimmedTable(rows, width) == [StripAll(cells)] + TrimmedTable(rows[1..], width);
    }
  }

  /** The conversion is read back by a CSV reader as the sheet with every
      row padded to the first row's width and every cell trimmed: escaping
      loses nothing but surrounding whitespace. */
  lemma ConvertToCsvRoundTrip(data: seq<seq<string>>)
    requires |data| >= 1 && |data[0]| >= 1
    ensures Records(ConvertToCsv(data)) == TrimmedTable(data, |data[0]|)
    ensures forall i :: 0 <= i < |data| ==> |Records(ConvertToCsv(data))[i]| == if |data[i]| >= |data[0]| then |data[i]| else |data[0]|
  {
    RecordsRead(data, |data[0]|);
  }

  // ---------------------------------------------------------------------
  // Spreadsheet ids

  /** A character of `[a-zA-Z0-9-_]`. */
  predicate IdChar(c: char) {
    ('a' <= c <= 'z') || ('A' <= c <= 'Z') || ('0' <= c <= '9') || c == '-' || c == '_'
  }

  predicate AllId(s: string) {
    forall k :: 0 <= k < |s| ==> IdChar(s[k])
  }

  const Marker: string := "/spreadsheets/d/"

  /** The longest prefix of `s` made of id characters. */
  function IdRun(s: string): (r: string)
    ensures |r| <= |s| && r == s[..|r|] && AllId(r)
    ensures |r| == |s| || !IdChar(s[|r|])
  {
    if s == [] || !IdChar(s[0]) then [] else [s[0]] + IdRun(s[1..])
  }

  /** The pattern matches at `i`: the marker, then at least one id
      character. */
  predicate IdAt(url: string, i: nat) {
    OccursAt(url, Marker, i) && i + |Marker| < |url| && IdChar(url[i + |Marker|])
  }

  /** No match at or after position `i`. */
  predicate NoMatchFrom(url: string, i: nat) {
    forall j :: i <= j <= |url| ==> !IdAt(url, j)
  }

  /** `j` is the leftmost match at or after position `i`. */
  predicate LeftmostFrom(url: string, i: nat, j: nat) {
    i <= j <= |url| && IdAt(url, j) && forall k :: i <= k < j ==> !IdAt(url, k)
  }

  /** `re.search` of the pattern from position `i` on: the id after the
      first match. */
  function SearchFrom(url: string, i: nat): (r: Option<string>)
    ensures r.Some? ==> |r.value| >= 1 && AllId(r.value)
    decreases |url| - i
  {
    if i > |url| then None
    else if IdAt(url, i) then Some(IdRun(url[i + |Marker|..]))
    else SearchFrom(url, i + 1)
  }

  /** The search finds nothing exactly when there is no match, and
      otherwise the id after the leftmost one. */
  lemma {:induction false} SearchSpec(url: string, i: nat)
    ensures SearchFrom(url, i).None? <==> NoMatchFrom(url, i)
    ensures SearchFrom(url, i).Some? ==>
              exists j: nat :: LeftmostFrom(url, i, j) && SearchFrom(url, i).value == IdRun(url[j + |Marker|..])
    decreases |url| - i
  {
    if i <= |url| && !IdAt(url, i) {
      SearchSpec(url, i + 1);
      if SearchFrom(url, i).Some? {
        var j: nat :| LeftmostFrom(url, i + 1, j) && SearchFrom(url, i).value == IdRun(url[j + |Marker|..]);
        assert LeftmostFrom(url, i, j);
      }
    } else if i <= |url| {
      assert LeftmostFrom(url, i, i);
    }
  }

  /** `SheetsURLParser.extract_spreadsheet_id`: the id after the leftmost
      match of the URL pattern; failing that the trimmed input when it is
      an id by itself; otherwise nothing. */
  function ExtractSpreadsheetId(url: string): (r: Option<string>)
    ensures r.Some? ==> |r.value| >= 1 && AllId(r.value)
    ensures !NoMatchFrom(url, 0) ==> exists j: nat :: LeftmostFrom(url, 0, j) && r == Some(IdRun(url[j + |Marker|..]))
    ensures NoMatchFrom(url, 0) ==> (r.Some? <==> |Strip(url)| >= 1 && AllId(Strip(url)))
    ensures NoMatchFrom(url, 0) && r.Some? ==> r.value == Strip(url)
  {
    SearchSpec(url, 0);
    match SearchFrom(url, 0)
    case Some(id) => Some(id)
    case None =>
      var t := Strip(url);
      if |t| >= 1 && AllId(t) then Some(t) else None
  }

  /** An occurrence of the marker starts with a slash and an `s`. */
  lemma MarkerStart(url: string, i: nat)
    requires OccursAt(url, Marker, i)
    ensures url[i] == '/' && url[i + 1] == 's'
  {
    assert url[i..i + |Marker|][0] == Marker[0];
    assert url[i..i + |Marker|][1] == Marker[1];
  }

  /** The marker contains a slash, which is not an id character, so text
      made of id characters holds no match. */
  lemma NoMatchInId(s: string)
    requires AllId(s)
    ensures forall j :: 0 <= j <= |s| ==> !IdAt(s, j)
  {
    forall j | 0 <= j <= |s| ensures !IdAt(s, j) {
      if OccursAt(s, Marker, j) {
        MarkerStart(s, j);
      }
    }
  }

  /** A bare id is its own spreadsheet id. */
  lemma ExtractBareId(id: string)
    requires |id| >= 1 && AllId(id)
    ensures ExtractSpreadsheetId(id) == Some(id)
  {
    NoMatchInId(id);
    StripOfStripped(id);
  }

  const Host: string := "https://docs.google.com"

  /** A slash in the host is never followed by an `s`. */
  lemma HostSlashes(k: nat)
    requires k < |Host|
    ensures Host[k] == '/' ==> k + 1 < |Host| && Host[k + 1] != 's'
  {
  }

  /** No match starts inside the host of a sheet address. */
  lemma NoMatchInHost(url: string, k: nat)
    requires |url| > |Host| && url[..|Host|] == Host && url[|Host|] == '/'
    requires k < |Host|
    ensures !IdAt(url, k)
  {
    if OccursAt(url, Marker, k) {
      MarkerStart(url, k);
      assert url[k] == Host[k];
      HostSlashes(k);
    }
  }

  /** Positions without a match are skipped by the search. */
  lemma {:induction false} SearchSkips(url: string, i: nat, j: nat)
    requires i <= j <= |url|
    requires forall k :: i <= k < j ==> !IdAt(url, k)
    ensures SearchFrom(url, i) == SearchFrom(url, j)
    decreases j - i
  {
    if i < j {
      SearchSkips(url, i + 1, j);
    }
  }

  /** The id of an address of the documented shape
      `https://docs.google.com/spreadsheets/d/{ID}` followed by anything
      that does not continue the id, such as `/edit#gid=0`. */
  lemma ExtractFromSheetUrl(id: string, suffix: string)
    requires |id| >= 1 && AllId(id)
    requires suffix == [] || !IdChar(suffix[0])
    ensures ExtractSpreadsheetId(Host + Marker + id + suffix) == Some(id)
  {
    var url := Host + Marker + id + suffix;
    var at := |Host|;
    assert url[..at] == Host;
    assert url[at..at + |Marker|] == Marker;
    assert url[at] == '/';
    forall k | 0 <= k < at ensures !IdAt(url, k) {
      NoMatchInHost(url, k);
    }
    SearchSkips(url, 0, at);
    assert url[at + |Marker|..] == id + suffix;
    assert IdAt(url, at);
    IdRunPrefix(id, suffix);
  }

  lemma {:induction false} IdRunPrefix(id: string, suffix: string)
    requires AllId(id)
    requires suffix == [] || !IdChar(suffix[0])
    ensures IdRun(id + suffix) == id
  {
    if id == [] {
      assert id + suffix == suffix;
    } else {
      assert (id + suffix)[1..] == id[1..] + suffix;
      IdRunPrefix(id[1..], suffix);
      assert [id[0]] + id[1..] == id;
    }
  }

  /** `SheetsURLParser.validate_url_format`. */
  function ValidateUrlFormat(url: string): (ok: bool)
    ensures ok <==> Contains(url, "docs.google.com/spreadsheets") || ExtractSpreadsheetId(url).Some?
  {
    Contains(url, "docs.google.com/spreadsheets") || ExtractSpreadsheetId(url).Some?
  }

  /** Every address of the documented shape, and every bare id, passes the
      format check. */
  lemma ValidSheetUrls(id: string, suffix: string)
    requires |id| >= 1 && AllId(id)
    requires suffix == [] || !IdChar(suffix[0])
    ensures ValidateUrlFormat(Host + Marker + id + suffix)
    ensures ValidateUrlFormat(id)
  {
    ExtractFromSheetUrl(id, suffix);
    ExtractBareId(id);
  }

  // ---------------------------------------------------------------------
  // Fetching and extraction

  /** The exceptions the connector raises, each with its message. */
  datatype PyError =
    | ValueError(message: string)
    | PermissionError(message: string)
    | ConnectionError(message: string)
    | ImportError(message: string)

  /** What the Sheets API call gave back: the `values` of the range (empty
      when the reply has none), or an exception with its message. */
  datatype Reply = Values(rows: seq<seq<string>>) | ApiFailure(message: string)

  const NoDataMessage: string := "No data found in spreadsheet"

  /** The exception `_fetch_sheet_data` raises for one it caught, by the
      lower-cased message. */
  function Classify(message: string, spreadsheetId: string): (e: PyError)
    ensures Contains(Lower(message), "not found") ==> e.ValueError?
    ensures !Contains(Lower(message), "not found") && Contains(Lower(message), "permission") ==> e.PermissionError?
    ensures e.ConnectionError? <==> !Contains(Lower(message), "not found") && !Contains(Lower(message), "permission")
    ensures e.ConnectionError? ==> e.message == "Failed to fetch data: " + message
    ensures !e.ImportError?
  {
    var m := Lower(message);
    if Contains(m, "not found") then ValueError("Spreadsheet not found or not accessible: " + spreadsheetId)
    else if Contains(m, "permission") then PermissionError("Insufficient permissions to access spreadsheet")
    else ConnectionError("Failed to fetch data: " + message)
  }

  /** `_fetch_sheet_data`: an empty range raises inside the same `try`, so
      its own error is classified like an API failure. */
  function FetchSheetData(reply: Reply, spreadsheetId: string): (r: Result<seq<seq<string>>, PyError>)
    ensures r.Success? <==> reply.Values? && reply.rows != []
    ensures r.Success? ==> r.value == reply.rows && |r.value| >= 1
    ensures reply.ApiFailure? ==> r == Failure(Classify(reply.message, spreadsheetId))
    ensures reply == Values([]) ==> r == Failure(Classify(NoDataMessage, spreadsheetId))
  {
    match reply
    case Values(rows) =>
      if rows == [] then Failure(Classify(NoDataMessage, spreadsheetId)) else Success(rows)
    case ApiFailure(m) => Failure(Classify(m, spreadsheetId))
  }

  /** Lower-cased, the empty-range message reads "no data found in
      spreadsheet": it has neither "not found" nor "permission" in it. */
  lemma NoDataUnclassified()
    ensures !Contains(Lower(NoDataMessage), "not found")
    ensures !Contains(Lower(NoDataMessage), "permission")
  {
    var m := Lower(NoDataMessage);
    forall i: nat | i <= |m| ensures !OccursAt(m, "not found", i) && !OccursAt(m, "permission", i) {
      if OccursAt(m, "not found", i) {
        OccursChars(m, "not found", i);
        NoLowerNot(i);
      }
      if OccursAt(m, "permission", i) {
        OccursChars(m, "permission", i);
        NoLowerPe(i);
      }
    }
  }

  lemma OccursChars(s: string, sub: string, i: nat)
    requires OccursAt(s, sub, i) && |sub| >= 3
    ensures s[i] == sub[0] && s[i + 1] == sub[1] && s[i + 2] == sub[2]
  {
    assert s[i..i + |sub|][0] == sub[0];
    assert s[i..i + |sub|][1] == sub[1];
    assert s[i..i + |sub|][2] == sub[2];
  }

  lemma NoLowerNot(i: nat)
    requires i + 2 < |NoDataMessage|
    ensures !(LowerChar(NoDataMessage[i]) == 'n' && LowerChar(NoDataMessage[i + 1]) == 'o'
              && LowerChar(NoDataMessage[i + 2]) == 't')
  {
  }

  lemma NoLowerPe(i: nat)
    requires i + 1 < |NoDataMessage|
    ensures !(LowerChar(NoDataMessage[i]) == 'p' && LowerChar(NoDataMessage[i + 1]) == 'e')
  {
  }

  /** The result of processing a CSV text: rows stored and error lines.
      The processing is modelled in `DataProcessor`. */
  type Processed = (nat, seq<string>)

  /** `extract_sheet_data`: never raises; any failure of initialisation or
      fetching becomes no rows stored and one error line; otherwise the
      sheet, converted to CSV, goes through the processor. */
  function ExtractSheetData(init: Result<(), PyError>, reply: Reply, spreadsheetId: string,
                            process: string -> Processed): (r: Processed)
    ensures init.Failure? ==> r == (0, ["Google Sheets extraction error: " + init.error.message])
    ensures init.Success? && FetchSheetData(reply, spreadsheetId).Failure? ==>
              r == (0, ["Google Sheets extraction error: " + FetchSheetData(reply, spreadsheetId).error.message])
    ensures init.Success? && reply.Values? && reply.rows != [] ==> r == process(ConvertToCsv(reply.rows))
    ensures r.0 == 0 || (init.Success? && reply.Values? && reply.rows != [])
  {
    if init.Failure? then (0, ["Google Sheets extraction error: " + init.error.message])
    else
      match FetchSheetData(reply, spreadsheetId)
      case Failure(e) => (0, ["Google Sheets extraction error: " + e.message])
      // the source's check for an empty result is dead: fetching never
      // succeeds with no rows
      case Success(data) => process(ConvertToCsv(data))
  }

  /** An empty sheet is reported as a connection failure, never with the
      "No data found in the specified range" message. */
  lemma EmptySheetIsConnectionError(spreadsheetId: string, process: string -> Processed)
    ensures ExtractSheetData(Success(()), Values([]), spreadsheetId, process)
            == (0, ["Google Sheets extraction error: " + ("Failed to fetch data: " + NoDataMessage)])
  {
    NoDataUnclassified();
  }
}

=== FILE: simulation.dfy ===
/** The coffee-shop production simulation: a five-column CSV export is
    parsed line by line with its errors collected, then summarised the way
    the dashboard would: revenue, average order, the three best-selling
    products, repeat customers, the coffee share of revenue and the
    customer repeat rate. */
module Simulation {
  import opened Wrappers
  import opened Text
  import opened Seqs
  import opened Sorting
  import opened Grouping
  import opened Values
  import opened Frames
  import Walkthrough

  /** One parsed transaction; the amount in cents. */
  datatype Txn = Txn(date: string, product: string, amountCents: int, customerId: string, category: string)

  function TxnCents(t: Txn): int {
    t.amountCents
  }

  function TxnProduct(t: Txn): string {
    t.product
  }

  function TxnCustomer(t: Txn): string {
    t.customerId
  }

  // ---------------------------------------------------------------------
  // Parsing

  /** The fields a line must unpack into. */
  const Fields := 5

  /** The text of the `ValueError` a tuple unpacking of `n` parts into five
      names raises. */
  function UnpackError(n: nat): string
    requires n != Fields
  {
    if n < Fields then "not enough values to unpack (expected 5, got " + NatToString(n) + ")"
    else "too many values to unpack (expected 5)"
  }

  const InvalidAmount := "Invalid amount"

  /** One line: split on commas and unpacked into five fields, the amount
      through `float()` (its error text is part of `toFloat`'s result), a
      non-positive amount refused, then `int(amount * 100)`, which raises
      for NaN and the infinities. The message carries no row number. */
  function ParseLine(line: string, toFloat: string -> Result<PyFloat, string>): (r: Result<Txn, string>)
    ensures var parts := Split(line, ',');
            r.Success? <==>
              && |parts| == Fields && toFloat(parts[2]).Success?
              && toFloat(parts[2]).value.Finite? && toFloat(parts[2]).value.x > 0.0
    ensures r.Success? ==>
              var parts := Split(line, ',');
              && r.value.date == parts[0] && r.value.product == parts[1]
              && r.value.customerId == parts[3] && r.value.category == parts[4]
              && r.value.amountCents == Trunc(toFloat(parts[2]).value.x * 100.0)
              && r.value.amountCents >= 0
    ensures var parts := Split(line, ',');
            |parts| != Fields ==> r == Failure(UnpackError(|parts|))
  {
    var parts := Split(line, ',');
    if |parts| != Fields then Failure(UnpackError(|parts|))
    else
      match toFloat(parts[2])
      case Failure(e) => Failure(e)
      case Success(a) =>
        if a.NaN? then Failure("cannot convert float NaN to integer")
        else if a.Infinity? && a.positive then Failure("cannot convert float infinity to integer")
        else if a.Infinity? || a.x <= 0.0 then Failure(InvalidAmount)
        else Success(Txn(parts[0], parts[1], Trunc(a.x * 100.0), parts[3], parts[4]))
  }

  datatype Parsed = Parsed(txns: seq<Txn>, errors: seq<string>)

  /** The loop over the data lines, the first of which is row 2: a parsed
      line is appended to the transactions, a failed one's message, after
      `Row i: `, to the errors. */
  function ParseLines(lines: seq<string>, toFloat: string -> Result<PyFloat, string>): (p: Parsed)
    ensures |p.txns| + |p.errors| == |lines|
    ensures forall i :: 0 <= i < |p.txns| ==> p.txns[i].amountCents >= 0
    ensures forall i :: 0 <= i < |p.txns| ==> exists k :: 0 <= k < |lines| && ParseLine(lines[k], toFloat) == Success(p.txns[i])
    ensures forall j :: 0 <= j < |p.errors| ==>
              exists k: nat :: (k < |lines| && ParseLine(lines[k], toFloat).Failure? &&
                                p.errors[j] == Walkthrough.RowError(k + 2, ParseLine(lines[k], toFloat).error))
  {
    if lines == [] then Parsed([], [])
    else
      var init := lines[..|lines| - 1];
      assert forall k :: 0 <= k < |init| ==> init[k] == lines[k];
      var p := ParseLines(init, toFloat);
      match ParseLine(lines[|lines| - 1], toFloat)
      case Success(t) => p.(txns := p.txns + [t])
      case Failure(e) => p.(errors := p.errors + [Walkthrough.RowError(|lines| + 1, e)])
  }

  /** The export is stripped and split into lines; the first, the header,
      is skipped without being read. */
  function DataLines(content: string): seq<string> {
    Split(Strip(content), '\n')[1..]
  }

  /** Text without a line break is a header alone: there are no data
      lines. */
  lemma {:induction false} OneLineHasNoData(content: string)
    requires '\n' !in content
    ensures DataLines(content) == []
  {
    var s := Strip(content);
    var i: nat :| SliceAt(content, s, i);
    forall k | 0 <= k < |s| ensures s[k] != '\n' {
      assert s[k] == content[i + k];
    }
    assert '\n' !in s;
  }

  // ---------------------------------------------------------------------
  // Summary

  /** A product's revenue, as a `product_revenue.items()` pair. */
  datatype ProductRevenue = ProductRevenue(product: string, revenueCents: int)

  function Revenue(p: ProductRevenue): int {
    p.revenueCents
  }

  function RevenueProduct(p: ProductRevenue): string {
    p.product
  }

  /** The dictionary `product_revenue` in insertion order. */
  function RevenueRows(gs: seq<Bucket<string, Txn>>): (r: seq<ProductRevenue>)
    ensures |r| == |gs|
    ensures forall i :: 0 <= i < |r| ==> r[i].product == gs[i].key && r[i].revenueCents == Total(gs[i].items, TxnCents)
  {
    if gs == [] then [] else [ProductRevenue(gs[0].key, Total(gs[0].items, TxnCents))] + RevenueRows(gs[1..])
  }

  function IsCoffee(t: Txn): bool {
    t.category == "coffee"
  }

  /** What the simulation computes and prints of a parse: `total_cents`,
      `total_sales`, `avg_order`, the top three products, the number of
      repeat customers, the coffee share of revenue (in percent) and the
      number of distinct customers the repeat rate divides by. */
  datatype Summary = Summary(
    totalCents: int,
    totalSales: nat,
    avgOrder: real,
    topProducts: seq<ProductRevenue>,
    repeatCustomers: nat,
    coffeePercentage: real,
    distinctCustomers: nat,
    repeatRate: real)

  /** `total_cents / total_sales / 100`, guarded for no sales. */
  function AverageOrder(totalCents: int, totalSales: nat): real {
    if totalSales > 0 then totalCents as real / totalSales as real / 100.0 else 0.0
  }

  /** `coffee_revenue / total_revenue * 100`, with both revenues in
      dollars, guarded for no revenue. */
  function CoffeePercentage(coffeeCents: int, totalCents: int): real {
    var total := totalCents as real / 100.0;
    if total > 0.0 then (coffeeCents as real / 100.0) / total * 100.0 else 0.0
  }

  /** `repeat_customers / len(set(customer ids)) * 100` as written: a
      `ZeroDivisionError` when there are no customers. */
  function RepeatRateAsWritten(repeat: nat, distinct: nat): (r: Result<real, string>)
    ensures r.Failure? <==> distinct == 0
    ensures r.Success? ==> r.value * distinct as real == repeat as real * 100.0
  {
    if distinct == 0 then Failure("division by zero")
    else Success(repeat as real / distinct as real * 100.0)
  }

  /** The repeat rate with the guard the two other ratios have: no
      customers means a rate of 0. */
  function RepeatRate(repeat: nat, distinct: nat): (r: real)
    ensures distinct == 0 ==> r == 0.0
    ensures distinct > 0 ==> r * distinct as real == repeat as real * 100.0
    ensures RepeatRateAsWritten(repeat, distinct).Success? ==> r == RepeatRateAsWritten(repeat, distinct).value
  {
    if distinct == 0 then 0.0 else repeat as real / distinct as real * 100.0
  }

  /** `product_revenue` sorted by revenue, highest first, cut to three. */
  function TopThree(txns: seq<Txn>): seq<ProductRevenue> {
    Take(SortDesc(RevenueRows(GroupBy(txns, TxnProduct)), Revenue), 3)
  }

  /** The customers with more than one transaction, counted. */
  function RepeatCount(txns: seq<Txn>): nat {
    |Filter(GroupBy(txns, TxnCustomer), Repeated)|
  }

  /** `len(set(t['customer_id'] for t in transactions))`. */
  function DistinctCount(txns: seq<Txn>): nat {
    |GroupBy(txns, TxnCustomer)|
  }

  /** The revenue of the transactions in the category `coffee`. */
  function CoffeeCents(txns: seq<Txn>): int {
    Total(Filter(txns, IsCoffee), TxnCents)
  }

  function Summarise(txns: seq<Txn>): Summary {
    var totalCents := Total(txns, TxnCents);
    Summary(
      totalCents,
      |txns|,
      AverageOrder(totalCents, |txns|),
      TopThree(txns),
      RepeatCount(txns),
      CoffeePercentage(CoffeeCents(txns), totalCents),
      DistinctCount(txns),
      RepeatRate(RepeatCount(txns), DistinctCount(txns)))
  }

  /** `simulate_retail_business` on an export, as written: it raises
      `ZeroDivisionError` at the repeat rate when no line parsed. */
  function SimulateAsWritten(content: string, toFloat: string -> Result<PyFloat, string>): Result<Summary, string> {
    var txns := ParseLines(DataLines(content), toFloat).txns;
    match RepeatRateAsWritten(RepeatCount(txns), DistinctCount(txns))
    case Failure(e) => Failure(e)
    case Success(_) => Success(Summarise(txns))
  }

  /** The simulation with the repeat rate guarded. */
  function Simulate(content: string, toFloat: string -> Result<PyFloat, string>): Summary {
    Summarise(ParseLines(DataLines(content), toFloat).txns)
  }

  // ---------------------------------------------------------------------
  // Properties

  /** The repeat rate divides by the number of distinct customers, which
      is zero exactly when there are no transactions. */
  lemma DistinctCustomers(txns: seq<Txn>)
    ensures DistinctCount(txns) == |KeySet(txns, TxnCustomer)|
    ensures DistinctCount(txns) == 0 <==> txns == []
  {
    GroupKeys(txns, TxnCustomer);
    if txns != [] {
      assert TxnCustomer(txns[0]) in KeySet(txns, TxnCustomer);
    }
  }

  /** The as-written simulation fails exactly when no line parsed, and
      otherwise agrees with the guarded one. */
  lemma SimulateAsWrittenFails(content: string, toFloat: string -> Result<PyFloat, string>)
    ensures SimulateAsWritten(content, toFloat).Failure? <==> ParseLines(DataLines(content), toFloat).txns == []
    ensures SimulateAsWritten(content, toFloat).Success? ==>
              SimulateAsWritten(content, toFloat).value == Simulate(content, toFloat)
  {
    DistinctCustomers(ParseLines(DataLines(content), toFloat).txns);
  }

  /** An export that is a header alone, or empty, makes the as-written
      simulation raise, where the guarded one reports a repeat rate of 0. */
  lemma HeaderOnlyRaises(content: string, toFloat: string -> Result<PyFloat, string>)
    requires '\n' !in content
    ensures SimulateAsWritten(content, toFloat) == Failure("division by zero")
    ensures Simulate(content, toFloat).repeatRate == 0.0
    ensures Simulate(content, toFloat).totalSales == 0
  {
    OneLineHasNoData(content);
    DistinctCustomers([]);
  }

  /** The repeat customers are at most the distinct ones. */
  lemma RepeatAtMostDistinct(txns: seq<Txn>)
    ensures RepeatCount(txns) <= DistinctCount(txns)
  {
    OnceOrRepeated(txns, TxnCustomer);
  }

  /** A share of a positive whole that is at most the whole is at most 1. */
  lemma ShareAtMostOne(part: real, whole: real)
    requires 0.0 <= part <= whole && whole > 0.0
    ensures 0.0 <= part / whole <= 1.0
  {
    assert part / whole * whole == part;
  }

  /** The guarded repeat rate is a percentage. */
  lemma RepeatRateIsPercentage(txns: seq<Txn>)
    ensures 0.0 <= RepeatRate(RepeatCount(txns), DistinctCount(txns)) <= 100.0
  {
    RepeatAtMostDistinct(txns);
    if DistinctCount(txns) > 0 {
      ShareAtMostOne(RepeatCount(txns) as real, DistinctCount(txns) as real);
    }
  }

  /** Under non-negative amounts a filtered total is at most the total. */
  lemma {:induction false} FilterTotalBounded(xs: seq<Txn>, p: Txn -> bool)
    requires forall i :: 0 <= i < |xs| ==> xs[i].amountCents >= 0
    ensures 0 <= Total(Filter(xs, p), TxnCents) <= Total(xs, TxnCents)
  {
    if xs != [] {
      assert forall i :: 0 <= i < |xs[1..]| ==> xs[1..][i] == xs[i + 1];
      FilterTotalBounded(xs[1..], p);
      if p(xs[0]) {
        TotalAppend([xs[0]], Filter(xs[1..], p), TxnCents);
      } else {
        assert Filter(xs, p) == Filter(xs[1..], p);
      }
    }
  }

  /** `coffee_percentage` of a part of the revenue is a percentage. */
  lemma SharePercentage(partCents: int, totalCents: int)
    requires 0 <= partCents <= totalCents
    ensures 0.0 <= CoffeePercentage(partCents, totalCents) <= 100.0
  {
    if totalCents > 0 {
      ShareAtMostOne(partCents as real / 100.0, totalCents as real / 100.0);
    }
  }

  /** The coffee share is a percentage when no amount is negative, as the
      parse guarantees. */
  lemma CoffeeShareIsPercentage(txns: seq<Txn>)
    requires forall i :: 0 <= i < |txns| ==> txns[i].amountCents >= 0
    ensures 0.0 <= CoffeePercentage(CoffeeCents(txns), Total(txns, TxnCents)) <= 100.0
  {
    FilterTotalBounded(txns, IsCoffee);
    SharePercentage(CoffeeCents(txns), Total(txns, TxnCents));
  }

  /** Both percentages of a simulation lie between 0 and 100. */
  lemma SimulatePercentages(content: string, toFloat: string -> Result<PyFloat, string>)
    ensures 0.0 <= Simulate(content, toFloat).coffeePercentage <= 100.0
    ensures 0.0 <= Simulate(content, toFloat).repeatRate <= 100.0
  {
    var txns := ParseLines(DataLines(content), toFloat).txns;
    CoffeeShareIsPercentage(txns);
    RepeatRateIsPercentage(txns);
  }

  /** The average order times the sales is the total in dollars. */
  lemma AverageOrderTimesSales(totalCents: int, totalSales: nat)
    requires totalSales > 0
    ensures AverageOrder(totalCents, totalSales) * totalSales as real * 100.0 == totalCents as real
  {
    var t, n := totalCents as real, totalSales as real;
    assert t / n / 100.0 * 100.0 == t / n;
    assert t / n * n == t;
  }

  /** The customer figures: the repeat customers are the customer ids with
      more than one transaction, the distinct customers all the ids. */
  lemma CustomerFigures(txns: seq<Txn>)
    ensures RepeatCount(txns) == |KeysWhere(txns, TxnCustomer, Many)|
    ensures DistinctCount(txns) == |KeySet(txns, TxnCustomer)|
  {
    RepeatedKeys(txns, TxnCustomer);
    DistinctCustomers(txns);
  }

  /** The rows of `product_revenue` are a product each. */
  lemma RevenueRowsDistinct(gs: seq<Bucket<string, Txn>>)
    requires DistinctKeys(gs)
    ensures DistinctBy(RevenueRows(gs), RevenueProduct)
  {
    var rows := RevenueRows(gs);
    forall i, j | 0 <= i < j < |rows| ensures RevenueProduct(rows[i]) != RevenueProduct(rows[j]) {
      assert rows[i].product == gs[i].key && rows[j].product == gs[j].key;
    }
  }

  /** The top products: three, or every product when fewer, each a product of the export with
      its revenue, and none left out earning more than one kept. */
  lemma TopProductsRanked(txns: seq<Txn>)
    ensures var rows := RevenueRows(GroupBy(txns, TxnProduct));
            var top := TopThree(txns);
            && |top| == (if |rows| < 3 then |rows| else 3)
            && (forall i :: 0 <= i < |top| ==> top[i] in rows)
            && (forall x, i :: x in rows && x !in top && 0 <= i < |top| ==> x.revenueCents <= top[i].revenueCents)
  {
    TopOfRows(RevenueRows(GroupBy(txns, TxnProduct)));
  }

  /** Three rows of a revenue ranking, as `TopOfSorted` gives them. */
  lemma TopOfRows(rows: seq<ProductRevenue>)
    ensures var top := Take(SortDesc(rows, Revenue), 3);
            && |top| == (if |rows| < 3 then |rows| else 3)
            && (forall i :: 0 <= i < |top| ==> top[i] in rows)
            && (forall x, i :: x in rows && x !in top && 0 <= i < |top| ==> x.revenueCents <= top[i].revenueCents)
  {
    var top := Take(SortDesc(rows, Revenue), 3);
    TopOfSorted(rows, Revenue, 3);
    assert |SortDesc(rows, Revenue)| == |rows|;
    forall x, i | x in rows && x !in top && 0 <= i < |top| ensures x.revenueCents <= top[i].revenueCents {
      TopOfSortedBelow(rows, Revenue, 3, x, i);
    }
  }

  /** No product appears twice among the top products. */
  lemma TopProductsDistinct(txns: seq<Txn>)
    ensures DistinctBy(TopThree(txns), RevenueProduct)
  {
    var gs := GroupBy(txns, TxnProduct);
    RevenueRowsDistinct(gs);
    TopOfSortedDistinct(RevenueRows(gs), Revenue, 3, RevenueProduct);
  }

  /** All products' revenues together make the total revenue. */
  lemma ProductRevenueTotal(txns: seq<Txn>)
    ensures Total(RevenueRows(GroupBy(txns, TxnProduct)), Revenue) == Total(txns, TxnCents)
  {
    RevenueRowsTotal(GroupBy(txns, TxnProduct));
    GroupTotal(txns, TxnProduct, TxnCents);
  }

  /** The rows' revenues add up to the buckets' totals. */
  lemma {:induction false} RevenueRowsTotal(gs: seq<Bucket<string, Txn>>)
    ensures Total(RevenueRows(gs), Revenue) == BucketsTotal(gs, TxnCents)
  {
    if gs != [] {
      RevenueRowsTotal(gs[1..]);
      assert RevenueRows(gs)[1..] == RevenueRows(gs[1..]);
    }
  }
}

=== FILE: sorting.dfy ===
/** Stable insertion sort by an integer score, descending. This is how the
    model orders SQL `ORDER BY ... DESC` results and Python's
    `sorted(..., reverse=True)`; an ascending order is the same sort on the
    negated score. */
module Sorting {
  import opened Seqs
  import opened Text

  predicate SortedDesc<T>(xs: seq<T>, score: T -> int) {
    forall i, j :: 0 <= i < j < |xs| ==> score(xs[i]) >= score(xs[j])
  }

  /** Inserts `x` in front of the first element that does not score more
      than `x`. */
  function InsertDesc<T>(x: T, xs: seq<T>, score: T -> int): (r: seq<T>)
    requires SortedDesc(xs, score)
    ensures SortedDesc(r, score)
    ensures multiset(r) == multiset(xs) + multiset{x}
    ensures |r| == |xs| + 1
    ensures |xs| > 0 ==> r[0] == x || r[0] == xs[0]
  {
    if xs == [] || score(x) >= score(xs[0]) then [x] + xs
    else
      var rest := InsertDesc(x, xs[1..], score);
      var r := [xs[0]] + rest;
      assert SortedDesc(r, score) by {
        forall i, j | 0 <= i < j < |r| ensures score(r[i]) >= score(r[j]) {
          assert r[j] == rest[j - 1];
          if i == 0 {
            assert score(xs[0]) >= score(rest[0]);
          } else {
            assert r[i] == rest[i - 1];
          }
        }
      }
      assert xs == [xs[0]] + xs[1..];
      r
  }

  /** `xs` ordered by non-increasing score; elements with equal scores keep
      their relative order. */
  function SortDesc<T>(xs: seq<T>, score: T -> int): (r: seq<T>)
    ensures SortedDesc(r, score)
    ensures multiset(r) == multiset(xs)
    ensures |r| == |xs|
  {
    if xs == [] then []
    else
      assert xs == [xs[0]] + xs[1..];
      InsertDesc(xs[0], SortDesc(xs[1..], score), score)
  }

  lemma {:induction false} InsertTotal<T>(x: T, xs: seq<T>, score: T -> int, w: T -> int)
    requires SortedDesc(xs, score)
    ensures Total(InsertDesc(x, xs, score), w) == w(x) + Total(xs, w)
  {
    if !(xs == [] || score(x) >= score(xs[0])) {
      InsertTotal(x, xs[1..], score, w);
      var rest := InsertDesc(x, xs[1..], score);
      assert ([xs[0]] + rest)[1..] == rest;
    }
  }

  /** Sorting does not change any sum over the rows. */
  lemma {:induction false} SortTotal<T>(xs: seq<T>, score: T -> int, w: T -> int)
    ensures Total(SortDesc(xs, score), w) == Total(xs, w)
  {
    if xs != [] {
      SortTotal(xs[1..], score, w);
      InsertTotal(xs[0], SortDesc(xs[1..], score), score, w);
    }
  }

  lemma CountAtLeastTwo<T>(a: seq<T>, i: nat, j: nat)
    requires i < j < |a| && a[i] == a[j]
    ensures multiset(a)[a[i]] >= 2
  {
    assert a == a[..i] + [a[i]] + a[i + 1..j] + [a[j]] + a[j + 1..];
  }

  lemma {:induction false} CountAtMostOne<T, K>(b: seq<T>, key: T -> K, x: T)
    requires DistinctBy(b, key)
    ensures multiset(b)[x] <= 1
  {
    if b != [] {
      var rest := b[1..];
      assert b == [b[0]] + rest;
      assert DistinctBy(rest, key) by {
        forall i, j | 0 <= i < j < |rest| ensures key(rest[i]) != key(rest[j]) {
          assert rest[i] == b[i + 1] && rest[j] == b[j + 1];
        }
      }
      CountAtMostOne(rest, key, x);
      if b[0] == x {
        forall i | 0 <= i < |rest| ensures rest[i] != x {
          assert rest[i] == b[i + 1];
        }
        assert x !in rest;
      }
    }
  }

  /** A rearrangement of rows with distinct keys still has distinct keys. */
  lemma PermutationDistinctBy<T, K>(a: seq<T>, b: seq<T>, key: T -> K)
    requires multiset(a) == multiset(b)
    requires DistinctBy(b, key)
    ensures DistinctBy(a, key)
  {
    forall i, j | 0 <= i < j < |a| ensures key(a[i]) != key(a[j]) {
      if key(a[i]) == key(a[j]) {
        assert a[i] in multiset(b) && a[j] in multiset(b);
        var p :| 0 <= p < |b| && b[p] == a[i];
        var q :| 0 <= q < |b| && b[q] == a[j];
        assert p == q;
        CountAtLeastTwo(a, i, j);
        CountAtMostOne(b, key, a[i]);
      }
    }
  }

  /** `xs` in non-decreasing order of a text key, compared the way Python
      and SQLite compare strings. */
  predicate SortedByText<T>(xs: seq<T>, key: T -> string) {
    forall i, j :: 0 <= i < j < |xs| ==> !LexLess(key(xs[j]), key(xs[i]))
  }

  /** Inserts `x` in front of the first element whose key is not smaller. */
  function InsertByText<T>(x: T, xs: seq<T>, key: T -> string): (r: seq<T>)
    requires SortedByText(xs, key)
    ensures SortedByText(r, key)
    ensures multiset(r) == multiset(xs) + multiset{x}
    ensures |r| == |xs| + 1
    ensures |xs| > 0 ==> r[0] == x || r[0] == xs[0]
  {
    if xs == [] || !LexLess(key(xs[0]), key(x)) then
      var r := [x] + xs;
      assert SortedByText(r, key) by {
        forall i, j | 0 <= i < j < |r| ensures !LexLess(key(r[j]), key(r[i])) {
          if i == 0 {
            assert r[j] == xs[j - 1];
            if LexLess(key(xs[j - 1]), key(x)) {
              if j - 1 > 0 {
                if key(xs[j - 1]) == key(xs[0]) {
                } else {
                  LexLessTotal(key(xs[j - 1]), key(xs[0]));
                  LexLessTransitive(key(xs[0]), key(xs[j - 1]), key(x));
                }
              }
            }
          }
        }
      }
      r
    else
      var rest := InsertByText(x, xs[1..], key);
      var r := [xs[0]] + rest;
      assert SortedByText(r, key) by {
        forall i, j | 0 <= i < j < |r| ensures !LexLess(key(r[j]), key(r[i])) {
          assert r[j] == rest[j - 1];
          if i == 0 {
            if rest[0] == x {
              LexLessAsymmetric(key(xs[0]), key(x));
            }
            if LexLess(key(rest[j - 1]), key(xs[0])) {
              if j - 1 > 0 {
                if key(rest[j - 1]) == key(rest[0]) {
                } else {
                  LexLessTotal(key(rest[j - 1]), key(rest[0]));
                  LexLessTransitive(key(rest[0]), key(rest[j - 1]), key(xs[0]));
                }
              }
            }
          } else {
            assert r[i] == rest[i - 1];
          }
        }
      }
      assert xs == [xs[0]] + xs[1..];
      r
  }

  /** `xs` in non-decreasing order of a text key (`ORDER BY key`). */
  function SortByText<T>(xs: seq<T>, key: T -> string): (r: seq<T>)
    ensures SortedByText(r, key)
    ensures multiset(r) == multiset(xs)
    ensures |r| == |xs|
  {
    if xs == [] then []
    else
      assert xs == [xs[0]] + xs[1..];
      InsertByText(xs[0], SortByText(xs[1..], key), key)
  }

  /** With distinct keys the text order is strict. */
  lemma SortedByTextStrict<T>(xs: seq<T>, key: T -> string, i: nat, j: nat)
    requires SortedByText(xs, key) && DistinctBy(xs, key)
    requires i < j < |xs|
    ensures LexLess(key(xs[i]), key(xs[j]))
  {
    LexLessTotal(key(xs[i]), key(xs[j]));
  }

  lemma {:induction false} InsertByTextTotal<T>(x: T, xs: seq<T>, key: T -> string, w: T -> int)
    requires SortedByText(xs, key)
    ensures Total(InsertByText(x, xs, key), w) == w(x) + Total(xs, w)
  {
    if !(xs == [] || !LexLess(key(xs[0]), key(x))) {
      InsertByTextTotal(x, xs[1..], key, w);
      var rest := InsertByText(x, xs[1..], key);
      assert ([xs[0]] + rest)[1..] == rest;
    }
  }

  /** Ordering by text does not change any sum over the rows. */
  lemma {:induction false} SortTotalByText<T>(xs: seq<T>, key: T -> string, w: T -> int)
    ensures Total(SortByText(xs, key), w) == Total(xs, w)
  {
    if xs != [] {
      SortTotalByText(xs[1..], key, w);
      InsertByTextTotal(xs[0], SortByText(xs[1..], key), key, w);
    }
  }

  /** One instance of `TopOfSorted`: a row left out scores at most any
      row kept. */
  lemma TopOfSortedBelow<T>(t: seq<T>, score: T -> int, n: nat, x: T, i: nat)
    requires x in t && x !in Take(SortDesc(t, score), n) && i < |Take(SortDesc(t, score), n)|
    ensures score(x) <= score(Take(SortDesc(t, score), n)[i])
  {
    TopOfSorted(t, score, n);
  }

  /** The first `n` rows of a descending sort are rows of `t`, and no row
      left out outranks a row kept; when `n` admits every row, all of `t`
      is kept. */
  lemma TopOfSorted<T>(t: seq<T>, score: T -> int, n: nat)
    ensures var r := Take(SortDesc(t, score), n);
            && (forall i :: 0 <= i < |r| ==> r[i] in t)
            && (forall x, i :: x in t && x !in r && 0 <= i < |r| ==> score(x) <= score(r[i]))
            && (n >= |t| ==> multiset(r) == multiset(t))
  {
    var sorted := SortDesc(t, score);
    var r := Take(sorted, n);
    assert r == sorted[..|r|];
    forall i | 0 <= i < |r| ensures r[i] in t {
      assert r[i] in multiset(sorted);
    }
    forall x, i | x in t && x !in r && 0 <= i < |r| ensures score(x) <= score(r[i]) {
      assert x in multiset(sorted);
      var p :| 0 <= p < |sorted| && sorted[p] == x;
    }
  }

  /** The first `n` rows of a descending sort are at most `n` rows, still
      in descending order. */
  lemma TopSorted<T>(t: seq<T>, score: T -> int, n: nat)
    ensures var r := Take(SortDesc(t, score), n);
            |r| <= n && SortedDesc(r, score)
  {
    var sorted := SortDesc(t, score);
    var r := Take(sorted, n);
    forall i, j | 0 <= i < j < |r| ensures score(r[i]) >= score(r[j]) {
      assert r[i] == sorted[i] && r[j] == sorted[j];
    }
  }

  /** Keeping the first `n` rows of a sort keeps keys distinct. */
  lemma TopOfSortedDistinct<T, K>(t: seq<T>, score: T -> int, n: nat, key: T -> K)
    requires DistinctBy(t, key)
    ensures DistinctBy(Take(SortDesc(t, score), n), key)
  {
    var sorted := SortDesc(t, score);
    var r := Take(sorted, n);
    PermutationDistinctBy(sorted, t, key);
    forall i, j | 0 <= i < j < |r| ensures key(r[i]) != key(r[j]) {
      assert r[i] == sorted[i] && r[j] == sorted[j];
    }
  }

  /** Under non-negative weights the first `n` rows of a sort weigh no more
      than all rows. */
  lemma TopTotalBounded<T>(t: seq<T>, score: T -> int, n: nat, w: T -> int)
    requires forall i :: 0 <= i < |t| ==> w(t[i]) >= 0
    ensures Total(Take(SortDesc(t, score), n), w) <= Total(t, w)
  {
    var sorted := SortDesc(t, score);
    forall i | 0 <= i < |sorted| ensures w(sorted[i]) >= 0 {
      assert sorted[i] in multiset(t);
    }
    TakeTotalBounded(sorted, n, w);
    SortTotal(t, score, w);
  }

  /** Two ascending arrangements of the same rows with distinct keys start
      with the same row. */
  lemma SortedByTextSameHead<T>(a: seq<T>, b: seq<T>, key: T -> string)
    requires SortedByText(a, key) && DistinctBy(a, key)
    requires SortedByText(b, key) && DistinctBy(b, key)
    requires multiset(a) == multiset(b) && a != []
    ensures b != [] && a[0] == b[0]
  {
    assert a[0] in multiset(b);
    var j :| 0 <= j < |b| && b[j] == a[0];
    assert b[0] in multiset(a);
    var i :| 0 <= i < |a| && a[i] == b[0];
    if j > 0 && i > 0 {
      SortedByTextStrict(b, key, 0, j);
    }
  }

  lemma SortedByTextTail<T>(a: seq<T>, key: T -> string)
    requires SortedByText(a, key) && DistinctBy(a, key) && a != []
    ensures SortedByText(a[1..], key) && DistinctBy(a[1..], key)
  {
    var t := a[1..];
    forall p, q | 0 <= p < q < |t| ensures !LexLess(key(t[q]), key(t[p])) && key(t[p]) != key(t[q]) {
      assert t[p] == a[p + 1] && t[q] == a[q + 1];
    }
  }

  lemma MultisetTail<T>(a: seq<T>, b: seq<T>)
    requires multiset(a) == multiset(b) && a != [] && b != [] && a[0] == b[0]
    ensures multiset(a[1..]) == multiset(b[1..])
  {
    assert a == [a[0]] + a[1..] && b == [b[0]] + b[1..];
    assert multiset(a) == multiset([a[0]]) + multiset(a[1..]);
    assert multiset(b) == multiset([b[0]]) + multiset(b[1..]);
    forall x ensures multiset(a[1..])[x] == multiset(b[1..])[x] {
      assert multiset(a)[x] == multiset(b)[x];
    }
  }

  /** Rows with distinct text keys have only one ascending order: two
      arrangements of the same rows sorted by key are equal. */
  lemma {:induction false} SortedByTextUnique<T>(a: seq<T>, b: seq<T>, key: T -> string)
    requires SortedByText(a, key) && DistinctBy(a, key)
    requires SortedByText(b, key) && DistinctBy(b, key)
    requires multiset(a) == multiset(b)
    ensures a == b
    decreases |a|
  {
    if a == [] {
      assert |multiset(b)| == 0;
    } else {
      SortedByTextSameHead(a, b, key);
      MultisetTail(a, b);
      SortedByTextTail(a, key);
      SortedByTextTail(b, key);
      SortedByTextUnique(a[1..], b[1..], key);
      assert a == [a[0]] + a[1..] && b == [b[0]] + b[1..];
    }
  }

  /** Rows already in strict key order are left as they are. */
  lemma SortByTextKeepsSorted<T>(xs: seq<T>, key: T -> string)
    requires forall i, j :: 0 <= i < j < |xs| ==> LexLess(key(xs[i]), key(xs[j]))
    ensures SortByText(xs, key) == xs
  {
    var s := SortByText(xs, key);
    assert SortedByText(xs, key) && DistinctBy(xs, key) by {
      forall i, j | 0 <= i < j < |xs| ensures !LexLess(key(xs[j]), key(xs[i])) && key(xs[i]) != key(xs[j]) {
        LexLessAsymmetric(key(xs[i]), key(xs[j]));
      }
    }
    PermutationDistinctBy(s, xs, key);
    SortedByTextUnique(s, xs, key);
  }
}

=== FILE: tables.dfy ===
/** A database table as a sequence of rows under a key: the lookup
    `query.filter(key == k).first()`, and replacing or deleting the row that
    lookup finds. */
module Tables {
  import opened Wrappers
  import opened Seqs

  /** Where the first row under `k` sits; `|t|` when there is none. */
  function Position<T, K(==)>(t: seq<T>, key: T -> K, k: K): (i: nat)
    ensures i <= |t|
    ensures i < |t| ==> key(t[i]) == k
    ensures forall j :: 0 <= j < i ==> key(t[j]) != k
  {
    if t == [] then 0 else if key(t[0]) == k then 0 else 1 + Position(t[1..], key, k)
  }

  /** The first row under `k`, if any. */
  function Find<T, K(==)>(t: seq<T>, key: T -> K, k: K): (r: Option<T>)
    ensures r.Some? <==> exists i :: 0 <= i < |t| && key(t[i]) == k
    ensures r.Some? ==> r.value in t && key(r.value) == k
  {
    var i := Position(t, key, k);
    if i < |t| then Some(t[i]) else None
  }

  /** The row `Find` returns, put back as `x`. */
  function Replace<T, K(==)>(t: seq<T>, key: T -> K, k: K, x: T): (r: seq<T>)
    ensures |r| == |t|
    ensures forall j :: 0 <= j < |t| && j != Position(t, key, k) ==> r[j] == t[j]
    ensures Position(t, key, k) < |t| ==> r[Position(t, key, k)] == x
  {
    var i := Position(t, key, k);
    if i < |t| then t[i := x] else t
  }

  /** The table without the row `Find` returns. */
  function Remove<T, K(==)>(t: seq<T>, key: T -> K, k: K): (r: seq<T>)
    ensures |r| == |t| - (if Find(t, key, k).Some? then 1 else 0)
    ensures forall j :: 0 <= j < |r| ==> r[j] == t[if j < Position(t, key, k) then j else j + 1]
  {
    var i := Position(t, key, k);
    if i < |t| then t[..i] + t[i + 1..] else t
  }

  /** With distinct keys, the row found under a row's key is that row. */
  lemma FindDistinct<T, K>(t: seq<T>, key: T -> K, i: nat)
    requires DistinctBy(t, key) && i < |t|
    ensures Position(t, key, key(t[i])) == i
    ensures Find(t, key, key(t[i])) == Some(t[i])
  {
    var p := Position(t, key, key(t[i]));
    assert key(t[p]) == key(t[i]);
  }

  /** A row appended under a new key is found, and keys stay distinct. */
  lemma FindAppended<T, K>(t: seq<T>, key: T -> K, x: T)
    requires Find(t, key, key(x)).None?
    ensures Find(t + [x], key, key(x)) == Some(x)
    ensures DistinctBy(t, key) ==> DistinctBy(t + [x], key)
  {
    var t' := t + [x];
    assert t'[|t|] == x;
    assert forall j :: 0 <= j < |t| ==> t'[j] == t[j];
  }

  /** A row replaced by one under the same key is found as the new row, and
      the keys stay as they were. */
  lemma FindReplaced<T, K>(t: seq<T>, key: T -> K, k: K, x: T)
    requires Find(t, key, k).Some? && key(x) == k
    ensures Find(Replace(t, key, k, x), key, k) == Some(x)
    ensures forall j :: 0 <= j < |t| ==> key(Replace(t, key, k, x)[j]) == key(t[j])
    ensures DistinctBy(t, key) ==> DistinctBy(Replace(t, key, k, x), key)
  {
    var r := Replace(t, key, k, x);
    var i := Position(t, key, k);
    assert r[i] == x;
    assert forall j :: 0 <= j < i ==> r[j] == t[j];
    assert Position(r, key, k) == i;
  }

  /** The row `Find` returns under `k`, replaced by a row whose key is `k`
      or one no row holds: the new row is found under its key, and
      distinct keys stay distinct. */
  lemma FindMoved<T, K>(t: seq<T>, key: T -> K, k: K, x: T)
    requires Find(t, key, k).Some?
    requires key(x) == k || Find(t, key, key(x)).None?
    ensures Find(Replace(t, key, k, x), key, key(x)) == Some(x)
    ensures DistinctBy(t, key) ==> DistinctBy(Replace(t, key, k, x), key)
  {
    if key(x) == k {
      FindReplaced(t, key, k, x);
    } else {
      var r := Replace(t, key, k, x);
      var i := Position(t, key, k);
      assert r[i] == x;
      assert forall j :: 0 <= j < |t| ==> key(t[j]) != key(x);
      assert Position(r, key, key(x)) == i;
      if DistinctBy(t, key) {
        forall a, b | 0 <= a < b < |r| ensures key(r[a]) != key(r[b]) {
          if a != i && b != i {
            assert r[a] == t[a] && r[b] == t[b];
          }
        }
      }
    }
  }

  /** With distinct keys, the removed row's key is gone and the others stay
      distinct. */
  lemma FindRemoved<T, K>(t: seq<T>, key: T -> K, k: K)
    ensures DistinctBy(t, key) ==> Find(Remove(t, key, k), key, k).None? && DistinctBy(Remove(t, key, k), key)
    ensures forall j :: 0 <= j < |Remove(t, key, k)| ==> Remove(t, key, k)[j] in t
  {
    if DistinctBy(t, key) {
      FindRemovedDistinct(t, key, k);
    }
  }

  lemma FindRemovedDistinct<T, K>(t: seq<T>, key: T -> K, k: K)
    requires DistinctBy(t, key)
    ensures Find(Remove(t, key, k), key, k).None?
    ensures DistinctBy(Remove(t, key, k), key)
  {
    var r := Remove(t, key, k);
    var p := Position(t, key, k);
    forall i, j | 0 <= i < j < |r| ensures key(r[i]) != key(r[j]) {
      var a := if i < p then i else i + 1;
      var b := if j < p then j else j + 1;
      assert a < b && r[i] == t[a] && r[j] == t[b];
    }
    forall j | 0 <= j < |r| ensures key(r[j]) != k {
      var a := if j < p then j else j + 1;
      assert r[j] == t[a];
      if p < |t| {
        assert a != p && key(t[a]) != key(t[p]);
      }
    }
  }
}

=== FILE: text.dfy ===
/** String helpers with Python's meaning: `str.strip`, ASCII `lower`/`upper`,
    substring search, `str.split` on one character, `sep.join`, decimal
    rendering of numbers and Python's ordering of strings. */
module Text {
  import opened Wrappers

  /** The characters Python's `str.strip()` removes, those `str.isspace()`
      holds for: tab through carriage return, the separators U+001C..U+001F,
      space, U+0085, the no-break space U+00A0, U+1680, the spaces
      U+2000..U+200A, the line and paragraph separators U+2028 and U+2029,
      U+202F, U+205F and the ideographic space U+3000. */
  predicate IsSpace(c: char) {
    || ('\t' <= c <= '\r') || ('\U{1C}' <= c <= ' ')
    || c == '\U{85}' || c == '\U{A0}' || c == '\U{1680}'
    || ('\U{2000}' <= c <= '\U{200A}') || c == '\U{2028}' || c == '\U{2029}'
    || c == '\U{202F}' || c == '\U{205F}' || c == '\U{3000}'
  }

  function TrimLeft(s: string): (r: string)
    ensures |r| <= |s| && r == s[|s| - |r|..]
    ensures |r| > 0 ==> !IsSpace(r[0])
    ensures forall i :: 0 <= i < |s| - |r| ==> IsSpace(s[i])
  {
    if |s| > 0 && IsSpace(s[0]) then TrimLeft(s[1..]) else s
  }

  function TrimRight(s: string): (r: string)
    ensures |r| <= |s| && r == s[..|r|]
    ensures |r| > 0 ==> !IsSpace(r[|r| - 1])
    ensures forall i :: |r| <= i < |s| ==> IsSpace(s[i])
  {
    if |s| > 0 && IsSpace(s[|s| - 1]) then TrimRight(s[..|s| - 1]) else s
  }

  /** `r` is the slice of `s` starting at index `i`. */
  predicate SliceAt(s: string, r: string, i: nat) {
    i + |r| <= |s| && r == s[i..i + |r|]
  }

  /** `r` is a slice of `s`. */
  ghost predicate IsSlice(s: string, r: string) {
    exists i: nat :: SliceAt(s, r, i)
  }

  /** Every character of `s` is whitespace. */
  predicate AllSpace(s: string) {
    forall i :: 0 <= i < |s| ==> IsSpace(s[i])
  }

  /** Python's `s.strip()`: the slice of `s` left after removing leading
      and trailing whitespace. */
  function Strip(s: string): (r: string)
    ensures IsSlice(s, r)
    ensures |r| > 0 ==> !IsSpace(r[0]) && !IsSpace(r[|r| - 1])
    ensures r == [] <==> AllSpace(s)
  {
    var l := TrimLeft(s);
    var r := TrimRight(l);
    assert SliceAt(s, r, |s| - |l|);
    r
  }

  /** Text without leading or trailing whitespace is its own strip. */
  lemma StripOfStripped(s: string)
    requires |s| > 0 ==> !IsSpace(s[0]) && !IsSpace(s[|s| - 1])
    ensures Strip(s) == s
  {
  }

  lemma StripIdempotent(s: string)
    ensures Strip(Strip(s)) == Strip(s)
  {
    StripOfStripped(Strip(s));
  }

  function LowerChar(c: char): char {
    if 'A' <= c <= 'Z' then (c as int - 'A' as int + 'a' as int) as char else c
  }

  function UpperChar(c: char): char {
    if 'a' <= c <= 'z' then (c as int - 'a' as int + 'A' as int) as char else c
  }

  /** `str.lower()` on ASCII letters. */
  function Lower(s: string): (r: string)
    ensures |r| == |s|
    ensures forall i :: 0 <= i < |s| ==> r[i] == LowerChar(s[i])
  {
    seq(|s|, i requires 0 <= i < |s| => LowerChar(s[i]))
  }

  /** `str.upper()` on ASCII letters. */
  function Upper(s: string): (r: string)
    ensures |r| == |s|
    ensures forall i :: 0 <= i < |s| ==> r[i] == UpperChar(s[i])
  {
    seq(|s|, i requires 0 <= i < |s| => UpperChar(s[i]))
  }

  /** `sub` occurs in `s` starting at index `i`. */
  predicate OccursAt(s: string, sub: string, i: nat) {
    i + |sub| <= |s| && s[i..i + |sub|] == sub
  }

  /** Python's `sub in s`. */
  predicate Contains(s: string, sub: string) {
    exists i: nat | i <= |s| :: OccursAt(s, sub, i)
  }

  lemma ContainsWithin(s: string, sub: string, pre: string, post: string)
    requires s == pre + sub + post
    ensures Contains(s, sub)
  {
    assert s[|pre|..|pre| + |sub|] == sub;
    assert OccursAt(s, sub, |pre|);
  }

  /** Index of the first `c` in `s`. */
  function IndexOf(s: string, c: char): (i: nat)
    requires c in s
    ensures i < |s| && s[i] == c && c !in s[..i]
  {
    if s[0] == c then 0 else IndexOf(s[1..], c) + 1
  }

  /** Python's `s.split(sep)` for a one-character separator. */
  function Split(s: string, sep: char): (parts: seq<string>)
    ensures |parts| >= 1
    ensures forall i :: 0 <= i < |parts| ==> sep !in parts[i]
    decreases |s|
  {
    if sep !in s then [s]
    else
      var i := IndexOf(s, sep);
      [s[..i]] + Split(s[i + 1..], sep)
  }

  /** Python's `sep.join(parts)`. */
  function Join(parts: seq<string>, sep: string): string {
    if |parts| == 0 then ""
    else if |parts| == 1 then parts[0]
    else parts[0] + sep + Join(parts[1..], sep)
  }

  /** Splitting on a character and joining with it gives back the text. */
  lemma {:induction false} JoinSplit(s: string, sep: char)
    ensures Join(Split(s, sep), [sep]) == s
    decreases |s|
  {
    if sep in s {
      var i := IndexOf(s, sep);
      var rest := Split(s[i + 1..], sep);
      JoinSplit(s[i + 1..], sep);
      assert Split(s, sep) == [s[..i]] + rest;
      assert s == s[..i] + [sep] + s[i + 1..];
    }
  }

  /** Joining separator-free pieces and splitting again gives the pieces. */
  lemma {:induction false} SplitJoin(parts: seq<string>, sep: char)
    requires |parts| >= 1
    requires forall i :: 0 <= i < |parts| ==> sep !in parts[i]
    ensures Split(Join(parts, [sep]), sep) == parts
    decreases |parts|
  {
    if |parts| > 1 {
      var s := Join(parts, [sep]);
      var tail := Join(parts[1..], [sep]);
      assert s == parts[0] + [sep] + tail;
      assert s[|parts[0]|] == sep;
      assert s[..|parts[0]|] == parts[0];
      var i := IndexOf(s, sep);
      assert s[..i] == parts[0];
      assert s[i + 1..] == tail;
      SplitJoin(parts[1..], sep);
    }
  }

  function DigitChar(d: nat): char
    requires d < 10
  {
    ('0' as int + d) as char
  }

  /** Decimal rendering of a natural number, as Python's `str(n)`. */
  function NatToString(n: nat): (r: string)
    ensures |r| >= 1
    ensures forall i :: 0 <= i < |r| ==> '0' <= r[i] <= '9'
    decreases n
  {
    if n < 10 then [DigitChar(n)] else NatToString(n / 10) + [DigitChar(n % 10)]
  }

  /** Decimal rendering of an integer, with a leading '-' when negative. */
  function IntToString(n: int): string {
    if n < 0 then "-" + NatToString(-n) else NatToString(n)
  }

  /** `n` rendered with at least `width` digits, zero padded (`%02d`). */
  function PadNat(n: nat, width: nat): (r: string)
    ensures |r| >= width
  {
    var d := NatToString(n);
    if |d| >= width then d else seq(width - |d|, _ => '0') + d
  }

  /** Python's ordering of `str` values: code point by code point, and a
      proper prefix sorts first. */
  predicate LexLess(a: string, b: string)
    decreases |a|
  {
    if |a| == 0 then |b| > 0
    else if |b| == 0 then false
    else if a[0] != b[0] then a[0] < b[0]
    else LexLess(a[1..], b[1..])
  }

  lemma {:induction false} LexLessIrreflexive(a: string)
    ensures !LexLess(a, a)
    decreases |a|
  {
    if |a| > 0 {
      LexLessIrreflexive(a[1..]);
    }
  }

  lemma {:induction false} LexLessTransitive(a: string, b: string, c: string)
    requires LexLess(a, b) && LexLess(b, c)
    ensures LexLess(a, c)
    decreases |a|
  {
    if |a| > 0 && a[0] == b[0] && b[0] == c[0] {
      LexLessTransitive(a[1..], b[1..], c[1..]);
    }
  }

  lemma {:induction false} LexLessTotal(a: string, b: string)
    requires a != b
    ensures LexLess(a, b) || LexLess(b, a)
    decreases |a|
  {
    if |a| > 0 && |b| > 0 && a[0] == b[0] {
      LexLessTotal(a[1..], b[1..]);
    }
  }

  lemma {:induction false} LexLessAsymmetric(a: string, b: string)
    requires LexLess(a, b)
    ensures !LexLess(b, a)
    decreases |a|
  {
    if |a| > 0 && |b| > 0 && a[0] == b[0] {
      LexLessAsymmetric(a[1..], b[1..]);
    }
  }
}

=== FILE: values.dfy ===
/** The values a row or an event payload holds: SQL `NULL`, text, integers,
    floats (as reals) and datetimes (seconds since the Unix epoch). */
module Values {

  datatype Value = Null | Text(s: string) | Int(i: int) | Real(r: real) | Moment(t: int)

  /** A row or payload: column name to value. */
  type Fields = map<string, Value>

  /** Python's `int()` of a float: truncation toward zero. */
  function Trunc(r: real): (n: int)
    ensures r >= 0.0 ==> 0.0 <= n as real <= r < n as real + 1.0
    ensures r < 0.0 ==> n as real - 1.0 < r <= n as real <= 0.0
  {
    if r >= 0.0 then r.Floor else -((-r).Floor)
  }
}

=== FILE: walkthrough.dfy ===
/** The in-memory reference loops of the backend logic walkthrough: a
    single-pass revenue total, dictionary aggregation per product and per
    customer, and a line-by-line CSV check that collects its errors. Each
    loop is shown to compute what the corresponding analytics query
    defines. */
module Walkthrough {
  import opened Wrappers
  import opened Text
  import opened Seqs
  import opened Sorting
  import opened Grouping
  import opened Records
  import opened Values
  import opened Frames
  import Analytics

  // ---------------------------------------------------------------------
  // Revenue

  /** `demonstrate_revenue_calculation`: one pass summing the cents and
      counting the sales; the average is 0 for no sales. */
  method RevenueLoop(sales: seq<Sale>) returns (totalCents: int, count: nat, averageCents: real)
    ensures totalCents == Total(sales, SaleCents) && count == |sales|
    ensures count == 0 ==> averageCents == 0.0
    ensures count > 0 ==> averageCents * count as real == totalCents as real
  {
    totalCents, count := 0, 0;
    var i := 0;
    while i < |sales|
      invariant 0 <= i <= |sales|
      invariant totalCents == Total(sales[..i], SaleCents) && count == i
    {
      TotalAppend(sales[..i], [sales[i]], SaleCents);
      assert sales[..i + 1] == sales[..i] + [sales[i]];
      totalCents := totalCents + sales[i].amountCents;
      count := count + 1;
      i := i + 1;
    }
    assert sales[..i] == sales;
    averageCents := if count > 0 then totalCents as real / count as real else 0.0;
  }

  /** The loop computes the revenue metrics of any window holding every
      sale. */
  lemma RevenueLoopIsQuery(sales: seq<Sale>, start: int, end: int)
    requires forall i :: 0 <= i < |sales| ==> Within(sales[i].date, start, end)
    ensures Analytics.SalesIn(sales, start, end) == sales
    ensures Analytics.RevenueMetricsOf(sales, start, end).totalCents == Total(sales, SaleCents)
    ensures Analytics.RevenueMetricsOf(sales, start, end).salesCount == |sales|
  {
    FilterKeepsAll(sales, (s: Sale) => Within(s.date, start, end));
  }

  // ---------------------------------------------------------------------
  // Top products

  /** The dictionaries `product_totals` and `product_counts` always share
      their keys; together they are one association list in insertion
      order, a row per product. The loop body `d[product] = d.get(product,
      0) + ...` updates the product's row, or appends one. */
  function Accumulate(rows: seq<Analytics.ProductRow>, s: Sale): (r: seq<Analytics.ProductRow>)
    ensures |r| == |rows| || |r| == |rows| + 1
  {
    if rows == [] then [Analytics.ProductRow(s.productName, s.amountCents, 1)]
    else if rows[0].productName == s.productName then
      [rows[0].(revenueCents := rows[0].revenueCents + s.amountCents,
                salesCount := rows[0].salesCount + 1)] + rows[1..]
    else [rows[0]] + Accumulate(rows[1..], s)
  }

  /** The dictionaries' rows follow the grouping: accumulating a sale into
      the rows of a grouping gives the rows of the grouping with the sale
      added. */
  lemma {:induction false} AccumulateRows(gs: seq<Bucket<string, Sale>>, s: Sale)
    requires DistinctKeys(gs)
    ensures Accumulate(Analytics.ProductRows(gs), s) == Analytics.ProductRows(AddItem(gs, s, ProductOf))
    decreases |gs|
  {
    if gs == [] {
      assert Total([s], SaleCents) == s.amountCents;
    } else if gs[0].key == s.productName {
      TotalAppend(gs[0].items, [s], SaleCents);
      assert Analytics.ProductRows(gs)[1..] == Analytics.ProductRows(gs[1..]);
    } else {
      assert DistinctKeys(gs[1..]) by {
        forall i, j | 0 <= i < j < |gs[1..]| ensures gs[1..][i].key != gs[1..][j].key {
          assert gs[1..][i] == gs[i + 1] && gs[1..][j] == gs[j + 1];
        }
      }
      AccumulateRows(gs[1..], s);
      assert Analytics.ProductRows(gs)[1..] == Analytics.ProductRows(gs[1..]);
    }
  }

  /** Growing the rows by one grows the grouping by one accumulation. */
  lemma GroupBySnoc(xs: seq<Sale>, x: Sale)
    ensures GroupBy(xs + [x], ProductOf) == AddItem(GroupBy(xs, ProductOf), x, ProductOf)
  {
    assert (xs + [x])[..|xs|] == xs;
  }

  /** One pass of the loop body keeps the rows those of the sales seen. */
  lemma TallyStep(sales: seq<Sale>, i: nat)
    requires i < |sales|
    ensures Accumulate(Analytics.ProductRows(GroupBy(sales[..i], ProductOf)), sales[i])
            == Analytics.ProductRows(GroupBy(sales[..i + 1], ProductOf))
  {
    var xs, x := sales[..i], sales[i];
    assert sales[..i + 1] == xs + [x];
    var gs := GroupBy(xs, ProductOf);
    AccumulateRows(gs, x);
    GroupBySnoc(xs, x);
  }

  /** `demonstrate_top_products`: accumulate per product, then sort by
      revenue, highest first; ties keep insertion order. The whole sorted
      list is returned. */
  method TopProductsLoop(sales: seq<Sale>) returns (sorted: seq<Analytics.ProductRow>)
    ensures sorted == SortDesc(Analytics.ProductRows(GroupBy(sales, ProductOf)), Analytics.RowRevenue)
  {
    var rows: seq<Analytics.ProductRow> := [];
    var i := 0;
    while i < |sales|
      invariant 0 <= i <= |sales|
      invariant rows == Analytics.ProductRows(GroupBy(sales[..i], ProductOf))
    {
      TallyStep(sales, i);
      rows := Accumulate(rows, sales[i]);
      i := i + 1;
    }
    assert sales[..i] == sales;
    sorted := SortDesc(rows, Analytics.RowRevenue);
  }

  /** Over a window holding every sale, the loop's list is the top-products
      query with a limit that admits every product. */
  lemma TopProductsLoopIsQuery(sales: seq<Sale>, start: int, end: int)
    requires forall i :: 0 <= i < |sales| ==> Within(sales[i].date, start, end)
    ensures SortDesc(Analytics.ProductRows(GroupBy(sales, ProductOf)), Analytics.RowRevenue)
            == Analytics.TopProducts(sales, start, end, |sales|)
  {
    RevenueLoopIsQuery(sales, start, end);
    GroupSize(sales, ProductOf);
  }

  /** A grouping has no more buckets than rows. */
  lemma GroupSize<K, T>(xs: seq<T>, key: T -> K)
    ensures |GroupBy(xs, key)| <= |xs|
  {
    GroupCount(xs, key);
    BucketsAtLeastOne(GroupBy(xs, key));
  }

  /** Every bucket holds a row, so the buckets together hold at least as
      many rows as there are buckets. */
  lemma {:induction false} BucketsAtLeastOne<K, T>(gs: seq<Bucket<K, T>>)
    requires forall i :: 0 <= i < |gs| ==> |gs[i].items| > 0
    ensures BucketsTotal(gs, One) >= |gs|
  {
    if gs != [] {
      TotalOfOnes(gs[0].items);
      BucketsAtLeastOne(gs[1..]);
    }
  }

  // ---------------------------------------------------------------------
  // Repeat customers

  /** `demonstrate_repeat_customers`: count purchases per customer, then
      keep the customers counted more than once. */
  method RepeatCustomersLoop(sales: seq<Sale>) returns (repeat: set<Option<string>>)
    ensures repeat == KeysWhere(sales, CustomerOf, Many)
  {
    var counts: map<Option<string>, nat> := map[];
    var i := 0;
    while i < |sales|
      invariant 0 <= i <= |sales|
      invariant counts.Keys == KeySet(sales[..i], CustomerOf)
      invariant forall c :: c in counts ==> counts[c] == |Select(sales[..i], CustomerOf, c)|
    {
      var c := sales[i].customerId;
      assert sales[..i + 1] == sales[..i] + [sales[i]];
      CountStep(sales[..i], sales[i], counts);
      counts := counts[c := (if c in counts then counts[c] else 0) + 1];
      i := i + 1;
    }
    assert sales[..i] == sales;
    repeat := set c | c in counts && counts[c] > 1;
    RepeatSet(sales, counts);
  }

  lemma CountStep(xs: seq<Sale>, s: Sale, counts: map<Option<string>, nat>)
    requires counts.Keys == KeySet(xs, CustomerOf)
    requires forall c :: c in counts ==> counts[c] == |Select(xs, CustomerOf, c)|
    ensures var c := s.customerId;
            var counts' := counts[c := (if c in counts then counts[c] else 0) + 1];
            && counts'.Keys == KeySet(xs + [s], CustomerOf)
            && forall d :: d in counts' ==> counts'[d] == |Select(xs + [s], CustomerOf, d)|
  {
    var c := s.customerId;
    var ys := xs + [s];
    assert forall j :: 0 <= j < |xs| ==> ys[j] == xs[j];
    assert KeySet(ys, CustomerOf) == KeySet(xs, CustomerOf) + {c} by {
      assert ys[|xs|] == s;
    }
    forall d | d in counts[c := (if c in counts then counts[c] else 0) + 1]
      ensures counts[c := (if c in counts then counts[c] else 0) + 1][d] == |Select(ys, CustomerOf, d)|
    {
      SelectSnoc(xs, s, CustomerOf, d);
      if d == c && c !in counts {
        assert c !in KeySet(xs, CustomerOf);
        assert Select(xs, CustomerOf, c) == [];
      }
    }
  }

  lemma RepeatSet(sales: seq<Sale>, counts: map<Option<string>, nat>)
    requires counts.Keys == KeySet(sales, CustomerOf)
    requires forall c :: c in counts ==> counts[c] == |Select(sales, CustomerOf, c)|
    ensures (set c | c in counts && counts[c] > 1) == KeysWhere(sales, CustomerOf, Many)
  {
    forall c | c in counts && counts[c] > 1 ensures c in KeysWhere(sales, CustomerOf, Many) {
      var j :| 0 <= j < |sales| && CustomerOf(sales[j]) == c;
    }
  }

  /** Over a window holding every sale, all of them with a customer, the
      loop finds as many repeat customers as the query counts. */
  lemma RepeatCustomersLoopIsQuery(sales: seq<Sale>, start: int, end: int)
    requires forall i :: 0 <= i < |sales| ==> Within(sales[i].date, start, end) && sales[i].customerId.Some?
    ensures |KeysWhere(sales, CustomerOf, Many)| == Analytics.CountRepeatCustomers(sales, start, end)
  {
    RevenueLoopIsQuery(sales, start, end);
    FilterKeepsAll(sales, (s: Sale) => s.customerId.Some?);
    Analytics.RepeatCustomersCount(sales, start, end);
  }

  // ---------------------------------------------------------------------
  // CSV processing

  /** `dict(zip(headers, values))`: the pairs up to the shorter list,
      inserted in order, so a repeated header keeps its last value. */
  function ZipDict(ks: seq<string>, vs: seq<string>): (d: map<string, string>)
    ensures |ks| == 0 || |vs| == 0 ==> d == map[]
    decreases |ks|
  {
    if |ks| == 0 || |vs| == 0 then map[]
    else
      var n := if |ks| < |vs| then |ks| else |vs|;
      ZipDict(ks[..n - 1], vs[..n - 1])[ks[n - 1] := vs[n - 1]]
  }

  /** The dictionary's keys are the headers that have a value. */
  lemma {:induction false} ZipDictKeys(ks: seq<string>, vs: seq<string>, k: string)
    ensures k in ZipDict(ks, vs) <==> exists i :: 0 <= i < |ks| && i < |vs| && ks[i] == k
    decreases |ks|
  {
    if |ks| > 0 && |vs| > 0 {
      var n := if |ks| < |vs| then |ks| else |vs|;
      ZipDictKeys(ks[..n - 1], vs[..n - 1], k);
      if k in ZipDict(ks, vs) && k != ks[n - 1] {
        var i :| 0 <= i < n - 1 && ks[..n - 1][i] == k;
        assert ks[i] == k;
      }
      if exists i :: 0 <= i < |ks| && i < |vs| && ks[i] == k {
        var i :| 0 <= i < |ks| && i < |vs| && ks[i] == k;
        if i < n - 1 {
          assert ks[..n - 1][i] == k;
        }
      }
    }
  }

  /** A header that does not repeat later gets its own value: the last
      occurrence of a repeated header wins. */
  lemma {:induction false} ZipDictLastWins(ks: seq<string>, vs: seq<string>, i: nat)
    requires i < |ks| && i < |vs|
    requires forall j :: i < j < |ks| && j < |vs| ==> ks[j] != ks[i]
    ensures ks[i] in ZipDict(ks, vs) && ZipDict(ks, vs)[ks[i]] == vs[i]
    decreases |ks|
  {
    var n := if |ks| < |vs| then |ks| else |vs|;
    if i < n - 1 {
      assert ks[n - 1] != ks[i];
      var ks', vs' := ks[..n - 1], vs[..n - 1];
      forall j | i < j < |ks'| && j < |vs'| ensures ks'[j] != ks'[i] {
        assert ks'[j] == ks[j];
      }
      ZipDictLastWins(ks', vs', i);
    }
  }

  /** A record the demonstration keeps: the product name as read (not
      stripped), and the amount in cents. */
  datatype DemoRecord = DemoRecord(date: string, productName: string, amountCents: int, customerId: string)

  datatype RowCheck = Valid(record: DemoRecord) | Invalid(message: string)

  const EmptyName := "Product name is empty"
  const NotPositive := "Amount must be positive"
  const ProcessingPrefix := "Processing error - "
  const InfinityToInt := "cannot convert float infinity to integer"

  /** `str(KeyError(k))`: the key's repr. */
  function KeyErrorText(k: string): string {
    "'" + k + "'"
  }

  function InvalidAmount(text: string): string {
    "Invalid amount '" + text + "'"
  }

  /** The checks the loop body makes of one line's dictionary, in their
      order: the name (a missing column is a `KeyError` the outer handler
      reports), the amount (`float()` failing, or `int()` of NaN, is a
      `ValueError` the inner handler reports; `int()` of infinity is an
      `OverflowError` that reaches the outer one), then the date and
      customer columns the record reads. `toFloat` is Python's `float()` of
      a text, `None` when it raises. */
  function CheckRecord(rec: map<string, string>, toFloat: string -> Option<PyFloat>): (c: RowCheck)
    ensures c.Valid? ==> Strip(c.record.productName) != "" && c.record.amountCents >= 0
  {
    if "product_name" !in rec then Invalid(ProcessingPrefix + KeyErrorText("product_name"))
    else if Strip(rec["product_name"]) == "" then Invalid(EmptyName)
    else if "amount" !in rec then Invalid(ProcessingPrefix + KeyErrorText("amount"))
    else CheckAmount(rec, toFloat(rec["amount"]))
  }

  /** The checks after the name, given `a`, the amount's `float()`. */
  function CheckAmount(rec: map<string, string>, a: Option<PyFloat>): (c: RowCheck)
    requires "product_name" in rec && "amount" in rec
    ensures c.Valid? ==> c.record.productName == rec["product_name"] && c.record.amountCents >= 0
  {
    if a.None? || a.value.NaN? then Invalid(InvalidAmount(rec["amount"]))
    else if a.value.Infinity? then
      (if a.value.positive then Invalid(ProcessingPrefix + InfinityToInt) else Invalid(NotPositive))
    else if a.value.x <= 0.0 then Invalid(NotPositive)
    else if "date" !in rec then Invalid(ProcessingPrefix + KeyErrorText("date"))
    else if "customer_id" !in rec then Invalid(ProcessingPrefix + KeyErrorText("customer_id"))
    else Valid(DemoRecord(rec["date"], rec["product_name"], Trunc(a.value.x * 100.0), rec["customer_id"]))
  }

  /** A line with all four columns, a name that is not blank and an
      amount that parses to a positive finite number is kept. */
  lemma CheckRecordKeeps(rec: map<string, string>, toFloat: string -> Option<PyFloat>)
    requires "product_name" in rec && Strip(rec["product_name"]) != ""
    requires "amount" in rec && toFloat(rec["amount"]).Some?
    requires toFloat(rec["amount"]).value.Finite? && toFloat(rec["amount"]).value.x > 0.0
    requires "date" in rec && "customer_id" in rec
    ensures CheckRecord(rec, toFloat).Valid?
  {
  }

  /** Conversely, a kept line has all four columns, a name that is not
      blank and a positive finite amount; the record holds the columns as
      read and the amount's cents, truncated. */
  lemma CheckRecordFields(rec: map<string, string>, toFloat: string -> Option<PyFloat>)
    requires CheckRecord(rec, toFloat).Valid?
    ensures "date" in rec && "product_name" in rec && "amount" in rec && "customer_id" in rec
    ensures Strip(rec["product_name"]) != ""
    ensures toFloat(rec["amount"]).Some? && toFloat(rec["amount"]).value.Finite?
    ensures toFloat(rec["amount"]).value.x > 0.0
    ensures CheckRecord(rec, toFloat).record ==
              DemoRecord(rec["date"], rec["product_name"], Trunc(toFloat(rec["amount"]).value.x * 100.0), rec["customer_id"])
  {
    CheckRecordName(rec, toFloat);
    CheckAmountFields(rec, toFloat(rec["amount"]));
  }

  /** A kept line passed the name checks and then the amount's. */
  lemma CheckRecordName(rec: map<string, string>, toFloat: string -> Option<PyFloat>)
    requires CheckRecord(rec, toFloat).Valid?
    ensures "product_name" in rec && Strip(rec["product_name"]) != "" && "amount" in rec
    ensures CheckRecord(rec, toFloat) == CheckAmount(rec, toFloat(rec["amount"]))
  {
  }

  /** A kept amount is a positive finite number, and the record holds the
      columns as read with the amount's cents. */
  lemma CheckAmountFields(rec: map<string, string>, a: Option<PyFloat>)
    requires "product_name" in rec && "amount" in rec
    requires CheckAmount(rec, a).Valid?
    ensures a.Some? && a.value.Finite? && a.value.x > 0.0
    ensures "date" in rec && "customer_id" in rec
    ensures CheckAmount(rec, a).record ==
              DemoRecord(rec["date"], rec["product_name"], Trunc(a.value.x * 100.0), rec["customer_id"])
  {
  }

  /** An amount `float()` rejects and a NaN amount are reported alike, with
      the text as read; a positive infinity is not an amount error but a
      processing error. */
  lemma CheckRecordBadAmount(rec: map<string, string>, toFloat: string -> Option<PyFloat>)
    requires "product_name" in rec && Strip(rec["product_name"]) != "" && "amount" in rec
    ensures toFloat(rec["amount"]).None? || toFloat(rec["amount"]) == Some(NaN) ==>
              CheckRecord(rec, toFloat) == Invalid(InvalidAmount(rec["amount"]))
    ensures toFloat(rec["amount"]) == Some(Infinity(true)) ==>
              CheckRecord(rec, toFloat) == Invalid(ProcessingPrefix + InfinityToInt)
  {
  }

  /** One data line: split on commas and zipped with the headers. */
  function CheckRow(headers: seq<string>, line: string, toFloat: string -> Option<PyFloat>): RowCheck {
    CheckRecord(ZipDict(headers, Split(line, ',')), toFloat)
  }

  /** `f"Row {i}: {message}"`. */
  function RowError(row: nat, message: string): string {
    "Row " + NatToString(row) + ": " + message
  }

  /** The records the loop keeps from the data lines, in order; `check`
      is the check of one line. */
  function Kept(lines: seq<string>, check: string -> RowCheck): (r: seq<DemoRecord>)
    ensures |r| <= |lines|
  {
    if lines == [] then []
    else
      var init := lines[..|lines| - 1];
      Kept(init, check) +
      (match check(lines[|lines| - 1])
       case Valid(rec) => [rec]
       case Invalid(_) => [])
  }

  /** Each kept record is the one some line checks to. */
  lemma {:induction false} KeptFromLines(lines: seq<string>, check: string -> RowCheck, i: nat)
    requires i < |Kept(lines, check)|
    ensures exists k :: 0 <= k < |lines| && check(lines[k]) == Valid(Kept(lines, check)[i])
    decreases |lines|
  {
    var n := |lines|;
    var init := lines[..n - 1];
    var r0 := Kept(init, check);
    if i < |r0| {
      KeptFromLines(init, check, i);
      var k :| 0 <= k < |init| && check(init[k]) == Valid(r0[i]);
      assert lines[k] == init[k];
      assert Kept(lines, check)[i] == r0[i];
    } else {
      assert check(lines[n - 1]) == Valid(Kept(lines, check)[i]);
    }
  }

  /** The errors the loop collects, numbered as file rows: the first data
      line is row 2. */
  function Rejected(lines: seq<string>, check: string -> RowCheck): (r: seq<string>)
    ensures |r| + |Kept(lines, check)| == |lines|
    ensures forall j :: 0 <= j < |r| ==>
              exists k: nat :: (k < |lines| && check(lines[k]).Invalid? &&
                                r[j] == RowError(k + 2, check(lines[k]).message))
  {
    if lines == [] then []
    else
      var init := lines[..|lines| - 1];
      assert forall k :: 0 <= k < |init| ==> init[k] == lines[k];
      Rejected(init, check) +
      (match check(lines[|lines| - 1])
       case Valid(_) => []
       case Invalid(m) => [RowError(|lines| + 1, m)])
  }

  /** The loop over the data lines: a kept line's record is appended to
      the records, a rejected line's message, numbered, to the errors. */
  method CollectRows(data: seq<string>, check: string -> RowCheck)
    returns (records: seq<DemoRecord>, errors: seq<string>)
    ensures records == Kept(data, check) && errors == Rejected(data, check)
    ensures |records| + |errors| == |data|
  {
    records, errors := [], [];
    var i := 0;
    while i < |data|
      invariant 0 <= i <= |data|
      invariant records == Kept(data[..i], check)
      invariant errors == Rejected(data[..i], check)
    {
      assert data[..i + 1][..i] == data[..i];
      match check(data[i]) {
        case Valid(rec) => records := records + [rec];
        case Invalid(m) => errors := errors + [RowError(i + 2, m)];
      }
      i := i + 1;
    }
    assert data[..i] == data;
  }

  /** `demonstrate_csv_processing` on a given content: strip it, split it
      into lines, take the first as the headers and check every other
      line. */
  method CsvLoop(content: string, toFloat: string -> Option<PyFloat>)
    returns (records: seq<DemoRecord>, errors: seq<string>)
    ensures var lines := Split(Strip(content), '\n');
            var check := (line: string) => CheckRow(Split(lines[0], ','), line, toFloat);
            && records == Kept(lines[1..], check)
            && errors == Rejected(lines[1..], check)
            && |records| + |errors| == |lines| - 1
  {
    var lines := Split(Strip(content), '\n');
    var headers := Split(lines[0], ',');
    records, errors := CollectRows(lines[1..], (line: string) => CheckRow(headers, line, toFloat));
  }

  /** A file whose every data line checks out yields a record per line and
      no errors, each record read from its own line. */
  lemma {:induction false} CleanFileKeepsAll(lines: seq<string>, check: string -> RowCheck)
    requires forall k :: 0 <= k < |lines| ==> check(lines[k]).Valid?
    ensures Rejected(lines, check) == []
    ensures var r := Kept(lines, check);
            |r| == |lines| && forall k :: 0 <= k < |lines| ==> check(lines[k]) == Valid(r[k])
  {
    if lines != [] {
      var n := |lines|;
      var init := lines[..n - 1];
      CleanFileKeepsAll(init, check);
      KeptValidLast(lines, check);
      RecordsSnoc(lines, check, Kept(init, check), check(lines[n - 1]).record);
    }
  }

  /** Records that match their lines, and one more line with its record. */
  lemma RecordsSnoc(lines: seq<string>, check: string -> RowCheck, r0: seq<DemoRecord>, rec: DemoRecord)
    requires lines != [] && |r0| == |lines| - 1
    requires forall k :: 0 <= k < |r0| ==> check(lines[..|lines| - 1][k]) == Valid(r0[k])
    requires check(lines[|lines| - 1]) == Valid(rec)
    ensures forall k :: 0 <= k < |lines| ==> check(lines[k]) == Valid((r0 + [rec])[k])
  {
    forall k | 0 <= k < |lines| ensures check(lines[k]) == Valid((r0 + [rec])[k]) {
      if k < |r0| {
        assert lines[..|lines| - 1][k] == lines[k];
      }
    }
  }

  /** A last line that checks out adds its record and no error. */
  lemma KeptValidLast(lines: seq<string>, check: string -> RowCheck)
    requires lines != [] && check(lines[|lines| - 1]).Valid?
    ensures Kept(lines, check) == Kept(lines[..|lines| - 1], check) + [check(lines[|lines| - 1]).record]
    ensures Rejected(lines, check) == Rejected(lines[..|lines| - 1], check)
  {
  }

  /** Every record the loop keeps has a name that is not blank and an
      amount of no negative cents. */
  lemma KeptRecordsAreValid(headers: seq<string>, lines: seq<string>, toFloat: string -> Option<PyFloat>)
    ensures var r := Kept(lines, (line: string) => CheckRow(headers, line, toFloat));
            forall i :: 0 <= i < |r| ==> Strip(r[i].productName) != "" && r[i].amountCents >= 0
  {
    var check := (line: string) => CheckRow(headers, line, toFloat);
    var r := Kept(lines, check);
    forall i | 0 <= i < |r| ensures Strip(r[i].productName) != "" && r[i].amountCents >= 0 {
      KeptFromLines(lines, check, i);
      var k :| 0 <= k < |lines| && check(lines[k]) == Valid(r[i]);
    }
  }
}

=== FILE: wrappers.dfy ===
/** Option and Result, the two failure-carrying datatypes the rest of the
    model uses for Python's `None` returns and raised exceptions. */
module Wrappers {

  /** `None` stands for Python's `None`. */
  datatype Option<+T> = None | Some(value: T) {

    predicate IsFailure() {
      None?
    }

    function PropagateFailure<U>(): Option<U>
      requires None?
    {
      None
    }

    function Extract(): T
      requires Some?
    {
      value
    }

    function GetOr(default: T): T {
      match this
      case Some(v) => v
      case None => default
    }
  }

  /** `Failure` stands for an exception the source raises. */
  datatype Result<+R, +E> = Success(value: R) | Failure(error: E) {

    predicate IsFailure() {
      Failure?
    }

    function PropagateFailure<U>(): Result<U, E>
      requires Failure?
    {
      Failure(error)
    }

    function Extract(): R
      requires Success?
    {
      value
    }
  }
}
